=== FILE: README.md ===
# ImageLabeller annotation core, in Dafny

ImageLabeller is a desktop tool for drawing labelled bounding boxes on images and typing the
text found inside each box. This project models its annotation core as pure functions over
immutable datatypes, with the properties the code promises proved about them. The widgets,
files, threads and OCR engine are left out.

The modules follow the program's structure:

- `Boxes` (`boxes.dfy`): the `BoundingBox` record, inclusive containment and the ordered
  resize-handle hit test.
- `Classes` (`classes.dfy`): the class table, with lookup by id, names and the first unused class.
- `Selection` (`selection.dfy`): the selected box, as a position plus the per-box `selected`
  flags, and Tab cycling.
- `ViewTransform`, `CanvasLogic`, `CanvasWidget`: the canvas.
  - `ViewTransform` (`view_transform.dfy`) holds what both implementations share: the fit
    scale, zoom bounds, coordinate maps with Python's truncating `int()`, handle hit tests and
    the drag rectangle.
  - `CanvasLogic` (`canvas_logic.dfy`) is `CanvasState` and `BoxInteractionManager`.
  - `CanvasWidget` (`canvas_widget.dfy`) is the live press, release, motion, key and scroll
    handlers of the canvas widget, as transitions over the widget's fields.
  - The two implementations disagree on the box-creation threshold and on zooming. Each is
    modelled as written, and the disagreements are stated as lemmas.
- `DatCodec` (`dat_codec.dfy`) and `PyNumbers` (`py_numbers.dfy`): the DAT label format
  `<class> <x> <y> <w> <h> #<text>`.
  - It is read line by line, with Python's `int`/`float` parsing.
  - It is written sorted by class, sanitised to ASCII and joined with CR LF.
  - The round trip is proved.
- `LabelSession` (`label_session.dfy`): `LabelManager`, the OCR region clamp and
  `ConfirmationManager`.
- `Validation` (`validation.dfy`): per-file flags, the status style classes and the summary
  counts.
- `OcrText` (`ocr_text.dfy`): the per-field-type clean-up of recognised text and the
  pattern-driven autocorrection.
- `Rotation` (`rotation.dfy`): box remapping for quarter turns, the rotation state, and the
  name and format a rotated image is saved under.
- `Project` (`project.dfy`): class-config normalisation, the image list of a directory,
  navigation, the file list and `FileTracker`.
- `Settings` (`settings.dfy`) over `JsonValue` (`json_value.dfy`): deep merge, differences,
  dotted get and set, and profiles.
- `Keymap` (`keymap.dfy`): the comment filter, the reverse key-to-action table and the lookups.
- `FileFilter` (`file_filter.dfy`) and `Sorting` (`sorting.dfy`): the filter dialog's rules,
  sort options and counts, over a stable sort.
- Helpers: `Common`, `Text`, `Paths` and `Regex`.
  - `Common` and `Text` hold Option, `int()` truncation and Python string operations.
  - `Paths` holds the `pathlib` operations used.
  - `Regex` is Python's regex engine, left uninterpreted: a datatype of three functions,
    passed as a parameter.

Python semantics that matter are written out:
- `int()` truncates toward zero.
- Strings are `seq<char>`, and whitespace is the `str.isspace()` set.
- Truthiness follows Python.
- `sorted` is stable, including with `reverse=True`.
- An exception is a `None` result.

Clocks, file contents, file existence, toolkit key names and the regex engine all come in as
parameters.

## Model

| member | source | states |
|---|---|---|
| Boxes.NewBox | label_editor/core/data_types.py:7-15 | a new box is unselected, keeps the given geometry, class and text, and is named by the given class name or else `class_<id>` |
| Boxes.DefaultName | label_editor/core/data_types.py:15 | the fallback name starts with `class_` and the rest is the id's decimal text |
| Boxes.CornersContained | label_editor/core/data_types.py:17-19 | containment is inclusive: all four corners of a box with non-negative size lie inside it |
| Boxes.ResizeHandle | label_editor/core/data_types.py:21-38 | the answer is the first handle in the order nw, ne, sw, se, w, e, n, s whose zone holds the point; no handle means no zone holds it |
| Boxes.TopLeftWins | label_editor/core/data_types.py:22-23 | within reach of the top-left corner on both axes the handle is always `nw`, whatever the box's size |
| Boxes.CornerBeatsEdge | label_editor/core/data_types.py:22-38 | when a point is in some corner zone, the answer is a corner, never an edge |
| Boxes.FarMeansNone | label_editor/core/data_types.py:21-38 | a point out of reach of all four edge lines gets no handle |
| Boxes.Resize | label_editor/business/canvas_logic.py:294-330 | each handle's formula from the gesture's start geometry: the width is the start width plus the delta for `ne`/`se`/`e` and minus it for `nw`/`sw`/`w`, the height likewise plus for `sw`/`se`/`s` and minus for `nw`/`ne`/`n`; a side below 10 becomes exactly 10; left and top handles move x and y by the delta and so keep the opposite edge while the side stays at least 10; the other axis of an edge handle keeps its side, raised to 10 if below; other coordinates, class, text and name are kept |
| Boxes.ResizeZeroDelta | label_editor/business/canvas_logic.py:294-330 | with the pointer back at the press point, every handle gives back a box that met the floor |
| Boxes.ResizeLatestWins | label_editor/business/canvas_logic.py:294-330 | every motion event resizes from the recorded start, so a later event overrides an earlier one |
| Boxes.Drag | label_editor/business/canvas_logic.py:285-291 | a dragged box never goes above or left of 0, lands exactly on start + delta when that is non-negative, and keeps its size, class, text and name |
| Common.Trunc | label_editor/business/canvas_logic.py:114 | `int()` on a float truncates toward zero: the result is within one unit of the value, on the side of zero |
| Common.RemoveAt | label_editor/business/canvas_logic.py:242 | removing one element keeps the elements before it and shifts those after it down by one |
| Classes.FindClass | label_editor/ui/canvas_widget.py:76-80 | the lookup returns a class of the table with the id, and fails exactly when no class has that id |
| Classes.ClassIndex | label_editor/business/label_logic.py:44-49 | the position found is the first one with the id; none means no class has it |
| Classes.ClassName | label_editor/ui/canvas_widget.py:86-88 | the name is the first matching class's name, or `class_<id>` when none matches |
| Classes.FirstUnusedClass | label_editor/business/canvas_logic.py:262-269 | with no classes the source raises; otherwise the id is a configured one, unused by every box whenever some configured id is unused, and the first configured id when all are used |
| Classes.NewBoxClass | label_editor/ui/canvas_widget.py:327-335 | the same choice made on the class table: a new box gets a class that exists; when some class is unused it is the first unused class in table order, else the first class |
| Classes.KeyClass | label_editor/ui/canvas_widget.py:474-478 | the class found is the first whose `key` names the pressed key value; none means no class's key does |
| Selection.SetFlag | label_editor/ui/canvas_widget.py:288-289 | setting one box's flag changes that flag and nothing else in the list |
| Selection.Reselect | label_editor/ui/canvas_widget.py:287-290 | moving the selection changes only flags, flags the new box, and leaves every box other than the old and new selection untouched |
| Selection.ReselectKeepsFlags | label_editor/ui/canvas_widget.py:287-290 | if exactly the old selection was flagged, afterwards exactly the new one is |
| Selection.NextIndex | label_editor/ui/canvas_widget.py:446-454 | Tab goes to the next position, wraps from the last to the first, and starts at 0 when nothing is selected |
| Selection.TabMoves | label_editor/ui/canvas_widget.py:454 | `k` Tab presses from position `i` reach `(i + k) mod n` |
| Selection.TabCycles | label_editor/ui/canvas_widget.py:454-459 | Tab visits every box: the start comes back after exactly `n` presses and not before |
| Selection.RemoveSelectedClearsFlags | label_editor/ui/canvas_widget.py:427-429 | deleting the flagged selected box leaves no box flagged |
| ViewTransform.FitScale | label_editor/business/canvas_logic.py:63-65 | the base scale is in (0, 1], the scaled image fits the canvas on both axes, and it is 1 or makes one axis fit exactly |
| ViewTransform.Fit | label_editor/business/canvas_logic.py:63-73 | after a fit the scale is base scale times zoom, the image is centred (equal margins on each axis), and a zoom of at most 1 keeps the whole image on the canvas |
| ViewTransform.Centre | label_editor/business/canvas_logic.py:70-73 | choosing the offsets centres the image and changes no scale |
| ViewTransform.ZoomedIn | label_editor/business/canvas_logic.py:79 | zooming in never exceeds 5, never decreases a zoom in (0, 5] for a factor of at least 1, and is exact below the cap |
| ViewTransform.ZoomedOut | label_editor/business/canvas_logic.py:84 | zooming out never goes below 0.1, never increases a zoom of at least 0.1, and is exact above the floor |
| ViewTransform.ZoomStaysInRange | label_editor/business/canvas_logic.py:79-84 | from a zoom in [0.1, 5], any zoom step stays in [0.1, 5] |
| ViewTransform.ExactInverse | label_editor/business/canvas_logic.py:110-120 | before truncation, canvas-to-image undoes image-to-canvas and vice versa |
| ViewTransform.ImageToCanvas | label_editor/business/canvas_logic.py:110-114 | each result coordinate is the mapped coordinate truncated toward zero |
| ViewTransform.CanvasToImage | label_editor/business/canvas_logic.py:116-120 | each result coordinate is the inversely mapped coordinate truncated toward zero |
| ViewTransform.UnitScaleRoundTrip | label_editor/business/canvas_logic.py:110-120 | at scale 1 with whole-pixel offsets an integer image point survives the round trip through the canvas |
| ViewTransform.CanvasBox | label_editor/ui/canvas_widget.py:259-266 | the box the handle test uses has the truncated canvas corner and the scaled, untruncated size |
| ViewTransform.HandleAt | label_editor/ui/canvas_widget.py:259-267 | the handle is the first one, in hit-test order, whose zone around the drawn box holds the press |
| ViewTransform.PressNearCornerGrabsNW | label_editor/ui/canvas_widget.py:259-267 | a press within 7 pixels of where the top-left corner is drawn grabs `nw`, despite the corner's truncation |
| ViewTransform.FirstBoxAt | label_editor/ui/canvas_widget.py:280-284 | the box found is the first one in list order containing the point; none means no box contains it |
| ViewTransform.Spanned | label_editor/business/canvas_logic.py:256-259 | the rectangle runs from the smaller to the larger end on each axis |
| ViewTransform.SpannedContainsEnds | label_editor/business/canvas_logic.py:256-259 | the created box contains both ends of the drag |
| CanvasLogic.NewCanvasState | label_editor/business/canvas_logic.py:10-38 | a fresh state has unit scale, zero sizes, no gesture in progress and no handle |
| CanvasLogic.SetCanvasSize | label_editor/business/canvas_logic.py:43-47 | only the canvas size changes; the view is not refitted |
| CanvasLogic.SetImageSize | label_editor/business/canvas_logic.py:49-53 | only the image size changes; the view is not refitted |
| CanvasLogic.FitImageToCanvas | label_editor/business/canvas_logic.py:55-75 | with a non-positive size nothing changes; otherwise only the view changes, the zoom is kept, the base scale never enlarges, the unzoomed image fits the canvas and the image is centred |
| CanvasLogic.UpdateScale | label_editor/business/canvas_logic.py:92-108 | with a positive old scale the image point under the canvas centre stays under it; from a non-positive scale the image is refitted and centred |
| CanvasLogic.CentreStaysPut | label_editor/business/canvas_logic.py:97-104 | the image coordinate shown at the canvas centre is the same before and after a rescale |
| CanvasLogic.ZoomIn | label_editor/business/canvas_logic.py:77-80 | zoom never exceeds 5, stays in [0.1, 5] from inside it, the centre point is kept and positive scales stay positive |
| CanvasLogic.ZoomOut | label_editor/business/canvas_logic.py:82-85 | zoom never drops below 0.1, stays in [0.1, 5] from inside it, the centre point is kept and positive scales stay positive |
| CanvasLogic.ResetZoom | label_editor/business/canvas_logic.py:87-90 | zoom returns to 1 so the scale is the fitted base scale again, keeping the centre point |
| CanvasLogic.ZoomPercentage | label_editor/business/canvas_logic.py:174-176 | the percentage is the truncated zoom times 100, between 10 and 500 for a zoom in range |
| CanvasLogic.StartPan | label_editor/business/canvas_logic.py:122-126 | a pan is in progress from the given point and the view is unchanged |
| CanvasLogic.UpdatePan | label_editor/business/canvas_logic.py:128-137 | outside a pan nothing changes; during one the offsets move by exactly the pointer's movement and nothing else but the reference point changes |
| CanvasLogic.PanFollowsPointer | label_editor/business/canvas_logic.py:128-137 | two pan updates equal one update to the final point: the image follows the pointer |
| CanvasLogic.EndPan | label_editor/business/canvas_logic.py:139-141 | only the pan flag is cleared |
| CanvasLogic.StartDrag | label_editor/business/canvas_logic.py:143-147 | a drag is in progress from the given point and the view is unchanged |
| CanvasLogic.StartResize | label_editor/business/canvas_logic.py:149-158 | a resize is in progress with the handle, the pointer and the box's geometry at the start recorded |
| CanvasLogic.StartBoxCreation | label_editor/business/canvas_logic.py:160-164 | a box creation is in progress from the given point |
| CanvasLogic.EndInteractions | label_editor/business/canvas_logic.py:166-172 | no gesture is in progress and no handle is held; the view is untouched |
| CanvasLogic.NoPanAfterEnd | label_editor/business/canvas_logic.py:128-172 | after the gestures or the pan end, pointer motion changes nothing |
| CanvasLogic.SetBoxes | label_editor/business/canvas_logic.py:198-201 | the list is replaced and nothing is selected |
| CanvasLogic.FindBoxAtPoint | label_editor/business/canvas_logic.py:203-210 | the box found is the first in list order containing the truncated image point; none means no box contains it |
| CanvasLogic.FindResizeHandle | label_editor/business/canvas_logic.py:212-223 | no box gives no handle; otherwise the first handle whose zone around the box as drawn holds the point |
| CanvasLogic.SelectBox | label_editor/business/canvas_logic.py:225-237 | the selection moves, only flags change, and if exactly the old selection was flagged then exactly the new one is |
| CanvasLogic.DeleteSelectedBox | label_editor/business/canvas_logic.py:239-245 | without a selection nothing changes; with one exactly that box leaves the list (a multiset difference of one), the others keep their order and nothing is selected |
| CanvasLogic.DragRect | label_editor/business/canvas_logic.py:249-259 | the rectangle spans the two drag ends after both are mapped to image coordinates |
| CanvasLogic.CreatedName | label_editor/business/canvas_logic.py:271-276 | the name is the first matching class's, else `unknown` |
| CanvasLogic.AppendSelected | label_editor/business/canvas_logic.py:279-280 | the new box is appended flagged and selected; earlier boxes change only in flags |
| CanvasLogic.CreateBox | label_editor/business/canvas_logic.py:247-283 | a drag under 10 image pixels on either axis creates nothing; an empty class table raises; otherwise the new selected box spans the drag, is appended, and takes the class `Classes.NewBoxClass` picks from the classes already in use: the first unused one, else the first |
| CanvasLogic.UpdateBoxPosition | label_editor/business/canvas_logic.py:285-292 | the box moves by the canvas delta over the scale from its start, clamped at 0, keeping its size; no other box changes |
| CanvasLogic.UpdateBoxSize | label_editor/business/canvas_logic.py:294-332 | the box gets the resize step with the canvas delta divided by the scale and the recorded start geometry, so it ends at least 10 by 10; the `e` and `s` handles change only the width or the height; `se` keeps the corner; no other box changes |
| CanvasWidget.NewWidget | label_editor/ui/canvas_widget.py:26-49 | a fresh widget has no image, no boxes, no selection, the unit view and no gesture |
| CanvasWidget.FitImage | label_editor/ui/canvas_widget.py:98-120 | without an image or canvas size nothing changes; otherwise only the view changes, the base scale never enlarges and the image is centred |
| CanvasWidget.ZoomIn | label_editor/ui/canvas_widget.py:122-125 | zoom never exceeds 5 and the image is recentred rather than kept under the centre; boxes are untouched |
| CanvasWidget.ZoomOut | label_editor/ui/canvas_widget.py:127-130 | zoom never drops below 0.1 and the image is recentred; boxes are untouched |
| CanvasWidget.ResetZoom | label_editor/ui/canvas_widget.py:132-135 | zoom is 1, the scale equals the base scale after a refit, and the image is centred |
| CanvasWidget.SetBoxes | label_editor/ui/canvas_widget.py:147-152 | each box is renamed from the class table, nothing else about it changes, and nothing is selected |
| CanvasWidget.SelectedHandle | label_editor/ui/canvas_widget.py:259-267 | only a selected box offers handles, tested on the box as drawn |
| CanvasWidget.PressOnBoxes | label_editor/ui/canvas_widget.py:280-309 | the first box under the press becomes the selection and a drag starts from its position; over empty canvas the selection is cleared and a creation starts |
| CanvasWidget.OnClickPressed | label_editor/ui/canvas_widget.py:245-311 | no image means nothing happens; the middle button only starts a pan; a handle of the selected box starts a resize before any hit test; otherwise the box press; exactly the selected box stays flagged |
| CanvasWidget.EndGestures | label_editor/ui/canvas_widget.py:353-356 | no creation, drag or resize remains and no handle is held; boxes and view are untouched |
| CanvasWidget.ReleaseRect | label_editor/ui/canvas_widget.py:317-325 | the widget's release rectangle is the same image-space rectangle the manager computes |
| CanvasWidget.AddDrawn | label_editor/ui/canvas_widget.py:337-346 | the drawn box is appended with the rectangle's geometry, the class's name, empty text, flagged and selected |
| CanvasWidget.OnClickReleased | label_editor/ui/canvas_widget.py:313-357 | panning always stops; a creation drag over 10 pixels on both axes appends one selected box of the first unused class; otherwise the gestures end with the boxes unchanged; an empty class table stops the handler after the pan flag |
| CanvasWidget.OnMotion | label_editor/ui/canvas_widget.py:359-422 | a pan moves the offsets by the pointer movement and touches no box; a drag moves only the selected box, clamped at 0; a resize gives it the resize step of the recorded handle and start geometry, with the pointer delta divided by the scale, so `nw`, `n` and `w` still move x or y and both sides end at least 10; without a selection or a drag or resize no box changes |
| CanvasWidget.DeleteSelected | label_editor/ui/canvas_widget.py:427-435 | exactly the selected box leaves the list and nothing is selected |
| CanvasWidget.MoveSelection | label_editor/ui/canvas_widget.py:455-459 | the selection moves and only flags change |
| CanvasWidget.Reclass | label_editor/ui/canvas_widget.py:473-482 | a key bound to a class gives the selected box that class's id and name and changes no other box; an unbound key changes nothing |
| CanvasWidget.OnKeyPressed | label_editor/ui/canvas_widget.py:424-484 | each key's effect: Delete removes the selection, + and = zoom in, - zooms out, 0 resets, Tab cycles, Escape clears, other keys reclass; an unhandled key changes nothing |
| CanvasWidget.OnScroll | label_editor/ui/canvas_widget.py:486-490 | scrolling up zooms in, down zooms out, sideways changes nothing; boxes are untouched |
| CanvasWidget.CreationThresholdsDisagree | label_editor/ui/canvas_widget.py:321 | a drag of exactly 10 image pixels creates a box in the manager (canvas_logic.py line 253) but not in the widget |
| CanvasWidget.ZoomRulesDisagree | label_editor/ui/canvas_widget.py:122-125 | after a pan, zooming in keeps the centre point in the manager (canvas_logic.py lines 97-104) but recentres the image in the widget |
| DatCodec.LineEndFirstBreak | label_editor/core/file_io.py:13 | a line read from the file runs up to the first `\n` or `\r` and holds no terminator |
| DatCodec.SplitField | label_editor/core/file_io.py:18-22 | the id field is split off at the first space, or at the first tab when there is no space; a line with neither has no second field |
| DatCodec.SplitHash | label_editor/core/file_io.py:26-30 | the coordinates end at the first `#` and the OCR text is everything after it; without `#` the OCR text is empty |
| DatCodec.ParseCoords | label_editor/core/file_io.py:34-38 | when the coordinates are accepted, each is its finite value truncated toward zero |
| DatCodec.FirstFailureDecides | label_editor/core/file_io.py:34-43 | the coordinates are accepted exactly when all are finite; the first infinity aborts the whole parse (the `OverflowError` escapes the inner handler), while a NaN or unreadable token only skips the line |
| DatCodec.ParseLine | label_editor/core/file_io.py:14-43 | blank lines and lines without a separator are skipped; an accepted line gives a freshly read box (whole coordinates, default name, unselected) whose OCR text is exactly what follows the first `#` |
| DatCodec.ParseRecord | label_editor/core/file_io.py:24-40 | a box built from a record has the given class id and the text after the first `#` |
| DatCodec.RecordOf | label_editor/core/file_io.py:32-40 | fewer than four coordinate tokens skip the line |
| DatCodec.OcrAfterFirstHash | label_editor/core/file_io.py:23-28 | because an accepted class id holds no `#`, the first `#` of the record is the first `#` of the line |
| DatCodec.ParseDat | label_editor/core/file_io.py:9-47 | text that is not ASCII gives no boxes (the decode error is caught around the whole read); every box returned is freshly read |
| DatCodec.StopKeepsEarlierBoxes | label_editor/core/file_io.py:23-47 | a line whose class id or coordinate raises past the inner handler keeps the boxes read before it and drops every later line |
| DatCodec.SkipContinues | label_editor/core/file_io.py:15-43 | a skipped line contributes nothing and reading continues after it |
| DatCodec.Sanitize | label_editor/core/file_io.py:56-58 | written OCR text is always ASCII |
| DatCodec.SanitizeIsTable | label_editor/core/file_io.py:56-58 | the chain of six replacements followed by dropping non-ASCII is the same as mapping each character independently through one table |
| DatCodec.SanitizeKeepsAscii | label_editor/core/file_io.py:56-58 | ASCII text is written unchanged |
| DatCodec.SanitizeIdempotent | label_editor/core/file_io.py:56-58 | sanitizing twice is the same as once |
| DatCodec.SanitizeNoLineBreak | label_editor/core/file_io.py:56-58 | sanitizing never introduces a line break, so a box stays on one line |
| DatCodec.ByClass | label_editor/core/file_io.py:54 | the written order is a permutation of the boxes sorted by class id |
| DatCodec.FormatLines | label_editor/core/file_io.py:54-61 | one formatted line per box, in order |
| DatCodec.SerializeDat | label_editor/core/file_io.py:53-62 | the file is empty exactly when there are no boxes |
| DatCodec.SplitLinesJoin | label_editor/core/file_io.py:13-62 | reading the lines of a CR LF-joined text gives back the non-empty, break-free lines that were joined |
| DatCodec.ParseFormattedLine | label_editor/core/file_io.py:14-60 | reading a written line gives its box back with coordinates truncated, text sanitized and trailing whitespace stripped |
| DatCodec.DatRoundTrip | label_editor/core/file_io.py:9-65 | reading back what `save_dat_file` wrote gives the boxes in class-id order, each as a freshly read box of the written fields |
| DatCodec.IntegralRoundTrip | label_editor/core/file_io.py:9-65 | for whole-number boxes with plain ASCII text, writing then reading returns exactly the stored fields in class-id order |
| PyNumbers.ParseInt | label_editor/core/file_io.py:23 | `int()` accepts only text containing a digit |
| PyNumbers.ParseIntChars | label_editor/core/file_io.py:23 | text `int()` accepts holds only whitespace, signs, digits and underscores, so never a `#` |
| PyNumbers.IntRoundTrip | label_editor/core/file_io.py:23-60 | a written class id reads back as the same integer |
| PyNumbers.FloatRoundTrip | label_editor/core/file_io.py:35-60 | a written whole-number coordinate reads back as exactly that number |
| FileFilter.Extension | label_editor/ui/filter_modal.py:50-51 | a name without `.` has no extension; otherwise the extension is the dot-free text after the last `.` |
| FileFilter.Matches | label_editor/ui/filter_modal.py:40-60 | a pattern rule that compiled matches when a case-insensitive search finds it; a literal rule, or a pattern that failed to compile, matches when the lower-cased field contains the lower-cased pattern |
| FileFilter.LiteralConfirmedMatchesBoth | label_editor/ui/filter_modal.py:46-60 | a literal `confirmed` rule on the confirmation field matches every file, since `unconfirmed` contains `confirmed` |
| FileFilter.Select | label_editor/ui/filter_modal.py:554-557 | one rule's pass keeps a sub-multiset of the files, each of which the rule accepts |
| FileFilter.Passing | label_editor/ui/filter_modal.py:553-557 | the reference set: a file is kept exactly when every include rule matches it and no exclude rule does |
| FileFilter.ApplyRulesKeepsPassing | label_editor/ui/filter_modal.py:550-557 | applying the rules one after another gives exactly the files every rule lets through, in their original order |
| FileFilter.SelectThenPassing | label_editor/ui/filter_modal.py:553-557 | filtering by one rule and then by the rest equals filtering by all of them |
| FileFilter.PassingNoRules | label_editor/ui/filter_modal.py:550-557 | with no rules every file is kept, in order |
| FileFilter.SortFiles | label_editor/ui/filter_modal.py:569-588 | the sorted list is a permutation of its input, ordered by the option's key in the option's direction |
| FileFilter.FilenameAscOrdered | label_editor/ui/filter_modal.py:571-572 | sorting by name ascending leaves lower-cased names non-decreasing |
| FileFilter.FilenameDescOrdered | label_editor/ui/filter_modal.py:573-574 | sorting by name descending leaves lower-cased names non-increasing |
| FileFilter.UnconfirmedFirst | label_editor/ui/filter_modal.py:579-580 | confirmation ascending puts every unconfirmed file before every confirmed one |
| FileFilter.Apply | label_editor/ui/filter_modal.py:548-567 | the results are a sub-multiset of the files, and a file is shown exactly when it passes every rule |
| FileFilter.Refresh | label_editor/ui/filter_modal.py:548-567 | after refreshing, the shown results are the current rules and sort applied to the files |
| FileFilter.AddFilterRule | label_editor/ui/filter_modal.py:454-492 | a blank entry or no category changes nothing; a pattern rule that fails to compile is refused with an error and changes nothing; otherwise (a non-blank entry, a category, and a compiling pattern when regex is on) exactly the rule with the category, the chosen type, the stripped pattern and the regex flag is appended, the entry is cleared, files and sort stay, and the results are refreshed |
| FileFilter.AddedRuleIsUsable | label_editor/ui/filter_modal.py:456-482 | every rule the dialog adds has a non-blank, stripped pattern, and a pattern rule's pattern compiles |
| FileFilter.RemoveFilterRule | label_editor/ui/filter_modal.py:541-546 | an index out of range changes nothing; otherwise exactly that rule is removed and the results are refreshed |
| FileFilter.AddThenRemoveRule | label_editor/ui/filter_modal.py:454-492 | removing the rule just added, at its index, gives back the original rules and, when the dialog was current, the original results |
| FileFilter.ClearRules | label_editor/ui/filter_modal.py:708-714 | clearing leaves no rules, name-ascending order, and every file shown |
| FileFilter.SetSort | label_editor/ui/filter_modal.py:434-441 | changing the sort keeps the rules and shows the same files in the new order |
| FileFilter.StatsAsWritten | label_editor/ui/filter_modal.py:619-632 | the summary's counts never exceed the number of files |
| FileFilter.StatsAsWrittenCountNothing | label_editor/ui/filter_modal.py:627-629 | as written, no file labelled by the validation engine is counted as valid, invalid or lacking a label file |
| FileFilter.ValidFileMiscounted | label_editor/ui/filter_modal.py:627 | a single valid file is counted by the corrected summary and missed by the written one |
| FileFilter.StatsCorrected | label_editor/ui/filter_modal.py:619-632 | with the engine's status strings, the counts never exceed the number of files |
| FileFilter.StatsCorrectedCountBuckets | label_editor/ui/filter_modal.py:626-629 | corrected, each count is the number of files in its validation bucket, with both error kinds counted as invalid |
| Sorting.SortBy | label_editor/ui/filter_modal.py:569-586 | `sorted` keeps the length of its input |
| Sorting.SortByPermutes | label_editor/ui/filter_modal.py:569-586 | `sorted` returns a permutation of its input |
| Sorting.SortByIsSorted | label_editor/ui/filter_modal.py:569-586 | `sorted` returns its input in key order, reversed when asked |
| Sorting.SortByStable | label_editor/ui/filter_modal.py:569-586 | `sorted` is stable: elements with equal keys keep their input order, also when reversed |
| Sorting.StrLtTotal | label_editor/ui/filter_modal.py:572 | Python's string `<` is a strict total order: irreflexive, transitive and total, as are `StrLtIrreflexive` and `StrLtTransitive` |
| LabelSession.NewSession | label_editor/business/label_logic.py:15-21 | a fresh session has no boxes, no selection and nothing unsaved |
| LabelSession.SetBoxes | label_editor/business/label_logic.py:29-42 | the boxes are taken over with only their names changed, each named after the first class with its id or `class_<id>`; nothing is selected or unsaved |
| LabelSession.SetBoxesIdempotent | label_editor/business/label_logic.py:29-35 | setting the resulting boxes again changes nothing |
| LabelSession.SelectBox | label_editor/business/label_logic.py:51-63 | the selection moves, only flags change, and if exactly the old selection was flagged then exactly the new one is |
| LabelSession.CreateBox | label_editor/business/label_logic.py:65-92 | an empty class table raises; otherwise one box with the given geometry, empty text and the class `Classes.NewBoxClass` picks (the first unused class, or the first class when all are used) and that class's name is appended, selected and marked unsaved |
| LabelSession.CreateTwiceTakesNextClass | label_editor/business/label_logic.py:65-92 | two creations in a row: the first adds its class to the used ones, and while some other class is still unused the second takes a different class, the first in table order that is still unused |
| LabelSession.DeleteSelectedBox | label_editor/business/label_logic.py:94-105 | deletion happens exactly when a box is selected: that box alone leaves the list, nothing is selected and the change is recorded; otherwise nothing changes |
| LabelSession.CreateThenDelete | label_editor/business/label_logic.py:65-105 | creating a box and deleting it again leaves the boxes as they were, up to flags |
| LabelSession.UpdateSelectedBoxText | label_editor/business/label_logic.py:107-111 | only the selected box's text changes, and the change is recorded; without a selection nothing changes |
| LabelSession.UpdateSelectedBoxClass | label_editor/business/label_logic.py:113-118 | only the selected box changes, taking the class id and its name; without a selection nothing changes |
| LabelSession.MarkChanged | label_editor/business/label_logic.py:148-152 | the labels become unsaved while the boxes, the selection and the classes stay as they were |
| LabelSession.SelectNextBox | label_editor/business/label_logic.py:120-133 | on a non-empty list the selection moves one place round the list, to the first box from no selection; only flags change |
| LabelSession.SelectNextCycles | label_editor/business/label_logic.py:125-133 | repeated presses return to the starting box after exactly as many presses as there are boxes |
| LabelSession.SetBoxClassByKeyAsWritten | label_editor/business/label_logic.py:135-146 | as written, no key press ever changes a class or reports success |
| LabelSession.SetBoxClassByKey | label_editor/business/label_logic.py:135-146 | corrected: a key bound to a class, with a box selected, gives that box the first bound class's id and name and records the change; otherwise nothing changes |
| LabelSession.KeyBindingIgnored | label_editor/business/label_logic.py:141 | with a selection and a class bound to the key, the corrected handler acts and the written one does not |
| LabelSession.AddCount | label_editor/business/label_logic.py:159-161 | adding to a name's count raises that count and the total by the amount and leaves the other names alone |
| LabelSession.CharacterCounts | label_editor/business/label_logic.py:154-162 | each class name's count is the total text length of its boxes, names occur once, and the counts add up to the text length of all boxes |
| LabelSession.PreviewLines | label_editor/business/label_logic.py:166-169 | one preview line per box, in order |
| LabelSession.DatFileContent | label_editor/business/label_logic.py:164-170 | the preview is empty exactly when there are no boxes |
| LabelSession.PreviewReadsLikeFile | label_editor/business/label_logic.py:164-170 | for exactly printable boxes with ASCII text, reading the preview gives what reading the saved file gives |
| LabelSession.SaveToFile | label_editor/business/label_logic.py:172-182 | saving reports success, clears the unsaved flag and hands the writer's text to the file |
| LabelSession.LoadFromFile | label_editor/business/label_logic.py:188-197 | loading reports success and sets exactly the boxes the reader returns, renamed by class, with nothing selected or unsaved |
| LabelSession.SaveLoadRoundTrip | label_editor/business/label_logic.py:172-197 | saving and loading back gives the boxes in class-id order, each with its stored fields and its class name |
| LabelSession.ClampRegion | label_editor/business/label_logic.py:245-249 | for a non-empty image the clamped region lies inside it and holds at least one pixel |
| LabelSession.ClampKeepsFitting | label_editor/business/label_logic.py:245-249 | a region already inside the image is left unchanged, so clamping is idempotent |
| LabelSession.OcrRegion | label_editor/business/label_logic.py:242-249 | the region cut out for recognition always lies inside a non-empty image |
| LabelSession.OcrRegionOfFittingBox | label_editor/business/label_logic.py:242-249 | a whole-number box already inside the image is cut out exactly |
| LabelSession.GetConfirmation | label_editor/business/label_logic.py:302-304 | a path is confirmed exactly when it is recorded as confirmed; unknown paths are unconfirmed |
| LabelSession.SetConfirmation | label_editor/business/label_logic.py:296-300 | the path gets the new status, every other path keeps its own, and the path becomes known |
| LabelSession.ToggleConfirmation | label_editor/business/label_logic.py:306-311 | the path's status flips, the new status is returned, and no other path changes |
| LabelSession.ToggleTwice | label_editor/business/label_logic.py:306-311 | toggling twice gives every path its old status back |
| LabelSession.ConfirmationSummary | label_editor/business/label_logic.py:313-320 | confirmed counts the confirmed paths, total counts the known paths, and the computed unconfirmed is exactly the number of paths recorded as unconfirmed |
| OcrText.TesseractConfig | label_editor/core/image_ops.py:110-116 | a class with its own recognition configuration gets it; an unknown class or one without gets the uppercase-and-digits whitelist default |
| OcrText.PostprocessMrz | label_editor/core/image_ops.py:148-169 | MRZ output holds only digits, `<` and the capitals that are not look-alikes |
| OcrText.MrzCharwise | label_editor/core/image_ops.py:150-167 | the MRZ clean-up keeps exactly the MRZ characters in order, each look-alike letter replaced by its digit |
| OcrText.MrzIdempotent | label_editor/core/image_ops.py:148-169 | cleaning MRZ text twice is the same as once |
| OcrText.Collapse | label_editor/core/image_ops.py:174 | `re.sub(r'\s+', ' ', s)` leaves only single plain spaces, never lengthens the text, and keeps whether it starts or ends with whitespace |
| OcrText.CollapseKeepsTokens | label_editor/core/image_ops.py:174 | the collapse keeps the `str.split()` tokens exactly and in order, so spaces stand only where a whitespace run stood; every non-space character is kept in order |
| OcrText.CollapseSingleSpaced | label_editor/core/image_ops.py:174 | already single-spaced text is left alone |
| OcrText.CollapseKeepsWords | label_editor/core/image_ops.py:174 | one step of the collapse keeps the non-space characters in order |
| OcrText.PostprocessDate | label_editor/core/image_ops.py:172-176 | a cleaned date is trimmed, single-spaced and free of O, I and S; its `str.split()` tokens are exactly the input's tokens with O, I, S mapped to 0, 1, 5; its non-space characters are the input's, mapped the same way |
| OcrText.DateKeepsTokens | label_editor/core/image_ops.py:174-175 | trimming, collapsing and then mapping O, I, S keeps the tokens of the input, each mapped |
| Text.StripKeepsTokens | label_editor/core/image_ops.py:174 | `strip()` keeps every `str.split()` token, in order |
| OcrText.SplitByMap | label_editor/core/image_ops.py:175 | a character map that never makes or removes whitespace maps the token list token by token |
| OcrText.StripKeepsWords | label_editor/core/image_ops.py:172-176 | trimming removes only whitespace: the non-space characters stay, in order |
| OcrText.DateFixKeepsWords | label_editor/core/image_ops.py:172-176 | the digit fix maps characters one for one and never makes or removes a space, so it commutes with dropping the spaces |
| OcrText.CleanDateFixed | label_editor/core/image_ops.py:172-176 | a date that is already clean comes back unchanged |
| OcrText.DateIdempotent | label_editor/core/image_ops.py:172-176 | cleaning a date twice is the same as once |
| OcrText.SingleChar | label_editor/core/image_ops.py:133-134 | empty text stays empty; otherwise the result is the first character upper-cased |
| OcrText.Alphanumeric | label_editor/core/image_ops.py:135-136 | the result holds only upper-case letters and digits and is never longer |
| OcrText.AlphanumericCharwise | label_editor/core/image_ops.py:135-136 | the clean-up keeps exactly the ASCII letters and digits of the input, in order, each upper-cased |
| OcrText.AlphanumericAppend | label_editor/core/image_ops.py:135-136 | cleaning two texts and joining the results is cleaning the joined text |
| OcrText.AlphanumericOne | label_editor/core/image_ops.py:135-136 | a single character is kept upper-cased exactly when it is a letter or digit |
| OcrText.AlphanumericIdempotent | label_editor/core/image_ops.py:135-136 | the alphanumeric clean-up is idempotent |
| OcrText.Autocorrect | label_editor/core/image_ops.py:179-202 | the correction never changes the length; for a passport-number pattern no O, I or S remains after the first character and the first is neither O, I nor a lower-case m, p or s; other non-date patterns leave the text unchanged |
| OcrText.PassportCorrected | label_editor/core/image_ops.py:182-185 | for a passport-number pattern every character after the first is the input's with O, I, S turned into 0, 1, 5; the first is that character, upper-cased when it is an m, p or s |
| Text.ReplaceWord | label_editor/core/image_ops.py:201 | `str.replace` of an upper-case pattern in a word between text without upper-case letters replaces the word exactly when it is the pattern and changes nothing else |
| OcrText.ApplyFixesWord | label_editor/core/image_ops.py:200-201 | upper-case fixes of a word's length, applied in turn, act on that word alone, as the fixes folded over the word |
| OcrText.SettledFixWord | label_editor/core/image_ops.py:189-201 | in a table whose keys are distinct and where no later fix undoes an earlier one, each key comes out as its own correction |
| OcrText.MonthFixesSettled | label_editor/core/image_ops.py:189-199 | the month table has distinct keys, and a key that is another key's correction maps to itself |
| OcrText.DateWordCorrected | label_editor/core/image_ops.py:188-201 | in a date field a three-letter word with no upper-case letter beside it is corrected as a whole, by the month table |
| OcrText.DateMonthCorrected | label_editor/core/image_ops.py:188-201 | in such a date each misread month becomes its month and every month name stays |
| OcrText.DateWithoutMisreadsUnchanged | label_editor/core/image_ops.py:188-201 | a date containing no misread month name is left unchanged |
| OcrText.Postprocess | label_editor/core/image_ops.py:119-145 | the field type picks the clean-up; without a pattern the cleaned text is returned; a pattern that does not compile raises; a cleaned text the pattern matches is returned as is, otherwise the autocorrected one |
| Regex.Match | label_editor/core/image_ops.py:141 | `re.match` fails exactly on a pattern that does not compile and otherwise answers whether the pattern matches at the start |
| Keymap.LoadKeymap | label_editor/core/keymap.py:26-34 | the loaded keymap keeps exactly the entries whose names do not start with `//`, in file order |
| Keymap.LoadKeymapIdempotent | label_editor/core/keymap.py:33 | filtering the comments out twice is the same as once |
| Keymap.LoadKeymapAppend | label_editor/core/keymap.py:26-34 | loading a file made of two parts loads each part on its own and joins them; a single entry is kept exactly when it is not a comment |
| Keymap.Bindings | label_editor/core/keymap.py:46-49 | collecting the bindings fails (the source raises) exactly when some kept entry is not a category; otherwise a pair is a binding exactly when some entry's category lists that key under that action name |
| Keymap.BindingsAppend | label_editor/core/keymap.py:46-49 | the bindings of two parts of the keymap are the first part's followed by the second's, and fail when either part fails |
| Keymap.BindingsOne | label_editor/core/keymap.py:46-49 | one category entry gives exactly its category's bindings |
| Keymap.CategoryBindings | label_editor/core/keymap.py:47-49 | a pair is a binding of the category exactly when some action of the category lists the key, and the name is `category.action` |
| Keymap.ActionBindings | label_editor/core/keymap.py:48-49 | one binding per listed key, in list order, each pairing the key with `category.action` |
| Keymap.CategoryBindingsAppend | label_editor/core/keymap.py:47-49 | the bindings of two groups of actions are the first group's followed by the second's; one action gives exactly its own bindings |
| Keymap.KeyToAction | label_editor/core/keymap.py:42-51 | the reverse table holds exactly the keys some action lists, and maps each to the name of some binding of that key |
| Keymap.TableOfBindings | label_editor/core/keymap.py:42-51 | for a keymap that loads, a key is in the reverse table exactly when some entry lists it, and it maps to a `category.action` name that lists it |
| Keymap.KeyTableOfFile | label_editor/core/keymap.py:26-51 | from the raw file: a key is in the table exactly when some non-comment entry lists it, and it maps to a name that entry lists |
| Keymap.LastBindingWins | label_editor/core/keymap.py:46-49 | a key listed under several actions maps to the last one in iteration order |
| Keymap.GetActionForKey | label_editor/core/keymap.py:53-66 | with Control held the lookup uses `Ctrl+` and the lower-cased key name, otherwise the bare name; an unbound combination gives no action; an unnamed key with Control held raises |
| Keymap.PressedKeyFindsAction | label_editor/core/keymap.py:42-66 | pressing a bound key, with or without Control as its binding says, finds the action of its last binding |
| Keymap.GetKeysForAction | label_editor/core/keymap.py:68-71 | an action name without `.` raises; an unknown category or an unknown action in a known category gives no keys; otherwise the keys the action lists |
| Keymap.KeysForListedAction | label_editor/core/keymap.py:46-71 | asking for the keys of a listed `category.action` gives back exactly the keys the file lists for it |
| Keymap.IsNavigationKey | label_editor/core/keymap.py:73-76 | a key is a navigation key exactly when its action exists and lies in the `navigation` category |
| Project.ParseClassConfig | label_editor/business/project_state.py:85-96 | a missing or falsy entry gives an empty class list; a list is wrapped under `classes`; a non-empty object is returned as it is; any other value gives an empty class list |
| Project.ParseClassConfigStable | label_editor/business/project_state.py:85-96 | normalising an already normalised configuration changes nothing |
| Project.DatPathOf | label_editor/business/project_state.py:123 | the label file lives in the image's directory |
| Paths.Name | label_editor/business/project_state.py:194 | the final component holds no `/` and ends the path |
| Paths.Dir | label_editor/business/project_state.py:123 | the directory part ends in `/` (or is empty) and followed by the name gives the path back |
| Paths.Suffix | label_editor/business/project_state.py:106 | the suffix is empty exactly when the name has no proper last `.`, and it ends the name |
| Paths.Stem | label_editor/core/settings_manager.py:187 | the stem followed by the suffix is the name, and a non-empty name has a non-empty stem |
| Paths.WithSuffix | label_editor/business/project_state.py:123 | the new path keeps the directory |
| Paths.WithSuffixParts | label_editor/business/project_state.py:123 | replacing the suffix keeps the directory and the stem and installs exactly the new suffix: the label file of `a/b.jpg` is `a/b.dat` |
| Paths.WithSuffixIdempotent | label_editor/business/project_state.py:123 | replacing the suffix a second time changes nothing |
| Project.NewState | label_editor/business/project_state.py:14-24 | a fresh project has no images and is consistent, so nothing is selected |
| Project.ImageEntries | label_editor/business/project_state.py:105-107 | an entry is kept exactly when it is a file whose lower-cased suffix is `.jpg`, `.jpeg`, `.png` or `.bmp` |
| Project.SortedImages | label_editor/business/project_state.py:105-109 | the image list is a permutation of the kept entries in non-decreasing path order |
| Project.ImagePathsListed | label_editor/business/project_state.py:105-109 | a path is in the image list exactly when the listing holds an image file at it |
| Project.LoadDirectory | label_editor/business/project_state.py:98-140 | the call succeeds exactly when the directory can be listed; then the images are exactly the listed image files, sorted, the index is 0 exactly when there is an image (else -1), and the cache is the validation of the sorted image files; on failure the list is emptied but the index and paths stay |
| Project.NavigateTo | label_editor/business/project_state.py:142-153 | navigation succeeds exactly for an index of an image, recording its image and label paths and keeping the directory and cache; otherwise nothing changes |
| Project.NavigateNext | label_editor/business/project_state.py:155-159 | the move succeeds exactly when a next image exists, and then goes one image forward; the directory and cache never change; a failed move changes nothing |
| Project.NavigatePrevious | label_editor/business/project_state.py:161-165 | the move succeeds exactly when a previous image exists, and then goes one image back; the directory and cache never change; a failed move changes nothing |
| Project.GetNavigationState | label_editor/business/project_state.py:180-185 | "previous" is enabled exactly when the index is positive, "next" exactly when it is below the last position |
| Project.NavigationStateAgrees | label_editor/business/project_state.py:155-185 | whenever the index is -1 or a position in the list (as in every reachable state) each button is enabled exactly when its move succeeds |
| Project.StaleIndexAfterFailedLoad | label_editor/business/project_state.py:98-139 | after a failed directory load "previous" can be enabled while the move fails |
| Project.NextThenPrevious | label_editor/business/project_state.py:142-165 | moving forward and back returns to the same state |
| Project.GetFileList | label_editor/business/project_state.py:187-201 | one entry per image in order, with its index, path and name, current exactly at the current index, its label-file existence, the validation engine's `file-` style class for it, and the cached box count (0 when not cached) |
| Project.OneCurrentEntry | label_editor/business/project_state.py:197 | with an image selected exactly one entry is current |
| Project.MarkSaved | label_editor/business/project_state.py:255-257 | only the path's save time changes, to the given clock reading |
| Project.GetLastSaveTime | label_editor/business/project_state.py:259-261 | a save time exists exactly for paths that were saved, and is the one recorded for that path |
| Project.MarkSavedThenGet | label_editor/business/project_state.py:255-261 | after a save the file reports that clock reading, and every other file reports what it did before |
| Project.SetConfirmationStatus | label_editor/business/project_state.py:263-265 | the path gets the new status and every other path keeps its own |
| Project.GetConfirmationStatus | label_editor/business/project_state.py:267-269 | a path never set is unconfirmed |
| Project.AddPendingOperation | label_editor/business/project_state.py:271-273 | the key joins the pending operations |
| Project.RemovePendingOperation | label_editor/business/project_state.py:275-277 | the key leaves the pending operations; removing an absent key changes nothing |
| Project.AddThenRemove | label_editor/business/project_state.py:271-277 | adding a new key and removing it restores the tracker |
| Project.GetFileStatus | label_editor/business/project_state.py:279-286 | a file has pending operations exactly when some pending key ends with its path; its confirmation and save time are the tracker's |
| Project.PendingAfterAdd | label_editor/business/project_state.py:284-286 | an operation keyed by anything ending in the path marks that file pending |
| Rotation.Copy | label_editor/core/image_rotation.py:108-110 | the copy keeps the geometry, class and text and starts unselected with the class's default name |
| Rotation.RotateBox | label_editor/core/image_rotation.py:115-150 | one rotated box keeps its class and text, starts unselected and has whole-number coordinates |
| Rotation.RotateBoundingBoxes | label_editor/core/image_rotation.py:95-150 | one result per box in order, each keeping its class and text; a whole number of turns gives plain copies; otherwise each box is rotated by the angle taken modulo 360 |
| Rotation.QuarterTurnExact | label_editor/core/image_rotation.py:116-147 | for whole-number boxes the 90, 180 and 270 degree formulas lose nothing to `int()` |
| Rotation.AngleReduced | label_editor/core/image_rotation.py:108-113 | only the angle modulo 360 matters: -90 acts as 270 and 450 as 90 |
| Rotation.StaysInside | label_editor/core/image_rotation.py:116-135 | a box inside the image stays inside the rotated image, whose sides swap after a quarter or three-quarter turn |
| Rotation.QuarterThenThreeQuarters | label_editor/core/image_rotation.py:116-135 | a quarter turn followed by a three-quarter turn of the turned image gives a whole-number box back |
| Rotation.TwoQuartersMakeHalf | label_editor/core/image_rotation.py:116-128 | two quarter turns, the second on the turned image, equal one half turn |
| Rotation.ListCompositions | label_editor/core/image_rotation.py:95-150 | the same two compositions hold for whole lists of boxes |
| Rotation.NewRotationState | label_editor/core/image_rotation.py:316-322 | a fresh manager has no image, angle 0 and nothing unsaved |
| Rotation.LoadImage | label_editor/core/image_rotation.py:324-335 | loading succeeds exactly when the image decodes, and then resets the angle and the unsaved flag; a failure changes nothing |
| Rotation.Rotate | label_editor/core/image_rotation.py:337-364 | rotating fails without an image and changes nothing; otherwise the angle grows by the argument modulo 360, stays in [0, 360) and is flagged unsaved exactly when non-zero |
| Rotation.RotationsAccumulate | label_editor/core/image_rotation.py:350 | rotating by `a` then by `b` is rotating by `a + b` |
| Rotation.FourQuarterTurns | label_editor/core/image_rotation.py:350-358 | four quarter turns restore the state |
| Rotation.RotateBoxes | label_editor/core/image_rotation.py:366-375 | without an image or rotation the boxes come back unchanged; otherwise they are rotated by the accumulated angle against the original image size |
| Rotation.ResetRotation | label_editor/core/image_rotation.py:385-393 | with an image the angle returns to 0 with nothing unsaved; without one nothing changes |
| Rotation.ResetUndoesRotate | label_editor/core/image_rotation.py:337-393 | reset after any rotation gives back the freshly loaded state |
| Rotation.RotatedSize | label_editor/core/image_rotation.py:34-47 | quarter and three-quarter turns swap width and height; 0 and 180 keep the size |
| Rotation.FormatFor | label_editor/core/image_rotation.py:218-232 | `.jpg`/`.jpeg` in any case select JPEG, `.png` PNG, `.bmp` BMP, and each of these only for its own extensions |
| Rotation.SaveTarget | label_editor/core/image_rotation.py:213-232 | with a known extension the copy is `<stem><tag><suffix>` in the format the extension names; with any other it is PNG |
| Rotation.OverwriteFormat | label_editor/core/image_rotation.py:258-273 | overwriting uses the extension's format |
| Rotation.SameFormatEitherWay | label_editor/core/image_rotation.py:218-273 | overwriting and saving a copy write the same format |
| Rotation.SaveTargetKnown | label_editor/core/image_rotation.py:213-228 | with a known extension the copy sits next to the original, keeps the extension, and its stem is the original stem followed by the tag |
| Rotation.SaveTargetUnknown | label_editor/core/image_rotation.py:213-232 | with an unknown or missing extension the copy sits next to the original with a `.png` extension |
| Rotation.SaveRotatedImage | label_editor/core/image_rotation.py:395-425 | no image or path gives nothing; no rotation reports the path unchanged; a failed write gives nothing; a successful overwrite makes the rotated image the new original at angle 0; a copy leaves the state and reports the `_rotated` path |
| JsonValue.At | label_editor/core/settings_manager.py:218-226 | the empty path reaches the value itself, and a step into a missing key or a non-object reaches nothing |
| Settings.DeepMerge | label_editor/core/settings_manager.py:332-342 | the result has the keys of both sides; keys only in the base keep the base value; the override wins everywhere except where both sides hold objects, which are merged with the keys of both |
| Settings.MergeNothing | label_editor/core/settings_manager.py:332-342 | merging an empty override copies the base |
| Settings.OverrideLeavesWin | label_editor/core/settings_manager.py:332-342 | a non-object value the override holds at any nested path is what the merge holds there |
| Settings.BaseLeavesKept | label_editor/core/settings_manager.py:332-342 | whatever the base holds at a nested path the override leaves alone (it holds only objects on the way and nothing at the end) is what the merge holds there |
| Settings.Diff | label_editor/core/settings_manager.py:344-358 | only keys of the current settings appear; new keys always do, with their value; a changed non-object value appears exactly when it differs; an object appears only with a non-empty difference |
| Settings.DiffSelf | label_editor/core/settings_manager.py:344-358 | nothing differs from itself |
| Settings.MergeDiffLeaves | label_editor/core/settings_manager.py:332-358 | merging the differences back onto the base gives every non-object value of the settings back at its path |
| Settings.Segments | label_editor/core/settings_manager.py:217 | splitting a key path always gives at least one segment |
| Settings.GetWalk | label_editor/core/settings_manager.py:206-226 | the segment walk returns the value at the dotted path, and the default whenever the path does not lead to a value |
| Settings.SetPath | label_editor/core/settings_manager.py:238-247 | on success the top-level keys grow by at most the first segment and every other key is untouched; it fails exactly when an existing intermediate value is not an object, or the walk below fails |
| Settings.SetPathThenAt | label_editor/core/settings_manager.py:238-247 | after a successful set the path leads to the value set |
| Settings.SetPathFailsOnLeaf | label_editor/core/settings_manager.py:238-247 | set fails exactly when some proper prefix of the path reaches a non-object |
| Settings.Set | label_editor/core/settings_manager.py:228-255 | on success `get` on the path returns the value, base and active profile are kept, and profile content is written exactly when a profile is active, as the settings' differences from the base |
| Settings.Update | label_editor/core/settings_manager.py:257-272 | the settings gain the update's keys and keep every key it does not touch; every leaf of the update is read back from the new settings, and every value at a path the update leaves alone is kept, at any depth; profile content is written exactly when a profile is active, and it is the new settings' differences from the base |
| Settings.UpdateThenReload | label_editor/core/settings_manager.py:257-272 | loading the profile content an update writes gives back every leaf of the update |
| Settings.ResetToBase | label_editor/core/settings_manager.py:274-277 | the settings become the base and no profile is active |
| Settings.LoadProfile | label_editor/core/settings_manager.py:90-121 | loading succeeds exactly when the file exists and holds an object; then that profile is active and the settings have the keys of base and profile; failure changes nothing |
| Settings.SaveProfile | label_editor/core/settings_manager.py:123-150 | unchanged live settings save as an empty profile, and only keys of the saved settings are written |
| Settings.SaveThenLoad | label_editor/core/settings_manager.py:90-150 | a profile saved from the live settings and loaded back holds every non-object value of those settings at its path |
| Settings.DeleteProfile | label_editor/core/settings_manager.py:190-204 | deletion succeeds exactly when the file exists and is removed; deleting the active profile falls back to the base settings; otherwise nothing changes |
| Settings.JsonStems | label_editor/core/settings_manager.py:185-187 | a stem is collected exactly for each entry ending in `.json` |
| Settings.ListProfiles | label_editor/core/settings_manager.py:183-188 | the profile names are a permutation of the `.json` stems, in sorted order |
| Settings.ExportData | label_editor/core/settings_manager.py:290-297 | the export wraps the profile under "settings" next to a "metadata" entry |
| Settings.ImportProfile | label_editor/core/settings_manager.py:309-330 | the content saved is the imported settings' differences from the base, or the live settings' differences when an export's settings are `null`; anything else that is not an object fails; a given name wins; a wrapped export without a name takes the metadata's `profile_name`, a plain settings file the file stem; an import succeeds whenever the file is plain, a name is given, or the metadata is an object |
| Settings.ImportNullSavesLive | label_editor/core/settings_manager.py:123-330 | an export whose settings are `null` imports as a save of the live settings under the export's name |
| Settings.ExportThenImport | label_editor/core/settings_manager.py:279-330 | importing an exported profile without naming it gives back its name and its content's differences |
| Validation.ValidateOcrText | label_editor/core/validation.py:83-96 | empty text, an unknown class and a class without a pattern all pass; otherwise the text passes exactly when the class pattern matches at its start |
| Validation.InvalidPatternFailsClosed | label_editor/core/validation.py:91-96 | a pattern that does not compile rejects every non-empty text |
| Validation.GetValidationStatus | label_editor/core/validation.py:98-132 | the status is "unknown class" exactly when the class is missing; a bad pattern is reported only when it does not compile; a checked text is valid exactly when the pattern matches at its start |
| Validation.StatusAgreesWithCheck | label_editor/core/validation.py:83-132 | for a known class the detailed status and the plain check agree; for an unknown class the status says invalid while the check passes |
| Validation.MissingClasses | label_editor/core/validation.py:69-74 | true exactly when some required class has no box; a configuration with no required class never misses one |
| Validation.RegexErrors | label_editor/core/validation.py:76-81 | true exactly when some box's text fails its class check |
| Validation.ValidateDatFile | label_editor/core/validation.py:40-58 | the file is valid exactly when it holds at least one box, no required class is missing and no text fails; the box count is the number of parsed boxes |
| Validation.EmptyDatInvalid | label_editor/core/validation.py:52 | an empty or unreadable label file is never valid |
| Validation.CheckImage | label_editor/core/validation.py:22-35 | an image without a label file gets the "no label file" entry; otherwise its label file's check |
| Validation.ValidateAllFiles | label_editor/core/validation.py:17-37 | at most one entry per listed file |
| Validation.EntriesFromImages | label_editor/core/validation.py:17-37 | every entry is the check of a listed regular file with an image extension, under its path |
| Validation.AllImagesEntered | label_editor/core/validation.py:17-37 | when every listed file is a regular image file, each gets its own check, in order |
| Validation.NonFilesSkipped | label_editor/core/validation.py:22 | directories and other non-files get no entry |
| Validation.NoDatEntries | label_editor/core/validation.py:28-35 | images without label files all get the "no label file" entry |
| Validation.Lookup | label_editor/core/validation.py:143 | a path has an entry exactly when one was recorded for it, and the entry found is one recorded for it |
| Validation.BucketOf | label_editor/core/validation.py:147-158 | each entry falls in the first bucket whose flag is set, in the order error, no label file, missing classes, pattern errors, valid |
| Validation.FileValidationStatus | label_editor/core/validation.py:141-158 | a path without an entry is "file-normal"; otherwise the entry's style class; always a `file-` string |
| Validation.CssClassDistinguishes | label_editor/core/validation.py:147-158 | two entries have the same style class exactly when they fall in the same bucket, and "file-normal" exactly when they fall in none |
| Validation.ValidFileStatus | label_editor/core/validation.py:40-158 | a checked label file is shown as "file-valid" exactly when it is valid |
| Validation.Tally | label_editor/core/validation.py:172-182 | counting one entry raises the bucketed count by one unless the entry falls in no bucket |
| Validation.ValidationSummary | label_editor/core/validation.py:160-182 | the total is the number of entries; each count is the number of entries in its bucket; bucketed and unbucketed entries add up to the total |

## Left out

- Drawing and toolkit wiring: `on_draw`, the event-controller setup and every change or status callback. The main window, the event-handler dispatch, the profile selectors and the application entry point are not part of this model. None of them holds logic beyond calls into the modelled operations.
- OCR execution: `process_ocr`, the thread in `_run_ocr_thread` apart from its region clamp, and the `preprocess_*` image functions. They need OpenCV, Tesseract and threads; only the text they produce is post-processed here.
- Pixel work: `rotate_pixbuf` and `_rotate_arbitrary_angle`. They need pixbufs and floating-point trigonometry.
- `_transform_box_arbitrary` is also left out, for the same reason. Its result is the `ArbitraryRemap` parameter, and the rotated image size for other angles is a parameter of `Rotation.RotatedSize`.
- `ImageSaver`'s image writes and `create_backup`'s file copy are file-system effects. Their name and format choice is modelled.
- `get_current_pixbuf` and `get_current_rotation` are plain field reads.
- File-system and persistence calls are left out because they are I/O, not logic:
  - the project's `load_config` and `save_config`;
  - the settings manager's base-settings load, save and defaults;
  - `create_profile`, a composition of existence checks and `save_profile`;
  - the file read and write around `export_profile` (its wrapper is `Settings.ExportData`);
  - `migrate_from_single_file`;
  - `save_keymap` and the keymap file read.
- How file contents, directory listings, file existence and write success reach each operation: they come in as parameters instead.
- Background work: `perform_background_save` and `close` run on a thread pool. The tracker's save time is the `now` parameter of `Project.MarkSaved`, and there is no clock in the model.
- `get_current_image_info` and `get_directory_stats` only gather fields. The modelled operations already compute them: navigation state, `Paths.Name`, `Project.DatPathOf` and `Validation.ValidationSummary`.
- The filter dialog's window, widget rows, preview, search-info markup, cancel and apply are presentation only.
- Regular expressions are an uninterpreted engine (`Regex.Engine`): whether a pattern compiles, whether it matches at the start, whether it is found anywhere ignoring case. Nothing about regex syntax is modelled.
- Case mapping and `str.isalnum` act on ASCII letters and digits only. Other characters are left as they are and count as not alphanumeric.
- Reading a label file that holds any non-ASCII character gives no boxes. The file is decoded as ASCII, and the position of the decoding error inside the file is not modelled.
- `Paths` does no path normalisation: no collapsing of repeated separators or `.` components, and no absolute/relative distinction.
- Floating point:
  - Parsed coordinates are exact rationals, with IEEE rounding not modelled.
  - Writing a box requires coordinates that print exactly, which integer coordinates do. Python's `repr` of a fractional float is not modelled.
  - `DatCodec.DatRoundTrip` is stated for such boxes only.
- In `JsonValue`, Python's `True == 1` is not modelled: a boolean never equals a number, so `_get_differences` could differ on such a pair.
- Malformed configurations are not modelled: a class entry without an `id`, a non-string profile name, or a keymap value that is not a list. The source raises on most of these.
- `Validation.ValidationSummary` counts cache entries, so it equals the per-file count of the program's dict only when the cache holds distinct paths. A directory listing names each file once, so the caches built by `Validation.ValidateAllFiles` do. A listing that repeats a path is not modelled.
- Validation keeps the parsed `boxes` list only as its count (`boxCount`), since nothing else reads it.
- The error entry of `validate_dat_file` (its `except` branch) is never produced by the model: the parser catches its own errors, and a malformed class configuration is left out. The entry's effect on status and summary is modelled through `FileCheck.error`.
- `Keymap.IsNavigationKey`: the source returns `None` for an unbound key. The model returns `false`, which has the same truthiness.
- `Validation.ValidateAllFiles`: its own contract only bounds the number of entries. What the entries hold is stated by `Validation.EntriesFromImages`, `Validation.AllImagesEntered` and `Validation.NonFilesSkipped`.
- `DatCodec.FirstFailureDecides`: a finite literal beyond the double range, such as `1e400`, is read by Python's `float` as infinity. Its `int()` then raises `OverflowError`, which aborts the whole parse. The model keeps the exact value, because the double range is not modelled, so that file keeps its boxes.
- `LabelSession`: `LabelManager.last_save_time` (label_editor/business/label_logic.py:177) is not modelled. It records a clock reading, nothing in the session reads it back, and there is no clock in the model.
- `ViewTransform.ZoomedOut` and `CanvasLogic.ZoomOut` require a non-zero factor. Python raises `ZeroDivisionError` for 0, and every caller passes the default 1.25.
- `JsonValue` objects are maps, so a file whose object repeats a key is not modelled. Python's `json` keeps the last value for such a key.
- `Keymap.LoadKeymap`: its raw entry list can repeat a top-level category name, which a loaded keymap file cannot hold, since `json.load` keeps only the last value for that name. `Keymap.Bindings` and `Keymap.GetKeysForAction` can then differ from the program; a keymap file with repeated names is not modelled.
- `OcrText.DateWordCorrected` and `OcrText.DateMonthCorrected` are stated for a word with no upper-case letter on either side. Next to other capitals a key can match across the word's edge, and no whole-word promise holds there.
- `Settings.SaveProfile`: its own contract is weak. What a saved profile means is stated by `Settings.SaveThenLoad` and `Settings.MergeDiffLeaves`.

## Findings

| source | as written | input that shows it | evidently intended | confidence | as-written member | corrected member |
|---|---|---|---|---|---|---|
| label_editor/ui/filter_modal.py:627-629 | the status counts compare `validation_status` with `valid`, `invalid_regex`, `missing_classes` and `no_dat`, but the status stored for each file is the engine's style class (`file-valid`, `file-invalid-regex`, `file-missing-classes`, `file-no-dat`) | one file whose label file is valid: its status is `file-valid`, and it is counted as 0 valid | count each file in the bucket its `file-` style class names | not executed | FileFilter.StatsAsWritten (shown by FileFilter.StatsAsWrittenCountNothing and FileFilter.ValidFileMiscounted) | FileFilter.StatsCorrected (FileFilter.StatsCorrectedCountBuckets) |
| label_editor/business/label_logic.py:141 | `set_box_class_by_key` compares the key with `getattr(self, 'KEY_<key>', None)`, an attribute the manager never has, so the comparison is always with `None` | a selected box and a class whose key names the pressed key value: no class changes and false is returned | give the selected box the first class whose key names the pressed key, as the canvas widget does | not executed | LabelSession.SetBoxClassByKeyAsWritten (shown by LabelSession.KeyBindingIgnored) | LabelSession.SetBoxClassByKey |

=== FILE: boxes.dfy ===
/** The `BoundingBox` record: containment and the resize-handle hit test. */
module Boxes {
  import opened Common
  import opened Text

  /**
   * One annotation. Coordinates are reals: boxes read from a DAT file hold integers,
   * but dragging and resizing divide by the view scale and leave fractions behind.
   */
  datatype Box = Box(
    x: real, y: real, width: real, height: real,
    classId: int, ocrText: string, selected: bool, name: string)

  /** The name a box gets when no class name is supplied. */
  function DefaultName(classId: int): (r: string)
    ensures StartsWith(r, "class_") && r[6..] == IntToString(classId)
  {
    "class_" + IntToString(classId)
  }

  /** `BoundingBox(x, y, width, height, class_id, ocr_text, class_name)`. */
  function NewBox(x: real, y: real, width: real, height: real, classId: int,
                  ocrText: string, className: Option<string>): (b: Box)
    ensures !b.selected
    ensures b.x == x && b.y == y && b.width == width && b.height == height
    ensures b.classId == classId && b.ocrText == ocrText
    ensures className.Some? ==> b.name == className.value
    ensures className.None? ==> b.name == DefaultName(classId)
  {
    Box(x, y, width, height, classId, ocrText, false, className.GetOr(DefaultName(classId)))
  }

  /** Whole-number geometry, as a box read from a DAT file has. */
  predicate HasIntegralCoords(b: Box) {
    IsIntegral(b.x) && IsIntegral(b.y) && IsIntegral(b.width) && IsIntegral(b.height)
  }

  /** Inclusive containment: the border belongs to the box. */
  predicate ContainsPoint(b: Box, px: real, py: real) {
    b.x <= px <= b.x + b.width && b.y <= py <= b.y + b.height
  }

  lemma CornersContained(b: Box)
    requires b.width >= 0.0 && b.height >= 0.0
    ensures ContainsPoint(b, b.x, b.y) && ContainsPoint(b, b.x + b.width, b.y)
    ensures ContainsPoint(b, b.x, b.y + b.height) && ContainsPoint(b, b.x + b.width, b.y + b.height)
  {
  }

  datatype Handle = NW | NE | SW | SE | W | E | N | S

  /** The position of a handle in the order the hit test tries them. */
  function HandleRank(h: Handle): (r: nat)
    ensures r < 8
  {
    match h
    case NW => 0
    case NE => 1
    case SW => 2
    case SE => 3
    case W => 4
    case E => 5
    case N => 6
    case S => 7
  }

  predicate Near(a: real, b: real, size: real) {
    Abs(a - b) <= size
  }

  /** Whether the point lies on handle `h`'s zone, judged on its own. */
  predicate OnHandle(b: Box, h: Handle, px: real, py: real, size: real) {
    var left := b.x;
    var right := b.x + b.width;
    var top := b.y;
    var bottom := b.y + b.height;
    match h
    case NW => Near(px, left, size) && Near(py, top, size)
    case NE => Near(px, right, size) && Near(py, top, size)
    case SW => Near(px, left, size) && Near(py, bottom, size)
    case SE => Near(px, right, size) && Near(py, bottom, size)
    case W => Near(px, left, size) && top <= py <= bottom
    case E => Near(px, right, size) && top <= py <= bottom
    case N => Near(py, top, size) && left <= px <= right
    case S => Near(py, bottom, size) && left <= px <= right
  }

  /**
   * `get_resize_handle`: the first handle, in the order nw, ne, sw, se, w, e, n, s,
   * whose zone holds the point, or `None`.
   */
  function ResizeHandle(b: Box, px: real, py: real, size: real): (r: Option<Handle>)
    ensures r.Some? ==> OnHandle(b, r.value, px, py, size)
    ensures r.Some? ==> forall h :: HandleRank(h) < HandleRank(r.value) ==> !OnHandle(b, h, px, py, size)
    ensures r.None? ==> forall h :: !OnHandle(b, h, px, py, size)
  {
    var left := b.x;
    var right := b.x + b.width;
    var top := b.y;
    var bottom := b.y + b.height;
    if Near(px, left, size) && Near(py, top, size) then Some(NW)
    else if Near(px, right, size) && Near(py, top, size) then Some(NE)
    else if Near(px, left, size) && Near(py, bottom, size) then Some(SW)
    else if Near(px, right, size) && Near(py, bottom, size) then Some(SE)
    else if Near(px, left, size) && top <= py <= bottom then Some(W)
    else if Near(px, right, size) && top <= py <= bottom then Some(E)
    else if Near(py, top, size) && left <= px <= right then Some(N)
    else if Near(py, bottom, size) && left <= px <= right then Some(S)
    else None
  }

  /** Within reach of the top-left corner on both axes, the answer is always `nw`. */
  lemma TopLeftWins(b: Box, px: real, py: real, size: real)
    requires Near(px, b.x, size) && Near(py, b.y, size)
    ensures ResizeHandle(b, px, py, size) == Some(NW)
  {
  }

  /** A corner zone always beats an edge zone. */
  lemma CornerBeatsEdge(b: Box, px: real, py: real, size: real, c: Handle)
    requires c in {NW, NE, SW, SE} && OnHandle(b, c, px, py, size)
    ensures ResizeHandle(b, px, py, size).Some?
    ensures ResizeHandle(b, px, py, size).value in {NW, NE, SW, SE}
  {
    var r := ResizeHandle(b, px, py, size);
    assert HandleRank(r.value) <= HandleRank(c);
  }

  /** Far from all four edge lines there is no handle. */
  lemma FarMeansNone(b: Box, px: real, py: real, size: real)
    requires !Near(px, b.x, size) && !Near(px, b.x + b.width, size)
    requires !Near(py, b.y, size) && !Near(py, b.y + b.height, size)
    ensures ResizeHandle(b, px, py, size).None?
  {
  }

  /** The minimum width and height a resize leaves. */
  const MinSide: real := 10.0

  /** The resize floor: a side below 10 becomes exactly 10. */
  function AtLeastMin(v: real): (r: real)
    ensures r >= MinSide && r >= v
    ensures v >= MinSide ==> r == v
    ensures v < MinSide ==> r == MinSide
  {
    if v < MinSide then MinSide else v
  }

  /**
   * The resize step shared by `BoxInteractionManager.update_box_size` and the widget's
   * motion handler: the handle's formula from the box's size at the start of the gesture,
   * then width and height raised to at least 10. `None` stands for any handle string
   * that matches no branch.
   */
  function Resize(b: Box, h: Option<Handle>, startX: real, startY: real, startW: real, startH: real,
                  dx: real, dy: real): (r: Box)
    ensures r.width >= MinSide && r.height >= MinSide
    ensures r.classId == b.classId && r.ocrText == b.ocrText && r.name == b.name && r.selected == b.selected
    ensures h.Some? && h.value in {NW, SW, W} ==> r.x == startX + dx
    ensures h.Some? && h.value in {NW, NE, N} ==> r.y == startY + dy
    ensures (h.None? || h.value in {NE, SE, E, S}) ==> r.x == b.x
    ensures (h.None? || h.value in {SW, SE, W, E, S}) ==> r.y == b.y
    ensures h.Some? && h.value in {NE, SE, E} ==> r.width == AtLeastMin(startW + dx)
    ensures h.Some? && h.value in {NW, SW, W} ==> r.width == AtLeastMin(startW - dx)
    ensures h.Some? && h.value in {SW, SE, S} ==> r.height == AtLeastMin(startH + dy)
    ensures h.Some? && h.value in {NW, NE, N} ==> r.height == AtLeastMin(startH - dy)
    ensures (h.None? || h.value in {N, S}) ==> r.width == AtLeastMin(b.width)
    ensures (h.None? || h.value in {W, E}) ==> r.height == AtLeastMin(b.height)
    ensures h.Some? && h.value in {NW, SW, W} && startW - dx >= MinSide ==> r.x + r.width == startX + startW
    ensures h.Some? && h.value in {NW, NE, N} && startH - dy >= MinSide ==> r.y + r.height == startY + startH
  {
    var (nx, ny, nw, nh) :=
      if h.None? then (b.x, b.y, b.width, b.height)
      else match h.value
        case NW => (startX + dx, startY + dy, startW - dx, startH - dy)
        case NE => (b.x, startY + dy, startW + dx, startH - dy)
        case SW => (startX + dx, b.y, startW - dx, startH + dy)
        case SE => (b.x, b.y, startW + dx, startH + dy)
        case N => (b.x, startY + dy, b.width, startH - dy)
        case S => (b.x, b.y, b.width, startH + dy)
        case W => (startX + dx, b.y, startW - dx, b.height)
        case E => (b.x, b.y, startW + dx, b.height);
    b.(x := nx, y := ny, width := AtLeastMin(nw), height := AtLeastMin(nh))
  }

  /** A pointer back at the press point gives back a box that met the floor, whatever the handle. */
  lemma ResizeZeroDelta(b: Box, h: Option<Handle>)
    requires b.width >= MinSide && b.height >= MinSide
    ensures Resize(b, h, b.x, b.y, b.width, b.height, 0.0, 0.0) == b
  {
  }

  /**
   * Every motion event of a gesture resizes from the geometry recorded at the press, so
   * only the latest pointer position matters.
   */
  lemma ResizeLatestWins(b: Box, h: Option<Handle>, startX: real, startY: real, startW: real, startH: real,
                         dx1: real, dy1: real, dx2: real, dy2: real)
    ensures Resize(Resize(b, h, startX, startY, startW, startH, dx1, dy1), h, startX, startY, startW, startH, dx2, dy2)
         == Resize(b, h, startX, startY, startW, startH, dx2, dy2)
  {
  }

  /** Python's `max(0, v)` on a coordinate. */
  function NonNeg(v: real): (r: real)
    ensures r >= 0.0 && r >= v
    ensures v >= 0.0 ==> r == v
  {
    if v > 0.0 then v else 0.0
  }

  /** The drag step: the box moves by the image-space delta and stops at zero on each axis. */
  function Drag(b: Box, startX: real, startY: real, dx: real, dy: real): (r: Box)
    ensures r.x >= 0.0 && r.y >= 0.0
    ensures startX + dx >= 0.0 ==> r.x == startX + dx
    ensures startY + dy >= 0.0 ==> r.y == startY + dy
    ensures r.width == b.width && r.height == b.height
    ensures r.classId == b.classId && r.ocrText == b.ocrText && r.name == b.name && r.selected == b.selected
  {
    b.(x := NonNeg(startX + dx), y := NonNeg(startY + dy))
  }
}

=== FILE: canvas_logic.dfy ===
/**
 * `CanvasState` and `BoxInteractionManager`: the view state with its centre-preserving
 * zoom, the gesture flags, and the box operations driven from canvas coordinates.
 */
module CanvasLogic {
  import opened Common
  import opened Boxes
  import opened Classes
  import opened ViewTransform
  import opened Selection

  /** The fields of `CanvasState`; the change callback is left out. */
  datatype CanvasState = CanvasState(
    view: View,
    canvasW: int, canvasH: int, imageW: int, imageH: int,
    dragging: bool, resizing: bool, panning: bool, creating: bool,
    panStartX: real, panStartY: real, dragStartX: real, dragStartY: real,
    handle: Option<Handle>,
    boxStartX: real, boxStartY: real, boxStartW: real, boxStartH: real)

  /** `is_interacting`: some gesture is in progress. */
  predicate IsInteracting(s: CanvasState) {
    s.dragging || s.resizing || s.panning || s.creating
  }

  /** `CanvasState()`: unit scale, no sizes, no gesture. */
  function NewCanvasState(): (s: CanvasState)
    ensures s.view == Initial && Positive(s.view)
    ensures !IsInteracting(s) && s.handle.None?
    ensures s.canvasW == 0 && s.canvasH == 0 && s.imageW == 0 && s.imageH == 0
  {
    CanvasState(Initial, 0, 0, 0, 0, false, false, false, false,
                0.0, 0.0, 0.0, 0.0, None, 0.0, 0.0, 0.0, 0.0)
  }

  /** `set_canvas_size`: only the canvas size changes; the view waits for the next fit. */
  function SetCanvasSize(s: CanvasState, w: int, h: int): (r: CanvasState)
    ensures r.canvasW == w && r.canvasH == h
    ensures r.(canvasW := s.canvasW, canvasH := s.canvasH) == s
  {
    s.(canvasW := w, canvasH := h)
  }

  /** `set_image_size`: only the image size changes; the view waits for the next fit. */
  function SetImageSize(s: CanvasState, w: int, h: int): (r: CanvasState)
    ensures r.imageW == w && r.imageH == h
    ensures r.(imageW := s.imageW, imageH := s.imageH) == s
  {
    s.(imageW := w, imageH := h)
  }

  /** The guard of `fit_image_to_canvas`: every size positive. */
  predicate CanFit(s: CanvasState) {
    s.canvasW > 0 && s.canvasH > 0 && s.imageW > 0 && s.imageH > 0
  }

  /**
   * `fit_image_to_canvas`: a no-op unless every size is positive; otherwise the base
   * scale fits the image without enlarging it and the image is centred.
   */
  function FitImageToCanvas(s: CanvasState): (r: CanvasState)
    ensures !CanFit(s) ==> r == s
    ensures r == s.(view := r.view) && r.view.zoom == s.view.zoom
    ensures CanFit(s) ==> r.view.baseScale <= 1.0 && r.view.scale == r.view.baseScale * s.view.zoom
    ensures CanFit(s) ==> r.view.baseScale * s.imageW as real <= s.canvasW as real
    ensures CanFit(s) ==> r.view.baseScale * s.imageH as real <= s.canvasH as real
    ensures CanFit(s) ==> Centred(r.view, s.canvasW, s.canvasH, s.imageW, s.imageH)
  {
    if !CanFit(s) then s
    else s.(view := Fit(s.view, s.canvasW, s.canvasH, s.imageW, s.imageH))
  }

  /** The canvas centre `(canvas_width / 2, canvas_height / 2)`. */
  function CentreX(s: CanvasState): real {
    s.canvasW as real / 2.0
  }

  function CentreY(s: CanvasState): real {
    s.canvasH as real / 2.0
  }

  /**
   * `_update_scale`: scale becomes base scale times zoom. With a positive previous scale the
   * offsets move so that the image point under the canvas centre stays there (stated
   * cross-multiplied, so it also covers a zero new scale); otherwise the image is refitted.
   */
  function UpdateScale(s: CanvasState): (r: CanvasState)
    ensures r == s.(view := r.view) && r.view.zoom == s.view.zoom
    ensures s.view.scale > 0.0 ==> r.view.scale == s.view.baseScale * s.view.zoom && r.view.baseScale == s.view.baseScale
    ensures s.view.scale > 0.0 ==>
      (CentreX(s) - r.view.offsetX) * s.view.scale == (CentreX(s) - s.view.offsetX) * r.view.scale
    ensures s.view.scale > 0.0 ==>
      (CentreY(s) - r.view.offsetY) * s.view.scale == (CentreY(s) - s.view.offsetY) * r.view.scale
    ensures s.view.scale <= 0.0 && CanFit(s) ==> Centred(r.view, s.canvasW, s.canvasH, s.imageW, s.imageH)
  {
    var prev := s.view.scale;
    var scale := s.view.baseScale * s.view.zoom;
    if prev > 0.0 then
      var ratio := scale / prev;
      var cx := CentreX(s);
      var cy := CentreY(s);
      assert ratio * prev == scale;
      assert (cx - s.view.offsetX) * ratio * prev == (cx - s.view.offsetX) * scale;
      assert (cy - s.view.offsetY) * ratio * prev == (cy - s.view.offsetY) * scale;
      s.(view := s.view.(scale := scale,
                         offsetX := cx - (cx - s.view.offsetX) * ratio,
                         offsetY := cy - (cy - s.view.offsetY) * ratio))
    else
      FitImageToCanvas(s.(view := s.view.(scale := scale)))
  }

  /** With both scales positive, the image point shown at the canvas centre is the same before and after. */
  lemma CentreStaysPut(s: CanvasState)
    requires s.view.scale > 0.0 && s.view.baseScale * s.view.zoom != 0.0
    ensures ImageX(UpdateScale(s).view, CentreX(s)) == ImageX(s.view, CentreX(s))
    ensures ImageY(UpdateScale(s).view, CentreY(s)) == ImageY(s.view, CentreY(s))
  {
    var r := UpdateScale(s).view;
    var a := CentreX(s) - r.offsetX;
    var b := CentreX(s) - s.view.offsetX;
    assert a * s.view.scale == b * r.scale;
    assert a / r.scale == b / s.view.scale by {
      assert a / r.scale * r.scale * s.view.scale == b * r.scale;
      assert a / r.scale * s.view.scale == b;
    }
    var c := CentreY(s) - r.offsetY;
    var d := CentreY(s) - s.view.offsetY;
    assert c * s.view.scale == d * r.scale;
    assert c / r.scale == d / s.view.scale by {
      assert c / r.scale * r.scale * s.view.scale == d * r.scale;
      assert c / r.scale * s.view.scale == d;
    }
  }

  /** `zoom_in(factor)`: zoom capped at 5, then `_update_scale`. */
  function ZoomIn(s: CanvasState, factor: real): (r: CanvasState)
    ensures r.view.zoom <= MaxZoom
    ensures MinZoom <= s.view.zoom <= MaxZoom && factor >= 1.0 ==> MinZoom <= r.view.zoom <= MaxZoom
    ensures s.view.scale > 0.0 ==>
      (CentreX(s) - r.view.offsetX) * s.view.scale == (CentreX(s) - s.view.offsetX) * r.view.scale
    ensures Positive(s.view) && factor > 0.0 ==> Positive(r.view)
  {
    var z := ZoomedIn(s.view.zoom, factor);
    assert s.view.zoom > 0.0 && factor > 0.0 ==> z > 0.0 by {
      if s.view.zoom > 0.0 && factor > 0.0 {
        assert s.view.zoom * factor > 0.0;
      }
    }
    var t := s.(view := s.view.(zoom := z));
    assert Positive(s.view) && z > 0.0 ==> t.view.baseScale * z > 0.0;
    UpdateScale(t)
  }

  /** `zoom_out(factor)`: zoom floored at 0.1, then `_update_scale`. */
  function ZoomOut(s: CanvasState, factor: real): (r: CanvasState)
    requires factor != 0.0
    ensures r.view.zoom >= MinZoom
    ensures MinZoom <= s.view.zoom <= MaxZoom && factor >= 1.0 ==> MinZoom <= r.view.zoom <= MaxZoom
    ensures s.view.scale > 0.0 ==>
      (CentreX(s) - r.view.offsetX) * s.view.scale == (CentreX(s) - s.view.offsetX) * r.view.scale
    ensures Positive(s.view) ==> Positive(r.view)
  {
    var z := ZoomedOut(s.view.zoom, factor);
    var t := s.(view := s.view.(zoom := z));
    assert Positive(s.view) ==> t.view.baseScale * z > 0.0;
    UpdateScale(t)
  }

  /** `reset_zoom`: zoom back to 1, so the scale returns to the fitted base scale. */
  function ResetZoom(s: CanvasState): (r: CanvasState)
    ensures r.view.zoom == 1.0
    ensures s.view.scale > 0.0 ==> r.view.scale == r.view.baseScale
    ensures s.view.scale > 0.0 ==>
      (CentreX(s) - r.view.offsetX) * s.view.scale == (CentreX(s) - s.view.offsetX) * r.view.scale
    ensures Positive(s.view) ==> Positive(r.view)
  {
    UpdateScale(s.(view := s.view.(zoom := 1.0)))
  }

  /** `get_zoom_percentage`: `int(zoom_level * 100)`. */
  function ZoomPercentage(s: CanvasState): (r: int)
    ensures TruncOf(r, s.view.zoom * 100.0)
    ensures MinZoom <= s.view.zoom <= MaxZoom ==> 10 <= r <= 500
  {
    TruncIsTruncOf(s.view.zoom * 100.0);
    Trunc(s.view.zoom * 100.0)
  }

  /** `start_pan`. */
  function StartPan(s: CanvasState, x: real, y: real): (r: CanvasState)
    ensures r.panning && IsInteracting(r) && r.panStartX == x && r.panStartY == y
    ensures r.view == s.view
  {
    s.(panning := true, panStartX := x, panStartY := y)
  }

  /**
   * `update_pan`: only while panning, the offsets move by the pointer's movement since
   * the last event, which becomes the new reference point.
   */
  function UpdatePan(s: CanvasState, x: real, y: real): (r: CanvasState)
    ensures !s.panning ==> r == s
    ensures s.panning ==> r.view.offsetX - s.view.offsetX == x - s.panStartX
    ensures s.panning ==> r.view.offsetY - s.view.offsetY == y - s.panStartY
    ensures s.panning ==> r.view.scale == s.view.scale && r.panStartX == x && r.panStartY == y
    ensures s.panning ==> r.(view := s.view, panStartX := s.panStartX, panStartY := s.panStartY) == s
  {
    if !s.panning then s
    else
      s.(view := s.view.(offsetX := s.view.offsetX + (x - s.panStartX),
                         offsetY := s.view.offsetY + (y - s.panStartY)),
         panStartX := x, panStartY := y)
  }

  /** The image follows the pointer: intermediate motion events do not change where a pan ends. */
  lemma PanFollowsPointer(s: CanvasState, x1: real, y1: real, x2: real, y2: real)
    requires s.panning
    ensures UpdatePan(UpdatePan(s, x1, y1), x2, y2) == UpdatePan(s, x2, y2)
  {
  }

  /** `end_pan`. */
  function EndPan(s: CanvasState): (r: CanvasState)
    ensures !r.panning && r.(panning := s.panning) == s
  {
    s.(panning := false)
  }

  /** `start_drag`. */
  function StartDrag(s: CanvasState, x: real, y: real): (r: CanvasState)
    ensures r.dragging && IsInteracting(r) && r.dragStartX == x && r.dragStartY == y
    ensures r.view == s.view
  {
    s.(dragging := true, dragStartX := x, dragStartY := y)
  }

  /** `start_resize`: the handle, the pointer and the box's geometry at the start are recorded. */
  function StartResize(s: CanvasState, x: real, y: real, handle: Option<Handle>, b: Box): (r: CanvasState)
    ensures r.resizing && IsInteracting(r) && r.handle == handle
    ensures r.dragStartX == x && r.dragStartY == y
    ensures r.boxStartX == b.x && r.boxStartY == b.y && r.boxStartW == b.width && r.boxStartH == b.height
    ensures r.view == s.view
  {
    s.(resizing := true, handle := handle, dragStartX := x, dragStartY := y,
       boxStartX := b.x, boxStartY := b.y, boxStartW := b.width, boxStartH := b.height)
  }

  /** `start_box_creation`. */
  function StartBoxCreation(s: CanvasState, x: real, y: real): (r: CanvasState)
    ensures r.creating && IsInteracting(r) && r.dragStartX == x && r.dragStartY == y
    ensures r.view == s.view
  {
    s.(creating := true, dragStartX := x, dragStartY := y)
  }

  /** `end_interactions`: no gesture remains and no handle is held; the view is untouched. */
  function EndInteractions(s: CanvasState): (r: CanvasState)
    ensures !IsInteracting(r) && r.handle.None?
    ensures r.view == s.view && r.canvasW == s.canvasW && r.canvasH == s.canvasH
  {
    s.(dragging := false, resizing := false, panning := false, creating := false, handle := None)
  }

  /** Once the gestures are ended, pointer motion no longer pans. */
  lemma NoPanAfterEnd(s: CanvasState, x: real, y: real)
    ensures UpdatePan(EndInteractions(s), x, y) == EndInteractions(s)
    ensures UpdatePan(EndPan(s), x, y) == EndPan(s)
  {
  }

  /** `BoxInteractionManager`: the canvas state, the box list and the selected position. */
  datatype Manager = Manager(canvas: CanvasState, boxes: seq<Box>, selected: Option<nat>)

  predicate Valid(m: Manager) {
    InRange(m.boxes, m.selected)
  }

  /** `set_boxes`: the list is replaced and nothing is selected; the boxes keep their flags. */
  function SetBoxes(m: Manager, boxes: seq<Box>): (r: Manager)
    ensures r.boxes == boxes && r.selected.None? && r.canvas == m.canvas
    ensures Valid(r)
  {
    Manager(m.canvas, boxes, None)
  }

  /** `find_box_at_point`: the first box, in list order, holding the truncated image point. */
  function FindBoxAtPoint(m: Manager, cx: real, cy: real): (r: Option<nat>)
    requires m.canvas.view.scale != 0.0
    ensures var p := CanvasToImage(m.canvas.view, cx, cy);
            && (r.Some? ==> r.value < |m.boxes| && ContainsPoint(m.boxes[r.value], p.0 as real, p.1 as real))
            && (r.Some? ==> forall j :: 0 <= j < r.value ==> !ContainsPoint(m.boxes[j], p.0 as real, p.1 as real))
            && (r.None? <==> forall j :: 0 <= j < |m.boxes| ==> !ContainsPoint(m.boxes[j], p.0 as real, p.1 as real))
  {
    var p := CanvasToImage(m.canvas.view, cx, cy);
    FirstBoxAt(m.boxes, p.0, p.1)
  }

  /** `find_resize_handle`: no box, no handle; otherwise the handle test on the box as drawn. */
  function FindResizeHandle(m: Manager, cx: real, cy: real, b: Option<Box>): (r: Option<Handle>)
    ensures b.None? ==> r.None?
    ensures b.Some? && r.Some? ==> OnHandle(CanvasBox(m.canvas.view, b.value), r.value, cx, cy, HandleSize)
    ensures b.Some? && r.None? ==> forall h :: !OnHandle(CanvasBox(m.canvas.view, b.value), h, cx, cy, HandleSize)
  {
    if b.None? then None else HandleAt(m.canvas.view, b.value, cx, cy)
  }

  /** `select_box`: the flag moves from the previously selected box to the new one. */
  function SelectBox(m: Manager, sel: Option<nat>): (r: Manager)
    requires Valid(m) && InRange(m.boxes, sel)
    ensures r.selected == sel && r.canvas == m.canvas && Valid(r)
    ensures SameButFlags(r.boxes, m.boxes)
    ensures FlagsMatch(m.boxes, m.selected) ==> FlagsMatch(r.boxes, sel)
  {
    assert FlagsMatch(m.boxes, m.selected) ==> FlagsMatch(Reselect(m.boxes, m.selected, sel), sel) by {
      if FlagsMatch(m.boxes, m.selected) {
        ReselectKeepsFlags(m.boxes, m.selected, sel);
      }
    }
    Manager(m.canvas, Reselect(m.boxes, m.selected, sel), sel)
  }

  /**
   * `delete_selected_box`: with a selection, exactly that box leaves the list (the others
   * keep their order) and nothing is selected; without one, nothing changes.
   */
  function DeleteSelectedBox(m: Manager): (r: Manager)
    requires Valid(m)
    ensures m.selected.None? ==> r == m
    ensures m.selected.Some? ==> r.boxes == RemoveAt(m.boxes, m.selected.value) && r.selected.None?
    ensures m.selected.Some? ==> multiset(r.boxes) + multiset{m.boxes[m.selected.value]} == multiset(m.boxes)
    ensures r.canvas == m.canvas && Valid(r)
    ensures FlagsMatch(m.boxes, m.selected) ==> FlagsMatch(r.boxes, r.selected)
  {
    match m.selected
    case None => m
    case Some(i) =>
      assert m.boxes == m.boxes[..i] + [m.boxes[i]] + m.boxes[i + 1..];
      assert FlagsMatch(m.boxes, m.selected) ==> FlagsMatch(RemoveAt(m.boxes, i), None) by {
        if FlagsMatch(m.boxes, m.selected) {
          RemoveSelectedClearsFlags(m.boxes, i);
        }
      }
      Manager(m.canvas, RemoveAt(m.boxes, i), None)
  }

  /** What `create_box` does: reject a small drag, fail on an empty class table, or add a box. */
  datatype Creation = TooSmall | NoClasses | Created(manager: Manager, box: Box)

  /** The rectangle a creation drag spans in (truncated) image coordinates. */
  function DragRect(v: View, sx: real, sy: real, ex: real, ey: real): (r: Rect)
    requires v.scale != 0.0
    ensures var a := CanvasToImage(v, sx, sy);
            var b := CanvasToImage(v, ex, ey);
            r == Spanned(a.0, a.1, b.0, b.1)
  {
    var a := CanvasToImage(v, sx, sy);
    var b := CanvasToImage(v, ex, ey);
    Spanned(a.0, a.1, b.0, b.1)
  }

  /** The name `create_box` gives: the first class with the id, else `"unknown"`. */
  function CreatedName(classes: seq<ClassDef>, id: int): (r: string)
    ensures FindClass(classes, id).Some? ==> r == FindClass(classes, id).value.name
    ensures FindClass(classes, id).None? ==> r == "unknown"
  {
    match FindClass(classes, id)
    case Some(c) => c.name
    case None => "unknown"
  }

  /** `boxes.append(box)` followed by `select_box(box)`. */
  function AppendSelected(m: Manager, b: Box): (r: Manager)
    requires Valid(m)
    ensures |r.boxes| == |m.boxes| + 1 && r.boxes[|m.boxes|] == b.(selected := true)
    ensures r.selected == Some(|m.boxes|) && r.canvas == m.canvas && Valid(r)
    ensures SameButFlags(r.boxes[..|m.boxes|], m.boxes)
    ensures FlagsMatch(m.boxes, m.selected) && !b.selected ==> FlagsMatch(r.boxes, r.selected)
  {
    var added := Manager(m.canvas, m.boxes + [b], m.selected);
    var r := SelectBox(added, Some(|m.boxes|));
    assert SameButFlags(r.boxes[..|m.boxes|], m.boxes) by {
      forall k | 0 <= k < |m.boxes| ensures r.boxes[k] == m.boxes[k].(selected := r.boxes[k].selected) {
        assert added.boxes[k] == m.boxes[k];
      }
    }
    assert FlagsMatch(m.boxes, m.selected) && !b.selected ==> FlagsMatch(added.boxes, m.selected);
    r
  }

  /**
   * `create_box`: a drag shorter than 10 image pixels on either axis makes nothing (10
   * itself is enough); an empty class table raises `IndexError`; otherwise the new box
   * spans the drag, takes the first class no box uses yet (else the first class), is
   * appended and becomes the selection.
   */
  function CreateBox(m: Manager, sx: real, sy: real, ex: real, ey: real, classes: seq<ClassDef>): (r: Creation)
    requires m.canvas.view.scale != 0.0 && Valid(m)
    ensures var rect := DragRect(m.canvas.view, sx, sy, ex, ey);
            r.TooSmall? <==> rect.width < 10 || rect.height < 10
    ensures var rect := DragRect(m.canvas.view, sx, sy, ex, ey);
            r.NoClasses? <==> rect.width >= 10 && rect.height >= 10 && |classes| == 0
    ensures r.Created? ==>
      var rect := DragRect(m.canvas.view, sx, sy, ex, ey);
      && r.box.x == rect.x as real && r.box.y == rect.y as real
      && r.box.width == rect.width as real && r.box.height == rect.height as real
      && r.box.width >= 10.0 && r.box.height >= 10.0
      && r.box.ocrText == "" && r.box.selected
      && FindClass(classes, r.box.classId).Some?
      && r.box.name == FindClass(classes, r.box.classId).value.name
    ensures r.Created? && (exists j :: 0 <= j < |classes| && classes[j].id !in UsedIds(m.boxes)) ==>
      r.box.classId !in UsedIds(m.boxes)
    ensures r.Created? && (forall j :: 0 <= j < |classes| ==> classes[j].id in UsedIds(m.boxes)) ==>
      r.box.classId == classes[0].id
    ensures r.Created? ==> NewBoxClass(classes, UsedIds(m.boxes)) == Some(r.box.classId)
    ensures r.Created? ==>
      && |r.manager.boxes| == |m.boxes| + 1
      && r.manager.boxes[|m.boxes|] == r.box
      && r.manager.selected == Some(|m.boxes|)
      && SameButFlags(r.manager.boxes[..|m.boxes|], m.boxes)
      && r.manager.canvas == m.canvas
    ensures r.Created? && FlagsMatch(m.boxes, m.selected) ==> FlagsMatch(r.manager.boxes, r.manager.selected)
  {
    var rect := DragRect(m.canvas.view, sx, sy, ex, ey);
    if rect.width < 10 || rect.height < 10 then TooSmall
    else
      match NewBoxClass(classes, UsedIds(m.boxes))
      case None => NoClasses
      case Some(cid) =>
        var b := NewBox(rect.x as real, rect.y as real, rect.width as real, rect.height as real,
                        cid, "", Some(CreatedName(classes, cid)));
        var r := AppendSelected(m, b);
        Created(r, r.boxes[|m.boxes|])
  }

  /** `update_box_position`: the drag step, with the canvas delta divided by the scale. */
  function UpdateBoxPosition(m: Manager, i: nat, cdx: real, cdy: real): (r: Manager)
    requires i < |m.boxes| && m.canvas.view.scale != 0.0
    ensures |r.boxes| == |m.boxes| && r.selected == m.selected && r.canvas == m.canvas
    ensures r.boxes[i].x >= 0.0 && r.boxes[i].y >= 0.0
    ensures r.boxes[i].x == NonNeg(m.canvas.boxStartX + cdx / m.canvas.view.scale)
    ensures r.boxes[i].y == NonNeg(m.canvas.boxStartY + cdy / m.canvas.view.scale)
    ensures r.boxes[i].width == m.boxes[i].width && r.boxes[i].height == m.boxes[i].height
    ensures forall k :: 0 <= k < |m.boxes| && k != i ==> r.boxes[k] == m.boxes[k]
  {
    var s := m.canvas;
    m.(boxes := m.boxes[i := Drag(m.boxes[i], s.boxStartX, s.boxStartY, cdx / s.view.scale, cdy / s.view.scale)])
  }

  /** `update_box_size`: the resize step; every other box is left alone. */
  function UpdateBoxSize(m: Manager, i: nat, cdx: real, cdy: real, handle: Option<Handle>): (r: Manager)
    requires i < |m.boxes| && m.canvas.view.scale != 0.0
    ensures |r.boxes| == |m.boxes| && r.selected == m.selected && r.canvas == m.canvas
    ensures r.boxes[i].width >= MinSide && r.boxes[i].height >= MinSide
    ensures forall k :: 0 <= k < |m.boxes| && k != i ==> r.boxes[k] == m.boxes[k]
    ensures handle == Some(E) && m.boxes[i].height >= MinSide ==>
      r.boxes[i].(width := m.boxes[i].width) == m.boxes[i]
    ensures handle == Some(S) && m.boxes[i].width >= MinSide ==>
      r.boxes[i].(height := m.boxes[i].height) == m.boxes[i]
    ensures handle == Some(SE) ==> r.boxes[i].x == m.boxes[i].x && r.boxes[i].y == m.boxes[i].y
    ensures r.boxes[i] == Resize(m.boxes[i], handle, m.canvas.boxStartX, m.canvas.boxStartY, m.canvas.boxStartW,
                                 m.canvas.boxStartH, cdx / m.canvas.view.scale, cdy / m.canvas.view.scale)
  {
    var s := m.canvas;
    m.(boxes := m.boxes[i := Resize(m.boxes[i], handle, s.boxStartX, s.boxStartY, s.boxStartW, s.boxStartH,
                                     cdx / s.view.scale, cdy / s.view.scale)])
  }
}

=== FILE: canvas_widget.dfy ===
/**
 * The live pointer and keyboard handlers of `ImageCanvas`, as transition functions over
 * the widget's fields. They repeat the arithmetic of `CanvasState` and
 * `BoxInteractionManager` but differ from them in two places: a new box needs both
 * extents strictly above 10, and zooming refits and recentres the image.
 */
module CanvasWidget {
  import opened Common
  import opened Boxes
  import opened Classes
  import opened ViewTransform
  import opened Selection
  import CanvasLogic

  /** Pixbuf sizes are always at least one pixel. */
  type Dim = n: int | n > 0 witness 1

  datatype ImageSize = ImageSize(width: Dim, height: Dim)

  /**
   * The fields of `ImageCanvas` the handlers read and write. `image` is `None` while no
   * pixbuf is loaded; the canvas size is what `get_width()`/`get_height()` report.
   */
  datatype Widget = Widget(
    image: Option<ImageSize>, canvasW: int, canvasH: int, classes: seq<ClassDef>,
    boxes: seq<Box>, selected: Option<nat>, view: View,
    panning: bool, dragging: bool, resizing: bool, creating: bool, handle: Option<Handle>,
    panStartX: real, panStartY: real, dragStartX: real, dragStartY: real,
    boxStartX: real, boxStartY: real, boxStartW: real, boxStartH: real)

  /** The selection points into the list and the view can be inverted. */
  predicate Valid(w: Widget) {
    InRange(w.boxes, w.selected) && Positive(w.view)
  }

  /** `ImageCanvas(class_config)`: no image, no boxes, unit view, no gesture. */
  function NewWidget(classes: seq<ClassDef>, cw: int, ch: int): (w: Widget)
    ensures Valid(w) && w.image.None? && w.boxes == [] && w.selected.None? && w.view == Initial
    ensures !w.panning && !w.dragging && !w.resizing && !w.creating
  {
    Widget(None, cw, ch, classes, [], None, Initial, false, false, false, false, None,
           0.0, 0.0, 0.0, 0.0, 0.0, 0.0, 0.0, 0.0)
  }

  /** Whether `fit_image` gets past its guards: an image is loaded and the canvas has a size. */
  predicate CanFit(w: Widget) {
    w.image.Some? && w.canvasW > 0 && w.canvasH > 0
  }

  /** `fit_image`: with an image and a sized canvas, base scale from the sizes and the image centred. */
  function FitImage(w: Widget): (r: Widget)
    ensures !CanFit(w) ==> r == w
    ensures r == w.(view := r.view) && r.view.zoom == w.view.zoom
    ensures CanFit(w) ==> r.view.baseScale <= 1.0 && r.view.scale == r.view.baseScale * w.view.zoom
    ensures CanFit(w) ==> Centred(r.view, w.canvasW, w.canvasH, w.image.value.width, w.image.value.height)
    ensures Positive(w.view) ==> Positive(r.view)
  {
    if !CanFit(w) then w
    else w.(view := Fit(w.view, w.canvasW, w.canvasH, w.image.value.width, w.image.value.height))
  }

  /** `zoom_in`: zoom times 1.25 capped at 5, then a refit that recentres the image. */
  function ZoomIn(w: Widget): (r: Widget)
    ensures r.view.zoom <= MaxZoom
    ensures MinZoom <= w.view.zoom ==> MinZoom <= r.view.zoom
    ensures CanFit(w) ==> Centred(r.view, w.canvasW, w.canvasH, w.image.value.width, w.image.value.height)
    ensures !CanFit(w) ==> r.view == w.view.(zoom := r.view.zoom)
    ensures Positive(w.view) ==> Positive(r.view)
    ensures r.boxes == w.boxes && r.selected == w.selected
  {
    var z := ZoomedIn(w.view.zoom, ZoomStep);
    assert w.view.zoom > 0.0 ==> z > 0.0;
    FitImage(w.(view := w.view.(zoom := z)))
  }

  /** `zoom_out`: zoom divided by 1.25 with a floor of 0.1, then a refit that recentres the image. */
  function ZoomOut(w: Widget): (r: Widget)
    ensures r.view.zoom >= MinZoom
    ensures w.view.zoom <= MaxZoom ==> r.view.zoom <= MaxZoom
    ensures CanFit(w) ==> Centred(r.view, w.canvasW, w.canvasH, w.image.value.width, w.image.value.height)
    ensures !CanFit(w) ==> r.view == w.view.(zoom := r.view.zoom)
    ensures Positive(w.view) ==> Positive(r.view)
    ensures r.boxes == w.boxes && r.selected == w.selected
  {
    var z := ZoomedOut(w.view.zoom, ZoomStep);
    assert w.view.zoom <= MaxZoom ==> z <= MaxZoom by {
      if w.view.zoom <= MaxZoom {
        if z != MinZoom {
          DivFacts(w.view.zoom, ZoomStep);
        }
      }
    }
    FitImage(w.(view := w.view.(zoom := z)))
  }

  /** `reset_zoom`: zoom 1 and a refit. */
  function ResetZoom(w: Widget): (r: Widget)
    ensures r.view.zoom == 1.0
    ensures CanFit(w) ==> r.view.scale == r.view.baseScale
    ensures CanFit(w) ==> Centred(r.view, w.canvasW, w.canvasH, w.image.value.width, w.image.value.height)
    ensures Positive(w.view) ==> Positive(r.view)
    ensures r.boxes == w.boxes && r.selected == w.selected
  {
    FitImage(w.(view := w.view.(zoom := 1.0)))
  }

  /** `set_boxes`: every box is renamed from the class table and nothing is selected. */
  function SetBoxes(w: Widget, boxes: seq<Box>): (r: Widget)
    ensures |r.boxes| == |boxes| && r.selected.None?
    ensures forall i :: 0 <= i < |boxes| ==> r.boxes[i] == boxes[i].(name := ClassName(w.classes, boxes[i].classId))
    ensures r.view == w.view && r.classes == w.classes
    ensures Positive(w.view) ==> Valid(r)
  {
    var named := seq(|boxes|, i requires 0 <= i < |boxes| => boxes[i].(name := ClassName(w.classes, boxes[i].classId)));
    w.(boxes := named, selected := None)
  }

  /** The handle of the selected box under the pointer, if any. */
  function SelectedHandle(w: Widget, x: real, y: real): (r: Option<Handle>)
    requires InRange(w.boxes, w.selected)
    ensures w.selected.None? ==> r.None?
    ensures w.selected.Some? ==> r == HandleAt(w.view, w.boxes[w.selected.value], x, y)
  {
    if w.selected.None? then None else HandleAt(w.view, w.boxes[w.selected.value], x, y)
  }

  /** The primary-button press once the handle test has failed: select and drag, or start a new box. */
  function PressOnBoxes(w: Widget, x: real, y: real): (r: Widget)
    requires Valid(w)
    ensures Valid(r) && SameButFlags(r.boxes, w.boxes) && r.view == w.view
    ensures var p := CanvasToImage(w.view, x, y);
            r.selected == FirstBoxAt(w.boxes, p.0, p.1)
    ensures r.selected.Some? ==> r.dragging && r.boxStartX == w.boxes[r.selected.value].x
    ensures r.selected.Some? ==> r.boxStartY == w.boxes[r.selected.value].y
    ensures r.selected.None? ==> r.creating
    ensures r.dragStartX == x && r.dragStartY == y && r.resizing == w.resizing
    ensures FlagsMatch(w.boxes, w.selected) ==> FlagsMatch(r.boxes, r.selected)
  {
    var p := CanvasToImage(w.view, x, y);
    var hit := FirstBoxAt(w.boxes, p.0, p.1);
    assert FlagsMatch(w.boxes, w.selected) ==> FlagsMatch(Reselect(w.boxes, w.selected, hit), hit) by {
      if FlagsMatch(w.boxes, w.selected) {
        ReselectKeepsFlags(w.boxes, w.selected, hit);
      }
    }
    match hit
    case Some(i) =>
      w.(boxes := Reselect(w.boxes, w.selected, hit), selected := hit, dragging := true,
         dragStartX := x, dragStartY := y, boxStartX := w.boxes[i].x, boxStartY := w.boxes[i].y)
    case None =>
      w.(boxes := Reselect(w.boxes, w.selected, None), selected := None, creating := true,
         dragStartX := x, dragStartY := y)
  }

  /**
   * `on_click_pressed`. Without an image nothing happens. The middle button (2) only
   * starts a pan. Otherwise a handle of the selected box, tested in canvas space, starts a
   * resize and beats the box hit test; failing that, the first box under the pointer
   * becomes the only selected box and a drag starts, or, over empty canvas, the selection
   * is cleared and a new box is started.
   */
  function OnClickPressed(w: Widget, button: int, x: real, y: real): (r: Widget)
    requires Valid(w)
    ensures Valid(r) && r.view == w.view
    ensures w.image.None? ==> r == w
    ensures w.image.Some? && button == 2 ==>
      r == w.(panning := true, panStartX := x, panStartY := y)
    ensures w.image.Some? && button != 2 && SelectedHandle(w, x, y).Some? ==>
      && r.boxes == w.boxes && r.selected == w.selected
      && r.resizing && r.handle == SelectedHandle(w, x, y)
      && r.boxStartX == w.boxes[w.selected.value].x && r.boxStartY == w.boxes[w.selected.value].y
      && r.boxStartW == w.boxes[w.selected.value].width && r.boxStartH == w.boxes[w.selected.value].height
    ensures w.image.Some? && button != 2 && SelectedHandle(w, x, y).None? ==> r == PressOnBoxes(w, x, y)
    ensures FlagsMatch(w.boxes, w.selected) ==> FlagsMatch(r.boxes, r.selected)
  {
    if w.image.None? then w
    else if button == 2 then w.(panning := true, panStartX := x, panStartY := y)
    else
      var h := SelectedHandle(w, x, y);
      if h.Some? then
        var b := w.boxes[w.selected.value];
        w.(resizing := true, handle := h, dragStartX := x, dragStartY := y,
           boxStartX := b.x, boxStartY := b.y, boxStartW := b.width, boxStartH := b.height)
      else PressOnBoxes(w, x, y)
  }

  /** The resets at the end of `on_click_released`. */
  function EndGestures(w: Widget): (r: Widget)
    ensures !r.creating && !r.dragging && !r.resizing && r.handle.None?
    ensures r.boxes == w.boxes && r.selected == w.selected && r.view == w.view && r.panning == w.panning
  {
    w.(creating := false, dragging := false, resizing := false, handle := None)
  }

  /** The image-space rectangle of the creation drag that ends at `(x, y)`. */
  function ReleaseRect(w: Widget, x: real, y: real): (r: Rect)
    requires w.view.scale != 0.0
    ensures r == CanvasLogic.DragRect(w.view, w.dragStartX, w.dragStartY, x, y)
  {
    CanvasLogic.DragRect(w.view, w.dragStartX, w.dragStartY, x, y)
  }

  /** The box the widget adds: the class's name, already flagged as selected. */
  function AddDrawn(w: Widget, rect: Rect, cid: int): (r: Widget)
    requires Valid(w)
    ensures Valid(r) && |r.boxes| == |w.boxes| + 1 && r.selected == Some(|w.boxes|)
    ensures var b := r.boxes[|w.boxes|];
            && b.x == rect.x as real && b.y == rect.y as real
            && b.width == rect.width as real && b.height == rect.height as real
            && b.classId == cid && b.ocrText == "" && b.selected && b.name == ClassName(w.classes, cid)
    ensures SameButFlags(r.boxes[..|w.boxes|], w.boxes)
    ensures FlagsMatch(w.boxes, w.selected) ==> FlagsMatch(r.boxes, r.selected)
    ensures r.view == w.view && r.creating == w.creating
  {
    var b := NewBox(rect.x as real, rect.y as real, rect.width as real, rect.height as real,
                    cid, "", Some(ClassName(w.classes, cid))).(selected := true);
    var cleared := Reselect(w.boxes, w.selected, None);
    var boxes := cleared + [b];
    assert SameButFlags(boxes[..|w.boxes|], w.boxes) by {
      assert boxes[..|w.boxes|] == cleared;
    }
    w.(boxes := boxes, selected := Some(|w.boxes|))
  }

  /**
   * `on_click_released`. Panning always stops. A creation drag whose image-space extents
   * both exceed 10 adds a box of the first unused class, flagged and selected; then every
   * gesture flag and the handle are cleared. With an empty class table the lookup raises
   * `IndexError` after the pan flag is cleared, and the handler stops there.
   */
  function OnClickReleased(w: Widget, x: real, y: real): (r: Widget)
    requires Valid(w)
    ensures Valid(r) && !r.panning && r.view == w.view
    ensures !w.creating ==> r == EndGestures(w.(panning := false))
    ensures w.creating && (ReleaseRect(w, x, y).width <= 10 || ReleaseRect(w, x, y).height <= 10) ==>
      r == EndGestures(w.(panning := false))
    ensures w.creating && ReleaseRect(w, x, y).width > 10 && ReleaseRect(w, x, y).height > 10 && |w.classes| == 0 ==>
      r == w.(panning := false)
    ensures w.creating && ReleaseRect(w, x, y).width > 10 && ReleaseRect(w, x, y).height > 10 && |w.classes| > 0 ==>
      && !r.creating && !r.dragging && !r.resizing && r.handle.None?
      && |r.boxes| == |w.boxes| + 1 && r.selected == Some(|w.boxes|)
      && SameButFlags(r.boxes[..|w.boxes|], w.boxes)
      && Some(r.boxes[|w.boxes|].classId) == NewBoxClass(w.classes, UsedIds(w.boxes))
    ensures FlagsMatch(w.boxes, w.selected) ==> FlagsMatch(r.boxes, r.selected)
  {
    var w1 := w.(panning := false);
    if !w.creating then EndGestures(w1)
    else
      var rect := ReleaseRect(w, x, y);
      if rect.width > 10 && rect.height > 10 then
        match NewBoxClass(w.classes, UsedIds(w.boxes))
        case None => w1
        case Some(cid) => EndGestures(AddDrawn(w1, rect, cid))
      else EndGestures(w1)
  }

  /**
   * `on_motion`. A pan moves the offsets by the pointer's movement. Otherwise, with a box
   * selected, a drag moves it to the start position plus the image-space delta, floored
   * at zero, and a resize applies the handle's formula and the 10-pixel minimum.
   */
  function OnMotion(w: Widget, x: real, y: real): (r: Widget)
    requires Valid(w)
    ensures Valid(r) && |r.boxes| == |w.boxes| && r.selected == w.selected
    ensures w.panning ==> r.boxes == w.boxes
    ensures w.panning ==> r.view.offsetX - w.view.offsetX == x - w.panStartX && r.panStartX == x
    ensures w.panning ==> r.view.offsetY - w.view.offsetY == y - w.panStartY && r.panStartY == y
    ensures !w.panning ==> r.view == w.view
    ensures !w.panning && w.dragging && w.selected.Some? ==>
      var i := w.selected.value;
      && r.boxes[i].x == NonNeg(w.boxStartX + (x - w.dragStartX) / w.view.scale)
      && r.boxes[i].y == NonNeg(w.boxStartY + (y - w.dragStartY) / w.view.scale)
      && r.boxes[i].width == w.boxes[i].width && r.boxes[i].height == w.boxes[i].height
    ensures !w.panning && !w.dragging && w.resizing && w.selected.Some? ==>
      r.boxes[w.selected.value].width >= MinSide && r.boxes[w.selected.value].height >= MinSide
    ensures !w.panning && !w.dragging && w.resizing && w.selected.Some? ==>
      r.boxes[w.selected.value] == Resize(w.boxes[w.selected.value], w.handle, w.boxStartX, w.boxStartY,
                                          w.boxStartW, w.boxStartH, (x - w.dragStartX) / w.view.scale,
                                          (y - w.dragStartY) / w.view.scale)
    ensures !w.panning && w.selected.Some? ==>
      forall k :: 0 <= k < |w.boxes| && k != w.selected.value ==> r.boxes[k] == w.boxes[k]
    ensures w.selected.None? || (!w.dragging && !w.resizing) ==> r.boxes == w.boxes
    ensures FlagsMatch(w.boxes, w.selected) ==> FlagsMatch(r.boxes, r.selected)
  {
    if w.panning then
      w.(view := w.view.(offsetX := w.view.offsetX + (x - w.panStartX),
                         offsetY := w.view.offsetY + (y - w.panStartY)),
         panStartX := x, panStartY := y)
    else if w.selected.None? then w
    else
      var i := w.selected.value;
      var dx := (x - w.dragStartX) / w.view.scale;
      var dy := (y - w.dragStartY) / w.view.scale;
      if w.dragging then
        w.(boxes := w.boxes[i := Drag(w.boxes[i], w.boxStartX, w.boxStartY, dx, dy)])
      else if w.resizing then
        w.(boxes := w.boxes[i := Resize(w.boxes[i], w.handle, w.boxStartX, w.boxStartY,
                                         w.boxStartW, w.boxStartH, dx, dy)])
      else w
  }

  /** The keys `on_key_pressed` tells apart; `Other` carries any other key value. */
  datatype Key = Delete | Plus | Equal | Minus | Zero | Tab | Escape | Other(keyval: int)

  /** Delete with a box selected: that box leaves the list and nothing is selected. */
  function DeleteSelected(w: Widget): (r: Widget)
    requires Valid(w) && w.selected.Some?
    ensures Valid(r) && r.boxes == RemoveAt(w.boxes, w.selected.value) && r.selected.None?
    ensures multiset(r.boxes) + multiset{w.boxes[w.selected.value]} == multiset(w.boxes)
    ensures FlagsMatch(w.boxes, w.selected) ==> FlagsMatch(r.boxes, r.selected)
  {
    var i := w.selected.value;
    assert w.boxes == w.boxes[..i] + [w.boxes[i]] + w.boxes[i + 1..];
    assert FlagsMatch(w.boxes, w.selected) ==> FlagsMatch(RemoveAt(w.boxes, i), None) by {
      if FlagsMatch(w.boxes, w.selected) {
        RemoveSelectedClearsFlags(w.boxes, i);
      }
    }
    w.(boxes := RemoveAt(w.boxes, i), selected := None)
  }

  /** Moves the selection and its flag to `sel`. */
  function MoveSelection(w: Widget, sel: Option<nat>): (r: Widget)
    requires Valid(w) && InRange(w.boxes, sel)
    ensures Valid(r) && r.selected == sel && SameButFlags(r.boxes, w.boxes) && r.view == w.view
    ensures FlagsMatch(w.boxes, w.selected) ==> FlagsMatch(r.boxes, r.selected)
  {
    assert FlagsMatch(w.boxes, w.selected) ==> FlagsMatch(Reselect(w.boxes, w.selected, sel), sel) by {
      if FlagsMatch(w.boxes, w.selected) {
        ReselectKeepsFlags(w.boxes, w.selected, sel);
      }
    }
    w.(boxes := Reselect(w.boxes, w.selected, sel), selected := sel)
  }

  /** A class key with a box selected: the box takes the first bound class's id and name. */
  function Reclass(w: Widget, keyvalOf: string -> Option<int>, keyval: int): (r: (Widget, bool))
    requires Valid(w) && w.selected.Some?
    ensures Valid(r.0) && r.0.selected == w.selected && |r.0.boxes| == |w.boxes|
    ensures r.1 <==> KeyClass(w.classes, keyvalOf, keyval).Some?
    ensures !r.1 ==> r.0 == w
    ensures r.1 ==>
      var c := w.classes[KeyClass(w.classes, keyvalOf, keyval).value];
      var i := w.selected.value;
      && r.0.boxes[i] == w.boxes[i].(classId := c.id, name := c.name)
      && forall k :: 0 <= k < |w.boxes| && k != i ==> r.0.boxes[k] == w.boxes[k]
    ensures FlagsMatch(w.boxes, w.selected) ==> FlagsMatch(r.0.boxes, r.0.selected)
  {
    match KeyClass(w.classes, keyvalOf, keyval)
    case None => (w, false)
    case Some(c) =>
      var i := w.selected.value;
      (w.(boxes := w.boxes[i := w.boxes[i].(classId := w.classes[c].id, name := w.classes[c].name)]), true)
  }

  /**
   * `on_key_pressed`, returning whether the key was handled. Delete removes the selected
   * box; +, = and - zoom; 0 resets the zoom; Tab moves the selection one place round the
   * list (to the first box from no selection); Escape clears the selection; any other key,
   * with a box selected, gives that box the first class bound to the key. Unhandled keys
   * change nothing.
   */
  function OnKeyPressed(w: Widget, key: Key, keyvalOf: string -> Option<int>): (r: (Widget, bool))
    requires Valid(w)
    ensures Valid(r.0)
    ensures !r.1 ==> r.0 == w
    ensures key == Delete && w.selected.Some? ==> r == (DeleteSelected(w), true)
    ensures key in {Plus, Equal} ==> r == (ZoomIn(w), true)
    ensures key == Minus ==> r == (ZoomOut(w), true)
    ensures key == Zero ==> r == (ResetZoom(w), true)
    ensures key == Tab && |w.boxes| > 0 ==> r == (MoveSelection(w, Some(NextIndex(w.selected, |w.boxes|))), true)
    ensures key == Tab && |w.boxes| == 0 ==> r == (w, true)
    ensures key == Escape ==> r.1 && r.0.selected.None? && SameButFlags(r.0.boxes, w.boxes)
    ensures (key == Delete || key.Other?) && w.selected.None? ==> r == (w, false)
    ensures key.Other? && w.selected.Some? ==> r == Reclass(w, keyvalOf, key.keyval)
    ensures FlagsMatch(w.boxes, w.selected) ==> FlagsMatch(r.0.boxes, r.0.selected)
  {
    match key
    case Delete => if w.selected.Some? then (DeleteSelected(w), true) else (w, false)
    case Plus => (ZoomIn(w), true)
    case Equal => (ZoomIn(w), true)
    case Minus => (ZoomOut(w), true)
    case Zero => (ResetZoom(w), true)
    case Tab =>
      if |w.boxes| == 0 then (w, true)
      else (MoveSelection(w, Some(NextIndex(w.selected, |w.boxes|))), true)
    case Escape =>
      if w.selected.Some? then (MoveSelection(w, None), true) else (w, true)
    case Other(k) =>
      if w.selected.None? then (w, false) else Reclass(w, keyvalOf, k)
  }

  /** `on_scroll`: scrolling up zooms in, down zooms out; the event is always handled. */
  function OnScroll(w: Widget, dy: real): (r: Widget)
    ensures dy < 0.0 ==> r == ZoomIn(w)
    ensures dy > 0.0 ==> r == ZoomOut(w)
    ensures dy == 0.0 ==> r == w
    ensures r.boxes == w.boxes && r.selected == w.selected
    ensures Positive(w.view) ==> Positive(r.view)
  {
    if dy < 0.0 then ZoomIn(w) else if dy > 0.0 then ZoomOut(w) else w
  }

  /**
   * The two creation rules disagree on a drag of exactly 10 image pixels: the manager
   * creates the box, the widget does not.
   */
  lemma CreationThresholdsDisagree(w: Widget, m: CanvasLogic.Manager, x: real, y: real)
    requires Valid(w) && w.creating && |w.classes| > 0
    requires CanvasLogic.Valid(m) && m.canvas.view == w.view
    requires ReleaseRect(w, x, y).width == 10 && ReleaseRect(w, x, y).height >= 10
    ensures |OnClickReleased(w, x, y).boxes| == |w.boxes|
    ensures CanvasLogic.CreateBox(m, w.dragStartX, w.dragStartY, x, y, w.classes).Created?
  {
  }

  /**
   * The two zoom rules disagree after a pan: on a 100x100 canvas showing a 100x100 image
   * panned 10 pixels right, zooming in keeps the centre point in the manager (left offset
   * 0) but recentres the enlarged image in the widget (left offset -12.5).
   */
  lemma ZoomRulesDisagree()
    ensures var v := View(1.0, 1.0, 1.0, 10.0, 0.0);
            var s := CanvasLogic.NewCanvasState().(view := v, canvasW := 100, canvasH := 100, imageW := 100, imageH := 100);
            var w := NewWidget([], 100, 100).(image := Some(ImageSize(100, 100)), view := v);
            && CanvasLogic.ZoomIn(s, ZoomStep).view.offsetX == 0.0
            && ZoomIn(w).view.offsetX == -12.5
  {
    var v := View(1.0, 1.0, 1.0, 10.0, 0.0);
    var s := CanvasLogic.NewCanvasState().(view := v, canvasW := 100, canvasH := 100, imageW := 100, imageH := 100);
    var w := NewWidget([], 100, 100).(image := Some(ImageSize(100, 100)), view := v);
    assert ZoomedIn(1.0, ZoomStep) == 1.25;
    assert FitScale(100, 100, 100, 100) == 1.0;
  }
}

=== FILE: classes.dfy ===
/** The class table every part of the editor consults: lookup by id, names, first unused id. */
module Classes {
  import opened Common
  import opened Boxes

  /**
   * One entry of `class_config["classes"]`. Optional keys of the JSON entry are `Option`s;
   * `required` is the truthiness of `cls.get("required", False)`.
   */
  datatype ClassDef = ClassDef(
    id: int, name: string, key: string,
    fieldType: Option<string>, regexPattern: Option<string>, tesseractConfig: Option<string>,
    required: bool)

  /** The position of the first class with id `id`, as the source's `for cls in ...` loops find it. */
  function ClassIndex(classes: seq<ClassDef>, id: int): (r: Option<nat>)
    ensures r.Some? ==> r.value < |classes| && classes[r.value].id == id
    ensures r.Some? ==> forall j :: 0 <= j < r.value ==> classes[j].id != id
    ensures r.None? ==> forall j :: 0 <= j < |classes| ==> classes[j].id != id
  {
    if |classes| == 0 then None
    else if classes[0].id == id then Some(0)
    else
      var rest := ClassIndex(classes[1..], id);
      if rest.Some? then Some(rest.value + 1) else None
  }

  /** `get_class_by_id` / `_get_class_info`. */
  function FindClass(classes: seq<ClassDef>, id: int): (r: Option<ClassDef>)
    ensures r.Some? ==> r.value in classes && r.value.id == id
    ensures r.None? <==> forall c :: c in classes ==> c.id != id
  {
    var i := ClassIndex(classes, id);
    if i.Some? then Some(classes[i.value]) else None
  }

  /** `get_class_name`: the first matching class's name, else `class_<id>`. */
  function ClassName(classes: seq<ClassDef>, id: int): (r: string)
    ensures FindClass(classes, id).Some? ==> r == FindClass(classes, id).value.name
    ensures FindClass(classes, id).None? ==> r == DefaultName(id)
  {
    match FindClass(classes, id)
    case Some(c) => c.name
    case None => DefaultName(id)
  }

  function Ids(classes: seq<ClassDef>): (r: seq<int>)
    ensures |r| == |classes| && forall i :: 0 <= i < |classes| ==> r[i] == classes[i].id
  {
    seq(|classes|, i requires 0 <= i < |classes| => classes[i].id)
  }

  function UsedIds(boxes: seq<Box>): (r: seq<int>)
    ensures |r| == |boxes| && forall i :: 0 <= i < |boxes| ==> r[i] == boxes[i].classId
  {
    seq(|boxes|, i requires 0 <= i < |boxes| => boxes[i].classId)
  }

  /** The position of the first configured id that no box uses yet. */
  function FirstUnusedIndex(ids: seq<int>, used: seq<int>): (r: Option<nat>)
    ensures r.Some? ==> r.value < |ids| && ids[r.value] !in used
    ensures r.Some? ==> forall j :: 0 <= j < r.value ==> ids[j] in used
    ensures r.None? ==> forall j :: 0 <= j < |ids| ==> ids[j] in used
  {
    if |ids| == 0 then None
    else if ids[0] !in used then Some(0)
    else
      var rest := FirstUnusedIndex(ids[1..], used);
      if rest.Some? then Some(rest.value + 1) else None
  }

  /**
   * The class a new box gets: the first configured id that no box uses, else the first
   * configured id. `None` stands for the `IndexError` the source raises with no classes.
   */
  function FirstUnusedClass(ids: seq<int>, used: seq<int>): (r: Option<int>)
    ensures r.None? <==> |ids| == 0
    ensures r.Some? ==> r.value in ids
    ensures r.Some? && (exists j :: 0 <= j < |ids| && ids[j] !in used) ==> r.value !in used
    ensures r.Some? && (forall j :: 0 <= j < |ids| ==> ids[j] in used) ==> r.value == ids[0]
    ensures FirstUnusedIndex(ids, used).Some? ==> r == Some(ids[FirstUnusedIndex(ids, used).value])
  {
    if |ids| == 0 then None
    else
      match FirstUnusedIndex(ids, used)
      case Some(i) => Some(ids[i])
      case None => Some(ids[0])
  }

  /**
   * The class a newly drawn box gets, by position in the class table: the first class
   * whose id no box uses, else the first class; `None` for an empty table.
   */
  function NewBoxClass(classes: seq<ClassDef>, used: seq<int>): (r: Option<int>)
    ensures r.None? <==> |classes| == 0
    ensures r.Some? ==> FindClass(classes, r.value).Some?
    ensures r.Some? && (exists j :: 0 <= j < |classes| && classes[j].id !in used) ==> r.value !in used
    ensures r.Some? && (forall j :: 0 <= j < |classes| ==> classes[j].id in used) ==> r.value == classes[0].id
    ensures r.Some? && (exists j :: 0 <= j < |classes| && classes[j].id !in used) ==>
      exists i :: 0 <= i < |classes| && classes[i].id == r.value && classes[i].id !in used &&
        forall j :: 0 <= j < i ==> classes[j].id in used
  {
    var ids := Ids(classes);
    var r := FirstUnusedClass(ids, used);
    var first := FirstUnusedIndex(ids, used);
    assert first.Some? ==> forall j :: 0 <= j < first.value ==> classes[j].id in used by {
      if first.Some? {
        forall j | 0 <= j < first.value ensures classes[j].id in used {
          assert ids[j] == classes[j].id;
        }
      }
    }
    assert r.Some? ==> FindClass(classes, r.value).Some? by {
      if r.Some? {
        var j :| 0 <= j < |ids| && ids[j] == r.value;
        assert classes[j] in classes && classes[j].id == r.value;
      }
    }
    assert (exists j :: 0 <= j < |classes| && classes[j].id !in used) ==> exists j :: 0 <= j < |ids| && ids[j] !in used;
    r
  }

  /** The first class whose `key` names the pressed key; `keyvalOf` is the toolkit's name table. */
  function KeyClass(classes: seq<ClassDef>, keyvalOf: string -> Option<int>, keyval: int): (r: Option<nat>)
    ensures r.Some? ==> r.value < |classes| && keyvalOf(classes[r.value].key) == Some(keyval)
    ensures r.Some? ==> forall j :: 0 <= j < r.value ==> keyvalOf(classes[j].key) != Some(keyval)
    ensures r.None? ==> forall j :: 0 <= j < |classes| ==> keyvalOf(classes[j].key) != Some(keyval)
  {
    if |classes| == 0 then None
    else if keyvalOf(classes[0].key) == Some(keyval) then Some(0)
    else
      var rest := KeyClass(classes[1..], keyvalOf, keyval);
      assert forall j :: 1 <= j < |classes| ==> classes[j] == classes[1..][j - 1];
      if rest.Some? then Some(rest.value + 1) else None
  }
}

=== FILE: common.dfy ===
/** Option values and the small real-number helpers every other module uses. */
module Common {

  /** The conventional Some/None datatype, standing for Python's `None`-or-value. */
  datatype Option<+T> = None | Some(value: T) {
    function GetOr(default: T): T {
      match this
      case Some(v) => v
      case None => default
    }
  }

  function Abs(x: real): (r: real)
    ensures r >= 0.0
    ensures r == x || r == -x
  {
    if x < 0.0 then -x else x
  }

  function MinR(a: real, b: real): (r: real)
    ensures r <= a && r <= b
    ensures r == a || r == b
  {
    if a <= b then a else b
  }

  function MaxR(a: real, b: real): (r: real)
    ensures r >= a && r >= b
    ensures r == a || r == b
  {
    if a >= b then a else b
  }

  function MinI(a: int, b: int): (r: int)
    ensures r <= a && r <= b
    ensures r == a || r == b
  {
    if a <= b then a else b
  }

  function MaxI(a: int, b: int): (r: int)
    ensures r >= a && r >= b
    ensures r == a || r == b
  {
    if a >= b then a else b
  }

  /** Python's `int(x)` on a float: truncation toward zero. */
  function Trunc(x: real): (r: int)
    ensures x >= 0.0 ==> r as real <= x < r as real + 1.0
    ensures x < 0.0 ==> r as real - 1.0 < x <= r as real
  {
    if x >= 0.0 then x.Floor else -((-x).Floor)
  }

  /** A real with no fractional part, as Python's int-valued coordinates are. */
  predicate IsIntegral(x: real) {
    x == x.Floor as real
  }

  lemma TruncIntegral(i: int)
    ensures Trunc(i as real) == i
  {
  }

  /** Python's `list.remove` of the element at position `i` (elements are compared by identity). */
  function RemoveAt<T>(s: seq<T>, i: nat): (r: seq<T>)
    requires i < |s|
    ensures |r| == |s| - 1
    ensures forall k :: 0 <= k < i ==> r[k] == s[k]
    ensures forall k :: i <= k < |r| ==> r[k] == s[k + 1]
  {
    s[..i] + s[i + 1..]
  }
}

=== FILE: dat_codec.dfy ===
/**
 * The DAT annotation format: one box per line, `<class_id> <x> <y> <w> <h> #<ocr text>`,
 * lines joined by CR LF, ASCII only. `DATParser.parse_dat_file` and `save_dat_file`.
 */
module DatCodec {
  import opened Common
  import opened Text
  import opened PyNumbers
  import opened Sorting
  import opened Boxes

  predicate IsLineBreak(c: char) {
    c == '\n' || c == '\r'
  }

  predicate NoLineBreak(s: string) {
    forall i :: 0 <= i < |s| ==> !IsLineBreak(s[i])
  }

  /** The length of the leading run of characters that end no line. */
  function LineEnd(s: string): (r: nat)
    ensures r <= |s|
  {
    if |s| == 0 || IsLineBreak(s[0]) then 0 else 1 + LineEnd(s[1..])
  }

  /** The run found ends at the first terminator, or at the end of the text. */
  lemma {:induction false} LineEndFirstBreak(s: string)
    ensures NoLineBreak(s[..LineEnd(s)])
    ensures LineEnd(s) < |s| ==> IsLineBreak(s[LineEnd(s)])
    decreases |s|
  {
    if |s| > 0 && !IsLineBreak(s[0]) {
      LineEndFirstBreak(s[1..]);
      assert s[..LineEnd(s)] == [s[0]] + s[1..][..LineEnd(s[1..])];
    }
  }

  /**
   * The lines `for line in f` yields from a text-mode file: `\n`, `\r` and `\r\n` all end
   * a line (universal newlines). Terminators are dropped here; the reader strips them anyway.
   */
  function SplitLines(s: string): (r: seq<string>)
    decreases |s|
  {
    if |s| == 0 then []
    else
      var e := LineEnd(s);
      [s[..e]] + SplitLines(s[e + Terminator(s, e)..])
  }

  /** The length of the terminator at `e`: none at the end of the text, two for CR LF, else one. */
  function Terminator(s: string, e: nat): (r: nat)
    requires e <= |s|
    ensures e + r <= |s|
    ensures e < |s| ==> r >= 1
  {
    if e == |s| then 0
    else if s[e] == '\r' && e + 1 < |s| && s[e + 1] == '\n' then 2
    else 1
  }

  /** `line.split(' ', 1)`, or `line.split('\t', 1)` when there is no space: class-id text and rest. */
  function SplitField(t: string): (r: Option<(string, string)>)
    ensures r.None? <==> ' ' !in t && '\t' !in t
    ensures r.Some? && ' ' in t ==> t == r.value.0 + " " + r.value.1 && ' ' !in r.value.0
    ensures r.Some? && ' ' !in t ==> t == r.value.0 + "\t" + r.value.1 && '\t' !in r.value.0
  {
    var sp := Find(t, ' ');
    if sp < |t| then
      assert t == t[..sp] + " " + t[sp + 1..];
      Some((t[..sp], t[sp + 1..]))
    else
      var tab := Find(t, '\t');
      if tab < |t| then
        assert t == t[..tab] + "\t" + t[tab + 1..];
        Some((t[..tab], t[tab + 1..]))
      else None
  }

  /** `s.split('#', 1)` when `'#' in s`, else the whole text and no OCR text. */
  function SplitHash(s: string): (r: (string, string))
    ensures '#' !in r.0
    ensures '#' in s ==> s == r.0 + "#" + r.1
    ensures '#' !in s ==> r == (s, "")
  {
    var h := Find(s, '#');
    if h < |s| then
      assert s == s[..h] + "#" + s[h + 1..];
      (s[..h], s[h + 1..])
    else (s, "")
  }

  /** What one coordinate token, or one line, does to the parse. */
  datatype CoordOutcome = Coords(values: seq<int>) | SkipLine | AbortParse

  /** The index of the first value that is not a finite number. */
  function FirstNonFinite(fs: seq<FloatLit>): (r: nat)
    ensures r <= |fs|
    ensures forall j :: 0 <= j < r ==> fs[j].Finite?
    ensures r < |fs| ==> !fs[r].Finite?
  {
    if |fs| == 0 || !fs[0].Finite? then 0 else 1 + FirstNonFinite(fs[1..])
  }

  /**
   * `int(float(tok))` for the tokens in order, given their `float` values. `float`
   * failing or `int(nan)` raise `ValueError`, which skips the line; `int(inf)` raises
   * `OverflowError`, which nothing in the reader catches short of the handler around the
   * whole file.
   */
  function ParseCoords(fs: seq<FloatLit>): (r: CoordOutcome)
    ensures r.Coords? ==> |r.values| == |fs|
    ensures r.Coords? ==> forall k :: 0 <= k < |fs| ==> fs[k].Finite? && r.values[k] == Trunc(fs[k].value)
  {
    if |fs| == 0 then Coords([])
    else
      match fs[0]
      case Finite(v) =>
        (match ParseCoords(fs[1..])
         case Coords(vs) => Coords([Trunc(v)] + vs)
         case other => other)
      case Infinite => AbortParse
      case NaN => SkipLine
      case NotANumberText => SkipLine
  }

  /**
   * The first value that is not a finite number decides the outcome: an infinity aborts
   * the parse, a NaN or unreadable text skips the line; with none, every value is kept.
   */
  lemma {:induction false} FirstFailureDecides(fs: seq<FloatLit>)
    ensures ParseCoords(fs).Coords? <==> FirstNonFinite(fs) == |fs|
    ensures ParseCoords(fs).AbortParse? <==> FirstNonFinite(fs) < |fs| && fs[FirstNonFinite(fs)].Infinite?
    decreases |fs|
  {
    if |fs| > 0 && fs[0].Finite? {
      FirstFailureDecides(fs[1..]);
      var n := FirstNonFinite(fs[1..]);
      if n < |fs[1..]| {
        assert fs[1..][n] == fs[n + 1];
      }
    }
  }

  /** What one line does: contributes nothing, ends the parse, or contributes a box. */
  datatype LineOutcome = Skip | Stop | Entry(box: Box)

  /** A box as the reader builds it: integer coordinates, default name, not selected. */
  predicate FreshlyRead(b: Box) {
    && !b.selected && b.name == DefaultName(b.classId)
    && IsIntegral(b.x) && IsIntegral(b.y) && IsIntegral(b.width) && IsIntegral(b.height)
  }

  /**
   * One line of the reader's loop. A class id `int()` rejects raises `ValueError`
   * outside the coordinate `try`, so it ends the whole parse.
   */
  function ParseLine(line: string): (r: LineOutcome)
    ensures |Strip(line)| == 0 ==> r == Skip
    ensures ' ' !in Strip(line) && '\t' !in Strip(line) ==> r == Skip
    ensures r.Entry? ==> FreshlyRead(r.box)
    ensures r.Entry? && '#' !in Strip(line) ==> r.box.ocrText == ""
    ensures r.Entry? && '#' in Strip(line) ==>
      Strip(line) == Strip(line)[..Find(Strip(line), '#')] + "#" + r.box.ocrText
  {
    var t := Strip(line);
    if |t| == 0 then Skip else ParseFields(t)
  }

  /** The stripped, non-empty line: class id field first, then the record. */
  function ParseFields(t: string): (r: LineOutcome)
    ensures ' ' !in t && '\t' !in t ==> r == Skip
    ensures r.Entry? ==> FreshlyRead(r.box)
    ensures r.Entry? && '#' !in t ==> r.box.ocrText == ""
    ensures r.Entry? && '#' in t ==> t == t[..Find(t, '#')] + "#" + r.box.ocrText
  {
    match SplitField(t)
    case None => Skip
    case Some((idText, rest)) =>
      match ParseInt(idText)
      case None => Stop
      case Some(cid) =>
        ParseIntChars(idText);
        var r := ParseRecord(cid, rest);
        OcrAfterFirstHash(t, idText, if ' ' in t then " " else "\t", rest);
        r
  }

  /** The text after the class id: coordinates, then the OCR text after the first `#`. */
  function ParseRecord(cid: int, rest: string): (r: LineOutcome)
    ensures r.Entry? ==> FreshlyRead(r.box) && r.box.classId == cid
    ensures r.Entry? ==> r.box.ocrText == SplitHash(rest).1
  {
    var (coordText, ocr) := SplitHash(rest);
    RecordOf(cid, SplitWs(Strip(coordText)), ocr)
  }

  /** The coordinate tokens: at least four, the first four read with `float(tok)`. */
  function RecordOf(cid: int, coords: seq<string>, ocr: string): (r: LineOutcome)
    ensures |coords| < 4 ==> r == Skip
    ensures r.Entry? ==> FreshlyRead(r.box) && r.box.classId == cid && r.box.ocrText == ocr
  {
    if |coords| < 4 then Skip
    else BoxFrom(cid, [ParseFloat(coords[0]), ParseFloat(coords[1]), ParseFloat(coords[2]), ParseFloat(coords[3])], ocr)
  }

  /** The box from the four coordinates' `float` values, each truncated with `int()`. */
  function BoxFrom(cid: int, fs: seq<FloatLit>, ocr: string): (r: LineOutcome)
    requires |fs| == 4
    ensures r.Entry? ==> FreshlyRead(r.box) && r.box.classId == cid && r.box.ocrText == ocr
    ensures r.Entry? ==> forall k :: 0 <= k < 4 ==> fs[k].Finite?
  {
    match ParseCoords(fs)
    case SkipLine => Skip
    case AbortParse => Stop
    case Coords(v) => Entry(NewBox(v[0] as real, v[1] as real, v[2] as real, v[3] as real, cid, ocr, None))
  }

  /** The OCR text the reader keeps is everything after the line's first `#`. */
  lemma OcrAfterFirstHash(t: string, idText: string, sep: string, rest: string)
    requires t == idText + sep + rest && (sep == " " || sep == "\t")
    requires forall k :: 0 <= k < |idText| ==> IsNumeralChar(idText[k])
    ensures '#' !in t ==> SplitHash(rest).1 == ""
    ensures '#' in t ==> t == t[..Find(t, '#')] + "#" + SplitHash(rest).1
  {
    var head := idText + sep;
    NumeralsThenSeparator(idText, sep);
    if '#' in rest {
      var (coordText, ocr) := SplitHash(rest);
      HashAfterPrefix(head, coordText, ocr);
      assert t == head + (coordText + "#" + ocr);
    } else {
      assert forall k :: 0 <= k < |t| ==> t[k] != '#' by {
        forall k | 0 <= k < |t| ensures t[k] != '#' {
          if k >= |head| {
            assert t[k] == rest[k - |head|];
          } else {
            assert t[k] == head[k];
          }
        }
      }
    }
  }

  lemma NumeralsThenSeparator(idText: string, sep: string)
    requires forall k :: 0 <= k < |idText| ==> IsNumeralChar(idText[k])
    requires sep == " " || sep == "\t"
    ensures forall k :: 0 <= k < |idText + sep| ==> (idText + sep)[k] != '#'
  {
    var head := idText + sep;
    forall k | 0 <= k < |head| ensures head[k] != '#' {
      if k < |idText| {
        assert head[k] == idText[k];
        assert IsNumeralChar(idText[k]);
      } else {
        assert head[k] == sep[0];
      }
    }
  }

  lemma HashAfterPrefix(head: string, mid: string, ocr: string)
    requires forall k :: 0 <= k < |head| ==> head[k] != '#'
    requires '#' !in mid
    ensures var t := head + (mid + "#" + ocr); Find(t, '#') == |head| + |mid| && t == t[..Find(t, '#')] + "#" + ocr
  {
    var pre := head + mid;
    assert '#' !in pre by {
      forall k | 0 <= k < |pre| ensures pre[k] != '#' {
        if k >= |head| {
          assert pre[k] == mid[k - |head|];
        }
      }
    }
    FindAppend(pre, "#" + ocr, '#');
    assert head + (mid + "#" + ocr) == pre + ("#" + ocr);
    assert (pre + ("#" + ocr))[..|pre|] == pre;
  }

  /** What each line does, in order. */
  function Outcomes(lines: seq<string>): (r: seq<LineOutcome>)
    ensures |r| == |lines|
    ensures forall k :: 0 <= k < |lines| ==> r[k] == ParseLine(lines[k])
  {
    seq(|lines|, k requires 0 <= k < |lines| => ParseLine(lines[k]))
  }

  /** The reader's loop: boxes of the entries up to the first line that ends the parse. */
  function Collect(outs: seq<LineOutcome>): (r: seq<Box>)
    ensures |r| <= |outs|
    ensures forall k :: 0 <= k < |r| ==> Entry(r[k]) in outs
  {
    if |outs| == 0 then []
    else
      match outs[0]
      case Skip => Collect(outs[1..])
      case Stop => []
      case Entry(b) => [b] + Collect(outs[1..])
  }

  /**
   * `parse_dat_file` on the file's text. Decoding as ASCII fails on any other character,
   * and the handler around the whole read then returns the empty list.
   */
  function ParseDat(content: string): (r: seq<Box>)
    ensures !AllAscii(content) ==> r == []
    ensures forall k :: 0 <= k < |r| ==> FreshlyRead(r[k])
  {
    if AllAscii(content) then
      var outs := Outcomes(SplitLines(content));
      CollectFresh(outs);
      Collect(outs)
    else []
  }

  /** Boxes collected from freshly read entries are freshly read. */
  lemma CollectFresh(outs: seq<LineOutcome>)
    requires forall k :: 0 <= k < |outs| && outs[k].Entry? ==> FreshlyRead(outs[k].box)
    ensures forall k :: 0 <= k < |Collect(outs)| ==> FreshlyRead(Collect(outs)[k])
  {
    var r := Collect(outs);
    forall k | 0 <= k < |r| ensures FreshlyRead(r[k]) {
      var j :| 0 <= j < |outs| && outs[j] == Entry(r[k]);
    }
  }

  predicate NoStop(outs: seq<LineOutcome>) {
    forall k :: 0 <= k < |outs| ==> !outs[k].Stop?
  }

  lemma {:induction false} CollectAppend(a: seq<LineOutcome>, b: seq<LineOutcome>)
    requires NoStop(a)
    ensures Collect(a + b) == Collect(a) + Collect(b)
    decreases |a|
  {
    if |a| > 0 {
      assert (a + b)[1..] == a[1..] + b;
      assert (a + b)[0] == a[0];
      CollectAppend(a[1..], b);
    } else {
      assert a + b == b;
    }
  }

  /** A line that ends the parse keeps the boxes of the lines before it and drops the rest. */
  lemma StopKeepsEarlierBoxes(before: seq<LineOutcome>, after: seq<LineOutcome>)
    requires NoStop(before)
    ensures Collect(before + [Stop] + after) == Collect(before)
  {
    CollectAppend(before, [Stop] + after);
    assert before + [Stop] + after == before + ([Stop] + after);
  }

  /** A skipped line contributes nothing and the parse goes on after it. */
  lemma SkipContinues(before: seq<LineOutcome>, after: seq<LineOutcome>)
    requires NoStop(before)
    ensures Collect(before + [Skip] + after) == Collect(before) + Collect(after)
  {
    CollectAppend(before, [Skip] + after);
    assert before + [Skip] + after == before + ([Skip] + after);
    assert ([Skip] + after)[1..] == after;
  }

  // ---------------------------------------------------------------- writing

  /** The six typographic replacements `save_dat_file` makes before dropping non-ASCII. */
  function Typographic(s: string): string {
    var s1 := Replace(s, "‘", "'");
    var s2 := Replace(s1, "’", "'");
    var s3 := Replace(s2, "“", "\"");
    var s4 := Replace(s3, "”", "\"");
    var s5 := Replace(s4, "ﬂ", "fl");
    Replace(s5, "ﬁ", "fi")
  }

  /** The OCR text as written: typographic replacements, then `encode('ascii', 'ignore')`. */
  function Sanitize(s: string): (r: string)
    ensures AllAscii(r)
  {
    Filter(Typographic(s), IsAscii)
  }

  /** Reference meaning of `Sanitize`, one character at a time. */
  function SanitizeChar(c: char): string {
    if c == '‘' || c == '’' then "'"
    else if c == '“' || c == '”' then "\""
    else if c == 'ﬂ' then "fl"
    else if c == 'ﬁ' then "fi"
    else if IsAscii(c) then [c]
    else ""
  }

  function SanitizeRef(s: string): string
    decreases |s|
  {
    if |s| == 0 then "" else SanitizeChar(s[0]) + SanitizeRef(s[1..])
  }

  lemma ReplaceCharSingle(c: char, p: char, repl: string)
    ensures Replace([c], [p], repl) == if c == p then repl else [c]
  {
    assert [c][1..] == [];
  }

  lemma {:induction false} ReplaceCharAbsent(s: string, p: char, repl: string)
    requires p !in s
    ensures Replace(s, [p], repl) == s
    decreases |s|
  {
    if |s| > 0 {
      assert !StartsWith(s, [p]) by {
        assert s[0] != p;
      }
      ReplaceCharAbsent(s[1..], p, repl);
      assert s == [s[0]] + s[1..];
    }
  }

  lemma SanitizeOne(c: char)
    ensures Sanitize([c]) == SanitizeChar(c)
  {
    var d1 := if c == '‘' then '\'' else c;
    ReplaceCharSingle(c, '‘', "'");
    var d2 := if d1 == '’' then '\'' else d1;
    ReplaceCharSingle(d1, '’', "'");
    var d3 := if d2 == '“' then '"' else d2;
    ReplaceCharSingle(d2, '“', "\"");
    var d4 := if d3 == '”' then '"' else d3;
    ReplaceCharSingle(d3, '”', "\"");
    ReplaceCharSingle(d4, 'ﬂ', "fl");
    var s5 := Replace([d4], "ﬂ", "fl");
    if d4 == 'ﬂ' {
      ReplaceCharAbsent("fl", 'ﬁ', "fi");
    } else {
      ReplaceCharSingle(d4, 'ﬁ', "fi");
    }
    var t := Typographic([c]);
    assert t == SanitizeChar(c) || (t == [c] && !IsAscii(c)) || t == "fi" || t == "fl";
    if t == [c] && !IsAscii(c) {
      assert Filter(t, IsAscii) == Filter(t[1..], IsAscii);
    } else {
      FilterAll(t, IsAscii);
    }
  }

  lemma SanitizeAppend(a: string, b: string)
    ensures Sanitize(a + b) == Sanitize(a) + Sanitize(b)
  {
    ReplaceCharAppend(a, b, '‘', "'");
    var a1, b1 := Replace(a, "‘", "'"), Replace(b, "‘", "'");
    ReplaceCharAppend(a1, b1, '’', "'");
    var a2, b2 := Replace(a1, "’", "'"), Replace(b1, "’", "'");
    ReplaceCharAppend(a2, b2, '“', "\"");
    var a3, b3 := Replace(a2, "“", "\""), Replace(b2, "“", "\"");
    ReplaceCharAppend(a3, b3, '”', "\"");
    var a4, b4 := Replace(a3, "”", "\""), Replace(b3, "”", "\"");
    ReplaceCharAppend(a4, b4, 'ﬂ', "fl");
    var a5, b5 := Replace(a4, "ﬂ", "fl"), Replace(b4, "ﬂ", "fl");
    ReplaceCharAppend(a5, b5, 'ﬁ', "fi");
    assert Typographic(a + b) == Typographic(a) + Typographic(b);
    FilterAppend(Typographic(a), Typographic(b), IsAscii);
  }

  /** The replacement chain and the ASCII filter together are the per-character table. */
  lemma {:induction false} SanitizeIsTable(s: string)
    ensures Sanitize(s) == SanitizeRef(s)
    decreases |s|
  {
    if |s| == 0 {
      assert Typographic(s) == "";
    } else {
      assert s == [s[0]] + s[1..];
      SanitizeAppend([s[0]], s[1..]);
      SanitizeOne(s[0]);
      SanitizeIsTable(s[1..]);
    }
  }

  lemma {:induction false} SanitizeRefAscii(s: string)
    requires AllAscii(s)
    ensures SanitizeRef(s) == s
    decreases |s|
  {
    if |s| > 0 {
      assert IsAscii(s[0]);
      SanitizeRefAscii(s[1..]);
      assert s == [s[0]] + s[1..];
    }
  }

  /** ASCII text is written unchanged. */
  lemma SanitizeKeepsAscii(s: string)
    requires AllAscii(s)
    ensures Sanitize(s) == s
  {
    SanitizeIsTable(s);
    SanitizeRefAscii(s);
  }

  /** Sanitizing twice is sanitizing once. */
  lemma SanitizeIdempotent(s: string)
    ensures Sanitize(Sanitize(s)) == Sanitize(s)
  {
    SanitizeKeepsAscii(Sanitize(s));
  }

  lemma {:induction false} SanitizeRefNoLineBreak(s: string)
    requires NoLineBreak(s)
    ensures NoLineBreak(SanitizeRef(s))
    decreases |s|
  {
    if |s| > 0 {
      SanitizeRefNoLineBreak(s[1..]);
      var head := SanitizeChar(s[0]);
      assert NoLineBreak(head) by {
        assert !IsLineBreak(s[0]);
      }
      var r := SanitizeRef(s);
      assert r == head + SanitizeRef(s[1..]);
      forall i | 0 <= i < |r| ensures !IsLineBreak(r[i]) {
        if i >= |head| {
          assert r[i] == SanitizeRef(s[1..])[i - |head|];
        }
      }
    }
  }

  /** Sanitizing never introduces a line break, so each box stays on its own line. */
  lemma SanitizeNoLineBreak(s: string)
    requires NoLineBreak(s)
    ensures NoLineBreak(Sanitize(s))
  {
    SanitizeIsTable(s);
    SanitizeRefNoLineBreak(s);
  }

  function ClassKey(b: Box): Key {
    KInt(b.classId)
  }

  /** `sorted(boxes, key=lambda b: b.class_id)`. */
  function ByClass(boxes: seq<Box>): (r: seq<Box>)
    ensures multiset(r) == multiset(boxes) && |r| == |boxes|
    ensures SortedBy(r, ClassKey, false)
  {
    SortByIsSorted(boxes, ClassKey, false);
    SortByPermutes(boxes, ClassKey, false);
    SortBy(boxes, ClassKey, false)
  }

  /** The four coordinates of a line, separated by single spaces. */
  function CoordText(x: string, y: string, w: string, h: string): string {
    x + " " + (y + " " + (w + " " + h))
  }

  /**
   * One line of the file after the class id. `fmt` is Python's `str()` on a coordinate,
   * which prints `12` for an int and the shortest round-tripping decimal, such as `12.5`,
   * for a float.
   */
  function FormatRecord(b: Box, fmt: real -> string): string {
    CoordText(fmt(b.x), fmt(b.y), fmt(b.width), fmt(b.height)) + " #" + Sanitize(b.ocrText)
  }

  /** `f"{class_id} {x} {y} {width} {height} #{ocr_text}"`. */
  function FormatLine(b: Box, fmt: real -> string): string {
    IntToString(b.classId) + " " + FormatRecord(b, fmt)
  }

  function FormatLines(boxes: seq<Box>, fmt: real -> string): (r: seq<string>)
    ensures |r| == |boxes|
    ensures forall k :: 0 <= k < |boxes| ==> r[k] == FormatLine(boxes[k], fmt)
  {
    seq(|boxes|, k requires 0 <= k < |boxes| => FormatLine(boxes[k], fmt))
  }

  /** `save_dat_file`'s text: the boxes by class id, one line each, joined by CR LF. */
  function SerializeDat(boxes: seq<Box>, fmt: real -> string): (r: string)
    ensures |boxes| == 0 <==> r == ""
  {
    var lines := FormatLines(ByClass(boxes), fmt);
    assert |boxes| > 0 ==> |Join(lines, "\r\n")| >= |lines[0]| > 0 by {
      if |boxes| > 0 {
        JoinStartsWithFirst(lines, "\r\n");
      }
    }
    Join(lines, "\r\n")
  }

  lemma {:induction false} JoinStartsWithFirst(parts: seq<string>, sep: string)
    requires |parts| > 0
    ensures |Join(parts, sep)| >= |parts[0]|
  {
  }

  // ---------------------------------------------------------------- the round trip

  /** The writer prints `v` as one whitespace-free ASCII token without `#` that reads back as `v`. */
  predicate PrintsExactly(fmt: real -> string, v: real) {
    var t := fmt(v);
    IsToken(t) && '#' !in t && AllAscii(t) && ParseFloat(t) == Finite(v)
  }

  predicate Writable(b: Box, fmt: real -> string) {
    && PrintsExactly(fmt, b.x) && PrintsExactly(fmt, b.y)
    && PrintsExactly(fmt, b.width) && PrintsExactly(fmt, b.height)
    && NoLineBreak(b.ocrText)
  }

  /** What reading a written box gives back. */
  function Reread(b: Box): Box {
    NewBox(Trunc(b.x) as real, Trunc(b.y) as real, Trunc(b.width) as real, Trunc(b.height) as real,
           b.classId, RStrip(Sanitize(b.ocrText)), None)
  }

  function RereadAll(boxes: seq<Box>): (r: seq<Box>)
    ensures |r| == |boxes|
    ensures forall k :: 0 <= k < |boxes| ==> r[k] == Reread(boxes[k])
  {
    seq(|boxes|, k requires 0 <= k < |boxes| => Reread(boxes[k]))
  }

  lemma LineEndAppend(a: string, b: string)
    requires NoLineBreak(a)
    ensures LineEnd(a + b) == |a| + LineEnd(b)
    decreases |a|
  {
    if |a| > 0 {
      assert (a + b)[1..] == a[1..] + b;
      LineEndAppend(a[1..], b);
    } else {
      assert a + b == b;
    }
  }

  /** No line that comes out of the split holds a terminator. */
  lemma {:induction false} SplitLinesNoBreak(s: string)
    ensures forall k :: 0 <= k < |SplitLines(s)| ==> NoLineBreak(SplitLines(s)[k])
    decreases |s|
  {
    if |s| > 0 {
      var e := LineEnd(s);
      LineEndFirstBreak(s);
      SplitLinesNoBreak(s[e + Terminator(s, e)..]);
    }
  }

  /** A line followed by a CR LF or LF terminator is split off whole, the terminator dropped. */
  lemma SplitLinesStep(line: string, term: string, tail: string)
    requires NoLineBreak(line) && (term == "\r\n" || term == "\n")
    ensures SplitLines(line + (term + tail)) == [line] + SplitLines(tail)
  {
    var rest := term + tail;
    var s := line + rest;
    assert LineEnd(rest) == 0 by {
      assert rest[0] == term[0];
    }
    LineEndAppend(line, rest);
    var e := |line|;
    assert Terminator(s, e) == |term| by {
      assert s[e] == term[0];
      assert term == "\r\n" ==> s[e + 1] == '\n';
    }
    SplitLinesUnfold(s);
    assert s[..e] == line;
    assert s[e + |term|..] == tail;
  }

  lemma SplitLinesUnfold(s: string)
    requires |s| > 0
    ensures SplitLines(s) == [s[..LineEnd(s)]] + SplitLines(s[LineEnd(s) + Terminator(s, LineEnd(s))..])
  {
  }

  /** Splitting CR LF-joined lines gives the lines back. */
  lemma {:induction false} SplitLinesJoin(ls: seq<string>)
    requires forall k :: 0 <= k < |ls| ==> |ls[k]| > 0 && NoLineBreak(ls[k])
    ensures SplitLines(Join(ls, "\r\n")) == ls
    decreases |ls|
  {
    if |ls| == 1 {
      LineEndAppend(ls[0], "");
      assert ls[0] + "" == ls[0];
    } else if |ls| > 1 {
      var tail := Join(ls[1..], "\r\n");
      assert Join(ls, "\r\n") == ls[0] + ("\r\n" + tail);
      SplitLinesStep(ls[0], "\r\n", tail);
      SplitLinesJoin(ls[1..]);
      assert ls == [ls[0]] + ls[1..];
    }
  }

  lemma {:induction false} JoinAscii(ls: seq<string>, sep: string)
    requires AllAscii(sep)
    requires forall k :: 0 <= k < |ls| ==> AllAscii(ls[k])
    ensures AllAscii(Join(ls, sep))
    decreases |ls|
  {
    if |ls| > 1 {
      JoinAscii(ls[1..], sep);
      var r := Join(ls, sep);
      var tail := Join(ls[1..], sep);
      assert r == ls[0] + sep + tail;
      forall i | 0 <= i < |r| ensures IsAscii(r[i]) {
        if i < |ls[0]| {
          assert r[i] == ls[0][i];
        } else if i < |ls[0]| + |sep| {
          assert r[i] == sep[i - |ls[0]|];
        } else {
          assert r[i] == tail[i - |ls[0]| - |sep|];
        }
      }
    }
  }

  lemma {:induction false} CollectEntries(outs: seq<LineOutcome>, bs: seq<Box>)
    requires |outs| == |bs|
    requires forall k :: 0 <= k < |outs| ==> outs[k] == Entry(bs[k])
    ensures Collect(outs) == bs
    decreases |outs|
  {
    if |outs| > 0 {
      CollectEntries(outs[1..], bs[1..]);
      assert bs == [bs[0]] + bs[1..];
    }
  }

  lemma IntTextToken(i: int)
    ensures IsToken(IntToString(i)) && '#' !in IntToString(i) && AllAscii(IntToString(i))
    ensures ' ' !in IntToString(i)
  {
    var s := IntToString(i);
    assert forall k :: 0 <= k < |s| ==> IsDigit(s[k]) || s[k] == '-';
  }

  lemma TokenEnds(t: string)
    requires IsToken(t)
    ensures ' ' !in t && !IsSpace(t[0]) && !IsSpace(t[|t| - 1])
  {
    assert forall k :: 0 <= k < |t| ==> !IsSpace(t[k]);
  }

  lemma CoordTextEnds(x: string, y: string, w: string, h: string)
    requires IsToken(x) && IsToken(h)
    ensures var q := CoordText(x, y, w, h); |q| > 0 && q[0] == x[0] && q[|q| - 1] == h[|h| - 1]
  {
  }

  lemma StripCoordText(x: string, y: string, w: string, h: string)
    requires IsToken(x) && IsToken(h)
    ensures Strip(CoordText(x, y, w, h) + " ") == CoordText(x, y, w, h)
  {
    var q := CoordText(x, y, w, h);
    TokenEnds(x);
    TokenEnds(h);
    CoordTextEnds(x, y, w, h);
    assert (q + " ")[0] == x[0];
    StripFromNonSpace(q + " ");
    RStripAppend(q, " ");
    assert RStrip(" ") == "";
    assert q + "" == q;
  }

  lemma SplitCoordText(x: string, y: string, w: string, h: string)
    requires IsToken(x) && IsToken(y) && IsToken(w) && IsToken(h)
    ensures SplitWs(CoordText(x, y, w, h)) == [x, y, w, h]
  {
    SplitWsSingle(h);
    SplitWsCons(w, h);
    SplitWsCons(y, w + " " + h);
    SplitWsCons(x, y + " " + (w + " " + h));
  }

  lemma HashOfRecord(q: string, ocr: string)
    requires '#' !in q
    ensures SplitHash(q + " #" + ocr) == (q + " ", ocr)
  {
    assert '#' !in q + " ";
    assert q + " #" + ocr == (q + " ") + ("#" + ocr);
    FindAppend(q + " ", "#" + ocr, '#');
  }

  lemma CoordsOfFour(vx: real, vy: real, vw: real, vh: real)
    ensures ParseCoords([Finite(vx), Finite(vy), Finite(vw), Finite(vh)])
      == Coords([Trunc(vx), Trunc(vy), Trunc(vw), Trunc(vh)])
  {
    var f4 := [Finite(vh)];
    assert f4[1..] == [];
    assert ParseCoords(f4) == Coords([Trunc(vh)]);
    var f3 := [Finite(vw)] + f4;
    assert f3[1..] == f4;
    assert ParseCoords(f3) == Coords([Trunc(vw), Trunc(vh)]);
    var f2 := [Finite(vy)] + f3;
    assert f2[1..] == f3;
    assert ParseCoords(f2) == Coords([Trunc(vy), Trunc(vw), Trunc(vh)]);
    var f1 := [Finite(vx)] + f2;
    assert f1[1..] == f2;
    assert f1 == [Finite(vx), Finite(vy), Finite(vw), Finite(vh)];
  }

  /** Four tokens that read as finite numbers make a box. */
  lemma RecordOfFour(cid: int, x: string, y: string, w: string, h: string,
                     vx: real, vy: real, vw: real, vh: real, ocr: string)
    ensures ParseFloat(x) == Finite(vx) && ParseFloat(y) == Finite(vy) &&
            ParseFloat(w) == Finite(vw) && ParseFloat(h) == Finite(vh) ==>
      RecordOf(cid, [x, y, w, h], ocr)
      == Entry(NewBox(Trunc(vx) as real, Trunc(vy) as real, Trunc(vw) as real, Trunc(vh) as real, cid, ocr, None))
  {
    CoordsOfFour(vx, vy, vw, vh);
  }

  /** The record part of a written line: four coordinate tokens, ` #`, the OCR text. */
  lemma ParseTokenRecord(cid: int, x: string, y: string, w: string, h: string, ocr: string)
    requires IsToken(x) && IsToken(y) && IsToken(w) && IsToken(h)
    requires '#' !in x && '#' !in y && '#' !in w && '#' !in h
    ensures ParseRecord(cid, CoordText(x, y, w, h) + " #" + ocr) == RecordOf(cid, [x, y, w, h], ocr)
  {
    var q := CoordText(x, y, w, h);
    assert '#' !in q;
    HashOfRecord(q, ocr);
    StripCoordText(x, y, w, h);
    SplitCoordText(x, y, w, h);
  }

  /** The class-id field of a written line. */
  lemma ParseWrittenFields(cid: int, rest: string)
    ensures ParseFields(IntToString(cid) + " " + rest) == ParseRecord(cid, rest)
  {
    var i := IntToString(cid);
    IntTextToken(cid);
    FindAppend(i, " " + rest, ' ');
    assert i + " " + rest == i + (" " + rest);
    assert SplitField(i + " " + rest) == Some((i, rest));
    IntRoundTrip(cid);
  }

  /** Stripping a written line only trims the end of its OCR text. */
  lemma StripWrittenLine(i: string, q: string, s: string)
    requires IsToken(i) && |q| > 0
    ensures Strip(i + " " + (q + " #" + s)) == i + " " + (q + " #" + RStrip(s))
  {
    TokenEnds(i);
    var rec := q + " #" + s;
    assert (q + " #")[|q + " #"| - 1] == '#';
    RStripAppend(q + " #", s);
    assert RStrip(rec) == q + " #" + RStrip(s);
    RStripKeepsHead(i + " ", rec);
    assert (i + " " + rec)[0] == i[0];
    StripFromNonSpace(i + " " + rec);
  }

  /** Reading one written line gives the box back, up to truncation and sanitizing. */
  lemma ParseFormattedLine(b: Box, fmt: real -> string)
    ensures Writable(b, fmt) ==> ParseLine(FormatLine(b, fmt)) == Entry(Reread(b))
  {
    if Writable(b, fmt) {
      var i := IntToString(b.classId);
      var x, y, w, h := fmt(b.x), fmt(b.y), fmt(b.width), fmt(b.height);
      var q := CoordText(x, y, w, h);
      var ocr := RStrip(Sanitize(b.ocrText));
      IntTextToken(b.classId);
      CoordTextEnds(x, y, w, h);
      StripWrittenLine(i, q, Sanitize(b.ocrText));
      var t := i + " " + (q + " #" + ocr);
      assert |t| > 0;
      ParseWrittenFields(b.classId, q + " #" + ocr);
      ParseTokenRecord(b.classId, x, y, w, h, ocr);
      RecordOfFour(b.classId, x, y, w, h, b.x, b.y, b.width, b.height, ocr);
    }
  }

  /** Every written line reads back as its box. */
  lemma LinesReadBack(sorted: seq<Box>, fmt: real -> string)
    requires forall k :: 0 <= k < |sorted| ==> Writable(sorted[k], fmt)
    ensures Collect(Outcomes(FormatLines(sorted, fmt))) == RereadAll(sorted)
  {
    var outs := Outcomes(FormatLines(sorted, fmt));
    var back := RereadAll(sorted);
    forall k | 0 <= k < |sorted| ensures outs[k] == Entry(back[k]) {
      ParseFormattedLine(sorted[k], fmt);
    }
    CollectEntries(outs, back);
  }

  /** Every written line is non-empty, ASCII and free of line breaks. */
  lemma LinesClean(sorted: seq<Box>, fmt: real -> string)
    requires forall k :: 0 <= k < |sorted| ==> Writable(sorted[k], fmt)
    ensures forall k :: 0 <= k < |sorted| ==> |FormatLines(sorted, fmt)[k]| > 0 && NoLineBreak(FormatLines(sorted, fmt)[k])
    ensures forall k :: 0 <= k < |sorted| ==> AllAscii(FormatLines(sorted, fmt)[k])
  {
    forall k | 0 <= k < |sorted| ensures |FormatLines(sorted, fmt)[k]| > 0 && Clean(FormatLines(sorted, fmt)[k]) {
      var b := sorted[k];
      assert PrintsExactly(fmt, b.x) && PrintsExactly(fmt, b.y);
      assert PrintsExactly(fmt, b.width) && PrintsExactly(fmt, b.height);
      LineFacts(b.classId, fmt(b.x), fmt(b.y), fmt(b.width), fmt(b.height), b.ocrText);
    }
  }

  /** The text of CR LF-joined clean lines reads back as what each line says. */
  lemma ReadJoined(lines: seq<string>)
    requires forall k :: 0 <= k < |lines| ==> |lines[k]| > 0 && NoLineBreak(lines[k])
    requires forall k :: 0 <= k < |lines| ==> AllAscii(lines[k])
    ensures ParseDat(Join(lines, "\r\n")) == Collect(Outcomes(lines))
  {
    SplitLinesJoin(lines);
    JoinAscii(lines, "\r\n");
  }

  /**
   * Writing boxes and reading the file back gives them in class-id order, with the
   * coordinates truncated, the OCR text sanitized and its trailing whitespace gone, and
   * the default names and selection of a freshly read box.
   */
  lemma DatRoundTrip(boxes: seq<Box>, fmt: real -> string)
    requires forall b :: b in boxes ==> Writable(b, fmt)
    ensures ParseDat(SerializeDat(boxes, fmt)) == RereadAll(ByClass(boxes))
  {
    var sorted := ByClass(boxes);
    forall k | 0 <= k < |sorted| ensures Writable(sorted[k], fmt) {
      assert sorted[k] in multiset(boxes);
    }
    var lines := FormatLines(sorted, fmt);
    LinesClean(sorted, fmt);
    ReadJoined(lines);
    assert SerializeDat(boxes, fmt) == Join(lines, "\r\n");
    LinesReadBack(sorted, fmt);
  }

  /** Free of line breaks and ASCII: what the writer needs of every piece of a line. */
  predicate Clean(s: string) {
    NoLineBreak(s) && AllAscii(s)
  }

  lemma CleanAppend(a: string, b: string)
    requires Clean(a) && Clean(b)
    ensures Clean(a + b)
  {
    forall i | 0 <= i < |a + b| ensures !IsLineBreak((a + b)[i]) && IsAscii((a + b)[i]) {
      if i >= |a| {
        assert (a + b)[i] == b[i - |a|];
      } else {
        assert (a + b)[i] == a[i];
      }
    }
  }

  lemma TokenClean(t: string)
    requires IsToken(t) && AllAscii(t)
    ensures Clean(t)
  {
    assert forall k :: 0 <= k < |t| ==> !IsSpace(t[k]);
  }

  lemma LineFacts(cid: int, x: string, y: string, w: string, h: string, ocr: string)
    requires IsToken(x) && IsToken(y) && IsToken(w) && IsToken(h)
    requires AllAscii(x) && AllAscii(y) && AllAscii(w) && AllAscii(h)
    requires NoLineBreak(ocr)
    ensures Clean(IntToString(cid) + " " + (CoordText(x, y, w, h) + " #" + Sanitize(ocr)))
  {
    TokenClean(x);
    TokenClean(y);
    TokenClean(w);
    TokenClean(h);
    assert Clean(" ") && Clean(" #");
    CleanAppend(w, " ");
    CleanAppend(w + " ", h);
    CleanAppend(y, " ");
    CleanAppend(y + " ", w + " " + h);
    CleanAppend(x, " ");
    CleanAppend(x + " ", y + " " + (w + " " + h));
    var q := CoordText(x, y, w, h);
    SanitizeNoLineBreak(ocr);
    CleanAppend(q, " #");
    CleanAppend(q + " #", Sanitize(ocr));
    var i := IntToString(cid);
    IntTextToken(cid);
    TokenClean(i);
    CleanAppend(i, " ");
    CleanAppend(i + " ", q + " #" + Sanitize(ocr));
  }

  /** Python's `str()` of an int-valued coordinate: its decimal digits. */
  function IntText(v: real): string {
    IntToString(v.Floor)
  }

  lemma IntTextExact(v: real)
    requires IsIntegral(v)
    ensures PrintsExactly(IntText, v)
  {
    IntTextToken(v.Floor);
    FloatRoundTrip(v.Floor);
  }

  /** Box fields as the DAT format stores them. */
  function Stored(b: Box): Box {
    b.(selected := false, name := DefaultName(b.classId))
  }

  /** OCR text that survives writing and reading unchanged. */
  predicate PlainText(s: string) {
    AllAscii(s) && NoLineBreak(s) && RStrip(s) == s
  }

  lemma IntTextWritable(b: Box)
    requires HasIntegralCoords(b) && NoLineBreak(b.ocrText)
    ensures Writable(b, IntText)
  {
    IntTextExact(b.x);
    IntTextExact(b.y);
    IntTextExact(b.width);
    IntTextExact(b.height);
  }

  lemma RereadStored(b: Box)
    requires HasIntegralCoords(b) && PlainText(b.ocrText)
    ensures Reread(b) == Stored(b)
  {
    SanitizeKeepsAscii(b.ocrText);
    TruncIntegral(b.x.Floor);
    TruncIntegral(b.y.Floor);
    TruncIntegral(b.width.Floor);
    TruncIntegral(b.height.Floor);
    assert Trunc(b.x) as real == b.x && Trunc(b.y) as real == b.y;
    assert Trunc(b.width) as real == b.width && Trunc(b.height) as real == b.height;
  }

  /**
   * For boxes with integer coordinates and plain ASCII OCR text, reading back what was
   * written gives exactly the stored fields, in class-id order.
   */
  lemma IntegralRoundTrip(boxes: seq<Box>)
    requires forall b :: b in boxes ==> HasIntegralCoords(b) && PlainText(b.ocrText)
    ensures |ParseDat(SerializeDat(boxes, IntText))| == |boxes|
    ensures forall k :: 0 <= k < |boxes| ==> ParseDat(SerializeDat(boxes, IntText))[k] == Stored(ByClass(boxes)[k])
  {
    forall b | b in boxes ensures Writable(b, IntText) {
      IntTextWritable(b);
    }
    DatRoundTrip(boxes, IntText);
    var sorted := ByClass(boxes);
    forall k | 0 <= k < |sorted| ensures Reread(sorted[k]) == Stored(sorted[k]) {
      assert sorted[k] in multiset(boxes);
      RereadStored(sorted[k]);
    }
  }
}

=== FILE: file_filter.dfy ===
/**
 * The file-list filter dialog: include and exclude rules over one field of each file
 * entry, literal or pattern matching, the sort options, the rule-list edits and the
 * status counts shown under the preview. Pattern matching is the uninterpreted engine.
 */
module FileFilter {
  import opened Common
  import opened Text
  import opened Sorting
  import opened Regex
  import opened Validation

  /**
   * One entry of the file list. A key missing from the source's dictionary reads as its
   * default, so an absent name, status or validation status is "" and an absent
   * confirmation is false.
   */
  datatype FileInfo = FileInfo(name: string, status: string, confirmed: bool, validationStatus: string)

  datatype FilterCategory = FilenameField | StatusField | ConfirmationField | ValidationField | ExtensionField

  datatype FilterRule = FilterRule(category: FilterCategory, including: bool, pattern: string, regexEnabled: bool)

  /** The text after the last '.', or "" for a name without one. */
  function Extension(name: string): (r: string)
    ensures '.' !in name ==> r == ""
    ensures '.' in name ==> '.' !in r && EndsWith(name, "." + r)
  {
    match FindLast(name, '.')
    case None => ""
    case Some(i) =>
      assert name[i..] == "." + name[i + 1..];
      name[i + 1..]
  }

  /** The text a rule of the given category looks at. */
  function FieldText(c: FilterCategory, f: FileInfo): string {
    match c
    case FilenameField => f.name
    case StatusField => f.status
    case ConfirmationField => if f.confirmed then "confirmed" else "unconfirmed"
    case ValidationField => f.validationStatus
    case ExtensionField => Extension(f.name)
  }

  /**
   * `FilterRule.matches`: the compiled pattern searched case-insensitively, or, for a
   * literal rule or a pattern that did not compile, a case-insensitive substring test.
   */
  function Matches(e: Engine, rule: FilterRule, f: FileInfo): (r: bool)
    ensures rule.regexEnabled && e.compiles(rule.pattern) ==>
      (r <==> e.searchIgnoreCase(rule.pattern, FieldText(rule.category, f)))
    ensures !(rule.regexEnabled && e.compiles(rule.pattern)) ==>
      (r <==> Contains(Lower(FieldText(rule.category, f)), Lower(rule.pattern)))
  {
    var text := FieldText(rule.category, f);
    if rule.regexEnabled && e.compiles(rule.pattern) then e.searchIgnoreCase(rule.pattern, text)
    else Contains(Lower(text), Lower(rule.pattern))
  }

  /** A literal "confirmed" rule matches unconfirmed files too. */
  lemma LiteralConfirmedMatchesBoth(e: Engine, f: FileInfo)
    ensures Matches(e, FilterRule(ConfirmationField, true, "confirmed", false), f)
  {
    var text := FieldText(ConfirmationField, f);
    var c := "confirmed";
    assert Lower(c) == c;
    if f.confirmed {
      assert Lower(text) == c;
      assert OccursAt(Lower(text), c, 0);
    } else {
      assert Lower(text) == "unconfirmed";
      assert Lower(text)[2..11] == c;
      assert OccursAt(Lower(text), c, 2);
    }
  }

  /** Whether one rule lets a file through: include rules must match, exclude rules must not. */
  predicate Accepts(e: Engine, rule: FilterRule, f: FileInfo) {
    Matches(e, rule, f) == rule.including
  }

  /** `[f for f in files if ...]` for one rule. */
  function Select(e: Engine, rule: FilterRule, files: seq<FileInfo>): (r: seq<FileInfo>)
    ensures |r| <= |files|
    ensures multiset(r) <= multiset(files)
    ensures forall f :: f in r ==> Accepts(e, rule, f)
  {
    if |files| == 0 then []
    else
      var rest := Select(e, rule, files[1..]);
      assert files == [files[0]] + files[1..];
      if Accepts(e, rule, files[0]) then [files[0]] + rest else rest
  }

  /** The rules applied one after the other, as `_apply_filters` does. */
  function ApplyRules(e: Engine, rules: seq<FilterRule>, files: seq<FileInfo>): (r: seq<FileInfo>)
    ensures multiset(r) <= multiset(files)
    decreases |rules|
  {
    if |rules| == 0 then files else ApplyRules(e, rules[1..], Select(e, rules[0], files))
  }

  /** Every rule lets the file through. */
  predicate PassesAll(e: Engine, rules: seq<FilterRule>, f: FileInfo) {
    forall k :: 0 <= k < |rules| ==> Accepts(e, rules[k], f)
  }

  /** The reference: the files every rule lets through, in their original order. */
  function Passing(e: Engine, rules: seq<FilterRule>, files: seq<FileInfo>): (r: seq<FileInfo>)
    ensures forall f :: f in r <==> f in files && PassesAll(e, rules, f)
  {
    if |files| == 0 then []
    else
      var rest := Passing(e, rules, files[1..]);
      assert forall f :: f in files <==> f == files[0] || f in files[1..];
      if PassesAll(e, rules, files[0]) then [files[0]] + rest else rest
  }

  lemma PassesAllCons(e: Engine, rule: FilterRule, rules: seq<FilterRule>, f: FileInfo)
    ensures PassesAll(e, [rule] + rules, f) <==> Accepts(e, rule, f) && PassesAll(e, rules, f)
  {
    var all := [rule] + rules;
    assert forall k :: 1 <= k < |all| ==> all[k] == rules[k - 1];
    assert all[0] == rule;
    if Accepts(e, rule, f) && PassesAll(e, rules, f) {
      forall k | 0 <= k < |all| ensures Accepts(e, all[k], f) {
        if k > 0 {
          assert Accepts(e, rules[k - 1], f);
        }
      }
    }
    if PassesAll(e, all, f) {
      assert Accepts(e, all[0], f);
      forall k | 0 <= k < |rules| ensures Accepts(e, rules[k], f) {
        assert Accepts(e, all[k + 1], f);
      }
    }
  }

  lemma {:induction false} SelectThenPassing(e: Engine, rule: FilterRule, rules: seq<FilterRule>, files: seq<FileInfo>)
    ensures Passing(e, rules, Select(e, rule, files)) == Passing(e, [rule] + rules, files)
    decreases |files|
  {
    if |files| > 0 {
      SelectThenPassing(e, rule, rules, files[1..]);
      var f := files[0];
      PassesAllCons(e, rule, rules, f);
      if Accepts(e, rule, f) {
        assert Select(e, rule, files)[1..] == Select(e, rule, files[1..]);
      }
    }
  }

  lemma {:induction false} PassingNoRules(e: Engine, files: seq<FileInfo>)
    ensures Passing(e, [], files) == files
    decreases |files|
  {
    if |files| > 0 {
      PassingNoRules(e, files[1..]);
      assert files == [files[0]] + files[1..];
    }
  }

  /**
   * Filtering rule by rule keeps exactly the files that every include rule matches and
   * no exclude rule matches, in their original order.
   */
  lemma {:induction false} ApplyRulesKeepsPassing(e: Engine, rules: seq<FilterRule>, files: seq<FileInfo>)
    ensures ApplyRules(e, rules, files) == Passing(e, rules, files)
    decreases |rules|
  {
    if |rules| == 0 {
      PassingNoRules(e, files);
    } else {
      ApplyRulesKeepsPassing(e, rules[1..], Select(e, rules[0], files));
      SelectThenPassing(e, rules[0], rules[1..], files);
      assert [rules[0]] + rules[1..] == rules;
    }
  }

  // ---------------------------------------------------------------------------------------
  // Sorting.

  datatype SortOption =
    | FilenameAsc | FilenameDesc | StatusAsc | StatusDesc
    | ConfirmationAsc | ConfirmationDesc | ValidationAsc | ValidationDesc

  function SortKey(opt: SortOption): FileInfo -> Key {
    match opt
    case FilenameAsc => (f: FileInfo) => KStr(Lower(f.name))
    case FilenameDesc => (f: FileInfo) => KStr(Lower(f.name))
    case StatusAsc => (f: FileInfo) => KStr(Lower(f.status))
    case StatusDesc => (f: FileInfo) => KStr(Lower(f.status))
    case ConfirmationAsc => (f: FileInfo) => KBool(f.confirmed)
    case ConfirmationDesc => (f: FileInfo) => KBool(f.confirmed)
    case ValidationAsc => (f: FileInfo) => KStr(Lower(f.validationStatus))
    case ValidationDesc => (f: FileInfo) => KStr(Lower(f.validationStatus))
  }

  predicate Descending(opt: SortOption) {
    opt == FilenameDesc || opt == StatusDesc || opt == ConfirmationDesc || opt == ValidationDesc
  }

  /** `_sort_files`: a stable sort by the option's key, reversed for the descending options. */
  function SortFiles(files: seq<FileInfo>, opt: SortOption): (r: seq<FileInfo>)
    ensures multiset(r) == multiset(files)
    ensures SortedBy(r, SortKey(opt), Descending(opt))
  {
    SortByIsSorted(files, SortKey(opt), Descending(opt));
    SortByPermutes(files, SortKey(opt), Descending(opt));
    SortBy(files, SortKey(opt), Descending(opt))
  }

  /** By file name ascending, lower-cased names never decrease. */
  lemma FilenameAscOrdered(files: seq<FileInfo>)
    ensures var r := SortFiles(files, FilenameAsc);
      forall i, j :: 0 <= i < j < |r| ==> !StrLt(Lower(r[j].name), Lower(r[i].name))
  {
    var r := SortFiles(files, FilenameAsc);
    forall i, j | 0 <= i < j < |r| ensures !StrLt(Lower(r[j].name), Lower(r[i].name)) {
      assert !Precedes(SortKey(FilenameAsc)(r[j]), SortKey(FilenameAsc)(r[i]), false);
    }
  }

  /** By file name descending, lower-cased names never increase. */
  lemma FilenameDescOrdered(files: seq<FileInfo>)
    ensures var r := SortFiles(files, FilenameDesc);
      forall i, j :: 0 <= i < j < |r| ==> !StrLt(Lower(r[i].name), Lower(r[j].name))
  {
    var r := SortFiles(files, FilenameDesc);
    forall i, j | 0 <= i < j < |r| ensures !StrLt(Lower(r[i].name), Lower(r[j].name)) {
      assert !Precedes(SortKey(FilenameDesc)(r[j]), SortKey(FilenameDesc)(r[i]), true);
    }
  }

  /** Confirmation ascending puts every unconfirmed file before every confirmed one. */
  lemma UnconfirmedFirst(files: seq<FileInfo>)
    ensures var r := SortFiles(files, ConfirmationAsc);
      forall i, j :: 0 <= i < j < |r| && r[i].confirmed ==> r[j].confirmed
  {
    var r := SortFiles(files, ConfirmationAsc);
    forall i, j | 0 <= i < j < |r| && r[i].confirmed ensures r[j].confirmed {
      assert !Precedes(SortKey(ConfirmationAsc)(r[j]), SortKey(ConfirmationAsc)(r[i]), false);
    }
  }

  /** The rules applied, then the sort. */
  function Apply(e: Engine, files: seq<FileInfo>, rules: seq<FilterRule>, opt: SortOption): (r: seq<FileInfo>)
    ensures multiset(r) <= multiset(files)
    ensures forall f :: f in r <==> f in files && PassesAll(e, rules, f)
  {
    ApplyRulesKeepsPassing(e, rules, files);
    var kept := ApplyRules(e, rules, files);
    var r := SortFiles(kept, opt);
    assert forall f :: f in r <==> f in kept by {
      forall f ensures f in r <==> f in kept {
        assert f in r <==> f in multiset(r);
        assert f in kept <==> f in multiset(kept);
      }
    }
    r
  }

  // ---------------------------------------------------------------------------------------
  // The dialog's state.

  datatype Dialog = Dialog(
    files: seq<FileInfo>,
    rules: seq<FilterRule>,
    sort: SortOption,
    results: seq<FileInfo>,
    entry: string)

  /** The shown results are the current rules and sort applied to the files. */
  predicate Current(e: Engine, d: Dialog) {
    d.results == Apply(e, d.files, d.rules, d.sort)
  }

  function Refresh(e: Engine, d: Dialog): (r: Dialog)
    ensures Current(e, r)
  {
    d.(results := Apply(e, d.files, d.rules, d.sort))
  }

  /**
   * `_add_filter_rule`: `category` is the selected category, `None` when nothing is
   * selected; type 0 is include, anything else exclude. Blank entries and unselected
   * categories are ignored; a pattern rule that does not compile is refused with an error
   * (the second component). An added rule takes the stripped entry, and the entry is cleared.
   */
  function AddFilterRule(e: Engine, d: Dialog, category: Option<FilterCategory>, typeIndex: nat, regexEnabled: bool): (r: (Dialog, bool))
    ensures var pattern := Strip(d.entry);
      && (pattern == "" || category.None? ==> r == (d, false))
      && (r.1 <==> pattern != "" && category.Some? && regexEnabled && !e.compiles(pattern))
      && (r.1 ==> r.0 == d)
      && (r.0 != d ==>
            r.0.rules == d.rules + [FilterRule(category.value, typeIndex == 0, pattern, regexEnabled)]
            && r.0.entry == "" && Current(e, r.0))
      && (r.0.rules != d.rules ==> pattern != "" && !IsSpace(pattern[0]))
      && (pattern != "" && category.Some? && (!regexEnabled || e.compiles(pattern)) ==>
            && !r.1
            && r.0.rules == d.rules + [FilterRule(category.value, typeIndex == 0, pattern, regexEnabled)]
            && r.0.entry == "" && r.0.files == d.files && r.0.sort == d.sort && Current(e, r.0))
  {
    var pattern := Strip(d.entry);
    if pattern == "" || category.None? then (d, false)
    else if regexEnabled && !e.compiles(pattern) then (d, true)
    else
      var rule := FilterRule(category.value, typeIndex == 0, pattern, regexEnabled);
      (Refresh(e, d.(rules := d.rules + [rule], entry := "")), false)
  }

  /** Every rule the dialog adds has a non-blank pattern, and a pattern rule's pattern compiles. */
  lemma AddedRuleIsUsable(e: Engine, d: Dialog, category: Option<FilterCategory>, typeIndex: nat, regexEnabled: bool)
    requires AddFilterRule(e, d, category, typeIndex, regexEnabled).0.rules != d.rules
    ensures var rule := AddFilterRule(e, d, category, typeIndex, regexEnabled).0.rules[|d.rules|];
      rule.pattern != "" && Strip(rule.pattern) == rule.pattern && (rule.regexEnabled ==> e.compiles(rule.pattern))
  {
    StripNoEdgeSpace(Strip(d.entry));
  }

  /** `_remove_filter_rule`: an index out of range changes nothing. */
  /** Removing the rule just added brings back the rules and, for a current dialog, the shown results. */
  lemma AddThenRemoveRule(e: Engine, d: Dialog, category: Option<FilterCategory>, typeIndex: nat, regexEnabled: bool)
    ensures var r := AddFilterRule(e, d, category, typeIndex, regexEnabled).0;
      r.rules != d.rules ==>
        RemoveFilterRule(e, r, |d.rules|).rules == d.rules
        && (Current(e, d) ==> RemoveFilterRule(e, r, |d.rules|).results == d.results)
  {
    var r := AddFilterRule(e, d, category, typeIndex, regexEnabled).0;
    if r.rules != d.rules {
      var back := RemoveFilterRule(e, r, |d.rules|);
      assert r.rules[..|d.rules|] == d.rules;
      assert back.rules == d.rules;
    }
  }

  function RemoveFilterRule(e: Engine, d: Dialog, index: int): (r: Dialog)
    ensures !(0 <= index < |d.rules|) ==> r == d
    ensures 0 <= index < |d.rules| ==>
      |r.rules| == |d.rules| - 1 && r.rules == d.rules[..index] + d.rules[index + 1..] && Current(e, r)
  {
    if 0 <= index < |d.rules| then Refresh(e, d.(rules := RemoveAt(d.rules, index))) else d
  }

  /** `_on_clear_clicked`: no rules, name order, every file shown. */
  function ClearRules(e: Engine, d: Dialog): (r: Dialog)
    ensures r.rules == [] && r.sort == FilenameAsc && Current(e, r)
    ensures multiset(r.results) == multiset(d.files)
  {
    var r := Refresh(e, d.(rules := [], sort := FilenameAsc));
    ApplyRulesKeepsPassing(e, [], d.files);
    PassingNoRules(e, d.files);
    r
  }

  /** Choosing a sort option re-sorts the same files. */
  function SetSort(e: Engine, d: Dialog, opt: SortOption): (r: Dialog)
    ensures r.sort == opt && r.rules == d.rules && Current(e, r)
    ensures Current(e, d) ==> multiset(r.results) == multiset(d.results)
  {
    Refresh(e, d.(sort := opt))
  }

  // ---------------------------------------------------------------------------------------
  // Status counts.

  datatype Stats = Stats(confirmed: nat, valid: nat, invalid: nat, noDat: nat)

  function CountIf(files: seq<FileInfo>, p: FileInfo -> bool): (n: nat)
    ensures n <= |files|
  {
    if |files| == 0 then 0 else (if p(files[0]) then 1 else 0) + CountIf(files[1..], p)
  }

  predicate IsConfirmed(f: FileInfo) {
    f.confirmed
  }

  /** The bare status names the summary compares against. */
  predicate SaysValid(f: FileInfo) {
    f.validationStatus == "valid"
  }

  predicate SaysInvalid(f: FileInfo) {
    f.validationStatus == "invalid_regex" || f.validationStatus == "missing_classes"
  }

  predicate SaysNoDat(f: FileInfo) {
    f.validationStatus == "no_dat"
  }

  /** The style-class names the validation engine gives. */
  predicate IsValidStatus(f: FileInfo) {
    f.validationStatus == "file-valid"
  }

  predicate IsInvalidStatus(f: FileInfo) {
    f.validationStatus == "file-invalid-regex" || f.validationStatus == "file-missing-classes"
  }

  predicate IsNoDatStatus(f: FileInfo) {
    f.validationStatus == "file-no-dat"
  }

  /** Three tests no file passes twice count at most every file once. */
  lemma {:induction false} CountDisjoint(files: seq<FileInfo>, p: FileInfo -> bool, q: FileInfo -> bool, t: FileInfo -> bool)
    requires forall f :: !(p(f) && q(f)) && !(p(f) && t(f)) && !(q(f) && t(f))
    ensures CountIf(files, p) + CountIf(files, q) + CountIf(files, t) <= |files|
    decreases |files|
  {
    if |files| > 0 {
      CountDisjoint(files[1..], p, q, t);
    }
  }

  /** `_update_stats_summary` as written: compares against "valid", "invalid_regex", "missing_classes" and "no_dat". */
  function StatsAsWritten(files: seq<FileInfo>): (r: Stats)
    ensures r.valid + r.invalid + r.noDat <= |files| && r.confirmed <= |files|
  {
    CountDisjoint(files, SaysValid, SaysInvalid, SaysNoDat);
    Stats(
      CountIf(files, IsConfirmed),
      CountIf(files, SaysValid),
      CountIf(files, SaysInvalid),
      CountIf(files, SaysNoDat))
  }

  /** The status counts against the strings the validation engine produces. */
  function StatsCorrected(files: seq<FileInfo>): (r: Stats)
    ensures r.valid + r.invalid + r.noDat <= |files| && r.confirmed <= |files|
  {
    CountDisjoint(files, IsValidStatus, IsInvalidStatus, IsNoDatStatus);
    Stats(
      CountIf(files, IsConfirmed),
      CountIf(files, IsValidStatus),
      CountIf(files, IsInvalidStatus),
      CountIf(files, IsNoDatStatus))
  }

  /** A file list whose statuses all come from the validation engine. */
  predicate EngineStatuses(files: seq<FileInfo>) {
    forall i :: 0 <= i < |files| ==> StartsWith(files[i].validationStatus, "file-")
  }

  lemma {:induction false} CountNone(files: seq<FileInfo>, p: FileInfo -> bool)
    requires forall i :: 0 <= i < |files| ==> !p(files[i])
    ensures CountIf(files, p) == 0
    decreases |files|
  {
    if |files| > 0 {
      CountNone(files[1..], p);
    }
  }

  /** As written, no file the engine labelled is ever counted as valid, invalid or lacking a label file. */
  lemma StatsAsWrittenCountNothing(files: seq<FileInfo>)
    requires EngineStatuses(files)
    ensures StatsAsWritten(files).valid == 0 && StatsAsWritten(files).invalid == 0 && StatsAsWritten(files).noDat == 0
  {
    var names := ["valid", "invalid_regex", "missing_classes", "no_dat"];
    assert forall i :: 0 <= i < |files| ==> files[i].validationStatus[..5] == "file-";
    assert forall s :: s in names ==> s[..5] != "file-" by {
      assert "valid"[..5] == "valid";
      assert "invalid_regex"[..5] == "inval";
      assert "missing_classes"[..5] == "missi";
      assert "no_dat"[..5] == "no_da";
    }
    CountNone(files, SaysValid);
    CountNone(files, SaysInvalid);
    CountNone(files, SaysNoDat);
  }

  /** The file entry the list shows for a checked file (the list carries no status or confirmation). */
  function InfoFor(name: string, c: FileCheck): FileInfo {
    FileInfo(name, "", false, CssClass(c))
  }

  function InfosFor(names: seq<string>, checks: seq<FileCheck>): (r: seq<FileInfo>)
    requires |names| == |checks|
    ensures |r| == |names|
  {
    seq(|names|, i requires 0 <= i < |names| => InfoFor(names[i], checks[i]))
  }

  function CountBucket(checks: seq<FileCheck>, b: Bucket): (n: nat)
    ensures n <= |checks|
  {
    if |checks| == 0 then 0 else (if BucketOf(checks[0]) == Some(b) then 1 else 0) + CountBucket(checks[1..], b)
  }

  /** Corrected, the counts are the numbers of files in each validation bucket. */
  lemma {:induction false} StatsCorrectedCountBuckets(names: seq<string>, checks: seq<FileCheck>)
    requires |names| == |checks|
    ensures var s := StatsCorrected(InfosFor(names, checks));
      && s.valid == CountBucket(checks, ValidBucket)
      && s.noDat == CountBucket(checks, NoDatBucket)
      && s.invalid == CountBucket(checks, MissingBucket) + CountBucket(checks, RegexBucket)
    decreases |names|
  {
    if |names| > 0 {
      var infos := InfosFor(names, checks);
      StatsCorrectedCountBuckets(names[1..], checks[1..]);
      assert infos[1..] == InfosFor(names[1..], checks[1..]);
      InfoBuckets(names[0], checks[0]);
      assert infos[0] == InfoFor(names[0], checks[0]);
    }
  }

  /** The engine's status string names the bucket the check falls in. */
  lemma InfoBuckets(name: string, c: FileCheck)
    ensures IsValidStatus(InfoFor(name, c)) <==> BucketOf(c) == Some(ValidBucket)
    ensures IsNoDatStatus(InfoFor(name, c)) <==> BucketOf(c) == Some(NoDatBucket)
    ensures IsInvalidStatus(InfoFor(name, c)) <==> BucketOf(c) == Some(MissingBucket) || BucketOf(c) == Some(RegexBucket)
  {
  }

  /** One valid file shows the gap: corrected it is counted, as written it is not. */
  lemma ValidFileMiscounted(name: string)
    ensures var files := [InfoFor(name, FileCheck(true, false, false, false, 1, ""))];
      StatsAsWritten(files).valid == 0 && StatsCorrected(files).valid == 1
  {
  }
}

=== FILE: json_value.dfy ===
/**
 * The JSON-like values that settings, class configurations and profile files hold. Objects
 * are maps: key order never matters to the operations modelled. Numbers are reals, so
 * `1` and `1.0` are the same value, as they compare equal in Python.
 */
module JsonValue {
  import opened Common

  datatype Json =
    | JNull
    | JBool(b: bool)
    | JNum(n: real)
    | JStr(s: string)
    | JArr(items: seq<Json>)
    | JObj(fields: map<string, Json>)

  type Dict = map<string, Json>

  /** Python truthiness: `None`, `False`, `0`, and empty strings, lists and dicts are false. */
  predicate Truthy(j: Json) {
    match j
    case JNull => false
    case JBool(b) => b
    case JNum(n) => n != 0.0
    case JStr(s) => s != ""
    case JArr(items) => items != []
    case JObj(fields) => fields != map[]
  }

  /** The value reached by following `path` through nested objects, if every step exists. */
  function At(j: Json, path: seq<string>): (r: Option<Json>)
    ensures |path| == 0 ==> r == Some(j)
    ensures |path| > 0 && !(j.JObj? && path[0] in j.fields) ==> r.None?
    decreases |path|
  {
    if |path| == 0 then Some(j)
    else if j.JObj? && path[0] in j.fields then At(j.fields[path[0]], path[1..])
    else None
  }
}

=== FILE: keymap.dfy ===
/**
 * Keyboard shortcuts: the keymap file lists, per category and action, the key names
 * bound to the action; the reverse table maps each key name to "category.action". Key
 * names come from the toolkit, which is a parameter here.
 */
module Keymap {
  import opened Common
  import opened Text

  /** The actions of one category with their key names, in file order. */
  type Category = seq<(string, seq<string>)>

  /** One top-level entry of the file: a category, or anything else (comments hold text). */
  datatype Entry = Entry(name: string, category: Option<Category>)

  predicate IsComment(e: Entry) {
    StartsWith(e.name, "//")
  }

  /** `load_keymap`'s filter: top-level keys starting with "//" are dropped, the rest kept in order. */
  function LoadKeymap(raw: seq<Entry>): (r: seq<Entry>)
    ensures forall i :: 0 <= i < |r| ==> !IsComment(r[i])
    ensures forall e :: e in raw && !IsComment(e) <==> e in r
    ensures |r| <= |raw|
  {
    if |raw| == 0 then []
    else
      var rest := LoadKeymap(raw[1..]);
      assert forall e :: e in raw <==> e == raw[0] || e in raw[1..];
      if IsComment(raw[0]) then rest else [raw[0]] + rest
  }

  lemma {:induction false} LoadKeymapIdempotent(raw: seq<Entry>)
    ensures LoadKeymap(LoadKeymap(raw)) == LoadKeymap(raw)
    decreases |raw|
  {
    if |raw| > 0 {
      LoadKeymapIdempotent(raw[1..]);
      if !IsComment(raw[0]) {
        assert ([raw[0]] + LoadKeymap(raw[1..]))[1..] == LoadKeymap(raw[1..]);
      }
    }
  }

  /** The filter works entry by entry, so the kept entries stay in file order. */
  lemma {:induction false} LoadKeymapAppend(a: seq<Entry>, b: seq<Entry>)
    ensures LoadKeymap(a + b) == LoadKeymap(a) + LoadKeymap(b)
    ensures LoadKeymap([]) == []
    ensures forall e :: LoadKeymap([e]) == if IsComment(e) then [] else [e]
  {
    LoadKeymapJoin(a, b);
    forall e ensures LoadKeymap([e]) == if IsComment(e) then [] else [e] {
      assert [e][1..] == [];
    }
  }

  lemma {:induction false} LoadKeymapJoin(a: seq<Entry>, b: seq<Entry>)
    ensures LoadKeymap(a + b) == LoadKeymap(a) + LoadKeymap(b)
    decreases |a|
  {
    if |a| > 0 {
      assert (a + b)[1..] == a[1..] + b;
      assert (a + b)[0] == a[0];
      LoadKeymapJoin(a[1..], b);
    } else {
      assert a + b == b;
    }
  }

  /** The action name a binding is reported under. */
  function ActionName(category: string, action: string): string {
    category + "." + action
  }

  /** The (key, action name) pairs of one action: its keys in their listed order. */
  function ActionBindings(category: string, action: string, keys: seq<string>): (r: seq<(string, string)>)
    ensures |r| == |keys| && forall j :: 0 <= j < |keys| ==> r[j] == (keys[j], ActionName(category, action))
  {
    seq(|keys|, j requires 0 <= j < |keys| => (keys[j], ActionName(category, action)))
  }

  /** Key `k` is listed under some action of `actions`, and that action is reported as `name`. */
  predicate ListedIn(category: string, actions: Category, k: string, name: string) {
    exists a :: 0 <= a < |actions| && k in actions[a].1 && name == ActionName(category, actions[a].0)
  }

  /** The (key, action name) pairs of one category, in iteration order: exactly the listed keys. */
  function CategoryBindings(category: string, actions: Category): (r: seq<(string, string)>)
    ensures forall k, name :: (k, name) in r <==> ListedIn(category, actions, k, name)
  {
    if |actions| == 0 then []
    else
      var rest := CategoryBindings(category, actions[1..]);
      CategoryBindingsStep(category, actions, rest);
      ActionBindings(category, actions[0].0, actions[0].1) + rest
  }

  lemma CategoryBindingsStep(category: string, actions: Category, rest: seq<(string, string)>)
    requires |actions| > 0
    requires forall k, name :: (k, name) in rest <==> ListedIn(category, actions[1..], k, name)
    ensures forall k, name :: (k, name) in ActionBindings(category, actions[0].0, actions[0].1) + rest <==>
      ListedIn(category, actions, k, name)
  {
    var here := ActionBindings(category, actions[0].0, actions[0].1);
    forall k, name ensures (k, name) in here + rest <==> ListedIn(category, actions, k, name) {
      if (k, name) in here {
        var j :| 0 <= j < |here| && here[j] == (k, name);
        assert k in actions[0].1;
      } else if (k, name) in rest {
        var a :| 0 <= a < |actions[1..]| && k in actions[1..][a].1 && name == ActionName(category, actions[1..][a].0);
        assert actions[1..][a] == actions[a + 1];
      }
      if a :| 0 <= a < |actions| && k in actions[a].1 && name == ActionName(category, actions[a].0) {
        if a == 0 {
          var j :| 0 <= j < |actions[0].1| && actions[0].1[j] == k;
          assert here[j] == (k, name);
        } else {
          assert actions[1..][a - 1] == actions[a];
          assert ListedIn(category, actions[1..], k, name);
        }
      }
    }
  }

  /**
   * The bindings of a category come action after action, each action's keys in their
   * listed order.
   */
  lemma {:induction false} CategoryBindingsJoin(category: string, a: Category, b: Category)
    ensures CategoryBindings(category, a + b) == CategoryBindings(category, a) + CategoryBindings(category, b)
    decreases |a|
  {
    if |a| > 0 {
      assert (a + b)[1..] == a[1..] + b;
      assert (a + b)[0] == a[0];
      CategoryBindingsJoin(category, a[1..], b);
    } else {
      assert a + b == b;
    }
  }

  lemma {:induction false} CategoryBindingsAppend(category: string, a: Category, b: Category)
    ensures CategoryBindings(category, a + b) == CategoryBindings(category, a) + CategoryBindings(category, b)
    ensures forall act, keys :: CategoryBindings(category, [(act, keys)]) == ActionBindings(category, act, keys)
  {
    CategoryBindingsJoin(category, a, b);
    forall act, keys ensures CategoryBindings(category, [(act, keys)]) == ActionBindings(category, act, keys) {
      var one: Category := [(act, keys)];
      assert one[1..] == [];
    }
  }

  /** Entry `e` is a category listing key `k` under an action reported as `name`. */
  predicate EntryLists(e: Entry, k: string, name: string) {
    e.category.Some? && ListedIn(e.name, e.category.value, k, name)
  }

  /**
   * Every binding of the loaded keymap, in iteration order. `None` is the exception the
   * constructor raises when a kept entry is not a category.
   */
  function Bindings(km: seq<Entry>): (r: Option<seq<(string, string)>>)
    ensures r.None? <==> exists i :: 0 <= i < |km| && km[i].category.None?
    ensures r.Some? ==> forall k, name :: (k, name) in r.value <==> exists e :: e in km && EntryLists(e, k, name)
  {
    if |km| == 0 then Some([])
    else
      match km[0].category
      case None => None
      case Some(actions) =>
        assert forall i :: 1 <= i < |km| ==> km[1..][i - 1] == km[i];
        match Bindings(km[1..])
        case None => None
        case Some(rest) =>
          BindingsStep(km, rest);
          Some(CategoryBindings(km[0].name, actions) + rest)
  }

  /** The bindings of the first category followed by the rest's are exactly the listed keys. */
  lemma BindingsStep(km: seq<Entry>, rest: seq<(string, string)>)
    requires |km| > 0 && km[0].category.Some?
    requires forall k, name :: (k, name) in rest <==> exists e :: e in km[1..] && EntryLists(e, k, name)
    ensures forall k, name :: (k, name) in CategoryBindings(km[0].name, km[0].category.value) + rest <==>
      exists e :: e in km && EntryLists(e, k, name)
  {
    var here := CategoryBindings(km[0].name, km[0].category.value);
    forall k, name ensures (k, name) in here + rest <==> exists e :: e in km && EntryLists(e, k, name) {
      if (k, name) in here {
        assert EntryLists(km[0], k, name);
      } else if (k, name) in rest {
        var e :| e in km[1..] && EntryLists(e, k, name);
        assert e in km;
      }
      if e :| e in km && EntryLists(e, k, name) {
        if e == km[0] {
          assert (k, name) in here;
        } else {
          assert e in km[1..];
        }
      }
    }
  }

  /** The bindings follow the file: category after category. */
  lemma {:induction false} BindingsAppend(a: seq<Entry>, b: seq<Entry>)
    ensures Bindings(a + b) == if Bindings(a).Some? && Bindings(b).Some? then Some(Bindings(a).value + Bindings(b).value) else None
    decreases |a|
  {
    if |a| > 0 {
      assert (a + b)[0] == a[0];
      assert (a + b)[1..] == a[1..] + b;
      BindingsAppend(a[1..], b);
      if a[0].category.Some? && Bindings(a[1..]).Some? && Bindings(b).Some? {
        var h := CategoryBindings(a[0].name, a[0].category.value);
        assert h + (Bindings(a[1..]).value + Bindings(b).value) == h + Bindings(a[1..]).value + Bindings(b).value;
      }
    } else {
      assert a + b == b;
      if Bindings(b).Some? {
        assert [] + Bindings(b).value == Bindings(b).value;
      }
    }
  }

  /** A single entry binds its category's keys, or fails when it is not a category. */
  lemma BindingsOne(e: Entry)
    ensures Bindings([e]) == if e.category.Some? then Some(CategoryBindings(e.name, e.category.value)) else None
  {
    assert [e][1..] == [];
    if e.category.Some? {
      assert CategoryBindings(e.name, e.category.value) + [] == CategoryBindings(e.name, e.category.value);
    }
  }

  /** Whether a later binding rebinds key `k`. */
  predicate RebindsAfter(bs: seq<(string, string)>, i: nat, k: string) {
    exists j :: i < j < |bs| && bs[j].0 == k
  }

  /** `_build_key_to_action_map`: every bound key is in the table, and nothing else. */
  function KeyToAction(bs: seq<(string, string)>): (r: map<string, string>)
    ensures forall k :: k in r <==> exists i :: 0 <= i < |bs| && bs[i].0 == k
    ensures forall k :: k in r ==> (k, r[k]) in bs
  {
    if |bs| == 0 then map[]
    else
      var init := bs[..|bs| - 1];
      assert forall i :: 0 <= i < |init| ==> init[i] == bs[i];
      KeyToAction(init)[bs[|bs| - 1].0 := bs[|bs| - 1].1]
  }

  /** For a key bound more than once, the last binding wins. */
  lemma {:induction false} LastBindingWins(bs: seq<(string, string)>, i: nat)
    requires i < |bs| && !RebindsAfter(bs, i, bs[i].0)
    ensures KeyToAction(bs)[bs[i].0] == bs[i].1
    decreases |bs|
  {
    var init := bs[..|bs| - 1];
    if i < |bs| - 1 {
      assert bs[|bs| - 1].0 != bs[i].0;
      assert init[i] == bs[i];
      assert !RebindsAfter(init, i, init[i].0) by {
        forall j | i < j < |init| ensures init[j].0 != bs[i].0 {
          assert init[j] == bs[j];
        }
      }
      LastBindingWins(init, i);
    }
  }

  /** Keys of the table built from the bindings of `km`: exactly the keys some entry lists. */
  lemma TableOfBindings(km: seq<Entry>, bs: seq<(string, string)>)
    requires forall k, name :: (k, name) in bs <==> exists e :: e in km && EntryLists(e, k, name)
    ensures forall k :: k in KeyToAction(bs) <==> exists e, name :: e in km && EntryLists(e, k, name)
    ensures forall k :: k in KeyToAction(bs) ==> exists e :: e in km && EntryLists(e, k, KeyToAction(bs)[k])
  {
    var table := KeyToAction(bs);
    forall k ensures k in table <==> exists e, name :: e in km && EntryLists(e, k, name) {
      if k in table {
        assert (k, table[k]) in bs;
      }
      if e, name :| e in km && EntryLists(e, k, name) {
        var i :| 0 <= i < |bs| && bs[i] == (k, name);
      }
    }
    forall k | k in table ensures exists e :: e in km && EntryLists(e, k, table[k]) {
      assert (k, table[k]) in bs;
    }
  }

  /**
   * From the file to the key table: a key is in the table exactly when some category of the
   * file (comment entries aside) lists it, and it maps to the name of an action listing it.
   */
  lemma KeyTableOfFile(raw: seq<Entry>)
    ensures var km := LoadKeymap(raw);
      Bindings(km).Some? ==>
      var table := KeyToAction(Bindings(km).value);
      && (forall k :: k in table <==> exists e, name :: e in raw && !IsComment(e) && EntryLists(e, k, name))
      && (forall k :: k in table ==> exists e :: e in raw && !IsComment(e) && EntryLists(e, k, table[k]))
  {
    var km := LoadKeymap(raw);
    if Bindings(km).Some? {
      TableOfBindings(km, Bindings(km).value);
    }
  }

  /** Whether the Control modifier is held: bit 2 of the state, as in GDK's CONTROL_MASK. */
  predicate CtrlPressed(state: nat) {
    (state / 4) % 2 == 1
  }

  /**
   * `get_action_for_key`: with Control held the lookup key is "Ctrl+" and the lower-cased
   * key name, otherwise the bare name. `keyName` is the toolkit's name for the key, `None`
   * for a key value it does not know. The outer `None` is the exception lower-casing a
   * missing name raises.
   */
  function GetActionForKey(table: map<string, string>, keyName: Option<string>, state: nat): (r: Option<Option<string>>)
    ensures r.None? <==> CtrlPressed(state) && keyName.None?
    ensures keyName.None? && !CtrlPressed(state) ==> r == Some(None)
    ensures keyName.Some? && CtrlPressed(state) ==>
      r == Some(if "Ctrl+" + Lower(keyName.value) in table then Some(table["Ctrl+" + Lower(keyName.value)]) else None)
    ensures keyName.Some? && !CtrlPressed(state) ==>
      r == Some(if keyName.value in table then Some(table[keyName.value]) else None)
  {
    if CtrlPressed(state) then
      match keyName
      case None => None
      case Some(n) =>
        var combo := "Ctrl+" + Lower(n);
        Some(if combo in table then Some(table[combo]) else None)
    else
      match keyName
      case None => Some(None)
      case Some(n) => Some(if n in table then Some(table[n]) else None)
  }

  /** A key press finds the action of the key's last binding, under its plain or its Ctrl+ name. */
  lemma PressedKeyFindsAction(bs: seq<(string, string)>, i: nat, name: string, state: nat)
    requires i < |bs| && !RebindsAfter(bs, i, bs[i].0)
    requires if CtrlPressed(state) then bs[i].0 == "Ctrl+" + Lower(name) else bs[i].0 == name
    ensures GetActionForKey(KeyToAction(bs), Some(name), state) == Some(Some(bs[i].1))
  {
    LastBindingWins(bs, i);
  }

  /** The first entry named `name`, the way a dictionary lookup finds its one entry. */
  function FindEntry<T>(entries: seq<(string, T)>, name: string): (r: Option<T>)
    ensures r.None? <==> forall i :: 0 <= i < |entries| ==> entries[i].0 != name
    ensures r.Some? ==> exists i :: 0 <= i < |entries| && entries[i] == (name, r.value)
  {
    if |entries| == 0 then None
    else if entries[0].0 == name then Some(entries[0].1)
    else
      var r := FindEntry(entries[1..], name);
      assert forall i :: 1 <= i < |entries| ==> entries[i] == entries[1..][i - 1];
      r
  }

  function CategoryEntries(km: seq<Entry>): (r: seq<(string, Category)>)
    ensures |r| == |km|
  {
    seq(|km|, i requires 0 <= i < |km| => (km[i].name, km[i].category.GetOr([])))
  }

  /**
   * `get_keys_for_action`: the action name is split at its first '.'; an unknown category
   * or action gives no keys. `None` is the exception unpacking a name without '.' raises.
   */
  function GetKeysForAction(km: seq<Entry>, action: string): (r: Option<seq<string>>)
    ensures r.None? <==> '.' !in action
    ensures r.Some? && FindEntry(CategoryEntries(km), action[..Find(action, '.')]).None? ==> r.value == []
    ensures r.Some? && FindEntry(CategoryEntries(km), action[..Find(action, '.')]).Some? ==>
      var actions := FindEntry(CategoryEntries(km), action[..Find(action, '.')]).value;
      && (FindEntry(actions, action[Find(action, '.') + 1..]).None? ==> r.value == [])
      && (FindEntry(actions, action[Find(action, '.') + 1..]).Some? ==>
            exists j :: 0 <= j < |actions| && actions[j] == (action[Find(action, '.') + 1..], r.value))
  {
    var i := Find(action, '.');
    if i == |action| then None
    else
      match FindEntry(CategoryEntries(km), action[..i])
      case None => Some([])
      case Some(actions) => Some(FindEntry(actions, action[i + 1..]).GetOr([]))
  }

  /** `is_navigation_key`: the key is bound to an action in the "navigation" category. */
  function IsNavigationKey(table: map<string, string>, keyName: Option<string>, state: nat): (r: Option<bool>)
    ensures r.None? <==> GetActionForKey(table, keyName, state).None?
    ensures r.Some? ==> (r.value <==> exists a :: GetActionForKey(table, keyName, state) == Some(Some(a)) && StartsWith(a, "navigation."))
  {
    match GetActionForKey(table, keyName, state)
    case None => None
    case Some(None) => Some(false)
    case Some(Some(a)) => Some(StartsWith(a, "navigation."))
  }

  /** Splitting "category.action" at its first '.' gives the parts back when the category has no '.'. */
  lemma SplitActionName(category: string, action: string)
    requires '.' !in category
    ensures var n := ActionName(category, action);
      Find(n, '.') == |category| && n[..|category|] == category && n[|category| + 1..] == action
  {
    var n := ActionName(category, action);
    assert n[|category|] == '.';
    assert forall k :: 0 <= k < |category| ==> n[k] == category[k];
  }

  /** The keys listed for an action are what `get_keys_for_action` returns for its name. */
  lemma KeysForListedAction(km: seq<Entry>, c: nat, a: nat)
    requires c < |km| && km[c].category.Some? && a < |km[c].category.value|
    requires '.' !in km[c].name
    requires forall i :: 0 <= i < c ==> km[i].name != km[c].name
    requires forall j :: 0 <= j < a ==> km[c].category.value[j].0 != km[c].category.value[a].0
    ensures GetKeysForAction(km, ActionName(km[c].name, km[c].category.value[a].0)) == Some(km[c].category.value[a].1)
  {
    var actions := km[c].category.value;
    SplitActionName(km[c].name, actions[a].0);
    FirstEntryFound(CategoryEntries(km), c);
    FirstEntryFound(actions, a);
  }

  /** With no earlier entry of the same name, the lookup finds entry `c`. */
  lemma {:induction false} FirstEntryFound<T>(entries: seq<(string, T)>, c: nat)
    requires c < |entries|
    requires forall i :: 0 <= i < c ==> entries[i].0 != entries[c].0
    ensures FindEntry(entries, entries[c].0) == Some(entries[c].1)
    decreases c
  {
    if c > 0 {
      FirstEntryFound(entries[1..], c - 1);
    }
  }
}

=== FILE: label_session.dfy ===
/**
 * `LabelManager`: the boxes of the image being labelled, the selection, the unsaved flag,
 * and the text views of the labels; the OCR region clamp; `ConfirmationManager`.
 */
module LabelSession {
  import opened Common
  import opened Text
  import opened Boxes
  import opened Classes
  import opened Selection
  import opened DatCodec

  /** The manager's state. Callbacks and the save-time table are left out. */
  datatype Session = Session(classes: seq<ClassDef>, boxes: seq<Box>, selected: Option<nat>, unsaved: bool)

  predicate Valid(s: Session) {
    InRange(s.boxes, s.selected)
  }

  function NewSession(classes: seq<ClassDef>): (s: Session)
    ensures Valid(s) && s.boxes == [] && s.selected.None? && !s.unsaved
  {
    Session(classes, [], None, false)
  }

  /** Every box renamed from the class table. */
  function Named(classes: seq<ClassDef>, boxes: seq<Box>): (r: seq<Box>)
    ensures |r| == |boxes|
    ensures forall i :: 0 <= i < |boxes| ==> r[i] == boxes[i].(name := ClassName(classes, boxes[i].classId))
  {
    seq(|boxes|, i requires 0 <= i < |boxes| => boxes[i].(name := ClassName(classes, boxes[i].classId)))
  }

  /**
   * `set_boxes`: the list is replaced, each box is named after its class (or `class_<id>`),
   * nothing is selected and there is nothing to save.
   */
  function SetBoxes(s: Session, boxes: seq<Box>): (r: Session)
    ensures Valid(r) && r.selected.None? && !r.unsaved && r.classes == s.classes
    ensures |r.boxes| == |boxes|
    ensures forall i :: 0 <= i < |boxes| ==>
      SameButName(r.boxes[i], boxes[i])
      && (FindClass(s.classes, boxes[i].classId).Some? ==> r.boxes[i].name == FindClass(s.classes, boxes[i].classId).value.name)
      && (FindClass(s.classes, boxes[i].classId).None? ==> r.boxes[i].name == DefaultName(boxes[i].classId))
  {
    Session(s.classes, Named(s.classes, boxes), None, false)
  }

  predicate SameButName(a: Box, b: Box) {
    a == b.(name := a.name)
  }

  /** Setting the same boxes twice is setting them once. */
  lemma SetBoxesIdempotent(s: Session, boxes: seq<Box>)
    ensures SetBoxes(SetBoxes(s, boxes), SetBoxes(s, boxes).boxes) == SetBoxes(s, boxes)
  {
  }

  /** `select_box`: the flag moves from the old selection to the new one. */
  function SelectBox(s: Session, sel: Option<nat>): (r: Session)
    requires Valid(s) && InRange(s.boxes, sel)
    ensures Valid(r) && r.selected == sel && r.unsaved == s.unsaved && r.classes == s.classes
    ensures SameButFlags(r.boxes, s.boxes)
    ensures FlagsMatch(s.boxes, s.selected) ==> FlagsMatch(r.boxes, sel)
  {
    assert FlagsMatch(s.boxes, s.selected) ==> FlagsMatch(Reselect(s.boxes, s.selected, sel), sel) by {
      if FlagsMatch(s.boxes, s.selected) {
        ReselectKeepsFlags(s.boxes, s.selected, sel);
      }
    }
    s.(boxes := Reselect(s.boxes, s.selected, sel), selected := sel)
  }

  /**
   * `create_box`: the new box takes the first configured class that no box uses (else the
   * first class) and its name, is appended, selected and marked as a change. `None` is the
   * `IndexError` raised for an empty class table.
   */
  function CreateBox(s: Session, x: int, y: int, width: int, height: int): (r: Option<Session>)
    requires Valid(s)
    ensures r.None? <==> |s.classes| == 0
    ensures r.Some? ==>
      var t := r.value;
      && Valid(t) && t.unsaved && t.classes == s.classes
      && |t.boxes| == |s.boxes| + 1 && t.selected == Some(|s.boxes|)
      && SameButFlags(t.boxes[..|s.boxes|], s.boxes)
      && var b := t.boxes[|s.boxes|];
      && b.x == x as real && b.y == y as real && b.width == width as real && b.height == height as real
      && b.ocrText == "" && b.selected && b.name == ClassName(s.classes, b.classId)
      && FindClass(s.classes, b.classId).Some?
      && ((exists j :: 0 <= j < |s.classes| && s.classes[j].id !in UsedIds(s.boxes)) ==> b.classId !in UsedIds(s.boxes))
      && ((forall j :: 0 <= j < |s.classes| ==> s.classes[j].id in UsedIds(s.boxes)) ==> b.classId == s.classes[0].id)
      && NewBoxClass(s.classes, UsedIds(s.boxes)) == Some(b.classId)
    ensures r.Some? && FlagsMatch(s.boxes, s.selected) ==> FlagsMatch(r.value.boxes, r.value.selected)
  {
    match NewBoxClass(s.classes, UsedIds(s.boxes))
    case None => None
    case Some(id) =>
      var b := NewBox(x as real, y as real, width as real, height as real, id, "", Some(ClassName(s.classes, id)));
      var t := SelectBox(s.(boxes := s.boxes + [b]), Some(|s.boxes|));
      AppendThenSelect(s, b);
      Some(t.(unsaved := true))
  }

  /**
   * Drawing boxes one after another hands out the classes in table order: the second new
   * box takes the first class that neither the old boxes nor the first new box use.
   */
  lemma CreateTwiceTakesNextClass(s: Session, x: int, y: int, width: int, height: int)
    requires Valid(s) && |s.classes| > 0
    ensures var t := CreateBox(s, x, y, width, height).value;
      var u := CreateBox(t, x, y, width, height).value;
      var first := t.boxes[|s.boxes|].classId;
      var second := u.boxes[|t.boxes|].classId;
      && (forall id :: id in UsedIds(t.boxes) <==> id in UsedIds(s.boxes) || id == first)
      && ((exists j :: 0 <= j < |s.classes| && s.classes[j].id !in UsedIds(s.boxes) && s.classes[j].id != first) ==>
            second != first && second !in UsedIds(s.boxes) &&
            exists i :: 0 <= i < |s.classes| && s.classes[i].id == second &&
              forall j :: 0 <= j < i ==> s.classes[j].id in UsedIds(s.boxes) || s.classes[j].id == first)
  {
    CreateAddsUsed(s, x, y, width, height);
  }

  /** The classes in use after a creation are the earlier ones and the new box's. */
  lemma CreateAddsUsed(s: Session, x: int, y: int, width: int, height: int)
    requires Valid(s) && |s.classes| > 0
    ensures var t := CreateBox(s, x, y, width, height).value;
      forall id :: id in UsedIds(t.boxes) <==> id in UsedIds(s.boxes) || id == t.boxes[|s.boxes|].classId
  {
    var t := CreateBox(s, x, y, width, height).value;
    var first := t.boxes[|s.boxes|].classId;
    forall id ensures id in UsedIds(t.boxes) <==> id in UsedIds(s.boxes) || id == first {
      if id in UsedIds(s.boxes) {
        var k :| 0 <= k < |s.boxes| && UsedIds(s.boxes)[k] == id;
        assert t.boxes[..|s.boxes|][k] == t.boxes[k];
        assert UsedIds(t.boxes)[k] == id;
      }
      if id == first {
        assert UsedIds(t.boxes)[|s.boxes|] == id;
      }
      if id in UsedIds(t.boxes) {
        var k :| 0 <= k < |t.boxes| && UsedIds(t.boxes)[k] == id;
        if k < |s.boxes| {
          assert t.boxes[..|s.boxes|][k] == t.boxes[k];
          assert UsedIds(s.boxes)[k] == id;
        }
      }
    }
  }

  /** Appending an unselected box and selecting it leaves the earlier boxes as they were, flags aside. */
  lemma AppendThenSelect(s: Session, b: Box)
    requires Valid(s) && !b.selected
    ensures var t := SelectBox(s.(boxes := s.boxes + [b]), Some(|s.boxes|));
      && SameButFlags(t.boxes[..|s.boxes|], s.boxes)
      && (FlagsMatch(s.boxes, s.selected) ==> FlagsMatch(t.boxes, t.selected))
  {
    var added := s.(boxes := s.boxes + [b]);
    var t := SelectBox(added, Some(|s.boxes|));
    forall k | 0 <= k < |s.boxes| ensures t.boxes[k] == s.boxes[k].(selected := t.boxes[k].selected) {
      assert added.boxes[k] == s.boxes[k];
    }
    assert FlagsMatch(s.boxes, s.selected) ==> FlagsMatch(added.boxes, s.selected);
  }

  /**
   * `delete_selected_box`: with a selection, exactly that box leaves the list, nothing is
   * selected and the change is recorded; without one, nothing happens and `False` is returned.
   */
  function DeleteSelectedBox(s: Session): (r: (Session, bool))
    requires Valid(s)
    ensures r.1 <==> s.selected.Some?
    ensures !r.1 ==> r.0 == s
    ensures r.1 ==> r.0.boxes == RemoveAt(s.boxes, s.selected.value) && r.0.selected.None? && r.0.unsaved
    ensures r.1 ==> multiset(r.0.boxes) + multiset{s.boxes[s.selected.value]} == multiset(s.boxes)
    ensures Valid(r.0) && r.0.classes == s.classes
    ensures FlagsMatch(s.boxes, s.selected) ==> FlagsMatch(r.0.boxes, r.0.selected)
  {
    match s.selected
    case None => (s, false)
    case Some(i) =>
      assert s.boxes == s.boxes[..i] + [s.boxes[i]] + s.boxes[i + 1..];
      assert FlagsMatch(s.boxes, s.selected) ==> FlagsMatch(RemoveAt(s.boxes, i), None) by {
        if FlagsMatch(s.boxes, s.selected) {
          RemoveSelectedClearsFlags(s.boxes, i);
        }
      }
      (s.(boxes := RemoveAt(s.boxes, i), selected := None, unsaved := true), true)
  }

  /** Creating a box and deleting it again leaves the boxes as they were, up to flags. */
  lemma CreateThenDelete(s: Session, x: int, y: int, width: int, height: int)
    requires Valid(s) && |s.classes| > 0
    ensures SameButFlags(DeleteSelectedBox(CreateBox(s, x, y, width, height).value).0.boxes, s.boxes)
  {
    var t := CreateBox(s, x, y, width, height).value;
    var d := DeleteSelectedBox(t).0;
    assert d.boxes == t.boxes[..|s.boxes|];
  }

  /** `update_selected_box_text`: only the selected box's text changes. */
  function UpdateSelectedBoxText(s: Session, text: string): (r: Session)
    requires Valid(s)
    ensures s.selected.None? ==> r == s
    ensures s.selected.Some? ==>
      var i := s.selected.value;
      && r.boxes == s.boxes[i := s.boxes[i].(ocrText := text)] && r.unsaved
      && r.selected == s.selected && r.classes == s.classes
    ensures Valid(r)
  {
    match s.selected
    case None => s
    case Some(i) => s.(boxes := s.boxes[i := s.boxes[i].(ocrText := text)], unsaved := true)
  }

  /** `update_selected_box_class`: the selected box takes the class and its name. */
  function UpdateSelectedBoxClass(s: Session, id: int): (r: Session)
    requires Valid(s)
    ensures s.selected.None? ==> r == s
    ensures s.selected.Some? ==>
      var i := s.selected.value;
      && |r.boxes| == |s.boxes|
      && r.boxes[i] == s.boxes[i].(classId := id, name := ClassName(s.classes, id))
      && (forall k :: 0 <= k < |s.boxes| && k != i ==> r.boxes[k] == s.boxes[k])
      && r.unsaved && r.selected == s.selected
    ensures Valid(r)
  {
    match s.selected
    case None => s
    case Some(i) => s.(boxes := s.boxes[i := s.boxes[i].(classId := id, name := ClassName(s.classes, id))], unsaved := true)
  }

  /** `mark_changed`: the labels are flagged unsaved, and nothing else changes. */
  function MarkChanged(s: Session): (r: Session)
    ensures r.unsaved
    ensures r.boxes == s.boxes && r.selected == s.selected && r.classes == s.classes
    ensures Valid(s) ==> Valid(r)
  {
    s.(unsaved := true)
  }

  /**
   * `select_next_box`: nothing happens on an empty list; otherwise the box after the
   * selected one, wrapping round, or the first box when nothing is selected.
   */
  function SelectNextBox(s: Session): (r: Session)
    requires Valid(s)
    ensures Valid(r) && r.unsaved == s.unsaved
    ensures |s.boxes| == 0 ==> r == s
    ensures |s.boxes| > 0 ==> r.selected == Some(NextIndex(s.selected, |s.boxes|))
    ensures |s.boxes| > 0 ==> SameButFlags(r.boxes, s.boxes)
    ensures FlagsMatch(s.boxes, s.selected) ==> FlagsMatch(r.boxes, r.selected)
  {
    if |s.boxes| == 0 then s else SelectBox(s, Some(NextIndex(s.selected, |s.boxes|)))
  }

  /** `|boxes|` presses from any box come back to it, passing every other box once. */
  lemma SelectNextCycles(s: Session)
    requires Valid(s) && s.selected.Some?
    ensures forall k :: 0 < k < |s.boxes| ==> TabFrom(s.selected.value, |s.boxes|, k) != s.selected.value
    ensures TabFrom(s.selected.value, |s.boxes|, |s.boxes|) == s.selected.value
  {
    TabCycles(s.selected.value, |s.boxes|);
  }

  /**
   * `set_box_class_by_key` as written: it compares the key with `getattr(self, 'KEY_<key>',
   * None)`, an attribute the manager never has, so the comparison is always with `None`
   * and no key ever changes a class.
   */
  function SetBoxClassByKeyAsWritten(s: Session, keyval: int): (r: (Session, bool))
    requires Valid(s)
    ensures !r.1 && r.0 == s
  {
    (s, false)
  }

  /**
   * The evident intent, as the canvas widget's handler does it: the first class whose key
   * names the pressed key is given to the selected box.
   */
  function SetBoxClassByKey(s: Session, keyval: int, keyvalOf: string -> Option<int>): (r: (Session, bool))
    requires Valid(s)
    ensures r.1 <==> s.selected.Some? && KeyClass(s.classes, keyvalOf, keyval).Some?
    ensures !r.1 ==> r.0 == s
    ensures r.1 ==>
      var c := s.classes[KeyClass(s.classes, keyvalOf, keyval).value];
      var i := s.selected.value;
      && |r.0.boxes| == |s.boxes|
      && r.0.boxes[i] == s.boxes[i].(classId := c.id, name := c.name)
      && (forall k :: 0 <= k < |s.boxes| && k != i ==> r.0.boxes[k] == s.boxes[k])
      && r.0.unsaved && r.0.selected == s.selected
    ensures Valid(r.0)
  {
    if s.selected.None? then (s, false)
    else
      match KeyClass(s.classes, keyvalOf, keyval)
      case None => (s, false)
      case Some(c) =>
        var i := s.selected.value;
        (s.(boxes := s.boxes[i := s.boxes[i].(classId := s.classes[c].id, name := s.classes[c].name)],
            unsaved := true), true)
  }

  /** A box selected and a class bound to the key: the intended handler acts, the written one does not. */
  lemma KeyBindingIgnored(s: Session, j: nat, keyvalOf: string -> Option<int>, keyval: int)
    requires Valid(s) && s.selected.Some? && j < |s.classes| && keyvalOf(s.classes[j].key) == Some(keyval)
    ensures SetBoxClassByKey(s, keyval, keyvalOf).1
    ensures !SetBoxClassByKeyAsWritten(s, keyval).1
  {
  }

  // ---------------------------------------------------------------------------------------
  // Character counts.

  /** Per-name counts in first-appearance order, as a Python dict keeps them. */
  type Counts = seq<(string, nat)>

  /** The name is a key of the counts. */
  predicate HasName(c: Counts, name: string) {
    |c| > 0 && (c[0].0 == name || HasName(c[1..], name))
  }

  /** No name is a key twice. */
  predicate DistinctNames(c: Counts) {
    |c| == 0 || (!HasName(c[1..], c[0].0) && DistinctNames(c[1..]))
  }

  function CountOf(c: Counts, name: string): nat {
    if |c| == 0 then 0 else (if c[0].0 == name then c[0].1 else 0) + CountOf(c[1..], name)
  }

  function Total(c: Counts): nat {
    if |c| == 0 then 0 else c[0].1 + Total(c[1..])
  }

  /** `counts[name] += n`, adding the key at the end when it is new. */
  function AddCount(c: Counts, name: string, n: nat): (r: Counts)
    requires DistinctNames(c)
    ensures DistinctNames(r)
    ensures forall x :: HasName(r, x) <==> HasName(c, x) || x == name
    ensures Total(r) == Total(c) + n
    ensures CountOf(r, name) == CountOf(c, name) + n
    ensures forall other :: other != name ==> CountOf(r, other) == CountOf(c, other)
    decreases |c|
  {
    if |c| == 0 then
      var r := [(name, n)];
      assert r[1..] == [];
      r
    else if c[0].0 == name then
      NameAbsent(c[1..], name);
      var r := [(name, c[0].1 + n)] + c[1..];
      assert r[1..] == c[1..];
      r
    else
      var rest := AddCount(c[1..], name, n);
      var r := [c[0]] + rest;
      assert r[1..] == rest;
      r
  }

  /** A name that is not a key counts nothing. */
  lemma {:induction false} NameAbsent(c: Counts, name: string)
    requires !HasName(c, name)
    ensures CountOf(c, name) == 0
    decreases |c|
  {
    if |c| > 0 {
      NameAbsent(c[1..], name);
    }
  }

  /** The summed text length of the boxes whose class name is `name`. */
  function TextLengthOf(classes: seq<ClassDef>, boxes: seq<Box>, name: string): nat {
    if |boxes| == 0 then 0
    else
      TextLengthOf(classes, boxes[..|boxes| - 1], name)
      + (if ClassName(classes, boxes[|boxes| - 1].classId) == name then |boxes[|boxes| - 1].ocrText| else 0)
  }

  function TextLength(boxes: seq<Box>): nat {
    if |boxes| == 0 then 0 else TextLength(boxes[..|boxes| - 1]) + |boxes[|boxes| - 1].ocrText|
  }

  /**
   * `get_ocr_character_counts`: for each class name among the boxes, the length of their
   * texts. Every name's count is the text length of its boxes, and the counts add up to the
   * text length of all boxes.
   */
  function CharacterCounts(classes: seq<ClassDef>, boxes: seq<Box>): (r: Counts)
    ensures DistinctNames(r)
    ensures Total(r) == TextLength(boxes)
    ensures forall name :: CountOf(r, name) == TextLengthOf(classes, boxes, name)
  {
    if |boxes| == 0 then []
    else
      var last := boxes[|boxes| - 1];
      AddCount(CharacterCounts(classes, boxes[..|boxes| - 1]), ClassName(classes, last.classId), |last.ocrText|)
  }

  // ---------------------------------------------------------------------------------------
  // Text of the labels.

  /** One preview line: like a file line, but the text is not sanitized. */
  function PreviewLine(b: Box, fmt: real -> string): string {
    IntToString(b.classId) + " " + (CoordText(fmt(b.x), fmt(b.y), fmt(b.width), fmt(b.height)) + " #" + b.ocrText)
  }

  function PreviewLines(boxes: seq<Box>, fmt: real -> string): (r: seq<string>)
    ensures |r| == |boxes| && forall k :: 0 <= k < |boxes| ==> r[k] == PreviewLine(boxes[k], fmt)
  {
    seq(|boxes|, k requires 0 <= k < |boxes| => PreviewLine(boxes[k], fmt))
  }

  /** `get_dat_file_content`: the lines in class-id order, joined with LF. */
  function DatFileContent(s: Session, fmt: real -> string): (r: string)
    ensures |s.boxes| == 0 <==> r == ""
  {
    var lines := PreviewLines(ByClass(s.boxes), fmt);
    assert |s.boxes| > 0 ==> |Join(lines, "\n")| >= |lines[0]| > 0 by {
      if |s.boxes| > 0 {
        JoinStartsWithFirst(lines, "\n");
      }
    }
    Join(lines, "\n")
  }

  /** Splitting LF-joined lines gives the lines back. */
  lemma {:induction false} SplitLinesJoinLf(ls: seq<string>)
    requires forall k :: 0 <= k < |ls| ==> |ls[k]| > 0 && NoLineBreak(ls[k])
    ensures SplitLines(Join(ls, "\n")) == ls
    decreases |ls|
  {
    if |ls| == 1 {
      LineEndAppend(ls[0], "");
      assert ls[0] + "" == ls[0];
    } else if |ls| > 1 {
      var tail := Join(ls[1..], "\n");
      assert Join(ls, "\n") == ls[0] + ("\n" + tail);
      SplitLinesStep(ls[0], "\n", tail);
      SplitLinesJoinLf(ls[1..]);
      assert ls == [ls[0]] + ls[1..];
    }
  }

  /**
   * For boxes the writer can print exactly and whose text is ASCII, the preview reads back
   * as the saved file does: the boxes in class-id order, as reading gives them.
   */
  lemma PreviewReadsLikeFile(s: Session, fmt: real -> string)
    requires forall b :: b in s.boxes ==> Writable(b, fmt) && AllAscii(b.ocrText)
    ensures ParseDat(DatFileContent(s, fmt)) == ParseDat(SerializeDat(s.boxes, fmt))
  {
    var sorted := ByClass(s.boxes);
    forall k | 0 <= k < |sorted| ensures Writable(sorted[k], fmt) && PreviewLine(sorted[k], fmt) == FormatLine(sorted[k], fmt) {
      assert sorted[k] in multiset(s.boxes);
      SanitizeKeepsAscii(sorted[k].ocrText);
    }
    var lines := FormatLines(sorted, fmt);
    assert PreviewLines(sorted, fmt) == lines;
    LinesClean(sorted, fmt);
    SplitLinesJoinLf(lines);
    JoinAscii(lines, "\n");
    assert DatFileContent(s, fmt) == Join(lines, "\n");
    ReadJoined(lines);
    DatRoundTrip(s.boxes, fmt);
    LinesReadBack(sorted, fmt);
  }

  /**
   * `save_to_file`: the writer reports no failure (it swallows its own errors), so saving
   * always succeeds and clears the unsaved flag. The text handed to the file is returned.
   */
  function SaveToFile(s: Session, fmt: real -> string): (r: (Session, bool, string))
    ensures r.1 && !r.0.unsaved
    ensures r.0 == s.(unsaved := false)
    ensures r.2 == SerializeDat(s.boxes, fmt)
  {
    (s.(unsaved := false), true, SerializeDat(s.boxes, fmt))
  }

  /** `load_from_file` on the file's text: the boxes read are set, and loading reports success. */
  function LoadFromFile(s: Session, content: string): (r: (Session, bool))
    ensures r.1 && Valid(r.0) && r.0.selected.None? && !r.0.unsaved
    ensures |r.0.boxes| == |ParseDat(content)|
    ensures forall i :: 0 <= i < |r.0.boxes| ==> SameButName(r.0.boxes[i], ParseDat(content)[i])
  {
    (SetBoxes(s, ParseDat(content)), true)
  }

  /** Saving and loading back gives the boxes in class-id order with their class names. */
  lemma SaveLoadRoundTrip(s: Session)
    requires forall b :: b in s.boxes ==> HasIntegralCoords(b) && PlainText(b.ocrText)
    ensures var loaded := LoadFromFile(s, SaveToFile(s, IntText).2).0;
      && |loaded.boxes| == |s.boxes|
      && forall k :: 0 <= k < |s.boxes| ==>
        loaded.boxes[k] == Stored(ByClass(s.boxes)[k]).(name := ClassName(s.classes, ByClass(s.boxes)[k].classId))
  {
    IntegralRoundTrip(s.boxes);
  }

  // ---------------------------------------------------------------------------------------
  // OCR region.

  datatype Region = Region(x: int, y: int, width: int, height: int)

  /** The region lies in a `w` by `h` image and holds at least one pixel. */
  predicate Within(r: Region, w: int, h: int) {
    0 <= r.x < w && 0 <= r.y < h && 1 <= r.width <= w - r.x && 1 <= r.height <= h - r.y
  }

  /** The clamp `_run_ocr_thread` applies to a box before cutting it out of a `w` by `h` image. */
  function ClampRegion(x: int, y: int, width: int, height: int, w: int, h: int): (r: Region)
    ensures w >= 1 && h >= 1 ==> Within(r, w, h)
  {
    var cx := MaxI(0, MinI(x, w - 1));
    var cy := MaxI(0, MinI(y, h - 1));
    Region(cx, cy, MaxI(1, MinI(width, w - cx)), MaxI(1, MinI(height, h - cy)))
  }

  /** The clamp leaves a region that already fits alone, so clamping twice is clamping once. */
  lemma ClampKeepsFitting(r: Region, w: int, h: int)
    requires Within(r, w, h)
    ensures ClampRegion(r.x, r.y, r.width, r.height, w, h) == r
  {
  }

  /** `int()` of each coordinate, then the clamp. */
  function OcrRegion(b: Box, w: int, h: int): (r: Region)
    ensures w >= 1 && h >= 1 ==> Within(r, w, h)
  {
    ClampRegion(Trunc(b.x), Trunc(b.y), Trunc(b.width), Trunc(b.height), w, h)
  }

  lemma OcrRegionOfFittingBox(b: Box, w: int, h: int)
    requires HasIntegralCoords(b)
    requires Within(Region(b.x.Floor, b.y.Floor, b.width.Floor, b.height.Floor), w, h)
    ensures OcrRegion(b, w, h) == Region(b.x.Floor, b.y.Floor, b.width.Floor, b.height.Floor)
  {
    TruncIntegral(b.x.Floor);
    TruncIntegral(b.y.Floor);
    TruncIntegral(b.width.Floor);
    TruncIntegral(b.height.Floor);
    ClampKeepsFitting(Region(b.x.Floor, b.y.Floor, b.width.Floor, b.height.Floor), w, h);
  }

  // ---------------------------------------------------------------------------------------
  // Confirmation.

  /** `ConfirmationManager.confirmation_status`. */
  type Confirmations = map<string, bool>

  /** `get_confirmation`: unknown paths are unconfirmed. */
  function GetConfirmation(m: Confirmations, path: string): (r: bool)
    ensures path !in m ==> !r
    ensures r <==> path in m && m[path]
  {
    if path in m then m[path] else false
  }

  function SetConfirmation(m: Confirmations, path: string, confirmed: bool): (r: Confirmations)
    ensures GetConfirmation(r, path) == confirmed
    ensures forall p :: p != path ==> GetConfirmation(r, p) == GetConfirmation(m, p)
    ensures r.Keys == m.Keys + {path}
  {
    m[path := confirmed]
  }

  /** `toggle_confirmation`: flips the path's status and returns the new one. */
  function ToggleConfirmation(m: Confirmations, path: string): (r: (Confirmations, bool))
    ensures r.1 == !GetConfirmation(m, path) && GetConfirmation(r.0, path) == r.1
    ensures forall p :: p != path ==> GetConfirmation(r.0, p) == GetConfirmation(m, p)
  {
    var flipped := !GetConfirmation(m, path);
    (SetConfirmation(m, path, flipped), flipped)
  }

  /** Toggling twice gives every path its old status back. */
  lemma ToggleTwice(m: Confirmations, path: string)
    ensures forall p :: GetConfirmation(ToggleConfirmation(ToggleConfirmation(m, path).0, path).0, p) == GetConfirmation(m, p)
  {
  }

  datatype Summary = Summary(confirmed: nat, unconfirmed: int, total: nat)

  function ConfirmedPaths(m: Confirmations): set<string> {
    set p | p in m && m[p]
  }

  function UnconfirmedPaths(m: Confirmations): set<string> {
    set p | p in m && !m[p]
  }

  /**
   * `get_confirmation_summary`: `unconfirmed` is computed as total minus confirmed; it is
   * exactly the number of paths recorded as unconfirmed.
   */
  function ConfirmationSummary(m: Confirmations): (r: Summary)
    ensures r.confirmed == |ConfirmedPaths(m)| && r.total == |m|
    ensures r.unconfirmed == |UnconfirmedPaths(m)|
    ensures r.confirmed + r.unconfirmed == r.total
  {
    var yes, no := ConfirmedPaths(m), UnconfirmedPaths(m);
    assert yes + no == m.Keys && yes * no == {};
    Summary(|yes|, |m| - |yes|, |m|)
  }
}

=== FILE: ocr_text.dfy ===
/**
 * The text side of OCR: the engine configuration chosen per class and the clean-up applied
 * to recognised text according to the class's field type, with the pattern-driven
 * autocorrection. Recognition itself is outside the model.
 */
module OcrText {
  import opened Common
  import opened Text
  import opened Classes
  import opened Regex

  const DefaultTesseractConfig: string :=
    "--oem 3 --psm 8 -c tessedit_char_whitelist=ABCDEFGHIJKLMNOPQRSTUVWXYZ0123456789"

  /** `get_tesseract_config_for_class`: the class's own configuration, else the whitelist default. */
  function TesseractConfig(classes: seq<ClassDef>, id: int): (r: string)
    ensures FindClass(classes, id).Some? && FindClass(classes, id).value.tesseractConfig.Some? ==>
      r == FindClass(classes, id).value.tesseractConfig.value
    ensures FindClass(classes, id).None? || FindClass(classes, id).value.tesseractConfig.None? ==>
      r == DefaultTesseractConfig
  {
    match FindClass(classes, id)
    case Some(c) => c.tesseractConfig.GetOr(DefaultTesseractConfig)
    case None => DefaultTesseractConfig
  }

  /** Each character replaced through `f`. */
  function MapChars(s: string, f: char -> char): (r: string)
    ensures |r| == |s| && forall i :: 0 <= i < |s| ==> r[i] == f(s[i])
  {
    seq(|s|, i requires 0 <= i < |s| => f(s[i]))
  }

  /** `s.replace(pat, repl)` for single characters, character by character. */
  lemma SwapIsMap(s: string, pat: char, repl: char)
    ensures Replace(s, [pat], [repl]) == MapChars(s, c => SwapChar(c, pat, repl))
  {
    ReplaceOneChar(s, pat, repl);
  }

  // ---------------------------------------------------------------------------------------
  // Machine-readable zone.

  predicate IsMrzChar(c: char) {
    IsUpperAscii(c) || IsDigit(c) || c == '<'
  }

  predicate NotSpace(c: char) {
    !IsSpace(c)
  }

  /** The six look-alike letters replaced by digits in MRZ text. */
  function MrzFix(c: char): char {
    match c
    case 'O' => '0'
    case 'I' => '1'
    case 'S' => '5'
    case 'Z' => '2'
    case 'B' => '8'
    case 'G' => '6'
    case _ => c
  }

  predicate MrzClean(c: char) {
    IsMrzChar(c) && c !in "OISZBG"
  }

  /**
   * `_postprocess_mrz_text`: whitespace removed, only A-Z, 0-9 and '<' kept (lower case is
   * dropped, not upper-cased), then O, I, S, Z, B and G replaced by 0, 1, 5, 2, 8 and 6.
   */
  function PostprocessMrz(text: string): (r: string)
    ensures forall i :: 0 <= i < |r| ==> MrzClean(r[i])
  {
    var kept := Filter(Filter(text, NotSpace), IsMrzChar);
    var t := Replace(Replace(Replace(Replace(Replace(Replace(kept, "O", "0"), "I", "1"), "S", "5"), "Z", "2"), "B", "8"), "G", "6");
    assert t == MapChars(kept, MrzFix) by {
      MrzReplacements(kept);
    }
    forall i | 0 <= i < |t| ensures MrzClean(t[i]) {
      MrzFixCleans(kept[i]);
    }
    t
  }

  /** Replacing the look-alikes in an MRZ character leaves a clean one. */
  lemma MrzFixCleans(c: char)
    requires IsMrzChar(c)
    ensures MrzClean(MrzFix(c))
  {
  }

  lemma MrzReplacements(kept: string)
    ensures Replace(Replace(Replace(Replace(Replace(Replace(kept, "O", "0"), "I", "1"), "S", "5"), "Z", "2"), "B", "8"), "G", "6")
         == MapChars(kept, MrzFix)
  {
    var t1 := Replace(kept, "O", "0");
    SwapIsMap(kept, 'O', '0');
    assert "O" == ['O'] && "0" == ['0'];
    var t2 := Replace(t1, "I", "1");
    SwapIsMap(t1, 'I', '1');
    assert "I" == ['I'] && "1" == ['1'];
    var t3 := Replace(t2, "S", "5");
    SwapIsMap(t2, 'S', '5');
    assert "S" == ['S'] && "5" == ['5'];
    var t4 := Replace(t3, "Z", "2");
    SwapIsMap(t3, 'Z', '2');
    assert "Z" == ['Z'] && "2" == ['2'];
    var t5 := Replace(t4, "B", "8");
    SwapIsMap(t4, 'B', '8');
    assert "B" == ['B'] && "8" == ['8'];
    var t6 := Replace(t5, "G", "6");
    SwapIsMap(t5, 'G', '6');
    assert "G" == ['G'] && "6" == ['6'];
  }

  /** Filtering out whitespace first changes nothing, as MRZ characters are never whitespace. */
  lemma {:induction false} FilterSpacesFirst(s: string)
    ensures Filter(Filter(s, NotSpace), IsMrzChar) == Filter(s, IsMrzChar)
    decreases |s|
  {
    if |s| > 0 {
      FilterSpacesFirst(s[1..]);
      if NotSpace(s[0]) {
        assert ([s[0]] + Filter(s[1..], NotSpace))[1..] == Filter(s[1..], NotSpace);
      }
    }
  }

  /** The MRZ clean-up keeps exactly the MRZ characters, in order, with look-alikes replaced. */
  lemma MrzCharwise(text: string)
    ensures PostprocessMrz(text) == MapChars(Filter(text, IsMrzChar), MrzFix)
  {
    FilterSpacesFirst(text);
    MrzReplacements(Filter(Filter(text, NotSpace), IsMrzChar));
  }

  /** Cleaning MRZ text twice is cleaning it once. */
  lemma MrzIdempotent(text: string)
    ensures PostprocessMrz(PostprocessMrz(text)) == PostprocessMrz(text)
  {
    var r := PostprocessMrz(text);
    MrzCharwise(r);
    FilterAll(r, IsMrzChar);
    assert MapChars(r, MrzFix) == r;
  }

  // ---------------------------------------------------------------------------------------
  // Dates.

  /** The length of the leading whitespace run. */
  function SpaceRun(s: string): (n: nat)
    ensures n <= |s|
    ensures forall i :: 0 <= i < n ==> IsSpace(s[i])
    ensures n < |s| ==> !IsSpace(s[n])
  {
    if |s| > 0 && IsSpace(s[0]) then 1 + SpaceRun(s[1..]) else 0
  }

  /** How much of `s` its first output character stands for: a whole whitespace run, or one character. */
  function RunLength(s: string): (n: nat)
    requires |s| > 0
    ensures 1 <= n <= |s|
    ensures IsSpace(s[0]) ==> n < |s| ==> !IsSpace(s[n])
    ensures IsSpace(s[0]) ==> forall i :: 0 <= i < n ==> IsSpace(s[i])
  {
    if IsSpace(s[0]) then SpaceRun(s) else 1
  }

  /** Only plain spaces, never two in a row. */
  predicate SingleSpaced(s: string) {
    && (forall i :: 0 <= i < |s| && IsSpace(s[i]) ==> s[i] == ' ')
    && (forall i :: 0 <= i < |s| - 1 ==> !(IsSpace(s[i]) && IsSpace(s[i + 1])))
  }

  /** `re.sub(r'\s+', ' ', s)`: every whitespace run becomes one space. */
  function Collapse(s: string): (r: string)
    ensures SingleSpaced(r)
    ensures |r| <= |s|
    ensures |s| > 0 ==> |r| > 0 && (IsSpace(r[0]) <==> IsSpace(s[0])) && (IsSpace(r[|r| - 1]) <==> IsSpace(s[|s| - 1]))
    decreases |s|
  {
    if |s| == 0 then ""
    else
      var n := RunLength(s);
      var rest := Collapse(s[n..]);
      var head := if IsSpace(s[0]) then ' ' else s[0];
      CollapseSpacing(s, n, head, rest);
      [head] + rest
  }

  /** One step of the collapse keeps the tokens: a whitespace run stands for one space, a word character for itself. */
  lemma CollapseKeepsWordList(s: string, n: nat, head: char, rest: string)
    requires |s| > 0 && n == RunLength(s) && head == (if IsSpace(s[0]) then ' ' else s[0])
    requires SplitWs(rest) == SplitWs(s[n..])
    requires n < |s| ==> |rest| > 0 && (IsSpace(rest[0]) <==> IsSpace(s[n]))
    requires n == |s| ==> rest == ""
    ensures SplitWs([head] + rest) == SplitWs(s)
  {
    if IsSpace(s[0]) {
      SplitBySkip(' ', rest, IsSpace);
      SplitByDropFront(s, n, IsSpace);
    } else {
      assert s == [s[0]] + s[1..];
      SplitByCons(s[0], rest, IsSpace);
      SplitByCons(s[0], s[1..], IsSpace);
    }
  }

  /** One step of the collapse keeps the non-whitespace characters, in order. */
  lemma CollapseKeepsWords(s: string, n: nat, head: char, rest: string)
    requires |s| > 0 && n == RunLength(s) && head == (if IsSpace(s[0]) then ' ' else s[0])
    requires Filter(rest, NotSpace) == Filter(s[n..], NotSpace)
    ensures Filter([head] + rest, NotSpace) == Filter(s, NotSpace)
  {
    FilterAppend([head], rest, NotSpace);
    var run := s[..n];
    assert s == run + s[n..];
    FilterAppend(run, s[n..], NotSpace);
    assert Filter([head], NotSpace) == Filter(run, NotSpace) by {
      if IsSpace(s[0]) {
        FilterNone(run, NotSpace);
        FilterNone([head], NotSpace);
      } else {
        assert run == [head];
      }
    }
  }

  /** The collapse keeps every token of `str.split()`, and so every non-whitespace character, in order. */
  lemma {:induction false} CollapseKeepsTokens(s: string)
    ensures SplitWs(Collapse(s)) == SplitWs(s)
    ensures Filter(Collapse(s), NotSpace) == Filter(s, NotSpace)
    decreases |s|
  {
    if |s| > 0 {
      var n := RunLength(s);
      var head := if IsSpace(s[0]) then ' ' else s[0];
      CollapseKeepsTokens(s[n..]);
      CollapseUnfold(s);
      CollapseKeepsWords(s, n, head, Collapse(s[n..]));
      CollapseKeepsWordList(s, n, head, Collapse(s[n..]));
    }
  }

  /** One step of the collapse never puts two spaces together. */
  lemma CollapseSpacing(s: string, n: nat, head: char, rest: string)
    requires |s| > 0 && n == RunLength(s) && head == (if IsSpace(s[0]) then ' ' else s[0])
    requires SingleSpaced(rest) && |rest| <= |s| - n
    requires n < |s| ==> |rest| > 0 && (IsSpace(rest[0]) <==> IsSpace(s[n])) && (IsSpace(rest[|rest| - 1]) <==> IsSpace(s[|s| - 1]))
    requires n == |s| ==> rest == ""
    ensures SingleSpaced([head] + rest)
    ensures IsSpace(([head] + rest)[|rest|]) <==> IsSpace(s[|s| - 1])
  {
    var r := [head] + rest;
    forall i | 0 <= i < |r| - 1 ensures !(IsSpace(r[i]) && IsSpace(r[i + 1])) {
      if i > 0 {
        assert r[i] == rest[i - 1] && r[i + 1] == rest[i];
      }
    }
    if n == |s| && IsSpace(s[0]) {
      assert IsSpace(s[|s| - 1]);
    }
  }

  /** Single-spaced text is left alone. */
  lemma {:induction false} CollapseSingleSpaced(s: string)
    requires SingleSpaced(s)
    ensures Collapse(s) == s
    decreases |s|
  {
    if |s| > 0 {
      SingleSpacedStep(s);
      CollapseSingleSpaced(s[1..]);
      CollapseSingleStep(s);
    }
  }

  /** In single-spaced text the collapse copies the first character and goes on with the rest. */
  lemma CollapseSingleStep(s: string)
    requires SingleSpaced(s) && |s| > 0 && Collapse(s[1..]) == s[1..]
    ensures Collapse(s) == s
  {
    SingleSpacedStep(s);
    CollapseUnfold(s);
    assert s == [s[0]] + s[1..];
  }

  /** A single-spaced text's first character stands for itself alone, and the rest is single-spaced too. */
  lemma SingleSpacedStep(s: string)
    requires SingleSpaced(s) && |s| > 0
    ensures SingleSpaced(s[1..]) && RunLength(s) == 1
    ensures (if IsSpace(s[0]) then ' ' else s[0]) == s[0]
  {
    assert forall i :: 0 <= i < |s[1..]| ==> s[1..][i] == s[i + 1];
    if IsSpace(s[0]) && |s| > 1 {
      assert !IsSpace(s[1]);
      assert SpaceRun(s[1..]) == 0;
    }
  }

  lemma CollapseUnfold(s: string)
    requires |s| > 0
    ensures Collapse(s) == [if IsSpace(s[0]) then ' ' else s[0]] + Collapse(s[RunLength(s)..])
  {
  }

  /** The date letters O, I and S replaced by 0, 1 and 5. */
  function DateFix(c: char): char {
    match c
    case 'O' => '0'
    case 'I' => '1'
    case 'S' => '5'
    case _ => c
  }

  function SwapOis(t: string): (r: string)
    ensures r == MapChars(t, DateFix)
  {
    SwapIsMap(t, 'O', '0');
    assert "O" == ['O'] && "0" == ['0'];
    var t1 := Replace(t, "O", "0");
    SwapIsMap(t1, 'I', '1');
    assert "I" == ['I'] && "1" == ['1'];
    var t2 := Replace(t1, "I", "1");
    SwapIsMap(t2, 'S', '5');
    assert "S" == ['S'] && "5" == ['5'];
    Replace(t2, "S", "5")
  }

  /** No whitespace at either end. */
  predicate Trimmed(s: string) {
    |s| > 0 ==> !IsSpace(s[0]) && !IsSpace(s[|s| - 1])
  }

  /** The date letter swap never turns a character into whitespace or back. */
  lemma DateFixKeepsSpacing(c: string)
    requires SingleSpaced(c) && Trimmed(c)
    ensures SingleSpaced(MapChars(c, DateFix)) && Trimmed(MapChars(c, DateFix))
    ensures forall i :: 0 <= i < |c| ==> MapChars(c, DateFix)[i] !in "OIS"
  {
    var r := MapChars(c, DateFix);
    assert forall i :: 0 <= i < |c| ==> (IsSpace(r[i]) <==> IsSpace(c[i])) && (IsSpace(r[i]) ==> r[i] == c[i]);
  }

  /** Collapsing stripped text leaves it trimmed. */
  lemma CollapseStripped(text: string)
    ensures Trimmed(Collapse(Strip(text)))
  {
  }

  /**
   * `_postprocess_date_text`: stripped, whitespace runs collapsed to one space, then O, I
   * and S replaced by 0, 1 and 5.
   */
  function PostprocessDate(text: string): (r: string)
    ensures SingleSpaced(r) && Trimmed(r)
    ensures forall i :: 0 <= i < |r| ==> r[i] !in "OIS"
    ensures Filter(r, NotSpace) == MapChars(Filter(text, NotSpace), DateFix)
    ensures SplitWs(r) == SplitWs(MapChars(text, DateFix))
  {
    var c := Collapse(Strip(text));
    CollapseStripped(text);
    DateFixKeepsSpacing(c);
    StripKeepsWords(text);
    CollapseKeepsTokens(Strip(text));
    DateFixKeepsWords(c);
    DateKeepsTokens(text, c);
    SwapOis(c)
  }

  /** The date clean-up has the tokens of the text with the letters swapped, and no others. */
  lemma DateKeepsTokens(text: string, c: string)
    requires c == Collapse(Strip(text))
    ensures SplitWs(MapChars(c, DateFix)) == SplitWs(MapChars(text, DateFix))
  {
    DateFixKeepsSpace();
    CollapseKeepsTokens(Strip(text));
    StripKeepsTokens(text);
    SplitByMap(c, DateFix, IsSpace);
    SplitByMap(text, DateFix, IsSpace);
  }

  lemma DateFixKeepsSpace()
    ensures forall c :: IsSpace(DateFix(c)) == IsSpace(c)
  {
  }

  /** Each part mapped through `f`. */
  function MapParts(ws: seq<string>, f: char -> char): seq<string> {
    seq(|ws|, k requires 0 <= k < |ws| => MapChars(ws[k], f))
  }

  /** A map that keeps separators where they are commutes with splitting. */
  lemma {:induction false} SplitByMap(x: string, f: char -> char, sep: char -> bool)
    requires forall c :: sep(f(c)) == sep(c)
    ensures SplitBy(MapChars(x, f), sep) == MapParts(SplitBy(x, sep), f)
    decreases |x|
  {
    if |x| > 0 {
      var m := MapChars(x, f);
      if sep(x[0]) {
        assert m[1..] == MapChars(x[1..], f);
        SplitByMap(x[1..], f, sep);
      } else {
        var n := RunLen(x, sep);
        SplitByMap(x[n..], f, sep);
        SplitByMapStep(x, f, sep, n);
      }
    }
  }

  /** The step of `SplitByMap` for text that starts with a part. */
  lemma SplitByMapStep(x: string, f: char -> char, sep: char -> bool, n: nat)
    requires forall c :: sep(f(c)) == sep(c)
    requires |x| > 0 && !sep(x[0]) && n == RunLen(x, sep)
    requires SplitBy(MapChars(x[n..], f), sep) == MapParts(SplitBy(x[n..], sep), f)
    ensures SplitBy(MapChars(x, f), sep) == MapParts(SplitBy(x, sep), f)
  {
    var m := MapChars(x, f);
    RunLenMap(x, f, sep);
    assert m[..n] == MapChars(x[..n], f);
    assert m[n..] == MapChars(x[n..], f);
    SplitByToken(x, sep, n);
    SplitByToken(m, sep, n);
    MapPartsCons(x[..n], SplitBy(x[n..], sep), f);
  }

  lemma MapPartsCons(t: string, ws: seq<string>, f: char -> char)
    ensures MapParts([t] + ws, f) == [MapChars(t, f)] + MapParts(ws, f)
  {
  }

  /** A map that keeps separators where they are keeps the length of the leading part. */
  lemma {:induction false} RunLenMap(x: string, f: char -> char, sep: char -> bool)
    requires forall c :: sep(f(c)) == sep(c)
    ensures RunLen(MapChars(x, f), sep) == RunLen(x, sep)
    decreases |x|
  {
    if |x| > 0 {
      assert MapChars(x, f)[1..] == MapChars(x[1..], f);
      RunLenMap(x[1..], f, sep);
    }
  }

  /** Stripping only drops whitespace. */
  lemma StripKeepsWords(text: string)
    ensures Filter(Strip(text), NotSpace) == Filter(text, NotSpace)
  {
    var k := StripStart(text);
    var r := Strip(text);
    assert r == text[k..k + |r|];
    forall i | 0 <= i < k ensures !NotSpace(text[i]) {
      assert IsSpace(text[i]);
    }
    forall i | k + |r| <= i < |text| ensures !NotSpace(text[i]) {
      assert IsSpace(text[i]);
    }
    FilterMiddle(text, k, k + |r|, NotSpace);
  }

  /** A character map that keeps a predicate commutes with filtering on it. */
  lemma {:induction false} FilterMap(c: string, f: char -> char, p: char -> bool)
    requires forall ch :: p(f(ch)) == p(ch)
    ensures Filter(MapChars(c, f), p) == MapChars(Filter(c, p), f)
    decreases |c|
  {
    if |c| > 0 {
      FilterMap(c[1..], f, p);
      var m := MapChars(c, f);
      var tail := Filter(c[1..], p);
      assert m[1..] == MapChars(c[1..], f);
      if p(c[0]) {
        assert MapChars([c[0]] + tail, f) == [f(c[0])] + MapChars(tail, f);
      }
    }
  }

  /** The date letter swap commutes with dropping whitespace. */
  lemma DateFixKeepsWords(c: string)
    ensures Filter(MapChars(c, DateFix), NotSpace) == MapChars(Filter(c, NotSpace), DateFix)
  {
    DateFixKeepsSpace();
    FilterMap(c, DateFix, NotSpace);
  }

  /** A date that is already clean is left as it is. */
  lemma CleanDateFixed(r: string)
    requires SingleSpaced(r) && Trimmed(r)
    requires forall i :: 0 <= i < |r| ==> r[i] !in "OIS"
    ensures PostprocessDate(r) == r
  {
    StripNoEdgeSpace(r);
    CollapseSingleSpaced(r);
    NoDateLettersFixed(r);
  }

  lemma NoDateLettersFixed(r: string)
    requires forall i :: 0 <= i < |r| ==> r[i] !in "OIS"
    ensures MapChars(r, DateFix) == r
  {
    assert forall i :: 0 <= i < |r| ==> DateFix(r[i]) == r[i];
  }

  /** Cleaning a date twice is cleaning it once. */
  lemma DateIdempotent(text: string)
    ensures PostprocessDate(PostprocessDate(text)) == PostprocessDate(text)
  {
    CleanDateFixed(PostprocessDate(text));
  }

  // ---------------------------------------------------------------------------------------
  // Other field types.

  /** `text.upper()[:1] if text else ""`. */
  function SingleChar(text: string): (r: string)
    ensures |text| == 0 <==> r == ""
    ensures |text| > 0 ==> r == [UpperChar(text[0])]
  {
    if |text| == 0 then "" else Upper(text)[..1]
  }

  predicate IsUpperAlnum(c: char) {
    IsDigit(c) || IsUpperAscii(c)
  }

  /** `''.join(c for c in text.upper() if c.isalnum())`. */
  function Alphanumeric(text: string): (r: string)
    ensures forall i :: 0 <= i < |r| ==> IsUpperAlnum(r[i])
    ensures |r| <= |text|
  {
    var u := Upper(text);
    var r := Filter(u, IsAlnumAscii);
    assert forall c :: c in u ==> !IsLowerAscii(c);
    r
  }

  /** Alphanumeric clean-up is idempotent. */
  lemma AlphanumericIdempotent(text: string)
    ensures Alphanumeric(Alphanumeric(text)) == Alphanumeric(text)
  {
    var r := Alphanumeric(text);
    assert Upper(r) == r;
    FilterAll(r, IsAlnumAscii);
  }

  /** The alphanumeric clean-up keeps exactly the letters and digits, in order, each upper-cased. */
  lemma {:induction false} AlphanumericCharwise(text: string)
    ensures Alphanumeric(text) == MapChars(Filter(text, IsAlnumAscii), UpperChar)
    decreases |text|
  {
    if |text| > 0 {
      AlphanumericCharwise(text[1..]);
      assert Upper(text)[1..] == Upper(text[1..]);
      var c := text[0];
      assert IsAlnumAscii(UpperChar(c)) <==> IsAlnumAscii(c);
      if IsAlnumAscii(c) {
        var f := Filter(text[1..], IsAlnumAscii);
        assert MapChars([c] + f, UpperChar) == [UpperChar(c)] + MapChars(f, UpperChar);
      }
    }
  }

  /** Cleaning two pieces of text and joining them is cleaning the joined text. */
  lemma AlphanumericAppend(a: string, b: string)
    ensures Alphanumeric(a + b) == Alphanumeric(a) + Alphanumeric(b)
  {
    assert Upper(a + b) == Upper(a) + Upper(b);
    FilterAppend(Upper(a), Upper(b), IsAlnumAscii);
  }

  /** One character: kept upper-cased when it is a letter or digit, else dropped. */
  lemma AlphanumericOne(c: char)
    ensures Alphanumeric([c]) == if IsAlnumAscii(c) then [UpperChar(c)] else ""
  {
    assert Upper([c]) == [UpperChar(c)];
    assert [UpperChar(c)][1..] == "";
  }

  /** The field types with their own clean-up; anything else is plain text. */
  datatype FieldKind = Mrz | Date | SingleCharField | AlphanumericField | PlainText

  function KindOf(fieldType: Option<string>): FieldKind {
    if fieldType == Some("mrz") then Mrz
    else if fieldType == Some("date") then Date
    else if fieldType == Some("single_char") then SingleCharField
    else if fieldType == Some("alphanumeric") then AlphanumericField
    else PlainText
  }

  function CleanByKind(text: string, k: FieldKind): string {
    match k
    case Mrz => PostprocessMrz(text)
    case Date => PostprocessDate(text)
    case SingleCharField => SingleChar(text)
    case AlphanumericField => Alphanumeric(text)
    case PlainText => Strip(text)
  }

  // ---------------------------------------------------------------------------------------
  // Autocorrection.

  const PassportPattern: string := "^[MPS][0-9]{8}$"

  /** The misread month abbreviations, in the order the corrections are applied. */
  const MonthFixes: seq<(string, string)> := [
    ("JRN", "JAN"), ("JPN", "JAN"), ("FES", "FEB"), ("FER", "FEB"),
    ("MPR", "MAR"), ("MAB", "MAR"), ("PPR", "APR"), ("APB", "APR"),
    ("MPY", "MAY"), ("MAT", "MAY"), ("JUN", "JUN"), ("JUL", "JUL"),
    ("AUG", "AUG"), ("SEP", "SEP"), ("OCT", "OCT"), ("NOV", "NOV"),
    ("DEC", "DEC")]

  /** The fixes applied one after the other, each as `str.replace`. */
  function ApplyFixes(text: string, fixes: seq<(string, string)>): (r: string)
    requires forall k :: 0 <= k < |fixes| ==> |fixes[k].0| > 0
    decreases |fixes|
  {
    if |fixes| == 0 then text else ApplyFixes(Replace(text, fixes[0].0, fixes[0].1), fixes[1..])
  }

  /** Replacing by a text of the same length keeps the length. */
  lemma {:induction false} ReplaceKeepsLength(s: string, pat: string, repl: string)
    requires |pat| > 0 && |repl| == |pat|
    ensures |Replace(s, pat, repl)| == |s|
    decreases |s|
  {
    if |s| > 0 {
      if StartsWith(s, pat) {
        ReplaceKeepsLength(s[|pat|..], pat, repl);
      } else {
        ReplaceKeepsLength(s[1..], pat, repl);
      }
    }
  }

  /** Same-length fixes keep the length; fixes that never occur leave the text alone. */
  lemma {:induction false} FixesKeepLength(text: string, fixes: seq<(string, string)>)
    requires forall k :: 0 <= k < |fixes| ==> |fixes[k].0| > 0 && |fixes[k].1| == |fixes[k].0|
    ensures |ApplyFixes(text, fixes)| == |text|
    decreases |fixes|
  {
    if |fixes| > 0 {
      ReplaceKeepsLength(text, fixes[0].0, fixes[0].1);
      FixesKeepLength(Replace(text, fixes[0].0, fixes[0].1), fixes[1..]);
    }
  }

  lemma {:induction false} AbsentFixesNoop(text: string, fixes: seq<(string, string)>)
    requires forall k :: 0 <= k < |fixes| ==> |fixes[k].0| > 0 && !Contains(text, fixes[k].0)
    ensures ApplyFixes(text, fixes) == text
    decreases |fixes|
  {
    if |fixes| > 0 {
      ReplaceAbsent(text, fixes[0].0, fixes[0].1);
      AbsentFixesNoop(text, fixes[1..]);
    }
  }

  /** `text[0].upper() + text[1:]` when the text starts with m, p or s in either case. */
  function CapitaliseLead(t: string): (r: string)
    ensures |r| == |t|
    ensures |t| > 0 ==> r[1..] == t[1..] && r[0] !in "mps"
  {
    if |t| > 0 && LowerChar(t[0]) in "mps" then [UpperChar(t[0])] + t[1..] else t
  }

  lemma PassportFixed(text: string)
    ensures var r := CapitaliseLead(SwapOis(text));
      |r| == |text| && (forall i :: 1 <= i < |r| ==> r[i] !in "OIS") && (|r| > 0 ==> r[0] !in "OImps")
  {
    var t := SwapOis(text);
    var r := CapitaliseLead(t);
    assert forall i :: 0 <= i < |t| ==> t[i] !in "OIS";
    assert forall i :: 1 <= i < |r| ==> r[i] == t[i];
    if |r| > 0 {
      assert r[0] == t[0] || r[0] == UpperChar(t[0]);
    }
  }

  /**
   * `_try_autocorrect_with_regex`: for a passport-number pattern O, I and S become 0, 1
   * and 5 and a leading m, p or s is capitalised; for a date field the misread months
   * are corrected; anything else is returned unchanged.
   */
  function Autocorrect(text: string, pattern: string, kind: FieldKind): (r: string)
    ensures |r| == |text|
    ensures Contains(pattern, PassportPattern) ==>
      (forall i :: 1 <= i < |r| ==> r[i] !in "OIS") && (|r| > 0 ==> r[0] !in "OImps")
    ensures !Contains(pattern, PassportPattern) && kind != Date ==> r == text
  {
    if Contains(pattern, PassportPattern) then
      PassportFixed(text);
      CapitaliseLead(SwapOis(text))
    else if kind == Date then
      FixesKeepLength(text, MonthFixes);
      ApplyFixes(text, MonthFixes)
    else text
  }

  /** A passport number's lead letter: m, p or s in either case comes out upper-case. */
  function LeadFix(c: char): char {
    if LowerChar(c) in "mps" then UpperChar(c) else c
  }

  /**
   * For a passport-number pattern the correction is charwise: O, I and S become 0, 1 and 5
   * throughout, and the first character is then capitalised when it is an m, p or s.
   */
  lemma PassportCorrected(text: string, pattern: string, kind: FieldKind)
    requires Contains(pattern, PassportPattern)
    ensures var r := Autocorrect(text, pattern, kind);
      |r| == |text| && (forall i :: 1 <= i < |text| ==> r[i] == DateFix(text[i]))
      && (|text| > 0 ==> r[0] == LeadFix(DateFix(text[0])))
  {
    var t := SwapOis(text);
    assert forall i :: 0 <= i < |text| ==> t[i] == DateFix(text[i]);
  }

  /** The fixes applied one after the other to a single word: each replaces the word when it is the misread key. */
  function FixWord(x: string, fixes: seq<(string, string)>): string
    decreases |fixes|
  {
    if |fixes| == 0 then x else FixWord(if x == fixes[0].0 then fixes[0].1 else x, fixes[1..])
  }

  /** Upper-case fixes of a word's length act on that word alone, when no upper-case letter stands next to it. */
  lemma {:induction false} ApplyFixesWord(a: string, x: string, b: string, fixes: seq<(string, string)>)
    requires forall k :: 0 <= k < |fixes| ==> |fixes[k].0| == |x| && |fixes[k].1| == |x| && AllUpper(fixes[k].0)
    requires |x| > 0 && NoUpper(a) && NoUpper(b)
    ensures ApplyFixes(a + x + b, fixes) == a + FixWord(x, fixes) + b
    decreases |fixes|
  {
    if |fixes| > 0 {
      ReplaceWord(a, x, b, fixes[0].0, fixes[0].1);
      ApplyFixesWord(a, if x == fixes[0].0 then fixes[0].1 else x, b, fixes[1..]);
    }
  }

  /** A fix whose key is not the word leaves it to the fixes after it. */
  lemma {:induction false} FixWordMiss(x: string, fixes: seq<(string, string)>, j: int)
    requires 0 <= j <= |fixes|
    requires forall k :: 0 <= k < j ==> fixes[k].0 != x
    ensures FixWord(x, fixes) == FixWord(x, fixes[j..])
    decreases j
  {
    if j > 0 {
      FixWordMiss(x, fixes[1..], j - 1);
      assert fixes[1..][j - 1..] == fixes[j..];
    }
  }

  /** A word that every fix keyed on it maps to itself comes out unchanged; so does a word that is no key. */
  lemma {:induction false} FixWordStable(y: string, fixes: seq<(string, string)>)
    requires forall k :: 0 <= k < |fixes| && fixes[k].0 == y ==> fixes[k].1 == y
    ensures FixWord(y, fixes) == y
    decreases |fixes|
  {
    if |fixes| > 0 {
      FixWordStable(y, fixes[1..]);
    }
  }

  /**
   * A table is settled when its keys are distinct and a key that is an earlier fix's
   * correction maps to itself: a later fix never undoes an earlier one.
   */
  predicate Settled(fixes: seq<(string, string)>) {
    forall k, l :: 0 <= k < l < |fixes| ==>
      fixes[k].0 != fixes[l].0 && (fixes[l].0 == fixes[k].1 ==> fixes[l].1 == fixes[l].0)
  }

  /** In a settled table each key comes out as its own correction, whatever fixes precede it. */
  lemma SettledFixWord(fixes: seq<(string, string)>, j: int)
    requires Settled(fixes) && 0 <= j < |fixes|
    ensures FixWord(fixes[j].0, fixes) == fixes[j].1
  {
    var key, fix, later := fixes[j].0, fixes[j].1, fixes[j + 1..];
    FixWordMiss(key, fixes, j);
    assert fixes[j..][1..] == later;
    assert forall m :: 0 <= m < |later| ==> later[m] == fixes[j + 1 + m];
    FixWordStable(fix, later);
  }

  /** The month table's keys and corrections are three upper-case letters. */
  lemma MonthFixesShape()
    ensures forall k :: 0 <= k < |MonthFixes| ==>
      |MonthFixes[k].0| == 3 && |MonthFixes[k].1| == 3 && AllUpper(MonthFixes[k].0)
  {
  }

  /** The month table is settled. */
  lemma MonthFixesSettled()
    ensures Settled(MonthFixes)
  {
    MonthKeysDistinct();
    MonthFixesFinal();
  }

  lemma MonthKeysDistinct()
    ensures forall k, l :: 0 <= k < l < |MonthFixes| ==> MonthFixes[k].0 != MonthFixes[l].0
  {
  }

  lemma MonthFixesFinal()
    ensures forall k, l :: 0 <= k < l < |MonthFixes| && MonthFixes[l].0 == MonthFixes[k].1 ==>
      MonthFixes[l].1 == MonthFixes[l].0
  {
  }

  /**
   * In a date field a three-letter word with no upper-case letter on either side is
   * corrected as a whole: a misread month becomes its month.
   */
  lemma DateWordCorrected(a: string, x: string, b: string, pattern: string)
    requires !Contains(pattern, PassportPattern)
    requires |x| == 3 && NoUpper(a) && NoUpper(b)
    ensures Autocorrect(a + x + b, pattern, Date) == a + FixWord(x, MonthFixes) + b
  {
    MonthFixesWord(a, x, b);
  }

  lemma MonthFixesWord(a: string, x: string, b: string)
    requires |x| == 3 && NoUpper(a) && NoUpper(b)
    ensures ApplyFixes(a + x + b, MonthFixes) == a + FixWord(x, MonthFixes) + b
  {
    MonthFixesShape();
    ApplyFixesWord(a, x, b, MonthFixes);
  }

  /** A misread month between text without upper-case letters is corrected to its month. */
  lemma DateMonthCorrected(a: string, j: int, b: string, pattern: string)
    requires !Contains(pattern, PassportPattern)
    requires 0 <= j < |MonthFixes| && NoUpper(a) && NoUpper(b)
    ensures Autocorrect(a + MonthFixes[j].0 + b, pattern, Date) == a + MonthFixes[j].1 + b
  {
    MonthFixesSettled();
    DateWordCorrected(a, MonthFixes[j].0, b, pattern);
    SettledFixWord(MonthFixes, j);
  }

  /** A date with no misread month in it is not changed by the autocorrection. */
  lemma DateWithoutMisreadsUnchanged(text: string, pattern: string)
    requires !Contains(pattern, PassportPattern)
    requires forall k :: 0 <= k < |MonthFixes| ==> !Contains(text, MonthFixes[k].0)
    ensures Autocorrect(text, pattern, Date) == text
  {
    AbsentFixesNoop(text, MonthFixes);
  }

  // ---------------------------------------------------------------------------------------
  // The whole clean-up.

  /**
   * `postprocess_text_by_field_type`. The class's field type (default "text") picks the
   * clean-up; a non-empty pattern that the cleaned text fails triggers the
   * autocorrection. `None` is the `re.error` a pattern that does not compile raises.
   */
  function Postprocess(classes: seq<ClassDef>, e: Engine, text: string, id: int): (r: Option<string>)
    ensures var c := FindClass(classes, id);
      var kind := if c.Some? then KindOf(Some(c.value.fieldType.GetOr("text"))) else PlainText;
      var cleaned := CleanByKind(text, kind);
      var pattern := if c.Some? then c.value.regexPattern else None;
      && (pattern.None? || pattern.value == "" ==> r == Some(cleaned))
      && (pattern.Some? && pattern.value != "" ==>
            && (r.None? <==> !e.compiles(pattern.value))
            && (r.Some? && e.matchStart(pattern.value, cleaned) ==> r.value == cleaned)
            && (r.Some? && !e.matchStart(pattern.value, cleaned) ==> r.value == Autocorrect(cleaned, pattern.value, kind)))
  {
    var c := FindClass(classes, id);
    var kind := if c.Some? then KindOf(Some(c.value.fieldType.GetOr("text"))) else PlainText;
    var cleaned := CleanByKind(text, kind);
    var pattern := if c.Some? then c.value.regexPattern else None;
    if pattern.None? || pattern.value == "" then Some(cleaned)
    else
      match Match(e, pattern.value, cleaned)
      case None => None
      case Some(true) => Some(cleaned)
      case Some(false) => Some(Autocorrect(cleaned, pattern.value, kind))
  }
}

=== FILE: paths.dfy ===
/**
 * The `pathlib` operations the core uses, on '/'-separated path strings: `name`, `parent`,
 * `suffix`, `stem` and `with_suffix`. No normalisation is modelled (no collapsing of
 * repeated separators or '.' components).
 */
module Paths {
  import opened Common
  import opened Text

  /** The final component, after the last '/'. */
  function Name(p: string): (r: string)
    ensures '/' !in r
    ensures EndsWith(p, r)
  {
    match FindLast(p, '/')
    case None => p
    case Some(i) => p[i + 1..]
  }

  /** Everything up to and including the last '/': joining it with a name is `parent / name`. */
  function Dir(p: string): (r: string)
    ensures r == "" || r[|r| - 1] == '/'
    ensures r + Name(p) == p
  {
    match FindLast(p, '/')
    case None => ""
    case Some(i) => p[..i + 1]
  }

  /** Where the suffix starts: the last '.', unless it opens the name or ends it. */
  function SuffixStart(name: string): (r: Option<nat>)
    ensures r.Some? ==> 0 < r.value < |name| - 1 && name[r.value] == '.'
    ensures r.Some? ==> forall k :: r.value < k < |name| ==> name[k] != '.'
  {
    match FindLast(name, '.')
    case None => None
    case Some(i) => if 0 < i < |name| - 1 then Some(i) else None
  }

  /** `PurePath.suffix` of a name: from the last '.' on, or "". */
  function Suffix(name: string): (r: string)
    ensures SuffixStart(name).None? <==> r == ""
    ensures EndsWith(name, r)
  {
    match SuffixStart(name)
    case None => ""
    case Some(i) => name[i..]
  }

  /** `PurePath.stem` of a name: the name without its suffix. */
  function Stem(name: string): (r: string)
    ensures r + Suffix(name) == name
    ensures |name| > 0 ==> |r| > 0
  {
    match SuffixStart(name)
    case None => name
    case Some(i) => name[..i]
  }

  /** What `with_suffix` accepts and the core passes: a dot, then at least one character, no dots or slashes. */
  predicate ProperSuffix(s: string) {
    |s| >= 2 && s[0] == '.' && forall k :: 1 <= k < |s| ==> s[k] != '.' && s[k] != '/'
  }

  /** `Path(p).with_suffix(s)`: the final suffix replaced, or `s` appended when there is none. */
  function WithSuffix(p: string, s: string): (r: string)
    ensures StartsWith(r, Dir(p))
  {
    Dir(p) + Stem(Name(p)) + s
  }

  /** A slash-free name after a directory prefix is the name of the whole path. */
  lemma NameAfterDir(d: string, n: string)
    requires d == "" || d[|d| - 1] == '/'
    requires '/' !in n
    ensures Name(d + n) == n && Dir(d + n) == d
  {
    var p := d + n;
    var f := FindLast(p, '/');
    if |d| == 0 {
      assert p == n;
      assert f.None?;
    } else {
      assert p[|d| - 1] == '/';
      assert forall k :: |d| <= k < |p| ==> p[k] == n[k - |d|];
      assert f.Some? && f.value == |d| - 1;
      assert p[|d|..] == n;
      assert p[..|d|] == d;
    }
  }

  /** A proper suffix after a non-empty stem is the suffix of the combined name. */
  lemma SuffixOfAppended(stem: string, s: string)
    requires |stem| > 0 && ProperSuffix(s)
    ensures Suffix(stem + s) == s && Stem(stem + s) == stem
  {
    var n := stem + s;
    var f := FindLast(n, '.');
    assert n[|stem|] == '.';
    assert forall k :: |stem| < k < |n| ==> n[k] == s[k - |stem|];
    assert f.Some? && f.value == |stem|;
    assert n[|stem|..] == s;
    assert n[..|stem|] == stem;
  }

  /** The parts of `d + stem + s` for a directory `d`, a slash-free stem and a proper suffix. */
  lemma JoinedParts(d: string, stem: string, s: string)
    requires d == "" || d[|d| - 1] == '/'
    requires '/' !in stem && |stem| > 0 && ProperSuffix(s)
    ensures Dir(d + stem + s) == d && Name(d + stem + s) == stem + s
    ensures Suffix(stem + s) == s && Stem(stem + s) == stem
  {
    assert d + stem + s == d + (stem + s);
    assert '/' !in stem + s by {
      assert forall k :: 0 <= k < |stem + s| ==> (stem + s)[k] != '/';
    }
    NameAfterDir(d, stem + s);
    SuffixOfAppended(stem, s);
  }

  /** A prefix of a slash-free string is slash-free. */
  lemma PrefixFree(a: string, b: string)
    requires '/' !in a + b
    ensures '/' !in a
  {
    assert forall k :: 0 <= k < |a| ==> a[k] == (a + b)[k];
  }

  /**
   * `with_suffix` keeps the directory and the stem and installs the new suffix: the
   * `.dat` next to `a/b.jpg` is `a/b.dat`.
   */
  lemma WithSuffixParts(p: string, s: string)
    requires |Name(p)| > 0 && ProperSuffix(s)
    ensures Dir(WithSuffix(p, s)) == Dir(p)
    ensures Name(WithSuffix(p, s)) == Stem(Name(p)) + s
    ensures Suffix(Name(WithSuffix(p, s))) == s
    ensures Stem(Name(WithSuffix(p, s))) == Stem(Name(p))
  {
    var n := Name(p);
    PrefixFree(Stem(n), Suffix(n));
    JoinedParts(Dir(p), Stem(n), s);
  }

  /** Replacing the suffix a second time changes nothing more. */
  lemma WithSuffixIdempotent(p: string, s: string)
    requires |Name(p)| > 0 && ProperSuffix(s)
    ensures WithSuffix(WithSuffix(p, s), s) == WithSuffix(p, s)
  {
    WithSuffixParts(p, s);
  }
}

=== FILE: project.dfy ===
/**
 * The project: the class configuration taken from the settings file, the image files of
 * the open directory with their validation results, the index of the current image, and
 * the per-file tracker. The directory listing, label file contents and file existence
 * come in as parameters.
 */
module Project {
  import opened Common
  import opened Text
  import opened Paths
  import opened Sorting
  import opened Classes
  import opened Regex
  import opened JsonValue
  import opened Validation

  // ---------------------------------------------------------------------------------------
  // Class configuration.

  /**
   * `_parse_class_config`: the "classes" entry of the settings normalised to an object. A
   * missing or empty entry gives `{"classes": []}`, a list is wrapped, an object is
   * returned as it is (with or without a "classes" key), and any other value gives the
   * empty configuration.
   */
  function ParseClassConfig(config: Dict): (r: Dict)
    ensures "classes" !in config || !Truthy(config["classes"]) ==> r == map["classes" := JArr([])]
    ensures "classes" in config && config["classes"].JArr? && Truthy(config["classes"]) ==>
      r == map["classes" := config["classes"]]
    ensures "classes" in config && config["classes"].JObj? && Truthy(config["classes"]) ==>
      r == config["classes"].fields
    ensures "classes" in config && Truthy(config["classes"]) && !config["classes"].JArr? && !config["classes"].JObj? ==>
      r == map["classes" := JArr([])]
  {
    if "classes" !in config || !Truthy(config["classes"]) then map["classes" := JArr([])]
    else
      match config["classes"]
      case JObj(fields) => fields
      case JArr(items) => map["classes" := JArr(items)]
      case _ => map["classes" := JArr([])]
  }

  /** The normalised configuration, stored back as the "classes" entry, normalises to itself. */
  lemma ParseClassConfigStable(config: Dict)
    ensures ParseClassConfig(map["classes" := JObj(ParseClassConfig(config))]) == ParseClassConfig(config)
  {
    var r := ParseClassConfig(config);
    assert r != map[] by {
      if "classes" !in config || !Truthy(config["classes"]) || !config["classes"].JObj? {
        assert "classes" in r;
      }
    }
  }

  // ---------------------------------------------------------------------------------------
  // Directory and navigation.

  const ImageExtensions: set<string> := {".jpg", ".jpeg", ".png", ".bmp"}

  datatype State = State(
    directory: Option<string>,
    images: seq<string>,
    index: int,
    imagePath: Option<string>,
    datPath: Option<string>,
    cache: Cache)

  /** The `.dat` label file next to an image. */
  function DatPathOf(image: string): (r: string)
    ensures StartsWith(r, Dir(image))
  {
    WithSuffix(image, ".dat")
  }

  /** The index is -1 with nothing selected, or a valid index whose image and label paths are recorded. */
  predicate Consistent(s: State) {
    && -1 <= s.index < |s.images|
    && (s.index == -1 ==> s.imagePath.None? && s.datPath.None?)
    && (s.index >= 0 ==> s.imagePath == Some(s.images[s.index]) && s.datPath == Some(DatPathOf(s.images[s.index])))
  }

  function NewState(): (r: State)
    ensures Consistent(r) && r.images == []
  {
    State(None, [], -1, None, None, [])
  }

  function PathKey(f: ImageFile): Key {
    KStr(f.path)
  }

  /** The directory entries `load_directory` keeps: files whose lower-cased suffix is an image extension. */
  function ImageEntries(files: seq<ImageFile>): (r: seq<ImageFile>)
    ensures |r| <= |files|
    ensures forall f :: f in r ==> f in files && f.isFile && HasImageSuffix(f.path, ImageExtensions)
    ensures forall f :: f in files && f.isFile && HasImageSuffix(f.path, ImageExtensions) ==> f in r
  {
    if |files| == 0 then []
    else
      var rest := ImageEntries(files[1..]);
      assert forall f :: f in files[1..] ==> f in files;
      assert forall f :: f in files ==> f == files[0] || f in files[1..];
      if files[0].isFile && HasImageSuffix(files[0].path, ImageExtensions) then [files[0]] + rest else rest
  }

  /** Paths in non-decreasing order. */
  predicate PathsSorted(paths: seq<string>) {
    forall i, j :: 0 <= i < j < |paths| ==> !StrLt(paths[j], paths[i])
  }

  /** The image entries sorted by path. */
  function SortedImages(files: seq<ImageFile>): (r: seq<ImageFile>)
    ensures multiset(r) == multiset(ImageEntries(files))
    ensures PathsSorted(PathsOf(r))
  {
    var kept := ImageEntries(files);
    SortByIsSorted(kept, PathKey, false);
    SortByPermutes(kept, PathKey, false);
    SortedByPath(SortBy(kept, PathKey, false));
    SortBy(kept, PathKey, false)
  }

  lemma SortedByPath(fs: seq<ImageFile>)
    requires SortedBy(fs, PathKey, false)
    ensures PathsSorted(PathsOf(fs))
  {
    var paths := PathsOf(fs);
    forall i, j | 0 <= i < j < |paths| ensures !StrLt(paths[j], paths[i]) {
      assert !Precedes(PathKey(fs[j]), PathKey(fs[i]), false);
    }
  }

  /** The paths of a list of entries are the paths of its members. */
  lemma PathsMembers(fs: seq<ImageFile>)
    ensures forall p :: p in PathsOf(fs) <==> exists f :: f in fs && f.path == p
  {
    var images := PathsOf(fs);
    forall p | p in images ensures exists f :: f in fs && f.path == p {
      var j :| 0 <= j < |images| && images[j] == p;
      assert fs[j] in fs;
    }
    forall f | f in fs ensures f.path in images {
      var j :| 0 <= j < |fs| && fs[j] == f;
      assert images[j] == f.path;
    }
  }

  /** Sorting keeps the members. */
  lemma SortedMembers(files: seq<ImageFile>)
    ensures forall f :: f in SortedImages(files) <==> f in ImageEntries(files)
  {
    var sorted := SortedImages(files);
    forall f ensures f in sorted <==> f in ImageEntries(files) {
      assert f in sorted <==> f in multiset(sorted);
      assert f in ImageEntries(files) <==> f in multiset(ImageEntries(files));
    }
  }

  /** A path is among the sorted images exactly when the listing holds an image file at it. */
  lemma ImagePathsListed(files: seq<ImageFile>)
    ensures forall p :: p in PathsOf(SortedImages(files)) <==>
      exists f :: f in files && f.isFile && HasImageSuffix(f.path, ImageExtensions) && f.path == p
  {
    SortedMembers(files);
    PathsMembers(SortedImages(files));
  }

  /**
   * `load_directory`: `listing` is the directory's entries with their label files, `None`
   * when the directory cannot be listed. On success the images are the image files, sorted,
   * validated, and the first one is current. On failure the image list has already been
   * emptied but the index and paths are left as they were.
   */
  function LoadDirectory(s: State, dir: string, listing: Option<seq<ImageFile>>, classes: seq<ClassDef>, e: Engine): (r: (State, bool))
    ensures r.0.directory == Some(dir)
    ensures r.1 <==> listing.Some?
    ensures !r.1 ==> r.0 == s.(directory := Some(dir), images := [])
    ensures r.1 ==> Consistent(r.0) && PathsSorted(r.0.images)
    ensures r.1 ==> (r.0.index == 0 <==> |r.0.images| > 0)
    ensures r.1 ==> forall p :: p in r.0.images <==>
      exists f :: f in listing.value && f.isFile && HasImageSuffix(f.path, ImageExtensions) && f.path == p
    ensures r.1 ==> r.0.cache == ValidateAllFiles(classes, e, SortedImages(listing.value), ImageExtensions)
  {
    match listing
    case None => (s.(directory := Some(dir), images := []), false)
    case Some(files) =>
      var sorted := SortedImages(files);
      var images := PathsOf(sorted);
      ImagePathsListed(files);
      var cache := ValidateAllFiles(classes, e, sorted, ImageExtensions);
      if |images| > 0 then
        (State(Some(dir), images, 0, Some(images[0]), Some(DatPathOf(images[0])), cache), true)
      else
        (State(Some(dir), images, -1, None, None, cache), true)
  }

  /** `navigate_to_image`: succeeds exactly for an index of an image, and then records its paths. */
  function NavigateTo(s: State, index: int): (r: (State, bool))
    ensures r.1 <==> 0 <= index < |s.images|
    ensures !r.1 ==> r.0 == s
    ensures r.1 ==> Consistent(r.0) && r.0.index == index && r.0.images == s.images
    ensures r.0.cache == s.cache && r.0.directory == s.directory
  {
    if 0 <= index < |s.images| then
      (s.(index := index, imagePath := Some(s.images[index]), datPath := Some(DatPathOf(s.images[index]))), true)
    else (s, false)
  }

  /** `navigate_next`. */
  function NavigateNext(s: State): (r: (State, bool))
    ensures !r.1 ==> r.0 == s
    ensures r.1 <==> 0 <= s.index + 1 < |s.images|
    ensures r.1 ==> Consistent(r.0) && r.0.index == s.index + 1 && r.0.images == s.images
    ensures r.0.cache == s.cache && r.0.directory == s.directory
  {
    if s.index < |s.images| - 1 then NavigateTo(s, s.index + 1) else (s, false)
  }

  /** `navigate_previous`. */
  function NavigatePrevious(s: State): (r: (State, bool))
    ensures !r.1 ==> r.0 == s
    ensures r.1 <==> 0 <= s.index - 1 < |s.images|
    ensures r.1 ==> Consistent(r.0) && r.0.index == s.index - 1 && r.0.images == s.images
    ensures r.0.cache == s.cache && r.0.directory == s.directory
  {
    if s.index > 0 then NavigateTo(s, s.index - 1) else (s, false)
  }

  datatype NavigationState = NavigationState(canGoPrevious: bool, canGoNext: bool)

  /** `get_navigation_state`. */
  function GetNavigationState(s: State): (r: NavigationState)
    ensures r.canGoPrevious <==> s.index > 0
    ensures r.canGoNext <==> s.index < |s.images| - 1
  {
    NavigationState(s.index > 0, s.index < |s.images| - 1)
  }

  /** In a consistent state the buttons are enabled exactly when the moves succeed. */
  lemma NavigationStateAgrees(s: State)
    requires -1 <= s.index < |s.images|
    ensures NavigateNext(s).1 <==> GetNavigationState(s).canGoNext
    ensures NavigatePrevious(s).1 <==> GetNavigationState(s).canGoPrevious
  {
  }

  /** A failed directory load can leave "previous" enabled while the move fails. */
  lemma StaleIndexAfterFailedLoad(s: State, dir: string, classes: seq<ClassDef>, e: Engine)
    requires s.index == 2
    ensures var failed := LoadDirectory(s, dir, None, classes, e).0;
      GetNavigationState(failed).canGoPrevious && !NavigatePrevious(failed).1
  {
  }

  /** Moving forward and back returns to the same state. */
  lemma NextThenPrevious(s: State)
    ensures Consistent(s) && s.index >= 0 && NavigateNext(s).1 ==> NavigatePrevious(NavigateNext(s).0) == (s, true)
  {
    if Consistent(s) && s.index >= 0 && NavigateNext(s).1 {
      var t := NavigateNext(s).0;
      var u := NavigatePrevious(t);
      assert u.0.index == s.index && u.0.images == s.images;
      assert u.0.imagePath == s.imagePath && u.0.datPath == s.datPath;
    }
  }

  // ---------------------------------------------------------------------------------------
  // File list.

  datatype FileEntry = FileEntry(
    index: nat,
    name: string,
    path: string,
    validationStatus: string,
    isCurrent: bool,
    hasDat: bool,
    boxCount: int)

  function EntryFor(s: State, i: nat, exists_: string -> bool): FileEntry
    requires i < |s.images|
  {
    var p := s.images[i];
    var check := Lookup(s.cache, p);
    FileEntry(i, Name(p), p, FileValidationStatus(s.cache, p), i == s.index,
      exists_(DatPathOf(p)), if check.Some? then check.value.boxCount else 0)
  }

  /**
   * `get_file_list`: one entry per image, in order, carrying the validation status string
   * as the validation engine produces it. `exists_` answers whether a file exists.
   */
  function GetFileList(s: State, exists_: string -> bool): (r: seq<FileEntry>)
    ensures |r| == |s.images|
    ensures forall i :: 0 <= i < |r| ==>
      && r[i].index == i && r[i].path == s.images[i] && r[i].name == Name(s.images[i])
      && (r[i].isCurrent <==> i == s.index)
      && r[i].hasDat == exists_(DatPathOf(s.images[i]))
      && r[i].validationStatus == FileValidationStatus(s.cache, s.images[i])
      && StartsWith(r[i].validationStatus, "file-")
      && r[i].boxCount == (if Lookup(s.cache, s.images[i]).Some? then Lookup(s.cache, s.images[i]).value.boxCount else 0)
  {
    seq(|s.images|, i requires 0 <= i < |s.images| => EntryFor(s, i, exists_))
  }

  /** With an image selected, exactly one entry of the list is the current one. */
  lemma OneCurrentEntry(s: State, exists_: string -> bool)
    requires Consistent(s) && s.index >= 0
    ensures var list := GetFileList(s, exists_);
      list[s.index].isCurrent && forall i :: 0 <= i < |list| && list[i].isCurrent ==> i == s.index
  {
  }

  // ---------------------------------------------------------------------------------------
  // File tracker.

  datatype Tracker = Tracker(lastSave: map<string, real>, confirmation: map<string, bool>, pending: set<string>)

  function NewTracker(): Tracker {
    Tracker(map[], map[], {})
  }

  /** `mark_saved`: `now` is the clock reading. */
  function MarkSaved(t: Tracker, path: string, now: real): (r: Tracker)
    ensures r.lastSave == t.lastSave[path := now] && r.confirmation == t.confirmation && r.pending == t.pending
  {
    t.(lastSave := t.lastSave[path := now])
  }

  function GetLastSaveTime(t: Tracker, path: string): (r: Option<real>)
    ensures r.Some? <==> path in t.lastSave
    ensures r.Some? ==> r.value == t.lastSave[path]
  {
    if path in t.lastSave then Some(t.lastSave[path]) else None
  }

  /** After a save the file reports that clock reading; every other file keeps its own. */
  lemma MarkSavedThenGet(t: Tracker, path: string, now: real, other: string)
    ensures GetLastSaveTime(MarkSaved(t, path, now), path) == Some(now)
    ensures other != path ==> GetLastSaveTime(MarkSaved(t, path, now), other) == GetLastSaveTime(t, other)
  {
  }

  function SetConfirmationStatus(t: Tracker, path: string, confirmed: bool): (r: Tracker)
    ensures GetConfirmationStatus(r, path) == confirmed
    ensures forall p :: p != path ==> GetConfirmationStatus(r, p) == GetConfirmationStatus(t, p)
  {
    t.(confirmation := t.confirmation[path := confirmed])
  }

  /** `get_confirmation_status`: false for a file never set. */
  function GetConfirmationStatus(t: Tracker, path: string): (r: bool)
    ensures path !in t.confirmation ==> !r
  {
    if path in t.confirmation then t.confirmation[path] else false
  }

  function AddPendingOperation(t: Tracker, key: string): (r: Tracker)
    ensures r.pending == t.pending + {key}
  {
    t.(pending := t.pending + {key})
  }

  /** `remove_pending_operation`: removing an absent key is not an error. */
  function RemovePendingOperation(t: Tracker, key: string): (r: Tracker)
    ensures r.pending == t.pending - {key}
    ensures key !in t.pending ==> r == t
  {
    t.(pending := t.pending - {key})
  }

  lemma AddThenRemove(t: Tracker, key: string)
    requires key !in t.pending
    ensures RemovePendingOperation(AddPendingOperation(t, key), key) == t
  {
  }

  datatype FileStatus = FileStatus(lastSaved: Option<real>, confirmed: bool, hasPendingOperations: bool)

  /** `get_file_status`: pending operations are those whose key ends with the path. */
  function GetFileStatus(t: Tracker, path: string): (r: FileStatus)
    ensures r.hasPendingOperations <==> exists k :: k in t.pending && EndsWith(k, path)
    ensures r.confirmed == GetConfirmationStatus(t, path)
    ensures r.lastSaved == GetLastSaveTime(t, path)
  {
    FileStatus(GetLastSaveTime(t, path), GetConfirmationStatus(t, path),
      exists k | k in t.pending :: EndsWith(k, path))
  }

  /** An operation keyed by a path marks that file, and any file whose path is a suffix of the key, as pending. */
  lemma PendingAfterAdd(t: Tracker, prefix: string, path: string)
    ensures GetFileStatus(AddPendingOperation(t, prefix + path), path).hasPendingOperations
  {
    var k := prefix + path;
    assert k[|k| - |path|..] == path;
  }
}

=== FILE: py_numbers.dfy ===
/**
 * Python's `int(str)` and `float(str)` on decimal text, as the DAT reader uses them.
 * Only ASCII digits are modelled; the value of a float literal is the exact rational
 * it denotes (IEEE rounding is not modelled).
 */
module PyNumbers {
  import opened Common
  import opened Text

  /** A run of ASCII digits in which single underscores may separate two digits. */
  predicate DigitRun(s: string) {
    && |s| > 0
    && forall i :: 0 <= i < |s| ==> IsDigit(s[i]) || (s[i] == '_' && BetweenDigits(s, i))
  }

  predicate BetweenDigits(s: string, i: int) {
    0 < i < |s| - 1 && IsDigit(s[i - 1]) && IsDigit(s[i + 1])
  }

  function DigitOf(c: char): nat {
    if IsDigit(c) then c as int - '0' as int else 0
  }

  /** The number a digit run denotes; underscores are ignored. */
  function DigitValue(s: string): nat
    decreases |s|
  {
    if |s| == 0 then 0
    else if s[|s| - 1] == '_' then DigitValue(s[..|s| - 1])
    else DigitValue(s[..|s| - 1]) * 10 + DigitOf(s[|s| - 1])
  }

  /** How many digits (not underscores) a digit run holds. */
  function DigitCount(s: string): nat
    decreases |s|
  {
    if |s| == 0 then 0
    else if s[|s| - 1] == '_' then DigitCount(s[..|s| - 1])
    else DigitCount(s[..|s| - 1]) + 1
  }

  function Pow10(n: nat): (r: nat)
    ensures r >= 1
  {
    if n == 0 then 1 else 10 * Pow10(n - 1)
  }

  lemma DigitRunStartsWithDigit(s: string)
    requires DigitRun(s)
    ensures IsDigit(s[0])
  {
    assert !BetweenDigits(s, 0);
  }

  /** Splits an optional leading '+' or '-' off `t`: (is negative, rest). */
  function Sign(t: string): (bool, string) {
    if |t| > 0 && (t[0] == '+' || t[0] == '-') then (t[0] == '-', t[1..]) else (false, t)
  }

  /** Python's `int(s)` for base-ten text: `None` where Python raises `ValueError`. */
  function ParseInt(s: string): (r: Option<int>)
    ensures r.Some? ==> exists k :: 0 <= k < |s| && IsDigit(s[k])
  {
    var t := Strip(s);
    var (neg, body) := Sign(t);
    if DigitRun(body) then
      DigitRunStartsWithDigit(body);
      assert body == t[|t| - |body|..];
      var k := StripStart(s) + |t| - |body|;
      assert s[k] == t[|t| - |body|] == body[0];
      var v: int := DigitValue(body);
      Some(if neg then -v else v)
    else None
  }

  /** What Python's `float(s)` produces. */
  datatype FloatLit = NotANumberText | Finite(value: real) | Infinite | NaN

  /** The mantissa `int.frac`; either part may be empty but not both. */
  function MantissaValue(m: string): Option<real> {
    var dot := Find(m, '.');
    var ip := m[..dot];
    var fp := if dot < |m| then m[dot + 1..] else "";
    if dot == |m| then
      if DigitRun(ip) then Some(DigitValue(ip) as real) else None
    else if (|ip| == 0 || DigitRun(ip)) && (|fp| == 0 || DigitRun(fp)) && (|ip| > 0 || |fp| > 0) then
      var iv := if |ip| == 0 then 0 else DigitValue(ip);
      var fv := if |fp| == 0 then 0 else DigitValue(fp);
      Some(iv as real + fv as real / Pow10(DigitCount(fp)) as real)
    else None
  }

  /** Python's `float(s)`: decimal literals with optional exponent, `inf`, `infinity` and `nan`. */
  function ParseFloat(s: string): (r: FloatLit) {
    var (neg, body) := Sign(Strip(s));
    var low := Lower(body);
    if low == "inf" || low == "infinity" then Infinite
    else if low == "nan" then NaN
    else
      var e := Find(low, 'e');
      var mant := MantissaValue(body[..e]);
      if mant.None? then NotANumberText
      else
        var mag :=
          if e == |body| then Some(mant.value)
          else
            var (eneg, edigits) := Sign(body[e + 1..]);
            if DigitRun(edigits) then
              var p := Pow10(DigitValue(edigits)) as real;
              Some(if eneg then mant.value / p else mant.value * p)
            else None;
        if mag.None? then NotANumberText
        else Finite(if neg then -mag.value else mag.value)
  }

  lemma {:induction false} NatToStringDigits(n: nat)
    ensures DigitRun(NatToString(n))
    ensures DigitValue(NatToString(n)) == n
    decreases n
  {
    var s := NatToString(n);
    if n >= 10 {
      NatToStringDigits(n / 10);
      assert s[..|s| - 1] == NatToString(n / 10);
    }
  }

  /** The characters Python's `int()` accepts anywhere in its argument. */
  predicate IsNumeralChar(c: char) {
    IsSpace(c) || IsDigit(c) || c == '+' || c == '-' || c == '_'
  }

  /** Text that `int()` accepts holds nothing but whitespace, a sign, digits and underscores. */
  lemma ParseIntChars(s: string)
    requires ParseInt(s).Some?
    ensures forall k :: 0 <= k < |s| ==> IsNumeralChar(s[k])
  {
    var t := Strip(s);
    var st := StripStart(s);
    var (neg, body) := Sign(t);
    assert DigitRun(body);
    assert forall k :: 0 <= k < |t| ==> IsNumeralChar(t[k]) by {
      forall k | 0 <= k < |t| ensures IsNumeralChar(t[k]) {
        if body != t {
          assert body == t[1..];
          if k > 0 {
            assert t[k] == body[k - 1];
          }
        } else {
          assert t[k] == body[k];
        }
      }
    }
    forall k | 0 <= k < |s| ensures IsNumeralChar(s[k]) {
      if st <= k < st + |t| {
        assert s[k] == t[k - st];
      }
    }
  }

  /** `int(str(i)) == i`: the DAT writer's class ids read back exactly. */
  lemma IntRoundTrip(i: int)
    ensures ParseInt(IntToString(i)) == Some(i)
  {
    var s := IntToString(i);
    var n: nat := if i < 0 then -i else i;
    NatToStringDigits(n);
    StripNoEdgeSpaceNumber(i);
    if i < 0 {
      assert s[1..] == NatToString(n);
    }
  }

  lemma StripNoEdgeSpaceNumber(i: int)
    ensures Strip(IntToString(i)) == IntToString(i)
  {
    var s := IntToString(i);
    var n: nat := if i < 0 then -i else i;
    assert i < 0 ==> s == "-" + NatToString(n);
    assert !IsSpace(s[0]);
    assert !IsSpace(s[|s| - 1]) by {
      if i < 0 {
        assert s[|s| - 1] == NatToString(n)[|NatToString(n)| - 1];
      }
    }
    StripNoEdgeSpace(s);
  }

  lemma DigitsLowerFind(body: string)
    requires forall k :: 0 <= k < |body| ==> IsDigit(body[k])
    ensures Lower(body) == body
    ensures Find(body, 'e') == |body| && Find(body, '.') == |body|
  {
    var low := Lower(body);
    forall k | 0 <= k < |body| ensures low[k] == body[k] {
      assert IsDigit(body[k]);
    }
    assert forall k :: 0 <= k < |body| ==> body[k] != 'e' && body[k] != '.';
  }

  lemma MantissaOfNat(n: nat)
    ensures MantissaValue(NatToString(n)) == Some(n as real)
  {
    var body := NatToString(n);
    NatToStringDigits(n);
    DigitsLowerFind(body);
    assert body[..|body|] == body;
  }

  /** `float(str(i)) == i` exactly, so truncating it gives the integer back. */
  lemma FloatRoundTrip(i: int)
    ensures ParseFloat(IntToString(i)) == Finite(i as real)
  {
    var s := IntToString(i);
    var n: nat := if i < 0 then -i else i;
    StripNoEdgeSpaceNumber(i);
    var (neg, body) := Sign(s);
    assert body == NatToString(n);
    assert neg == (i < 0);
    DigitsLowerFind(body);
    assert Lower(body) != "inf" && Lower(body) != "infinity" && Lower(body) != "nan" by {
      assert IsDigit(body[0]);
    }
    assert body[..|body|] == body;
    MantissaOfNat(n);
  }
}

=== FILE: regex.dfy ===
/**
 * Python's `re` module, left uninterpreted: whether a pattern compiles, and whether a
 * compiled pattern matches at the start of a text or somewhere in it.
 */
module Regex {
  import opened Common

  /**
   * The engine's answers. `matchStart(p, t)` is `re.match(p, t)` succeeding;
   * `searchIgnoreCase(p, t)` is `re.compile(p, re.IGNORECASE).search(t)` succeeding.
   */
  datatype Engine = Engine(
    compiles: string -> bool,
    matchStart: (string, string) -> bool,
    searchIgnoreCase: (string, string) -> bool)

  /** `re.match(pattern, text)`: `None` stands for the `re.error` an invalid pattern raises. */
  function Match(e: Engine, pattern: string, text: string): (r: Option<bool>)
    ensures r.None? <==> !e.compiles(pattern)
    ensures r.Some? ==> r.value == e.matchStart(pattern, text)
  {
    if e.compiles(pattern) then Some(e.matchStart(pattern, text)) else None
  }
}

=== FILE: rotation.dfy ===
/**
 * Rotating an image's boxes along with the image, the rotation state kept per image, and
 * the file name and format a rotated image is saved under. Pixel work is outside the model.
 */
module Rotation {
  import opened Common
  import opened Text
  import opened Boxes
  import opened Paths

  /**
   * How a box moves under an angle that is not a quarter turn. The source computes it with
   * floating-point trigonometry; the model takes it as a parameter.
   */
  type ArbitraryRemap = (Box, int, int, int) -> (real, real, real, real)

  /** `BoundingBox(box.x, box.y, box.width, box.height, box.class_id, box.ocr_text)`. */
  function Copy(b: Box): (r: Box)
    ensures r.x == b.x && r.y == b.y && r.width == b.width && r.height == b.height
    ensures r.classId == b.classId && r.ocrText == b.ocrText
    ensures !r.selected && r.name == DefaultName(b.classId)
  {
    NewBox(b.x, b.y, b.width, b.height, b.classId, b.ocrText, None)
  }

  predicate QuarterTurn(a: int) {
    a == 90 || a == 180 || a == 270
  }

  /** The quarter-turn formulas, for an image `w` wide and `h` high, before `int()`. */
  function QuarterRemap(b: Box, a: int, w: int, h: int): (real, real, real, real)
    requires QuarterTurn(a)
  {
    if a == 90 then (b.y, w as real - b.x - b.width, b.height, b.width)
    else if a == 180 then (w as real - b.x - b.width, h as real - b.y - b.height, b.width, b.height)
    else (h as real - b.y - b.height, b.x, b.height, b.width)
  }

  /** One box under a normalised angle: the remap, each value through `int()`. */
  function RotateBox(b: Box, a: int, w: int, h: int, arbitrary: ArbitraryRemap): (r: Box)
    requires 0 < a < 360
    ensures r.classId == b.classId && r.ocrText == b.ocrText
    ensures !r.selected && r.name == DefaultName(b.classId)
    ensures HasIntegralCoords(r)
  {
    var q := if QuarterTurn(a) then QuarterRemap(b, a, w, h) else arbitrary(b, a, w, h);
    NewBox(Trunc(q.0) as real, Trunc(q.1) as real, Trunc(q.2) as real, Trunc(q.3) as real,
           b.classId, b.ocrText, None)
  }

  /**
   * `ImageRotator.rotate_bounding_boxes`: `w` and `h` are the size of the image before any
   * rotation. Nothing to rotate, or a whole number of turns, gives plain copies.
   */
  function RotateBoundingBoxes(boxes: seq<Box>, angle: int, w: int, h: int,
                               arbitrary: ArbitraryRemap): (r: seq<Box>)
    ensures |r| == |boxes|
    ensures forall i :: 0 <= i < |r| ==>
      r[i].classId == boxes[i].classId && r[i].ocrText == boxes[i].ocrText && !r[i].selected
    ensures angle % 360 == 0 ==> forall i :: 0 <= i < |r| ==> r[i] == Copy(boxes[i])
    ensures angle % 360 != 0 ==> forall i :: 0 <= i < |r| ==> r[i] == RotateBox(boxes[i], angle % 360, w, h, arbitrary)
  {
    if |boxes| == 0 || angle % 360 == 0 then
      seq(|boxes|, i requires 0 <= i < |boxes| => Copy(boxes[i]))
    else
      seq(|boxes|, i requires 0 <= i < |boxes| => RotateBox(boxes[i], angle % 360, w, h, arbitrary))
  }

  lemma TruncWhole(x: real)
    requires IsIntegral(x)
    ensures Trunc(x) as real == x
  {
    TruncIntegral(x.Floor);
  }

  lemma WholeOf(n: int)
    ensures IsIntegral(n as real)
  {
  }

  lemma WholeSum(a: real, b: real)
    requires IsIntegral(a) && IsIntegral(b)
    ensures IsIntegral(a + b) && IsIntegral(a - b)
  {
    var i, j := a.Floor, b.Floor;
    WholeOf(i + j);
    WholeOf(i - j);
  }

  /** The quarter-turn remaps of whole-number boxes lose nothing to `int()`. */
  lemma QuarterTurnExact(b: Box, a: int, w: int, h: int, arbitrary: ArbitraryRemap)
    requires QuarterTurn(a) && HasIntegralCoords(b)
    ensures var r := RotateBox(b, a, w, h, arbitrary); var q := QuarterRemap(b, a, w, h);
      r.x == q.0 && r.y == q.1 && r.width == q.2 && r.height == q.3
  {
    var q := QuarterRemap(b, a, w, h);
    WholeSum(w as real, b.x);
    WholeSum(w as real - b.x, b.width);
    WholeSum(h as real, b.y);
    WholeSum(h as real - b.y, b.height);
    TruncWhole(q.0);
    TruncWhole(q.1);
    TruncWhole(q.2);
    TruncWhole(q.3);
  }

  lemma ModShift(angle: int, k: int)
    ensures (angle + 360 * k) % 360 == angle % 360
  {
    var m := angle % 360;
    assert angle == (angle / 360) * 360 + m;
    assert angle + 360 * k == (angle / 360 + k) * 360 + m;
  }

  /** The angle only matters modulo 360: -90 acts as 270 and 450 as 90. */
  lemma AngleReduced(boxes: seq<Box>, angle: int, k: int, w: int, h: int, arbitrary: ArbitraryRemap)
    ensures RotateBoundingBoxes(boxes, angle + 360 * k, w, h, arbitrary)
         == RotateBoundingBoxes(boxes, angle, w, h, arbitrary)
  {
    ModShift(angle, k);
  }

  /** The box lies within a `w` by `h` image. */
  predicate Inside(b: Box, w: int, h: int) {
    && 0.0 <= b.x && 0.0 <= b.y && 0.0 <= b.width && 0.0 <= b.height
    && b.x + b.width <= w as real && b.y + b.height <= h as real
  }

  lemma TruncSum(p: real, q: real)
    requires p >= 0.0 && q >= 0.0
    ensures 0 <= Trunc(p) && 0 <= Trunc(q) && (Trunc(p) + Trunc(q)) as real <= p + q
  {
  }

  /**
   * A box inside the image stays inside the rotated image: `h` by `w` after a quarter or
   * three-quarter turn, `w` by `h` after a half turn. Fractional coordinates are truncated
   * downwards here, so the bound survives `int()`.
   */
  lemma StaysInside(b: Box, a: int, w: int, h: int, arbitrary: ArbitraryRemap)
    requires QuarterTurn(a) && Inside(b, w, h)
    ensures a == 180 ==> Inside(RotateBox(b, a, w, h, arbitrary), w, h)
    ensures a != 180 ==> Inside(RotateBox(b, a, w, h, arbitrary), h, w)
  {
    var q := QuarterRemap(b, a, w, h);
    TruncSum(q.0, q.2);
    TruncSum(q.1, q.3);
  }

  /** A quarter turn on the `w` by `h` image, then a three-quarter turn on the `h` by `w` result, restores a whole-number box. */
  lemma QuarterThenThreeQuarters(b: Box, w: int, h: int, f: ArbitraryRemap, g: ArbitraryRemap)
    requires HasIntegralCoords(b)
    ensures RotateBox(RotateBox(b, 90, w, h, f), 270, h, w, g) == Copy(b)
  {
    var r := RotateBox(b, 90, w, h, f);
    QuarterTurnExact(b, 90, w, h, f);
    QuarterTurnExact(r, 270, h, w, g);
  }

  /** Two quarter turns, the second on the turned image, make a half turn. */
  lemma TwoQuartersMakeHalf(b: Box, w: int, h: int, f: ArbitraryRemap, g: ArbitraryRemap)
    requires HasIntegralCoords(b)
    ensures RotateBox(RotateBox(b, 90, w, h, f), 90, h, w, g) == RotateBox(b, 180, w, h, f)
  {
    var r := RotateBox(b, 90, w, h, f);
    QuarterTurnExact(b, 90, w, h, f);
    QuarterTurnExact(r, 90, h, w, g);
    QuarterTurnExact(b, 180, w, h, f);
  }

  /** The list versions of the two compositions above. */
  lemma ListCompositions(boxes: seq<Box>, w: int, h: int, f: ArbitraryRemap)
    requires forall i :: 0 <= i < |boxes| ==> HasIntegralCoords(boxes[i])
    ensures RotateBoundingBoxes(RotateBoundingBoxes(boxes, 90, w, h, f), 270, h, w, f)
         == RotateBoundingBoxes(boxes, 0, w, h, f)
    ensures RotateBoundingBoxes(RotateBoundingBoxes(boxes, 90, w, h, f), 90, h, w, f)
         == RotateBoundingBoxes(boxes, 180, w, h, f)
  {
    ListQuarterThenThreeQuarters(boxes, w, h, f);
    ListTwoQuarters(boxes, w, h, f);
  }

  lemma ListQuarterThenThreeQuarters(boxes: seq<Box>, w: int, h: int, f: ArbitraryRemap)
    requires forall i :: 0 <= i < |boxes| ==> HasIntegralCoords(boxes[i])
    ensures RotateBoundingBoxes(RotateBoundingBoxes(boxes, 90, w, h, f), 270, h, w, f)
         == RotateBoundingBoxes(boxes, 0, w, h, f)
  {
    var lhs, rhs := RotateBoundingBoxes(RotateBoundingBoxes(boxes, 90, w, h, f), 270, h, w, f), RotateBoundingBoxes(boxes, 0, w, h, f);
    forall i | 0 <= i < |boxes| ensures lhs[i] == rhs[i] {
      QuarterThenThreeQuartersAt(boxes, i, w, h, f);
    }
    assert lhs == rhs;
  }

  lemma QuarterThenThreeQuartersAt(boxes: seq<Box>, i: nat, w: int, h: int, f: ArbitraryRemap)
    requires i < |boxes| && HasIntegralCoords(boxes[i])
    ensures RotateBoundingBoxes(RotateBoundingBoxes(boxes, 90, w, h, f), 270, h, w, f)[i]
         == RotateBoundingBoxes(boxes, 0, w, h, f)[i]
  {
    var once := RotateBoundingBoxes(boxes, 90, w, h, f);
    assert once[i] == RotateBox(boxes[i], 90, w, h, f);
    QuarterThenThreeQuarters(boxes[i], w, h, f, f);
  }

  lemma ListTwoQuarters(boxes: seq<Box>, w: int, h: int, f: ArbitraryRemap)
    requires forall i :: 0 <= i < |boxes| ==> HasIntegralCoords(boxes[i])
    ensures RotateBoundingBoxes(RotateBoundingBoxes(boxes, 90, w, h, f), 90, h, w, f)
         == RotateBoundingBoxes(boxes, 180, w, h, f)
  {
    var lhs, rhs := RotateBoundingBoxes(RotateBoundingBoxes(boxes, 90, w, h, f), 90, h, w, f), RotateBoundingBoxes(boxes, 180, w, h, f);
    forall i | 0 <= i < |boxes| ensures lhs[i] == rhs[i] {
      TwoQuartersAt(boxes, i, w, h, f);
    }
    assert lhs == rhs;
  }

  lemma TwoQuartersAt(boxes: seq<Box>, i: nat, w: int, h: int, f: ArbitraryRemap)
    requires i < |boxes| && HasIntegralCoords(boxes[i])
    ensures RotateBoundingBoxes(RotateBoundingBoxes(boxes, 90, w, h, f), 90, h, w, f)[i]
         == RotateBoundingBoxes(boxes, 180, w, h, f)[i]
  {
    var once := RotateBoundingBoxes(boxes, 90, w, h, f);
    assert once[i] == RotateBox(boxes[i], 90, w, h, f);
    TwoQuartersMakeHalf(boxes[i], w, h, f, f);
  }

  // ---------------------------------------------------------------------------------------
  // Rotation state of the image on screen.

  datatype Size = Size(width: int, height: int)

  /**
   * `RotationManager`. `original` is the size of the loaded, unrotated image (`None` before a
   * successful load); `path` is "" while no path is known.
   */
  datatype RotationState = RotationState(
    original: Option<Size>, rotation: int, unsaved: bool, path: string)

  function NewRotationState(): (s: RotationState)
    ensures s.original.None? && s.rotation == 0 && !s.unsaved
  {
    RotationState(None, 0, false, "")
  }

  /** The state keeps its angle in [0, 360) and flags exactly the non-zero angles as unsaved. */
  predicate Consistent(s: RotationState) {
    0 <= s.rotation < 360 && (s.unsaved <==> s.rotation != 0)
  }

  /** `load_image`: `decoded` is the size of the decoded file, `None` when decoding failed. */
  function LoadImage(s: RotationState, path: string, decoded: Option<Size>): (r: (RotationState, bool))
    ensures r.1 <==> decoded.Some?
    ensures r.1 ==> r.0 == RotationState(decoded, 0, false, path)
    ensures !r.1 ==> r.0 == s
  {
    match decoded
    case None => (s, false)
    case Some(_) => (RotationState(decoded, 0, false, path), true)
  }

  /** `rotate`: refuses without an image, otherwise accumulates the angle modulo 360. */
  function Rotate(s: RotationState, angle: int): (r: (RotationState, bool))
    ensures r.1 <==> s.original.Some?
    ensures !r.1 ==> r.0 == s
    ensures r.1 ==> Consistent(r.0) && r.0.original == s.original && r.0.path == s.path
    ensures r.1 ==> exists k :: r.0.rotation == s.rotation + angle + 360 * k
  {
    if s.original.None? then (s, false)
    else
      var a := (s.rotation + angle) % 360;
      assert a == s.rotation + angle + 360 * (-((s.rotation + angle) / 360));
      (s.(rotation := a, unsaved := a != 0), true)
  }

  /** Rotating twice is rotating once by the sum. */
  lemma RotationsAccumulate(s: RotationState, a: int, b: int)
    requires s.original.Some?
    ensures Rotate(Rotate(s, a).0, b).0 == Rotate(s, a + b).0
  {
    var x := s.rotation + a;
    ModShift(x % 360 + b, x / 360);
    assert x % 360 + b + 360 * (x / 360) == x + b;
  }

  /** A quarter turn applied four times comes back to the start. */
  lemma FourQuarterTurns(s: RotationState)
    requires s.original.Some? && Consistent(s)
    ensures Rotate(Rotate(Rotate(Rotate(s, 90).0, 90).0, 90).0, 90).0 == s
  {
    RotationsAccumulate(s, 90, 90);
    RotationsAccumulate(s, 180, 90);
    RotationsAccumulate(s, 270, 90);
    ModShift(s.rotation, 1);
  }

  /** `RotationManager.rotate_bounding_boxes`: boxes follow the accumulated rotation of the original image. */
  function RotateBoxes(s: RotationState, boxes: seq<Box>, arbitrary: ArbitraryRemap): (r: seq<Box>)
    ensures s.original.None? || s.rotation == 0 ==> r == boxes
    ensures s.original.Some? && s.rotation != 0 ==>
      r == RotateBoundingBoxes(boxes, s.rotation, s.original.value.width, s.original.value.height, arbitrary)
  {
    if s.original.None? || s.rotation == 0 then boxes
    else RotateBoundingBoxes(boxes, s.rotation, s.original.value.width, s.original.value.height, arbitrary)
  }

  /** `reset_rotation`: back to the original orientation when an image is loaded. */
  function ResetRotation(s: RotationState): (r: RotationState)
    ensures s.original.Some? ==> r.rotation == 0 && !r.unsaved && Consistent(r)
    ensures s.original.None? ==> r == s
    ensures r.original == s.original && r.path == s.path
  {
    if s.original.Some? then s.(rotation := 0, unsaved := false) else s
  }

  /** Resetting undoes any sequence of rotations. */
  lemma ResetUndoesRotate(s: RotationState, angle: int)
    requires s.original.Some? && s.rotation == 0 && !s.unsaved
    ensures ResetRotation(Rotate(s, angle).0) == s
  {
  }

  /** The size of the image after rotating it: quarter turns swap the sides. */
  function RotatedSize(d: Size, a: int, arbitrary: Size): (r: Size)
    ensures (a == 90 || a == 270) ==> r == Size(d.height, d.width)
    ensures (a == 0 || a == 180) ==> r == d
  {
    if a == 0 || a == 180 then d
    else if a == 90 || a == 270 then Size(d.height, d.width)
    else arbitrary
  }

  // ---------------------------------------------------------------------------------------
  // Saving.

  datatype Format = Jpeg | Png | Bmp

  /** The format an image is written in, from its lower-cased extension; unknown ones become PNG. */
  function FormatFor(extension: string): (r: Option<Format>)
    ensures r == Some(Jpeg) <==> Lower(extension) == ".jpg" || Lower(extension) == ".jpeg"
    ensures r == Some(Png) <==> Lower(extension) == ".png"
    ensures r == Some(Bmp) <==> Lower(extension) == ".bmp"
  {
    var e := Lower(extension);
    if e == ".jpg" || e == ".jpeg" then Some(Jpeg)
    else if e == ".png" then Some(Png)
    else if e == ".bmp" then Some(Bmp)
    else None
  }

  /** The name the copy is written under before any change of extension. */
  function Tagged(original: string, tag: string): string {
    Dir(original) + Stem(Name(original)) + tag + Suffix(Name(original))
  }

  datatype Target = Target(path: string, format: Format)

  /**
   * `ImageSaver.save_rotated_image`'s choice of file: `<stem><tag><suffix>` next to the
   * original, in the format its extension names, or PNG with a `.png` extension.
   */
  function SaveTarget(original: string, tag: string): (r: Target)
    ensures FormatFor(Suffix(Name(original))).Some? ==>
      r.format == FormatFor(Suffix(Name(original))).value
      && r.path == Tagged(original, tag)
    ensures FormatFor(Suffix(Name(original))).None? ==> r.format == Png
  {
    var tagged := Tagged(original, tag);
    match FormatFor(Suffix(Name(original)))
    case Some(f) => Target(tagged, f)
    case None => Target(WithSuffix(tagged, ".png"), Png)
  }

  /** `ImageSaver.overwrite_original`'s format choice, with unknown extensions written as PNG. */
  function OverwriteFormat(original: string): (r: Format)
    ensures FormatFor(Suffix(Name(original))).Some? ==> r == FormatFor(Suffix(Name(original))).value
  {
    FormatFor(Suffix(Name(original))).GetOr(Png)
  }

  /** Overwriting and saving a copy write the same format. */
  lemma SameFormatEitherWay(original: string, tag: string)
    ensures OverwriteFormat(original) == SaveTarget(original, tag).format
  {
  }

  /** A non-empty suffix of a slash-free name is one `with_suffix` would accept. */
  lemma SuffixIsProper(n: string)
    requires '/' !in n && Suffix(n) != ""
    ensures ProperSuffix(Suffix(n))
  {
    var i := SuffixStart(n).value;
    assert Suffix(n) == n[i..];
    assert forall k :: 1 <= k < |n[i..]| ==> n[i..][k] == n[i + k];
  }

  predicate PlainTag(tag: string) {
    '.' !in tag && '/' !in tag
  }

  lemma PlainJoin(a: string, b: string)
    requires '/' !in a && '/' !in b
    ensures '/' !in a + b
  {
    assert forall k :: 0 <= k < |a + b| ==> (a + b)[k] == if k < |a| then a[k] else b[k - |a|];
  }

  /** `<stem><tag><suffix>` with a slash-free stem and tag, after a directory prefix. */
  lemma TaggedName(d: string, st: string, tag: string, ext: string)
    requires d == "" || d[|d| - 1] == '/'
    requires '/' !in st && |st| > 0 && PlainTag(tag) && (ext == "" || ProperSuffix(ext))
    ensures Dir(d + st + tag + ext) == d && Name(d + st + tag + ext) == st + tag + ext
    ensures ext != "" ==> Suffix(st + tag + ext) == ext && Stem(st + tag + ext) == st + tag
  {
    PlainJoin(st, tag);
    if ext == "" {
      assert d + st + tag + ext == d + (st + tag);
      assert st + tag + ext == st + tag;
      NameAfterDir(d, st + tag);
    } else {
      assert d + st + tag + ext == d + (st + tag) + ext;
      JoinedParts(d, st + tag, ext);
    }
  }

  lemma TaggedParts(original: string, tag: string)
    requires PlainTag(tag) && |Name(original)| > 0
    ensures Dir(Tagged(original, tag)) == Dir(original) && |Name(Tagged(original, tag))| > 0
    ensures Suffix(Name(original)) != "" ==>
      Suffix(Name(Tagged(original, tag))) == Suffix(Name(original))
      && Stem(Name(Tagged(original, tag))) == Stem(Name(original)) + tag
  {
    var n := Name(original);
    PrefixFree(Stem(n), Suffix(n));
    if Suffix(n) != "" {
      SuffixIsProper(n);
    }
    TaggedName(Dir(original), Stem(n), tag, Suffix(n));
  }

  lemma PngIsProper()
    ensures ProperSuffix(".png")
  {
    var s := ".png";
    assert |s| == 4 && s[0] == '.' && s[1] == 'p' && s[2] == 'n' && s[3] == 'g';
  }

  /** With a known extension the copy keeps it, and its stem is the original stem followed by the tag. */
  lemma SaveTargetKnown(original: string, tag: string)
    ensures PlainTag(tag) && |Name(original)| > 0 && FormatFor(Suffix(Name(original))).Some? ==>
      && Dir(SaveTarget(original, tag).path) == Dir(original)
      && Suffix(Name(SaveTarget(original, tag).path)) == Suffix(Name(original))
      && Stem(Name(SaveTarget(original, tag).path)) == Stem(Name(original)) + tag
  {
    if PlainTag(tag) && |Name(original)| > 0 && FormatFor(Suffix(Name(original))).Some? {
      assert Suffix(Name(original)) != "";
      TaggedParts(original, tag);
    }
  }

  /** Any other extension, or none, becomes `.png`, still next to the original. */
  lemma SaveTargetUnknown(original: string, tag: string)
    ensures PlainTag(tag) && |Name(original)| > 0 && FormatFor(Suffix(Name(original))).None? ==>
      && Dir(SaveTarget(original, tag).path) == Dir(original)
      && Suffix(Name(SaveTarget(original, tag).path)) == ".png"
  {
    if PlainTag(tag) && |Name(original)| > 0 && FormatFor(Suffix(Name(original))).None? {
      var t := Tagged(original, tag);
      TaggedParts(original, tag);
      PngIsProper();
      WithSuffixParts(t, ".png");
      assert SaveTarget(original, tag).path == WithSuffix(t, ".png");
    }
  }

  /**
   * `RotationManager.save_rotated_image`. `written` says whether the image write succeeded
   * (the source turns a failed write into `None`); `arbitrary` is the size an angle other
   * than a quarter turn produces. Returns the new state and the path reported.
   */
  function SaveRotatedImage(s: RotationState, overwrite: bool, written: bool, arbitrary: Size)
    : (r: (RotationState, Option<string>))
    ensures s.original.None? || s.path == "" ==> r == (s, None)
    ensures s.original.Some? && s.path != "" && s.rotation == 0 ==> r == (s, Some(s.path))
    ensures s.original.Some? && s.path != "" && s.rotation != 0 && !written ==> r == (s, None)
    ensures s.original.Some? && s.path != "" && s.rotation != 0 && written && overwrite ==>
      r.1 == Some(s.path) && r.0.rotation == 0 && !r.0.unsaved
      && r.0.original == Some(RotatedSize(s.original.value, s.rotation, arbitrary))
    ensures s.original.Some? && s.path != "" && s.rotation != 0 && written && !overwrite ==>
      r.0 == s && r.1 == Some(SaveTarget(s.path, "_rotated").path)
  {
    if s.original.None? || s.path == "" then (s, None)
    else if s.rotation == 0 then (s, Some(s.path))
    else if !written then (s, None)
    else if overwrite then
      (s.(original := Some(RotatedSize(s.original.value, s.rotation, arbitrary)),
          rotation := 0, unsaved := false), Some(s.path))
    else (s, Some(SaveTarget(s.path, "_rotated").path))
  }
}

=== FILE: selection.dfy ===
/**
 * The selected box. Python keeps a reference to the selected object and a `selected` flag
 * on every box; the model keeps the selected position and the flags, and states when the
 * two agree.
 */
module Selection {
  import opened Common
  import opened Boxes

  /** The selected position, if any, points into the list. */
  predicate InRange(boxes: seq<Box>, sel: Option<nat>) {
    sel.Some? ==> sel.value < |boxes|
  }

  /** Exactly the selected box carries the `selected` flag. */
  predicate FlagsMatch(boxes: seq<Box>, sel: Option<nat>) {
    && InRange(boxes, sel)
    && forall i :: 0 <= i < |boxes| ==> (boxes[i].selected <==> sel == Some(i))
  }

  /** The same boxes, up to their `selected` flags. */
  predicate SameButFlags(a: seq<Box>, b: seq<Box>) {
    |a| == |b| && forall i :: 0 <= i < |a| ==> a[i] == b[i].(selected := a[i].selected)
  }

  /** `box.selected = on` for the box at position `i`. */
  function SetFlag(boxes: seq<Box>, i: nat, on: bool): (r: seq<Box>)
    requires i < |boxes|
    ensures |r| == |boxes| && r[i].selected == on
    ensures forall k :: 0 <= k < |boxes| && k != i ==> r[k] == boxes[k]
    ensures SameButFlags(r, boxes)
  {
    boxes[i := boxes[i].(selected := on)]
  }

  /**
   * Moving the selection from `prev` to `next`: `if selected: selected.selected = False`,
   * then `if box: box.selected = True`.
   */
  function Reselect(boxes: seq<Box>, prev: Option<nat>, next: Option<nat>): (r: seq<Box>)
    requires InRange(boxes, prev) && InRange(boxes, next)
    ensures SameButFlags(r, boxes)
    ensures next.Some? ==> r[next.value].selected
    ensures forall k :: 0 <= k < |boxes| && Some(k) != prev && Some(k) != next ==> r[k] == boxes[k]
  {
    var cleared := if prev.Some? then SetFlag(boxes, prev.value, false) else boxes;
    if next.Some? then SetFlag(cleared, next.value, true) else cleared
  }

  /** Reselecting keeps "exactly the selected box is flagged" true. */
  lemma ReselectKeepsFlags(boxes: seq<Box>, prev: Option<nat>, next: Option<nat>)
    requires FlagsMatch(boxes, prev) && InRange(boxes, next)
    ensures FlagsMatch(Reselect(boxes, prev, next), next)
  {
  }

  /** `(i + 1) % len(boxes)`, starting from -1 when nothing is selected. */
  function NextIndex(sel: Option<nat>, n: nat): (r: nat)
    requires n > 0
    ensures r < n
    ensures sel.None? ==> r == 0
    ensures sel.Some? && sel.value + 1 < n ==> r == sel.value + 1
    ensures sel.Some? && sel.value + 1 == n ==> r == 0
  {
    var current := if sel.Some? then sel.value else -1;
    (current + 1) % n
  }

  /** The position reached after pressing Tab `k` times from `i`. */
  function TabFrom(i: nat, n: nat, k: nat): (r: nat)
    requires i < n
    ensures r < n
  {
    if k == 0 then i else NextIndex(Some(TabFrom(i, n, k - 1)), n)
  }

  lemma ModUnique(a: int, n: int, q: int, m: int)
    requires n > 0 && a == q * n + m && 0 <= m < n
    ensures a % n == m
  {
    var d := q - a / n;
    assert a == (a / n) * n + a % n;
    assert d * n == a % n - m;
  }

  lemma ModStep(a: nat, n: nat)
    requires n > 0
    ensures (a % n + 1) % n == (a + 1) % n
  {
    var p := a % n;
    assert a == (a / n) * n + p;
    if p + 1 < n {
      ModUnique(a + 1, n, a / n, p + 1);
      ModUnique(p + 1, n, 0, p + 1);
    } else {
      assert a + 1 == (a / n + 1) * n;
      ModUnique(a + 1, n, a / n + 1, 0);
      ModUnique(p + 1, n, 1, 0);
    }
  }

  /** `k` Tab presses move `k` places round the list. */
  lemma {:induction false} TabMoves(i: nat, n: nat, k: nat)
    requires i < n
    ensures TabFrom(i, n, k) == (i + k) % n
  {
    if k == 0 {
      ModUnique(i, n, 0, i);
    } else {
      TabMoves(i, n, k - 1);
      ModStep(i + k - 1, n);
    }
  }

  /** After `n` presses the selection is back where it started: Tab visits every box once. */
  lemma TabCycles(i: nat, n: nat)
    requires i < n
    ensures TabFrom(i, n, n) == i
    ensures forall k :: 0 < k < n ==> TabFrom(i, n, k) != i
  {
    TabMoves(i, n, n);
    ModUnique(i + n, n, 1, i);
    forall k | 0 < k < n ensures TabFrom(i, n, k) != i {
      TabMoves(i, n, k);
      if i + k < n {
        ModUnique(i + k, n, 0, i + k);
      } else {
        ModUnique(i + k, n, 1, i + k - n);
      }
    }
  }

  /** Deleting the selected box leaves the others, in order, none of them flagged if the flags matched. */
  lemma RemoveSelectedClearsFlags(boxes: seq<Box>, i: nat)
    requires FlagsMatch(boxes, Some(i))
    ensures FlagsMatch(RemoveAt(boxes, i), None)
  {
  }
}

=== FILE: settings.dfy ===
/**
 * Settings with profiles: a base tree every profile inherits from, the live settings, and
 * the active profile's name. Profiles are stored as their differences from the base and
 * merged back onto it when loaded. Reading and writing the profile files is left to the
 * caller: file contents come in as parameters and the values to write go out as results.
 */
module Settings {
  import opened Common
  import opened Text
  import opened Paths
  import opened Sorting
  import opened JsonValue

  /** Both sides hold an object under `k`, so `_deep_merge` and `_get_differences` recurse. */
  predicate BothObjects(a: Dict, b: Dict, k: string) {
    k in a && k in b && a[k].JObj? && b[k].JObj?
  }

  /**
   * `_deep_merge`: the override's keys win, objects present on both sides are merged
   * recursively, and keys only in the base are kept.
   */
  function DeepMerge(base: Dict, over: Dict): (r: Dict)
    ensures r.Keys == base.Keys + over.Keys
    ensures forall k :: k in base && k !in over ==> r[k] == base[k]
    ensures forall k :: k in over && !BothObjects(base, over, k) ==> r[k] == over[k]
    ensures forall k :: BothObjects(base, over, k) ==>
      r[k].JObj? && r[k].fields.Keys == base[k].fields.Keys + over[k].fields.Keys
    decreases JObj(over)
  {
    map k | k in base.Keys + over.Keys ::
      if BothObjects(base, over, k) then JObj(DeepMerge(base[k].fields, over[k].fields))
      else if k in over then over[k]
      else base[k]
  }

  /** Merging an empty override copies the base. */
  lemma MergeNothing(base: Dict)
    ensures DeepMerge(base, map[]) == base
  {
  }

  /** A value the override holds at the end of a path, that is not an object, is what the merge holds there. */
  lemma {:induction false} OverrideLeavesWin(base: Dict, over: Dict, path: seq<string>)
    requires At(JObj(over), path).Some? && !At(JObj(over), path).value.JObj?
    ensures At(JObj(DeepMerge(base, over)), path) == At(JObj(over), path)
    decreases |path|
  {
    var k := path[0];
    var r := DeepMerge(base, over);
    if BothObjects(base, over, k) {
      OverrideLeavesWin(base[k].fields, over[k].fields, path[1..]);
    }
  }

  /** The override leaves a path alone: it does not hold the path's end and holds only objects on the way there. */
  predicate Untouched(over: Dict, path: seq<string>)
    decreases |path|
  {
    |path| > 0 &&
    (path[0] !in over || (|path| > 1 && over[path[0]].JObj? && Untouched(over[path[0]].fields, path[1..])))
  }

  /** Whatever the base holds at a path the override leaves alone, at any depth, the merge still holds. */
  lemma {:induction false} BaseLeavesKept(base: Dict, over: Dict, path: seq<string>)
    requires At(JObj(base), path).Some? && Untouched(over, path)
    ensures At(JObj(DeepMerge(base, over)), path) == At(JObj(base), path)
    decreases |path|
  {
    var k := path[0];
    if k in over {
      BaseLeavesKept(base[k].fields, over[k].fields, path[1..]);
    }
  }

  /**
   * `_get_differences`: the keys of `current` that are new, that hold a different
   * non-object value, or that hold an object whose own differences are non-empty.
   */
  function Diff(base: Dict, current: Dict): (r: Dict)
    ensures r.Keys <= current.Keys
    ensures forall k :: k in current && k !in base ==> k in r && r[k] == current[k]
    ensures forall k :: k in current && k in base && !BothObjects(base, current, k) ==>
      (k in r <==> current[k] != base[k]) && (k in r ==> r[k] == current[k])
    ensures forall k :: k in r && BothObjects(base, current, k) ==> r[k].JObj? && r[k].fields != map[]
    decreases JObj(current)
  {
    map k | k in current && (k !in base ||
        (if BothObjects(base, current, k) then Diff(base[k].fields, current[k].fields) != map[]
         else current[k] != base[k])) ::
      if BothObjects(base, current, k) then JObj(Diff(base[k].fields, current[k].fields)) else current[k]
  }

  /** Nothing differs from itself. */
  lemma {:induction false} DiffSelf(x: Dict)
    ensures Diff(x, x) == map[]
    decreases JObj(x)
  {
    forall k | k in x && x[k].JObj?
      ensures Diff(x[k].fields, x[k].fields) == map[]
    {
      DiffSelf(x[k].fields);
    }
  }

  /**
   * Saving a profile as its differences and loading it back onto the same base gives
   * every non-object value of the saved settings back at its path.
   */
  lemma {:induction false} MergeDiffLeaves(base: Dict, current: Dict, path: seq<string>)
    requires At(JObj(current), path).Some? && !At(JObj(current), path).value.JObj?
    ensures At(JObj(DeepMerge(base, Diff(base, current))), path) == At(JObj(current), path)
    decreases |path|
  {
    var k := path[0];
    var d := Diff(base, current);
    var m := DeepMerge(base, d);
    if BothObjects(base, current, k) {
      var nested := Diff(base[k].fields, current[k].fields);
      MergeDiffLeaves(base[k].fields, current[k].fields, path[1..]);
      if nested == map[] {
        MergeNothing(base[k].fields);
        assert m[k] == base[k];
        assert base[k] == JObj(DeepMerge(base[k].fields, nested));
      } else {
        assert d[k] == JObj(nested);
        assert m[k] == JObj(DeepMerge(base[k].fields, nested));
      }
    } else if k in base && current[k] == base[k] {
      assert k !in d;
    }
  }

  // ---------------------------------------------------------------------------------------
  // Dotted paths.

  /** `key_path.split('.')`: never empty. */
  function Segments(keyPath: string): (r: seq<string>)
    ensures |r| >= 1
  {
    SplitOn(keyPath, '.')
  }

  /** `get` as a reference: the value at the dotted path, or the default. */
  function Get(settings: Dict, keyPath: string, default: Json): Json {
    At(JObj(settings), Segments(keyPath)).GetOr(default)
  }

  /**
   * `get` as the source writes it: walk the segments, giving the default as soon as a
   * segment is missing or a non-object is reached.
   */
  method GetWalk(settings: Dict, keyPath: string, default: Json) returns (r: Json)
    ensures r == Get(settings, keyPath, default)
    ensures At(JObj(settings), Segments(keyPath)).None? ==> r == default
  {
    var keys := Segments(keyPath);
    var value := JObj(settings);
    var i := 0;
    while i < |keys|
      invariant 0 <= i <= |keys|
      invariant At(JObj(settings), keys) == At(value, keys[i..])
    {
      if value.JObj? && keys[i] in value.fields {
        value := value.fields[keys[i]];
        assert keys[i..][1..] == keys[i + 1..];
        i := i + 1;
      } else {
        return default;
      }
    }
    return value;
  }

  /**
   * `set` below one dictionary: missing intermediate keys get fresh objects and the last
   * segment receives the value. `None` is the `TypeError` raised when an intermediate key
   * holds something other than an object; nothing has been changed by then.
   */
  function SetPath(d: Dict, keys: seq<string>, v: Json): (r: Option<Dict>)
    requires |keys| >= 1
    ensures r.Some? ==> r.value.Keys == d.Keys + {keys[0]}
    ensures r.Some? ==> forall k :: k in d && k != keys[0] ==> r.value[k] == d[k]
    ensures r.None? <==> |keys| > 1 && keys[0] in d && (!d[keys[0]].JObj? || SetPath(d[keys[0]].fields, keys[1..], v).None?)
    decreases |keys|
  {
    if |keys| == 1 then Some(d[keys[0] := v])
    else if keys[0] !in d then
      var inner := SetPath(map[], keys[1..], v);
      assert inner.Some?;
      Some(d[keys[0] := JObj(inner.value)])
    else if d[keys[0]].JObj? then
      match SetPath(d[keys[0]].fields, keys[1..], v)
      case None => None
      case Some(m) => Some(d[keys[0] := JObj(m)])
    else None
  }

  /** After a successful `set`, `get` on the same path returns the value set. */
  lemma {:induction false} SetPathThenAt(d: Dict, keys: seq<string>, v: Json)
    requires |keys| >= 1 && SetPath(d, keys, v).Some?
    ensures At(JObj(SetPath(d, keys, v).value), keys) == Some(v)
    decreases |keys|
  {
    if |keys| > 1 {
      if keys[0] !in d {
        SetPathThenAt(map[], keys[1..], v);
      } else {
        SetPathThenAt(d[keys[0]].fields, keys[1..], v);
      }
    }
  }

  /** `set` fails exactly when some proper prefix of the path reaches a non-object. */
  lemma {:induction false} SetPathFailsOnLeaf(d: Dict, keys: seq<string>, v: Json)
    requires |keys| >= 1
    ensures SetPath(d, keys, v).None? <==>
      exists i :: 1 <= i < |keys| && At(JObj(d), keys[..i]).Some? && !At(JObj(d), keys[..i]).value.JObj?
    decreases |keys|
  {
    if |keys| > 1 && keys[0] in d && d[keys[0]].JObj? {
      var inner := d[keys[0]].fields;
      SetPathFailsOnLeaf(inner, keys[1..], v);
      forall i | 1 <= i < |keys|
        ensures At(JObj(d), keys[..i]) == At(JObj(inner), keys[1..][..i - 1])
      {
        assert keys[..i][1..] == keys[1..][..i - 1];
      }
      assert At(JObj(d), keys[..1]) == Some(d[keys[0]]) by {
        assert keys[..1][1..] == [];
      }
      if SetPath(d, keys, v).None? {
        var j :| 1 <= j < |keys[1..]| && At(JObj(inner), keys[1..][..j]).Some? && !At(JObj(inner), keys[1..][..j]).value.JObj?;
        assert At(JObj(d), keys[..j + 1]) == At(JObj(inner), keys[1..][..j]);
      }
    } else if |keys| > 1 && keys[0] in d {
      assert At(JObj(d), keys[..1]) == Some(d[keys[0]]) by {
        assert keys[..1][1..] == [];
      }
    } else if |keys| > 1 {
      forall i | 1 <= i < |keys|
        ensures At(JObj(d), keys[..i]).None?
      {
        assert keys[..i][0] == keys[0];
      }
    }
  }

  // ---------------------------------------------------------------------------------------
  // The manager.

  datatype Manager = Manager(base: Dict, settings: Dict, active: Option<string>)

  /** Python's truthiness of the active profile name. */
  predicate HasActive(m: Manager) {
    m.active.Some? && m.active.value != ""
  }

  /**
   * `set`: `None` is the exception the path walk raises. On success the second component
   * is the profile content to write when a profile is active.
   */
  function Set(m: Manager, keyPath: string, v: Json): (r: Option<(Manager, Option<Dict>)>)
    ensures r.Some? ==> Get(r.value.0.settings, keyPath, JNull) == v
    ensures r.Some? ==> r.value.0.base == m.base && r.value.0.active == m.active
    ensures r.Some? ==> (r.value.1.Some? <==> HasActive(m))
    ensures r.Some? && HasActive(m) ==> r.value.1.value == Diff(m.base, r.value.0.settings)
  {
    match SetPath(m.settings, Segments(keyPath), v)
    case None => None
    case Some(s) =>
      SetPathThenAt(m.settings, Segments(keyPath), v);
      var m2 := m.(settings := s);
      Some((m2, if HasActive(m) then Some(Diff(m.base, s)) else None))
  }

  /** `update`: the updates deep-merged onto the settings, written to the active profile. */
  function Update(m: Manager, updates: Dict): (r: (Manager, Option<Dict>))
    ensures r.0.settings.Keys == m.settings.Keys + updates.Keys
    ensures forall k :: k in m.settings && k !in updates ==> r.0.settings[k] == m.settings[k]
    ensures r.0.base == m.base && r.0.active == m.active
    ensures r.1.Some? <==> HasActive(m)
    ensures r.1.Some? ==> r.1.value == Diff(m.base, r.0.settings)
    ensures forall path :: At(JObj(updates), path).Some? && !At(JObj(updates), path).value.JObj? ==>
      At(JObj(r.0.settings), path) == At(JObj(updates), path)
    ensures forall path :: At(JObj(m.settings), path).Some? && Untouched(updates, path) ==>
      At(JObj(r.0.settings), path) == At(JObj(m.settings), path)
  {
    var m2 := m.(settings := DeepMerge(m.settings, updates));
    forall path | At(JObj(updates), path).Some? && !At(JObj(updates), path).value.JObj?
      ensures At(JObj(m2.settings), path) == At(JObj(updates), path)
    {
      OverrideLeavesWin(m.settings, updates, path);
    }
    forall path | At(JObj(m.settings), path).Some? && Untouched(updates, path)
      ensures At(JObj(m2.settings), path) == At(JObj(m.settings), path)
    {
      BaseLeavesKept(m.settings, updates, path);
    }
    (m2, if HasActive(m) then Some(Diff(m.base, m2.settings)) else None)
  }

  /**
   * What `update` writes for the active profile loads back to the updated settings: every
   * leaf of the settings after the update is found again after loading the written file.
   */
  lemma UpdateThenReload(m: Manager, updates: Dict, path: seq<string>)
    ensures var r := Update(m, updates);
      r.1.Some? && At(JObj(r.0.settings), path).Some? && !At(JObj(r.0.settings), path).value.JObj? ==>
        var loaded := LoadProfile(r.0, m.active.value, Some(JObj(r.1.value)));
        loaded.1 && At(JObj(loaded.0.settings), path) == At(JObj(r.0.settings), path)
  {
    var r := Update(m, updates);
    if r.1.Some? && At(JObj(r.0.settings), path).Some? && !At(JObj(r.0.settings), path).value.JObj? {
      MergeDiffLeaves(m.base, r.0.settings, path);
    }
  }

  /** `reset_to_base`: the base settings, and no active profile. */
  function ResetToBase(m: Manager): (r: Manager)
    ensures r.settings == m.base && r.base == m.base && r.active.None?
  {
    Manager(m.base, m.base, None)
  }

  /**
   * `load_profile`: `content` is the profile file, `None` when it is missing or does not
   * parse. Only an object can be merged; anything else is the exception the merge raises,
   * reported as failure.
   */
  function LoadProfile(m: Manager, name: string, content: Option<Json>): (r: (Manager, bool))
    ensures r.1 <==> content.Some? && content.value.JObj?
    ensures !r.1 ==> r.0 == m
    ensures r.1 ==> r.0.active == Some(name) && r.0.base == m.base
    ensures r.1 ==> r.0.settings.Keys == m.base.Keys + content.value.fields.Keys
  {
    match content
    case Some(JObj(p)) => (Manager(m.base, DeepMerge(m.base, p), Some(name)), true)
    case _ => (m, false)
  }

  /** `save_profile`: the file content is the given settings', or the live settings', differences from the base. */
  function SaveProfile(m: Manager, settings: Option<Dict>): (r: Dict)
    ensures settings.None? && m.settings == m.base ==> r == map[]
    ensures r.Keys <= settings.GetOr(m.settings).Keys
  {
    DiffSelf(m.base);
    Diff(m.base, settings.GetOr(m.settings))
  }

  /** A profile saved and loaded again holds the saved settings' values at every leaf. */
  lemma SaveThenLoad(m: Manager, name: string, path: seq<string>)
    requires At(JObj(m.settings), path).Some? && !At(JObj(m.settings), path).value.JObj?
    ensures var loaded := LoadProfile(m, name, Some(JObj(SaveProfile(m, None))));
      loaded.1 && At(JObj(loaded.0.settings), path) == At(JObj(m.settings), path)
  {
    MergeDiffLeaves(m.base, m.settings, path);
  }

  /**
   * `delete_profile`: `found` says whether the file was there and `unlinked` whether
   * removing it worked. Deleting the active profile falls back to the base settings.
   */
  function DeleteProfile(m: Manager, name: string, found: bool, unlinked: bool): (r: (Manager, bool))
    ensures r.1 <==> found && unlinked
    ensures r.1 && m.active == Some(name) ==> r.0 == ResetToBase(m)
    ensures !(r.1 && m.active == Some(name)) ==> r.0 == m
  {
    if !found || !unlinked then (m, false)
    else if m.active == Some(name) then (ResetToBase(m), true)
    else (m, true)
  }

  // ---------------------------------------------------------------------------------------
  // Profile listing, export and import.

  function StemKey(name: string): Key {
    KStr(name)
  }

  /** The stems of the directory entries matching `*.json`, in directory order. */
  function JsonStems(names: seq<string>): (r: seq<string>)
    ensures |r| <= |names|
    ensures forall i :: 0 <= i < |names| && EndsWith(names[i], ".json") ==> Stem(names[i]) in r
    ensures forall s :: s in r ==> exists i :: 0 <= i < |names| && EndsWith(names[i], ".json") && s == Stem(names[i])
  {
    if |names| == 0 then []
    else
      var rest := JsonStems(names[1..]);
      assert forall i :: 1 <= i < |names| ==> names[i] == names[1..][i - 1];
      if EndsWith(names[0], ".json") then [Stem(names[0])] + rest else rest
  }

  /** `list_profiles`: the stems of the profile files, sorted. */
  function ListProfiles(names: seq<string>): (r: seq<string>)
    ensures multiset(r) == multiset(JsonStems(names))
    ensures forall i, j :: 0 <= i < j < |r| ==> !StrLt(r[j], r[i])
  {
    var stems := JsonStems(names);
    SortByIsSorted(stems, StemKey, false);
    SortByPermutes(stems, StemKey, false);
    SortBy(stems, StemKey, false)
  }

  /** The wrapper `export_profile` writes around a profile's content. */
  function ExportData(name: string, version: Json, settings: Json): (r: Json)
    ensures r.JObj? && "settings" in r.fields && "metadata" in r.fields
    ensures r.fields["settings"] == settings
  {
    JObj(map[
      "metadata" := JObj(map["profile_name" := JStr(name), "exported_from" := JStr("Label Editor"), "version" := version]),
      "settings" := settings])
  }

  /**
   * `import_profile`, up to the write: the profile name and the content to save. A file
   * with both "settings" and "metadata" is an export; anything else is the settings
   * themselves. The name is the one given, else the export's `profile_name`, else the
   * file's stem. An export whose settings are `null` saves the live settings, as
   * `save_profile` does when handed `None`. `None` is each way the source ends in an
   * exception: settings that are neither an object nor that `null`, or an export whose
   * metadata is not an object when it is consulted.
   */
  function ImportProfile(base: Dict, live: Dict, data: Json, fileStem: string, given: Option<string>): (r: Option<(Json, Dict)>)
    ensures var wrapped := data.JObj? && "settings" in data.fields && "metadata" in data.fields;
      var settings := if wrapped then data.fields["settings"] else data;
      var saved := settings.JObj? || (wrapped && settings.JNull?);
      && (r.Some? && settings.JObj? ==> r.value.1 == Diff(base, settings.fields))
      && (r.Some? && !settings.JObj? ==> wrapped && settings.JNull? && r.value.1 == Diff(base, live))
      && (r.Some? && given.Some? && given.value != "" ==> r.value.0 == JStr(given.value))
      && (r.Some? && !wrapped ==> (given.Some? && given.value != "") || r.value.0 == JStr(fileStem))
      && (r.Some? && wrapped && !(given.Some? && given.value != "") ==>
            && data.fields["metadata"].JObj?
            && r.value.0 == (if "profile_name" in data.fields["metadata"].fields
                             then data.fields["metadata"].fields["profile_name"] else JStr(fileStem)))
      && (!saved ==> r.None?)
      && (saved && (!wrapped || (given.Some? && given.value != "") || data.fields["metadata"].JObj?) ==> r.Some?)
  {
    var wrapped := data.JObj? && "settings" in data.fields && "metadata" in data.fields;
    var settings := if wrapped then data.fields["settings"] else data;
    var named := given.Some? && given.value != "";
    if wrapped && !named && !data.fields["metadata"].JObj? then None
    else
      var name :=
        if named then JStr(given.value)
        else if wrapped then
          var meta := data.fields["metadata"].fields;
          if "profile_name" in meta then meta["profile_name"] else JStr(fileStem)
        else JStr(fileStem);
      if settings.JObj? then Some((name, Diff(base, settings.fields)))
      else if wrapped && settings.JNull? then Some((name, Diff(base, live)))
      else None
  }

  /** Importing an exported profile without naming it gives back its name and its content's differences. */
  lemma ExportThenImport(base: Dict, live: Dict, name: string, version: Json, settings: Dict, fileStem: string)
    ensures ImportProfile(base, live, ExportData(name, version, JObj(settings)), fileStem, None)
         == Some((JStr(name), Diff(base, settings)))
  {
    var data := ExportData(name, version, JObj(settings));
    assert data.fields["metadata"].JObj?;
    assert "profile_name" in data.fields["metadata"].fields;
  }

  /** An export whose settings are `null` imports as a save of the live settings under the export's name. */
  lemma ImportNullSavesLive(m: Manager, meta: Dict, fileStem: string)
    ensures var data := JObj(map["metadata" := JObj(meta), "settings" := JNull]);
      ImportProfile(m.base, m.settings, data, fileStem, None)
        == Some((if "profile_name" in meta then meta["profile_name"] else JStr(fileStem), SaveProfile(m, None)))
  {
    var data := JObj(map["metadata" := JObj(meta), "settings" := JNull]);
    assert data.fields["settings"] == JNull && data.fields["metadata"] == JObj(meta);
  }
}

=== FILE: sorting.dfy ===
/**
 * Python's `sorted(xs, key=..., reverse=...)`: a stable sort. Keys are the values the
 * annotation core sorts by (class ids, lower-cased names, booleans), compared the way
 * Python compares them.
 */
module Sorting {

  datatype Key = KBool(b: bool) | KInt(i: int) | KStr(s: string)

  /** Python's `<` on strings: lexicographic by code point. */
  predicate StrLt(a: string, b: string)
    decreases |a|
  {
    |b| > 0 && (|a| == 0 || a[0] < b[0] || (a[0] == b[0] && StrLt(a[1..], b[1..])))
  }

  /** The order Python's `<` gives on keys of one kind; kinds are ranked to make it total. */
  predicate KeyLt(a: Key, b: Key) {
    match (a, b)
    case (KBool(x), KBool(y)) => !x && y
    case (KInt(x), KInt(y)) => x < y
    case (KStr(x), KStr(y)) => StrLt(x, y)
    case _ => Rank(a) < Rank(b)
  }

  function Rank(k: Key): nat {
    match k
    case KBool(_) => 0
    case KInt(_) => 1
    case KStr(_) => 2
  }

  lemma {:induction false} StrLtIrreflexive(a: string)
    ensures !StrLt(a, a)
    decreases |a|
  {
    if |a| > 0 {
      StrLtIrreflexive(a[1..]);
    }
  }

  lemma {:induction false} StrLtTransitive(a: string, b: string, c: string)
    requires StrLt(a, b) && StrLt(b, c)
    ensures StrLt(a, c)
    decreases |a|
  {
    if |a| > 0 && a[0] == b[0] && b[0] == c[0] {
      StrLtTransitive(a[1..], b[1..], c[1..]);
    }
  }

  lemma {:induction false} StrLtTotal(a: string, b: string)
    requires a != b
    ensures StrLt(a, b) || StrLt(b, a)
    decreases |a|
  {
    if |a| > 0 && |b| > 0 && a[0] == b[0] {
      assert a == [a[0]] + a[1..] && b == [b[0]] + b[1..];
      StrLtTotal(a[1..], b[1..]);
    }
  }

  lemma KeyLtIrreflexive(a: Key)
    ensures !KeyLt(a, a)
  {
    if a.KStr? {
      StrLtIrreflexive(a.s);
    }
  }

  lemma KeyLtTransitive(a: Key, b: Key, c: Key)
    requires KeyLt(a, b) && KeyLt(b, c)
    ensures KeyLt(a, c)
  {
    if a.KStr? && b.KStr? && c.KStr? {
      StrLtTransitive(a.s, b.s, c.s);
    }
  }

  lemma KeyLtTotal(a: Key, b: Key)
    requires a != b
    ensures KeyLt(a, b) || KeyLt(b, a)
  {
    if a.KStr? && b.KStr? {
      StrLtTotal(a.s, b.s);
    }
  }

  /** Whether key `a` must come strictly before key `b` in the requested direction. */
  predicate Precedes(a: Key, b: Key, desc: bool) {
    if desc then KeyLt(b, a) else KeyLt(a, b)
  }

  ghost predicate SortedBy<T>(s: seq<T>, key: T -> Key, desc: bool) {
    forall i, j :: 0 <= i < j < |s| ==> !Precedes(key(s[j]), key(s[i]), desc)
  }

  /** The elements of `s` whose key is `k`, in their order in `s`. */
  function WithKey<T>(s: seq<T>, key: T -> Key, k: Key): (r: seq<T>)
    ensures |r| <= |s|
  {
    if |s| == 0 then []
    else if key(s[|s| - 1]) == k then WithKey(s[..|s| - 1], key, k) + [s[|s| - 1]]
    else WithKey(s[..|s| - 1], key, k)
  }

  /** Puts `x` in front of the first element whose key it precedes. */
  function Insert<T>(x: T, t: seq<T>, key: T -> Key, desc: bool): (r: seq<T>)
    ensures |r| == |t| + 1
  {
    if |t| == 0 then [x]
    else if Precedes(key(x), key(t[0]), desc) then [x] + t
    else [t[0]] + Insert(x, t[1..], key, desc)
  }

  /** Inserting adds `x` and keeps everything else. */
  lemma {:induction false} InsertPermutes<T>(x: T, t: seq<T>, key: T -> Key, desc: bool)
    ensures multiset(Insert(x, t, key, desc)) == multiset(t) + multiset{x}
    decreases |t|
  {
    if |t| > 0 && !Precedes(key(x), key(t[0]), desc) {
      InsertPermutes(x, t[1..], key, desc);
      assert t == [t[0]] + t[1..];
    }
  }

  /** Python's `sorted(s, key=key, reverse=desc)`. */
  function SortBy<T>(s: seq<T>, key: T -> Key, desc: bool): (r: seq<T>)
    ensures |r| == |s|
  {
    if |s| == 0 then []
    else Insert(s[|s| - 1], SortBy(s[..|s| - 1], key, desc), key, desc)
  }

  /** The result of `sorted` is a permutation of its input. */
  lemma {:induction false} SortByPermutes<T>(s: seq<T>, key: T -> Key, desc: bool)
    ensures multiset(SortBy(s, key, desc)) == multiset(s)
    decreases |s|
  {
    if |s| > 0 {
      SortByPermutes(s[..|s| - 1], key, desc);
      InsertPermutes(s[|s| - 1], SortBy(s[..|s| - 1], key, desc), key, desc);
      assert s == s[..|s| - 1] + [s[|s| - 1]];
    }
  }

  lemma {:induction false} InsertSorted<T>(x: T, t: seq<T>, key: T -> Key, desc: bool)
    requires SortedBy(t, key, desc)
    ensures SortedBy(Insert(x, t, key, desc), key, desc)
    decreases |t|
  {
    if |t| > 0 && !Precedes(key(x), key(t[0]), desc) {
      SortedTail(t, key, desc);
      InsertSorted(x, t[1..], key, desc);
      InsertPermutes(x, t[1..], key, desc);
      InsertAfterHead(x, t, Insert(x, t[1..], key, desc), key, desc);
    } else if |t| > 0 {
      InsertBeforeHead(x, t, key, desc);
    }
  }

  /** Placing `x` after the head keeps the order when `x` does not precede the head. */
  lemma InsertAfterHead<T>(x: T, t: seq<T>, rest: seq<T>, key: T -> Key, desc: bool)
    requires SortedBy(t, key, desc) && |t| > 0 && !Precedes(key(x), key(t[0]), desc)
    requires SortedBy(rest, key, desc) && multiset(rest) == multiset(t[1..]) + multiset{x}
    ensures SortedBy([t[0]] + rest, key, desc)
  {
    var r := [t[0]] + rest;
    forall i, j | 0 <= i < j < |r| ensures !Precedes(key(r[j]), key(r[i]), desc) {
      if i == 0 {
        assert r[j] in multiset(rest);
        assert r[j] == x || r[j] in t[1..];
        if r[j] == x {
          if key(x) != key(t[0]) {
            KeyLtTotal(key(x), key(t[0]));
          }
          KeyLtIrreflexive(key(t[0]));
        } else {
          var m :| 0 <= m < |t[1..]| && t[1..][m] == r[j];
          assert r[j] == t[m + 1];
        }
      } else {
        assert r[i] == rest[i - 1] && r[j] == rest[j - 1];
      }
    }
  }

  /** Placing `x` in front keeps the order when `x` precedes the head. */
  lemma InsertBeforeHead<T>(x: T, t: seq<T>, key: T -> Key, desc: bool)
    requires SortedBy(t, key, desc) && |t| > 0 && Precedes(key(x), key(t[0]), desc)
    ensures SortedBy([x] + t, key, desc)
  {
    var r := [x] + t;
    forall i, j | 0 <= i < j < |r| ensures !Precedes(key(r[j]), key(r[i]), desc) {
      if i == 0 {
        assert r[j] == t[j - 1];
        if j - 1 > 0 {
          assert !Precedes(key(t[j - 1]), key(t[0]), desc);
          if Precedes(key(t[j - 1]), key(x), desc) {
            PrecedesTransitive(key(t[j - 1]), key(x), key(t[0]), desc);
          }
        } else {
          PrecedesAsymmetric(key(x), key(t[0]), desc);
        }
      } else {
        assert r[i] == t[i - 1] && r[j] == t[j - 1];
      }
    }
  }

  lemma PrecedesTransitive(a: Key, b: Key, c: Key, desc: bool)
    requires Precedes(a, b, desc) && Precedes(b, c, desc)
    ensures Precedes(a, c, desc)
  {
    if desc {
      KeyLtTransitive(c, b, a);
    } else {
      KeyLtTransitive(a, b, c);
    }
  }

  lemma PrecedesAsymmetric(a: Key, b: Key, desc: bool)
    requires Precedes(a, b, desc)
    ensures !Precedes(b, a, desc)
  {
    if Precedes(b, a, desc) {
      PrecedesTransitive(a, b, a, desc);
      KeyLtIrreflexive(a);
    }
  }

  /** The result of `sorted` is in order. */
  lemma {:induction false} SortByIsSorted<T>(s: seq<T>, key: T -> Key, desc: bool)
    ensures SortedBy(SortBy(s, key, desc), key, desc)
    decreases |s|
  {
    if |s| > 0 {
      SortByIsSorted(s[..|s| - 1], key, desc);
      InsertSorted(s[|s| - 1], SortBy(s[..|s| - 1], key, desc), key, desc);
    }
  }

  lemma {:induction false} WithKeyAppend<T>(a: seq<T>, b: seq<T>, key: T -> Key, k: Key)
    ensures WithKey(a + b, key, k) == WithKey(a, key, k) + WithKey(b, key, k)
    decreases |b|
  {
    if |b| == 0 {
      assert a + b == a;
    } else {
      assert (a + b)[..|a + b| - 1] == a + b[..|b| - 1];
      WithKeyAppend(a, b[..|b| - 1], key, k);
    }
  }

  lemma {:induction false} WithKeyNone<T>(t: seq<T>, key: T -> Key, k: Key)
    requires forall i :: 0 <= i < |t| ==> key(t[i]) != k
    ensures WithKey(t, key, k) == []
    decreases |t|
  {
    if |t| > 0 {
      WithKeyNone(t[..|t| - 1], key, k);
    }
  }

  lemma WithKeySingle<T>(x: T, key: T -> Key, k: Key)
    ensures WithKey([x], key, k) == if key(x) == k then [x] else []
  {
    assert [x][..0] == [];
  }

  lemma NoKeyAfterPrecedes<T>(k: Key, t: seq<T>, key: T -> Key, desc: bool)
    requires SortedBy(t, key, desc)
    requires |t| > 0 && Precedes(k, key(t[0]), desc)
    ensures forall i :: 0 <= i < |t| ==> key(t[i]) != k
  {
    forall i | 0 <= i < |t| ensures key(t[i]) != k {
      if i == 0 {
        KeyLtIrreflexive(k);
      } else {
        assert !Precedes(key(t[i]), key(t[0]), desc);
      }
    }
  }

  lemma InsertWithKeyFront<T>(x: T, t: seq<T>, key: T -> Key, desc: bool, k: Key)
    requires SortedBy(t, key, desc)
    requires |t| == 0 || Precedes(key(x), key(t[0]), desc)
    ensures WithKey([x] + t, key, k) == WithKey(t, key, k) + WithKey([x], key, k)
  {
    WithKeySingle(x, key, k);
    WithKeyAppend([x], t, key, k);
    if key(x) == k && |t| > 0 {
      NoKeyAfterPrecedes(k, t, key, desc);
      WithKeyNone(t, key, k);
    }
    if |t| == 0 {
      assert [x] + t == [x];
    }
  }

  lemma InsertUnfold<T>(x: T, t: seq<T>, key: T -> Key, desc: bool)
    ensures |t| == 0 || Precedes(key(x), key(t[0]), desc) ==> Insert(x, t, key, desc) == [x] + t
    ensures |t| > 0 && !Precedes(key(x), key(t[0]), desc) ==> Insert(x, t, key, desc) == [t[0]] + Insert(x, t[1..], key, desc)
  {
    if |t| == 0 {
      assert [x] + t == [x];
    }
  }

  lemma {:induction false} InsertWithKey<T>(x: T, t: seq<T>, key: T -> Key, desc: bool, k: Key)
    requires SortedBy(t, key, desc)
    ensures WithKey(Insert(x, t, key, desc), key, k) == WithKey(t, key, k) + WithKey([x], key, k)
    decreases |t|
  {
    if |t| == 0 || Precedes(key(x), key(t[0]), desc) {
      InsertUnfold(x, t, key, desc);
      InsertWithKeyFront(x, t, key, desc, k);
    } else {
      SortedTail(t, key, desc);
      InsertWithKey(x, t[1..], key, desc, k);
      InsertWithKeyStep(x, t, key, desc, k);
    }
  }

  /** Inserting past the head keeps the head in front of the key-`k` elements. */
  lemma InsertWithKeyStep<T>(x: T, t: seq<T>, key: T -> Key, desc: bool, k: Key)
    requires |t| > 0 && !Precedes(key(x), key(t[0]), desc)
    requires WithKey(Insert(x, t[1..], key, desc), key, k) == WithKey(t[1..], key, k) + WithKey([x], key, k)
    ensures WithKey(Insert(x, t, key, desc), key, k) == WithKey(t, key, k) + WithKey([x], key, k)
  {
    var tail := t[1..];
    var rest := Insert(x, tail, key, desc);
    InsertUnfold(x, t, key, desc);
    WithKeyAppend([t[0]], rest, key, k);
    WithKeyAppend([t[0]], tail, key, k);
    assert t == [t[0]] + tail;
  }

  lemma SortedTail<T>(t: seq<T>, key: T -> Key, desc: bool)
    requires SortedBy(t, key, desc) && |t| > 0
    ensures SortedBy(t[1..], key, desc)
  {
    forall i, j | 0 <= i < j < |t| - 1 ensures !Precedes(key(t[1..][j]), key(t[1..][i]), desc) {
      assert t[1..][j] == t[j + 1] && t[1..][i] == t[i + 1];
    }
  }

  /**
   * Stability: for every key, the elements carrying it appear in the result in the
   * order they had in the input (Python guarantees this also with `reverse=True`).
   */
  lemma {:induction false} SortByStable<T>(s: seq<T>, key: T -> Key, desc: bool, k: Key)
    ensures WithKey(SortBy(s, key, desc), key, k) == WithKey(s, key, k)
    decreases |s|
  {
    if |s| > 0 {
      var init, last := s[..|s| - 1], s[|s| - 1];
      var sorted := SortBy(init, key, desc);
      assert WithKey(SortBy(s, key, desc), key, k) == WithKey(sorted, key, k) + WithKey([last], key, k) by {
        SortByLast(s, key, desc);
        SortByIsSorted(init, key, desc);
        InsertWithKey(last, sorted, key, desc, k);
      }
      assert WithKey(sorted, key, k) == WithKey(init, key, k) by {
        SortByStable(init, key, desc, k);
      }
      assert WithKey(s, key, k) == WithKey(init, key, k) + WithKey([last], key, k) by {
        WithKeyAppend(init, [last], key, k);
        assert s == init + [last];
      }
    }
  }

  /** Sorting inserts the last element into the sorted rest. */
  lemma SortByLast<T>(s: seq<T>, key: T -> Key, desc: bool)
    requires |s| > 0
    ensures SortBy(s, key, desc) == Insert(s[|s| - 1], SortBy(s[..|s| - 1], key, desc), key, desc)
  {
  }
}

=== FILE: text.dfy ===
/** The Python string operations the annotation core relies on, over `seq<char>`. */
module Text {
  import opened Common

  /** Python's `str.isspace()`, which is also what regex `\s`, `str.strip()` and `str.split()` use. */
  predicate IsSpace(c: char) {
    || c == ' '
    || ('\t' <= c <= '\r')
    || ('\U{1C}' <= c <= '\U{1F}')
    || c == '\U{85}' || c == '\U{A0}' || c == '\U{1680}'
    || ('\U{2000}' <= c <= '\U{200A}')
    || c == '\U{2028}' || c == '\U{2029}' || c == '\U{202F}' || c == '\U{205F}' || c == '\U{3000}'
  }

  predicate IsAscii(c: char) {
    c < '\U{80}'
  }

  predicate AllAscii(s: string) {
    forall i :: 0 <= i < |s| ==> IsAscii(s[i])
  }

  predicate IsDigit(c: char) {
    '0' <= c <= '9'
  }

  predicate IsUpperAscii(c: char) {
    'A' <= c <= 'Z'
  }

  predicate IsLowerAscii(c: char) {
    'a' <= c <= 'z'
  }

  /** `str.isalnum()` restricted to ASCII. */
  predicate IsAlnumAscii(c: char) {
    IsDigit(c) || IsUpperAscii(c) || IsLowerAscii(c)
  }

  function LowerChar(c: char): char {
    if IsUpperAscii(c) then (c as int + 32) as char else c
  }

  function UpperChar(c: char): char {
    if IsLowerAscii(c) then (c as int - 32) as char else c
  }

  /** `str.lower()` on the ASCII letters; every other character is left as it is. */
  function Lower(s: string): (r: string)
    ensures |r| == |s|
    ensures forall i :: 0 <= i < |s| ==> r[i] == LowerChar(s[i])
  {
    seq(|s|, i requires 0 <= i < |s| => LowerChar(s[i]))
  }

  /** `str.upper()` on the ASCII letters; every other character is left as it is. */
  function Upper(s: string): (r: string)
    ensures |r| == |s|
    ensures forall i :: 0 <= i < |s| ==> r[i] == UpperChar(s[i])
  {
    seq(|s|, i requires 0 <= i < |s| => UpperChar(s[i]))
  }

  predicate StartsWith(s: string, prefix: string) {
    |prefix| <= |s| && s[..|prefix|] == prefix
  }

  predicate EndsWith(s: string, suffix: string) {
    |suffix| <= |s| && s[|s| - |suffix|..] == suffix
  }

  predicate OccursAt(s: string, sub: string, i: int) {
    0 <= i <= |s| - |sub| && s[i..i + |sub|] == sub
  }

  /** Python's `sub in s`. */
  predicate Contains(s: string, sub: string) {
    exists i :: 0 <= i <= |s| - |sub| && OccursAt(s, sub, i)
  }

  /** Python's `str.lstrip()`. */
  function LStrip(s: string): (r: string)
    ensures |r| <= |s| && r == s[|s| - |r|..]
    ensures forall i :: 0 <= i < |s| - |r| ==> IsSpace(s[i])
    ensures |r| > 0 ==> !IsSpace(r[0])
  {
    if |s| > 0 && IsSpace(s[0]) then
      var r := LStrip(s[1..]);
      assert r == s[|s| - |r|..] by {
        assert s[1..][|s| - 1 - |r|..] == s[|s| - |r|..];
      }
      assert forall i :: 1 <= i < |s| - |r| ==> s[1..][i - 1] == s[i];
      r
    else s
  }

  /** Python's `str.rstrip()`. */
  function RStrip(s: string): (r: string)
    ensures |r| <= |s| && r == s[..|r|]
    ensures forall i :: |r| <= i < |s| ==> IsSpace(s[i])
    ensures |r| > 0 ==> !IsSpace(r[|r| - 1])
  {
    if |s| > 0 && IsSpace(s[|s| - 1]) then
      var r := RStrip(s[..|s| - 1]);
      assert r == s[..|r|] by {
        assert s[..|s| - 1][..|r|] == s[..|r|];
      }
      assert forall i :: |r| <= i < |s| - 1 ==> s[..|s| - 1][i] == s[i];
      r
    else s
  }

  /** Python's `str.strip()`: the longest middle part with no whitespace at either end. */
  function Strip(s: string): (r: string)
    ensures |r| <= |s| - StripStart(s) && r == s[StripStart(s)..StripStart(s) + |r|]
    ensures forall i :: 0 <= i < StripStart(s) ==> IsSpace(s[i])
    ensures forall i :: StripStart(s) + |r| <= i < |s| ==> IsSpace(s[i])
    ensures |r| > 0 ==> !IsSpace(r[0]) && !IsSpace(r[|r| - 1])
  {
    var l := LStrip(s);
    var r := RStrip(l);
    assert r == s[|s| - |l|..][..|r|];
    r
  }

  /** How many leading characters `Strip` drops. */
  function StripStart(s: string): (k: nat)
    ensures k <= |s|
  {
    |s| - |LStrip(s)|
  }

  lemma StripNoEdgeSpace(s: string)
    requires |s| > 0 ==> !IsSpace(s[0]) && !IsSpace(s[|s| - 1])
    ensures Strip(s) == s
  {
  }

  predicate NoSpace(s: string) {
    forall i :: 0 <= i < |s| ==> !IsSpace(s[i])
  }

  /** A token of `str.split()`: non-empty and free of whitespace. */
  predicate IsToken(s: string) {
    |s| > 0 && NoSpace(s)
  }

  /** The length of the leading run of characters that are not separators. */
  function RunLen(s: string, sep: char -> bool): (n: nat)
    ensures n <= |s|
    ensures NoSep(s[..n], sep)
    ensures n < |s| ==> sep(s[n])
  {
    if |s| > 0 && !sep(s[0]) then
      var m := RunLen(s[1..], sep);
      assert s[..m + 1] == [s[0]] + s[1..][..m];
      1 + m
    else 0
  }

  /** No character of `s` is a separator. */
  predicate NoSep(s: string, sep: char -> bool) {
    forall i :: 0 <= i < |s| ==> !sep(s[i])
  }

  /** The maximal runs of characters that are not separators, in order. */
  function SplitBy(s: string, sep: char -> bool): (r: seq<string>)
    decreases |s|
  {
    if |s| == 0 then []
    else if sep(s[0]) then SplitBy(s[1..], sep)
    else
      var n := RunLen(s, sep);
      [s[..n]] + SplitBy(s[n..], sep)
  }

  /** Python's `str.split()` with no separator: the maximal runs of non-whitespace. */
  function SplitWs(s: string): seq<string> {
    SplitBy(s, IsSpace)
  }

  /** Python's `sep.join(parts)`. */
  function Join(parts: seq<string>, sep: string): (r: string)
  {
    if |parts| == 0 then ""
    else if |parts| == 1 then parts[0]
    else parts[0] + sep + Join(parts[1..], sep)
  }

  /** Index of the first occurrence of `c`, or `|s|` when there is none. */
  function Find(s: string, c: char): (r: nat)
    ensures r <= |s|
    ensures forall i :: 0 <= i < r ==> s[i] != c
    ensures r < |s| ==> s[r] == c
  {
    if |s| == 0 then 0
    else if s[0] == c then 0
    else 1 + Find(s[1..], c)
  }

  /** Index of the last occurrence of `c` (Python's `rfind`), or `None`. */
  function FindLast(s: string, c: char): (r: Option<nat>)
    ensures r.Some? ==> r.value < |s| && s[r.value] == c
    ensures r.Some? ==> forall i :: r.value < i < |s| ==> s[i] != c
    ensures r.None? ==> forall i :: 0 <= i < |s| ==> s[i] != c
  {
    if |s| == 0 then None
    else if s[|s| - 1] == c then Some(|s| - 1)
    else FindLast(s[..|s| - 1], c)
  }

  /** Python's `s.split(c)` for a one-character separator. */
  function SplitOn(s: string, c: char): (r: seq<string>)
    ensures |r| >= 1
    ensures forall k :: 0 <= k < |r| ==> c !in r[k]
    ensures Join(r, [c]) == s
    decreases |s|
  {
    var i := Find(s, c);
    if i == |s| then
      assert c !in s;
      [s]
    else
      var rest := SplitOn(s[i + 1..], c);
      assert s == s[..i] + [c] + s[i + 1..];
      assert c !in s[..i];
      [s[..i]] + rest
  }

  /** Python's `s.replace(pat, repl)`: left-to-right, non-overlapping. */
  function Replace(s: string, pat: string, repl: string): (r: string)
    requires |pat| > 0
    decreases |s|
  {
    if |s| == 0 then ""
    else if StartsWith(s, pat) then repl + Replace(s[|pat|..], pat, repl)
    else [s[0]] + Replace(s[1..], pat, repl)
  }

  /** The character-by-character meaning of replacing one character by another. */
  function SwapChar(c: char, pat: char, repl: char): char {
    if c == pat then repl else c
  }

  lemma {:induction false} ReplaceOneChar(s: string, pat: char, repl: char)
    ensures Replace(s, [pat], [repl]) == seq(|s|, i requires 0 <= i < |s| => SwapChar(s[i], pat, repl))
    decreases |s|
  {
    if |s| > 0 {
      ReplaceOneChar(s[1..], pat, repl);
    }
  }

  lemma {:induction false} ReplaceAbsent(s: string, pat: string, repl: string)
    requires |pat| > 0
    requires !Contains(s, pat)
    ensures Replace(s, pat, repl) == s
    decreases |s|
  {
    if |s| > 0 {
      if StartsWith(s, pat) {
        assert OccursAt(s, pat, 0);
        assert false;
      }
      assert !Contains(s[1..], pat) by {
        if Contains(s[1..], pat) {
          var i :| 0 <= i <= |s[1..]| - |pat| && OccursAt(s[1..], pat, i);
          assert s[1..][i..i + |pat|] == s[i + 1..i + 1 + |pat|];
          assert OccursAt(s, pat, i + 1);
        }
      }
      ReplaceAbsent(s[1..], pat, repl);
    }
  }

  predicate NoUpper(s: string) {
    forall i :: 0 <= i < |s| ==> !IsUpperAscii(s[i])
  }

  predicate AllUpper(s: string) {
    forall i :: 0 <= i < |s| ==> IsUpperAscii(s[i])
  }

  /** A pattern does not start where some character of it differs, or runs past the end. */
  lemma NoStartAt(s: string, pat: string, i: int)
    requires 0 <= i < |pat| && (i >= |s| || s[i] != pat[i])
    ensures !StartsWith(s, pat)
  {
    assert |pat| <= |s| ==> s[..|pat|][i] == s[i];
  }

  /** Where the pattern does not start, the first character is kept. */
  lemma ReplaceKeepsHead(s: string, pat: string, repl: string)
    requires |pat| > 0 && |s| > 0 && !StartsWith(s, pat)
    ensures Replace(s, pat, repl) == [s[0]] + Replace(s[1..], pat, repl)
  {
  }

  /** An upper-case pattern never starts inside text without upper-case letters. */
  lemma {:induction false} ReplaceSkip(a: string, t: string, pat: string, repl: string)
    requires |pat| > 0 && AllUpper(pat) && NoUpper(a)
    ensures Replace(a + t, pat, repl) == a + Replace(t, pat, repl)
    decreases |a|
  {
    if |a| == 0 {
      assert a + t == t;
    } else {
      var s := a + t;
      NoStartAt(s, pat, 0);
      ReplaceKeepsHead(s, pat, repl);
      assert s[1..] == a[1..] + t;
      ReplaceSkip(a[1..], t, pat, repl);
      assert a + Replace(t, pat, repl) == [a[0]] + (a[1..] + Replace(t, pat, repl));
    }
  }

  /** Nothing shorter than an upper-case pattern, followed by text without upper-case letters, holds it. */
  lemma {:induction false} ReplaceShortHead(y: string, b: string, pat: string, repl: string)
    requires |y| < |pat| && AllUpper(pat) && NoUpper(b)
    ensures Replace(y + b, pat, repl) == y + b
    decreases |y|
  {
    if |y| == 0 {
      assert y + b == b;
      ReplaceSkip(b, "", pat, repl);
      assert b + "" == b;
    } else {
      var s := y + b;
      NoStartAt(s, pat, |y|);
      ReplaceKeepsHead(s, pat, repl);
      assert s[1..] == y[1..] + b;
      ReplaceShortHead(y[1..], b, pat, repl);
      assert s == [y[0]] + (y[1..] + b);
    }
  }

  /**
   * A word between two stretches of text without upper-case letters: an upper-case pattern
   * of the word's length is replaced there when it is the word, and nowhere else.
   */
  lemma ReplaceWord(a: string, x: string, b: string, pat: string, repl: string)
    requires |x| == |pat| > 0 && AllUpper(pat) && NoUpper(a) && NoUpper(b)
    ensures Replace(a + x + b, pat, repl) == a + (if x == pat then repl else x) + b
  {
    assert a + x + b == a + (x + b);
    ReplaceSkip(a, x + b, pat, repl);
    var s := x + b;
    assert s[..|pat|] == x;
    if x == pat {
      assert s[|pat|..] == b;
      ReplaceShortHead("", b, pat, repl);
      assert "" + b == b;
    } else {
      assert s[1..] == x[1..] + b;
      ReplaceShortHead(x[1..], b, pat, repl);
      assert x == [x[0]] + x[1..];
    }
  }

  lemma {:induction false} ReplaceCharAppend(a: string, b: string, pat: char, repl: string)
    ensures Replace(a + b, [pat], repl) == Replace(a, [pat], repl) + Replace(b, [pat], repl)
    decreases |a|
  {
    if |a| > 0 {
      assert (a + b)[1..] == a[1..] + b;
      ReplaceCharAppend(a[1..], b, pat, repl);
    } else {
      assert a + b == b;
    }
  }

  /** Digits of a natural number in base ten, most significant first. */
  function NatToString(n: nat): (r: string)
    ensures |r| > 0
    ensures forall i :: 0 <= i < |r| ==> IsDigit(r[i])
    decreases n
  {
    if n < 10 then [('0' as int + n) as char]
    else NatToString(n / 10) + [('0' as int + n % 10) as char]
  }

  /** Python's `str(i)` for an integer. */
  function IntToString(i: int): (r: string)
    ensures |r| > 0
    ensures i >= 0 ==> forall k :: 0 <= k < |r| ==> IsDigit(r[k])
    ensures i < 0 ==> r[0] == '-' && forall k :: 1 <= k < |r| ==> IsDigit(r[k])
  {
    if i < 0 then "-" + NatToString(-i) else NatToString(i)
  }

  /** Keep the characters satisfying `p`, in order: `''.join(c for c in s if p(c))`. */
  function Filter(s: string, p: char -> bool): (r: string)
    ensures |r| <= |s|
    ensures forall i :: 0 <= i < |r| ==> p(r[i])
    ensures forall c :: c in r ==> c in s
    decreases |s|
  {
    if |s| == 0 then ""
    else if p(s[0]) then [s[0]] + Filter(s[1..], p)
    else Filter(s[1..], p)
  }

  lemma {:induction false} FilterAll(s: string, p: char -> bool)
    requires forall i :: 0 <= i < |s| ==> p(s[i])
    ensures Filter(s, p) == s
    decreases |s|
  {
    if |s| > 0 {
      FilterAll(s[1..], p);
    }
  }

  lemma {:induction false} FilterNone(s: string, p: char -> bool)
    requires forall i :: 0 <= i < |s| ==> !p(s[i])
    ensures Filter(s, p) == ""
    decreases |s|
  {
    if |s| > 0 {
      FilterNone(s[1..], p);
    }
  }

  /** Dropping a prefix and a suffix that `p` rejects throughout leaves the filter unchanged. */
  lemma FilterMiddle(s: string, i: nat, j: nat, p: char -> bool)
    requires i <= j <= |s|
    requires forall k :: 0 <= k < i ==> !p(s[k])
    requires forall k :: j <= k < |s| ==> !p(s[k])
    ensures Filter(s[i..j], p) == Filter(s, p)
  {
    var t := s[i..];
    assert t[..j - i] == s[i..j];
    assert forall k :: j - i <= k < |t| ==> t[k] == s[i + k];
    FilterDropBack(t, j - i, p);
    FilterDropFront(s, i, p);
  }

  lemma {:induction false} FilterDropFront(s: string, i: nat, p: char -> bool)
    requires i <= |s|
    requires forall k :: 0 <= k < i ==> !p(s[k])
    ensures Filter(s[i..], p) == Filter(s, p)
    decreases i
  {
    if i > 0 {
      assert s[1..][i - 1..] == s[i..];
      FilterDropFront(s[1..], i - 1, p);
    }
  }

  lemma FilterDropBack(s: string, j: nat, p: char -> bool)
    requires j <= |s|
    requires forall k :: j <= k < |s| ==> !p(s[k])
    ensures Filter(s[..j], p) == Filter(s, p)
  {
    var back := s[j..];
    assert s == s[..j] + back;
    assert forall k :: 0 <= k < |back| ==> back[k] == s[j + k];
    FilterAppend(s[..j], back, p);
    FilterNone(back, p);
  }

  lemma {:induction false} FilterAppend(a: string, b: string, p: char -> bool)
    ensures Filter(a + b, p) == Filter(a, p) + Filter(b, p)
    decreases |a|
  {
    if |a| > 0 {
      assert (a + b)[1..] == a[1..] + b;
      FilterAppend(a[1..], b, p);
    } else {
      assert a + b == b;
    }
  }

  lemma {:induction false} FindAppend(a: string, b: string, c: char)
    requires c !in a
    ensures Find(a + b, c) == |a| + Find(b, c)
    decreases |a|
  {
    if |a| > 0 {
      assert (a + b)[1..] == a[1..] + b;
      FindAppend(a[1..], b, c);
    } else {
      assert a + b == b;
    }
  }

  /** Trailing whitespace is only removed from the part after a non-space character. */
  lemma {:induction false} RStripAppend(a: string, b: string)
    requires |a| > 0 && !IsSpace(a[|a| - 1])
    ensures RStrip(a + b) == a + RStrip(b)
    decreases |b|
  {
    if |b| == 0 {
      assert a + b == a;
    } else {
      assert (a + b)[..|a + b| - 1] == a + b[..|b| - 1];
      RStripAppend(a, b[..|b| - 1]);
    }
  }

  /** Trailing whitespace stays within a tail that has a non-space character. */
  lemma {:induction false} RStripKeepsHead(a: string, b: string)
    requires |RStrip(b)| > 0
    ensures RStrip(a + b) == a + RStrip(b)
    decreases |b|
  {
    assert (a + b)[..|a + b| - 1] == a + b[..|b| - 1];
    if IsSpace(b[|b| - 1]) {
      RStripKeepsHead(a, b[..|b| - 1]);
    }
  }

  /** Stripping text that begins with a non-space character only trims its end. */
  lemma StripFromNonSpace(s: string)
    requires |s| > 0 && !IsSpace(s[0])
    ensures Strip(s) == RStrip(s)
  {
    assert LStrip(s) == s;
  }

  /** Every part of a split is non-empty and holds no separator. */
  lemma {:induction false} SplitByParts(s: string, sep: char -> bool)
    ensures forall k :: 0 <= k < |SplitBy(s, sep)| ==>
      |SplitBy(s, sep)[k]| > 0 && forall i :: 0 <= i < |SplitBy(s, sep)[k]| ==> !sep(SplitBy(s, sep)[k][i])
    decreases |s|
  {
    if |s| > 0 {
      if sep(s[0]) {
        SplitByParts(s[1..], sep);
      } else {
        var n := RunLen(s, sep);
        SplitByParts(s[n..], sep);
        SplitByToken(s, sep, n);
      }
    }
  }

  lemma {:induction false} RunLenAppend(t: string, rest: string, sep: char -> bool)
    requires forall i :: 0 <= i < |t| ==> !sep(t[i])
    ensures RunLen(t + rest, sep) == |t| + RunLen(rest, sep)
    decreases |t|
  {
    if |t| > 0 {
      assert (t + rest)[1..] == t[1..] + rest;
      RunLenAppend(t[1..], rest, sep);
    } else {
      assert t + rest == rest;
    }
  }

  /** A split of text that starts with a part: that part, then the split of the rest. */
  lemma SplitByToken(s: string, sep: char -> bool, n: nat)
    requires |s| > 0 && !sep(s[0]) && n == RunLen(s, sep)
    ensures SplitBy(s, sep) == [s[..n]] + SplitBy(s[n..], sep)
  {
  }

  /** A leading separator adds no part. */
  lemma SplitBySkip(c: char, t: string, sep: char -> bool)
    requires sep(c)
    ensures SplitBy([c] + t, sep) == SplitBy(t, sep)
  {
    assert ([c] + t)[1..] == t;
  }

  /** Separators alone hold no part. */
  lemma {:induction false} SplitByOfSeps(s: string, sep: char -> bool)
    requires forall i :: 0 <= i < |s| ==> sep(s[i])
    ensures SplitBy(s, sep) == []
    decreases |s|
  {
    if |s| > 0 {
      SplitByOfSeps(s[1..], sep);
    }
  }

  /** Text free of separators is one part. */
  lemma SplitBySingle(t: string, sep: char -> bool)
    requires |t| > 0 && forall i :: 0 <= i < |t| ==> !sep(t[i])
    ensures SplitBy(t, sep) == [t]
  {
    RunLenAppend(t, "", sep);
    assert t + "" == t;
    SplitByToken(t, sep, |t|);
    assert t[..|t|] == t;
    assert t[|t|..] == "";
  }

  /** No part of a split runs across the seam between `a` and `b`. */
  predicate Seam(a: string, b: string, sep: char -> bool) {
    |a| == 0 || |b| == 0 || sep(a[|a| - 1]) || sep(b[0])
  }

  /** Text joined at a separator splits into the parts of each side, in order. */
  lemma {:induction false} SplitByAppend(a: string, b: string, sep: char -> bool)
    requires Seam(a, b, sep)
    ensures SplitBy(a + b, sep) == SplitBy(a, sep) + SplitBy(b, sep)
    decreases |a|
  {
    if |a| == 0 {
      assert a + b == b;
    } else if sep(a[0]) {
      SeamSuffix(a, b, sep, 1);
      SplitByAppend(a[1..], b, sep);
      SplitBySepStep(a, b, sep);
    } else {
      var n := RunLen(a, sep);
      SeamSuffix(a, b, sep, n);
      SplitByAppend(a[n..], b, sep);
      SplitByTokenStep(a, b, sep, n);
    }
  }

  lemma SeamSuffix(a: string, b: string, sep: char -> bool, k: nat)
    requires k <= |a| && Seam(a, b, sep)
    ensures Seam(a[k..], b, sep)
  {
    if k < |a| {
      assert a[k..][|a[k..]| - 1] == a[|a| - 1];
    }
  }

  /** The step of `SplitByAppend` for text that starts with a separator. */
  lemma SplitBySepStep(a: string, b: string, sep: char -> bool)
    requires |a| > 0 && sep(a[0])
    requires SplitBy(a[1..] + b, sep) == SplitBy(a[1..], sep) + SplitBy(b, sep)
    ensures SplitBy(a + b, sep) == SplitBy(a, sep) + SplitBy(b, sep)
  {
    assert (a + b)[1..] == a[1..] + b;
  }

  /** The step of `SplitByAppend` for text that starts with a part. */
  lemma SplitByTokenStep(a: string, b: string, sep: char -> bool, n: nat)
    requires |a| > 0 && !sep(a[0]) && n == RunLen(a, sep) && Seam(a, b, sep)
    requires SplitBy(a[n..] + b, sep) == SplitBy(a[n..], sep) + SplitBy(b, sep)
    ensures SplitBy(a + b, sep) == SplitBy(a, sep) + SplitBy(b, sep)
  {
    SplitByTokenJoin(a, b, sep, n);
    SplitByToken(a, sep, n);
    AppendAssoc([a[..n]], SplitBy(a[n..], sep), SplitBy(b, sep));
  }

  lemma AppendAssoc<T>(x: seq<T>, y: seq<T>, z: seq<T>)
    ensures x + (y + z) == (x + y) + z
  {
  }

  /** A part that ends at the seam ends there in the joined text too. */
  lemma SplitByTokenJoin(a: string, b: string, sep: char -> bool, n: nat)
    requires |a| > 0 && !sep(a[0]) && n == RunLen(a, sep) && Seam(a, b, sep)
    ensures SplitBy(a + b, sep) == [a[..n]] + SplitBy(a[n..] + b, sep)
  {
    RunLenAtSeam(a, b, sep);
    assert (a + b)[0] == a[0];
    assert (a + b)[..n] == a[..n];
    assert (a + b)[n..] == a[n..] + b;
    SplitByToken(a + b, sep, n);
  }

  lemma {:induction false} RunLenAtSeam(a: string, b: string, sep: char -> bool)
    requires |a| > 0 && Seam(a, b, sep)
    ensures RunLen(a + b, sep) == RunLen(a, sep)
    decreases |a|
  {
    assert (a + b)[0] == a[0];
    assert (a + b)[1..] == a[1..] + b;
    if !sep(a[0]) {
      if |a| == 1 {
        assert a[1..] + b == b;
        assert a[1..] == "";
      } else {
        assert a[1..][|a[1..]| - 1] == a[|a| - 1];
        RunLenAtSeam(a[1..], b, sep);
      }
    }
  }

  /**
   * A split of text with one more character in front: a separator adds nothing, any other
   * character joins the first part when that part starts right after it, else stands alone.
   */
  lemma SplitByCons(c: char, t: string, sep: char -> bool)
    requires !sep(c)
    ensures SplitBy([c] + t, sep) ==
      if |t| > 0 && !sep(t[0]) then [[c] + SplitBy(t, sep)[0]] + SplitBy(t, sep)[1..]
      else [[c]] + SplitBy(t, sep)
  {
    if |t| > 0 && !sep(t[0]) {
      SplitByConsJoin(c, t, sep);
    } else {
      SplitBySingle([c], sep);
      SplitByAppend([c], t, sep);
    }
  }

  /** A character in front of a part joins it. */
  lemma SplitByConsJoin(c: char, t: string, sep: char -> bool)
    requires !sep(c) && |t| > 0 && !sep(t[0])
    ensures SplitBy([c] + t, sep) == [[c] + SplitBy(t, sep)[0]] + SplitBy(t, sep)[1..]
  {
    var m := RunLen(t, sep);
    var s := [c] + t;
    assert s[1..] == t;
    assert RunLen(s, sep) == 1 + m;
    assert s[..1 + m] == [c] + t[..m];
    assert s[1 + m..] == t[m..];
    SplitByToken(s, sep, 1 + m);
    SplitByToken(t, sep, m);
  }

  /** `str.split()` of a token followed by a space and more text. */
  lemma SplitWsCons(t: string, rest: string)
    requires IsToken(t)
    ensures SplitWs(t + " " + rest) == [t] + SplitWs(rest)
  {
    assert t + " " + rest == t + (" " + rest);
    SplitByAppend(t, " " + rest, IsSpace);
    SplitBySingle(t, IsSpace);
    SplitBySkip(' ', rest, IsSpace);
    assert " " + rest == [' '] + rest;
  }

  lemma SplitWsSingle(t: string)
    requires IsToken(t)
    ensures SplitWs(t) == [t]
  {
    SplitBySingle(t, IsSpace);
  }

  /** Trimming removes no token. */
  lemma StripKeepsTokens(s: string)
    ensures SplitWs(Strip(s)) == SplitWs(s)
  {
    var k, r := StripStart(s), Strip(s);
    assert r == s[k..k + |r|];
    SplitByTrim(s, k, k + |r|, IsSpace);
  }

  /** Cutting separators off both ends removes no part. */
  lemma SplitByTrim(s: string, k: nat, e: nat, sep: char -> bool)
    requires k <= e <= |s|
    requires forall i :: 0 <= i < k ==> sep(s[i])
    requires forall i :: e <= i < |s| ==> sep(s[i])
    ensures SplitBy(s[k..e], sep) == SplitBy(s, sep)
  {
    SplitByDropBack(s, e, sep);
    assert s[k..e] == s[..e][k..];
    SplitByDropFront(s[..e], k, sep);
  }

  /** Leading separators add no part. */
  lemma {:induction false} SplitByDropFront(s: string, k: nat, sep: char -> bool)
    requires k <= |s|
    requires forall i :: 0 <= i < k ==> sep(s[i])
    ensures SplitBy(s[k..], sep) == SplitBy(s, sep)
    decreases k
  {
    if k > 0 {
      assert s[1..][k - 1..] == s[k..];
      SplitByDropFront(s[1..], k - 1, sep);
    }
  }

  /** Trailing separators add no part. */
  lemma SplitByDropBack(s: string, e: nat, sep: char -> bool)
    requires e <= |s|
    requires forall i :: e <= i < |s| ==> sep(s[i])
    ensures SplitBy(s[..e], sep) == SplitBy(s, sep)
  {
    assert s == s[..e] + s[e..];
    SplitByOfSeps(s[e..], sep);
    SplitByAppend(s[..e], s[e..], sep);
  }
}

=== FILE: validation.dfy ===
/**
 * `ValidationEngine`: whether a label file has its required classes and well-formed OCR
 * text, the status shown for each image and the summary counts.
 */
module Validation {
  import opened Common
  import opened Text
  import opened Boxes
  import opened Classes
  import opened Regex
  import opened DatCodec
  import opened Paths

  // ---------------------------------------------------------------------------------------
  // OCR text against the class pattern.

  /**
   * `validate_ocr_text`: empty text, an unknown class and a class without a pattern all
   * pass; otherwise the pattern must match at the start of the text, and a pattern that
   * does not compile fails.
   */
  function ValidateOcrText(classes: seq<ClassDef>, e: Engine, text: string, id: int): (r: bool)
    ensures text == "" ==> r
    ensures FindClass(classes, id).None? ==> r
    ensures FindClass(classes, id).Some? && FindClass(classes, id).value.regexPattern.None? ==> r
    ensures text != "" && FindClass(classes, id).Some? && FindClass(classes, id).value.regexPattern.Some? ==>
      (r <==> Match(e, FindClass(classes, id).value.regexPattern.value, text) == Some(true))
  {
    if text == "" then true
    else
      match FindClass(classes, id)
      case None => true
      case Some(c) =>
        match c.regexPattern
        case None => true
        case Some(p) => Match(e, p, text) == Some(true)
  }

  /** A pattern that does not compile rejects every non-empty text: the check fails closed. */
  lemma InvalidPatternFailsClosed(classes: seq<ClassDef>, e: Engine, text: string, id: int)
    requires text != "" && FindClass(classes, id).Some?
    requires FindClass(classes, id).value.regexPattern.Some?
    requires !e.compiles(FindClass(classes, id).value.regexPattern.value)
    ensures !ValidateOcrText(classes, e, text, id)
  {
  }

  /** What `get_validation_status` reports about one text. */
  datatype TextStatus =
    | UnknownClass(id: int)
    | NoPattern
    | EmptyText
    | Checked(valid: bool, pattern: string)
    | BadPattern(pattern: string)
  {
    /** The `'valid'` entry of the reported dictionary. */
    predicate Valid() {
      match this
      case UnknownClass(_) => false
      case NoPattern => true
      case EmptyText => true
      case Checked(v, _) => v
      case BadPattern(_) => false
    }

    /** The `'message'` entry, where there is one. */
    function Message(): Option<string> {
      match this
      case NoPattern => Some("No validation pattern defined")
      case EmptyText => Some("Empty text")
      case Checked(v, _) => Some(if v then "\U{2713} Valid format" else "\U{2717} Invalid format")
      case _ => None
    }
  }

  /**
   * `get_validation_status`: the class is looked up first, then its pattern, and only then
   * is empty text accepted.
   */
  function GetValidationStatus(classes: seq<ClassDef>, e: Engine, text: string, id: int): (r: TextStatus)
    ensures FindClass(classes, id).None? <==> r == UnknownClass(id)
    ensures r.BadPattern? ==> !e.compiles(r.pattern)
    ensures r.Checked? ==> e.compiles(r.pattern) && (r.valid <==> e.matchStart(r.pattern, text))
  {
    match FindClass(classes, id)
    case None => UnknownClass(id)
    case Some(c) =>
      match c.regexPattern
      case None => NoPattern
      case Some(p) =>
        if text == "" then EmptyText
        else
          match Match(e, p, text)
          case None => BadPattern(p)
          case Some(v) => Checked(v, p)
  }

  /**
   * For a known class the detailed status and the plain check agree. For an unknown class
   * they do not: the status reports invalid even for empty text, which the check accepts.
   */
  lemma StatusAgreesWithCheck(classes: seq<ClassDef>, e: Engine, text: string, id: int)
    ensures FindClass(classes, id).Some? ==>
      GetValidationStatus(classes, e, text, id).Valid() == ValidateOcrText(classes, e, text, id)
    ensures FindClass(classes, id).None? ==>
      !GetValidationStatus(classes, e, text, id).Valid() && ValidateOcrText(classes, e, text, id)
  {
  }

  // ---------------------------------------------------------------------------------------
  // One label file.

  /**
   * One validation dictionary. `error` is the `'error'` entry, "" when there is none (an
   * empty message is as false as a missing one).
   */
  datatype FileCheck = FileCheck(
    valid: bool, noDat: bool, missingClasses: bool, regexErrors: bool, boxCount: nat, error: string)

  /** `_check_missing_classes`: some class marked required has no box. */
  function MissingClasses(classes: seq<ClassDef>, boxes: seq<Box>): (r: bool)
    ensures r <==> exists j :: 0 <= j < |classes| && classes[j].required && classes[j].id !in UsedIds(boxes)
    ensures (forall j :: 0 <= j < |classes| ==> !classes[j].required) ==> !r
  {
    exists j :: 0 <= j < |classes| && classes[j].required && classes[j].id !in UsedIds(boxes)
  }

  /** `_check_regex_errors`: some box's text fails its class pattern. */
  function RegexErrors(classes: seq<ClassDef>, e: Engine, boxes: seq<Box>): (r: bool)
    ensures r <==> exists k :: 0 <= k < |boxes| && !ValidateOcrText(classes, e, boxes[k].ocrText, boxes[k].classId)
  {
    if |boxes| == 0 then false
    else
      !ValidateOcrText(classes, e, boxes[0].ocrText, boxes[0].classId)
      || (assert forall k :: 1 <= k < |boxes| ==> boxes[k] == boxes[1..][k - 1];
          RegexErrors(classes, e, boxes[1..]))
  }

  /** `validate_dat_file` on the file's text. */
  function ValidateDatFile(classes: seq<ClassDef>, e: Engine, content: string): (r: FileCheck)
    ensures r.valid <==> |ParseDat(content)| > 0 && !r.missingClasses && !r.regexErrors
    ensures r.boxCount == |ParseDat(content)| && !r.noDat && r.error == ""
    ensures r.missingClasses == MissingClasses(classes, ParseDat(content))
    ensures r.regexErrors == RegexErrors(classes, e, ParseDat(content))
  {
    var boxes := ParseDat(content);
    var missing := MissingClasses(classes, boxes);
    var bad := RegexErrors(classes, e, boxes);
    FileCheck(|boxes| > 0 && !missing && !bad, false, missing, bad, |boxes|, "")
  }

  /** An empty or unreadable label file is never valid. */
  lemma EmptyDatInvalid(classes: seq<ClassDef>, e: Engine, content: string)
    requires ParseDat(content) == []
    ensures !ValidateDatFile(classes, e, content).valid
  {
  }

  /** The entry of an image without a label file. */
  const NoDatCheck := FileCheck(false, true, false, false, 0, "")

  /** An image as the directory scan sees it: its path, whether it is a file, and its label file's text if that exists. */
  datatype ImageFile = ImageFile(path: string, isFile: bool, dat: Option<string>)

  /**
   * The validation cache, a dict keyed by image path in the program. As a sequence it may
   * in principle repeat a path; a directory listing names each file once, so the caches
   * built here hold distinct paths, and `Lookup` reads the last entry as the dict would.
   */
  type Cache = seq<(string, FileCheck)>

  predicate HasImageSuffix(path: string, extensions: set<string>) {
    Lower(Suffix(Name(path))) in extensions
  }

  /** The entry for one image: from its label file, or marked as having none. */
  function CheckImage(classes: seq<ClassDef>, e: Engine, f: ImageFile): (r: FileCheck)
    ensures f.dat.None? ==> r == NoDatCheck
    ensures f.dat.Some? ==> r == ValidateDatFile(classes, e, f.dat.value)
  {
    match f.dat
    case Some(content) => ValidateDatFile(classes, e, content)
    case None => NoDatCheck
  }

  function PathsOf(files: seq<ImageFile>): (r: seq<string>)
    ensures |r| == |files| && forall j :: 0 <= j < |files| ==> r[j] == files[j].path
  {
    seq(|files|, j requires 0 <= j < |files| => files[j].path)
  }

  /** `entry` is the one `validate_all_files` makes for some regular image file of `files`. */
  predicate EnteredFrom(classes: seq<ClassDef>, e: Engine, files: seq<ImageFile>, extensions: set<string>, entry: (string, FileCheck)) {
    exists f :: f in files && f.isFile && HasImageSuffix(f.path, extensions) && entry == (f.path, CheckImage(classes, e, f))
  }

  /**
   * `validate_all_files`: entries only for regular files with an image extension, each
   * holding that file's own check.
   */
  function ValidateAllFiles(classes: seq<ClassDef>, e: Engine, files: seq<ImageFile>, extensions: set<string>): (r: Cache)
    ensures |r| <= |files|
  {
    if |files| == 0 then []
    else
      var f := files[0];
      var rest := ValidateAllFiles(classes, e, files[1..], extensions);
      if f.isFile && HasImageSuffix(f.path, extensions) then [(f.path, CheckImage(classes, e, f))] + rest
      else rest
  }

  /** Every entry is the check of one of the listed regular image files, under its path. */
  lemma {:induction false} EntriesFromImages(classes: seq<ClassDef>, e: Engine, files: seq<ImageFile>, extensions: set<string>)
    ensures forall x :: x in ValidateAllFiles(classes, e, files, extensions) ==> EnteredFrom(classes, e, files, extensions, x)
    decreases |files|
  {
    if |files| > 0 {
      EntriesFromImages(classes, e, files[1..], extensions);
      var rest := ValidateAllFiles(classes, e, files[1..], extensions);
      forall x | x in ValidateAllFiles(classes, e, files, extensions) ensures EnteredFrom(classes, e, files, extensions, x) {
        if x in rest {
          var f :| f in files[1..] && f.isFile && HasImageSuffix(f.path, extensions) && x == (f.path, CheckImage(classes, e, f));
          assert f in files;
        } else {
          assert files[0] in files;
        }
      }
    }
  }

  lemma ValidateAllFilesCons(classes: seq<ClassDef>, e: Engine, files: seq<ImageFile>, extensions: set<string>)
    requires |files| > 0 && files[0].isFile && HasImageSuffix(files[0].path, extensions)
    ensures ValidateAllFiles(classes, e, files, extensions)
      == [(files[0].path, CheckImage(classes, e, files[0]))] + ValidateAllFiles(classes, e, files[1..], extensions)
  {
  }

  /** One entry per file, each holding that file's own check, in order. */
  function CheckedEntries(classes: seq<ClassDef>, e: Engine, files: seq<ImageFile>): (r: Cache)
    ensures |r| == |files|
  {
    if |files| == 0 then []
    else [(files[0].path, CheckImage(classes, e, files[0]))] + CheckedEntries(classes, e, files[1..])
  }

  lemma {:induction false} CheckedEntriesAt(classes: seq<ClassDef>, e: Engine, files: seq<ImageFile>, k: nat)
    requires k < |files|
    ensures CheckedEntries(classes, e, files)[k] == (files[k].path, CheckImage(classes, e, files[k]))
    decreases k
  {
    if k > 0 {
      CheckedEntriesAt(classes, e, files[1..], k - 1);
    }
  }

  /** When every file is a regular image file, each gets its own entry, in order. */
  lemma {:induction false} AllImagesEntered(classes: seq<ClassDef>, e: Engine, files: seq<ImageFile>, extensions: set<string>)
    requires forall j :: 0 <= j < |files| ==> files[j].isFile && HasImageSuffix(files[j].path, extensions)
    ensures ValidateAllFiles(classes, e, files, extensions) == CheckedEntries(classes, e, files)
    ensures forall k :: 0 <= k < |files| ==>
      ValidateAllFiles(classes, e, files, extensions)[k] == (files[k].path, CheckImage(classes, e, files[k]))
  {
    if |files| > 0 {
      var tail := files[1..];
      assert forall j :: 0 <= j < |tail| ==> tail[j] == files[j + 1];
      AllImagesEntered(classes, e, tail, extensions);
      ValidateAllFilesCons(classes, e, files, extensions);
    }
    forall k | 0 <= k < |files| {
      CheckedEntriesAt(classes, e, files, k);
    }
  }

  /** Directories and other non-files get no entry. */
  lemma {:induction false} NonFilesSkipped(classes: seq<ClassDef>, e: Engine, files: seq<ImageFile>, extensions: set<string>)
    requires forall j :: 0 <= j < |files| ==> !files[j].isFile
    ensures ValidateAllFiles(classes, e, files, extensions) == []
  {
    if |files| > 0 {
      NonFilesSkipped(classes, e, files[1..], extensions);
    }
  }

  /** Every entry made for an image without a label file says so and nothing else. */
  lemma NoDatEntries(classes: seq<ClassDef>, e: Engine, files: seq<ImageFile>, extensions: set<string>)
    requires forall j :: 0 <= j < |files| ==> files[j].dat.None?
    ensures forall k :: 0 <= k < |ValidateAllFiles(classes, e, files, extensions)| ==>
      ValidateAllFiles(classes, e, files, extensions)[k].1 == NoDatCheck
  {
    var r := ValidateAllFiles(classes, e, files, extensions);
    EntriesFromImages(classes, e, files, extensions);
    forall k | 0 <= k < |r| ensures r[k].1 == NoDatCheck {
      assert r[k] in r;
    }
  }

  /** `validation_cache.get(path)`: like a dict, the last entry written for the path. */
  function Lookup(cache: Cache, path: string): (r: Option<FileCheck>)
    ensures r.None? <==> forall k :: 0 <= k < |cache| ==> cache[k].0 != path
    ensures r.Some? ==> exists k :: 0 <= k < |cache| && cache[k] == (path, r.value)
  {
    if |cache| == 0 then None
    else if cache[|cache| - 1].0 == path then Some(cache[|cache| - 1].1)
    else Lookup(cache[..|cache| - 1], path)
  }

  // ---------------------------------------------------------------------------------------
  // Status and summary.

  /** The status buckets, in the order they are tested. */
  datatype Bucket = ErrorBucket | NoDatBucket | MissingBucket | RegexBucket | ValidBucket

  /** The first flag that is set, in the order error, no label file, missing classes, pattern errors, valid. */
  function BucketOf(c: FileCheck): (r: Option<Bucket>)
    ensures c.error != "" <==> r == Some(ErrorBucket)
    ensures r == Some(NoDatBucket) <==> c.error == "" && c.noDat
    ensures r == Some(MissingBucket) <==> c.error == "" && !c.noDat && c.missingClasses
    ensures r == Some(RegexBucket) <==> c.error == "" && !c.noDat && !c.missingClasses && c.regexErrors
    ensures r == Some(ValidBucket) <==> c.error == "" && !c.noDat && !c.missingClasses && !c.regexErrors && c.valid
  {
    if c.error != "" then Some(ErrorBucket)
    else if c.noDat then Some(NoDatBucket)
    else if c.missingClasses then Some(MissingBucket)
    else if c.regexErrors then Some(RegexBucket)
    else if c.valid then Some(ValidBucket)
    else None
  }

  /** The style class of an entry, as `get_file_validation_status` spells it. */
  function CssClass(c: FileCheck): string {
    match BucketOf(c)
    case Some(ErrorBucket) => "file-error"
    case Some(NoDatBucket) => "file-no-dat"
    case Some(MissingBucket) => "file-missing-classes"
    case Some(RegexBucket) => "file-invalid-regex"
    case Some(ValidBucket) => "file-valid"
    case None => "file-normal"
  }

  /** `get_file_validation_status`: "file-normal" for an image with no entry. */
  function FileValidationStatus(cache: Cache, path: string): (r: string)
    ensures Lookup(cache, path).None? ==> r == "file-normal"
    ensures Lookup(cache, path).Some? ==> r == CssClass(Lookup(cache, path).value)
    ensures StartsWith(r, "file-")
  {
    match Lookup(cache, path)
    case None => "file-normal"
    case Some(c) => CssClass(c)
  }

  /** Different buckets have different style classes, and only entries in no bucket are "file-normal". */
  lemma CssClassDistinguishes(a: FileCheck, b: FileCheck)
    ensures CssClass(a) == CssClass(b) <==> BucketOf(a) == BucketOf(b)
    ensures CssClass(a) == "file-normal" <==> BucketOf(a).None?
  {
  }

  /** A file with a label file, read and checked without error, is "file-valid" exactly when it is valid. */
  lemma ValidFileStatus(classes: seq<ClassDef>, e: Engine, content: string)
    ensures CssClass(ValidateDatFile(classes, e, content)) == "file-valid"
        <==> ValidateDatFile(classes, e, content).valid
  {
    var c := ValidateDatFile(classes, e, content);
    assert c.error == "" && !c.noDat && (c.valid ==> !c.missingClasses && !c.regexErrors);
    CheckedFileStatus(c);
  }

  lemma CheckedFileStatus(c: FileCheck)
    requires c.error == "" && !c.noDat && (c.valid ==> !c.missingClasses && !c.regexErrors)
    ensures CssClass(c) == "file-valid" <==> c.valid
  {
  }

  datatype Summary = Summary(total: nat, valid: nat, noDat: nat, missingClasses: nat, regexErrors: nat, errors: nat)
  {
    function Bucketed(): nat {
      valid + noDat + missingClasses + regexErrors + errors
    }
  }

  /** How many entries fall in bucket `b`. */
  function CountIn(cache: Cache, b: Bucket): nat {
    if |cache| == 0 then 0
    else CountIn(cache[..|cache| - 1], b) + (if BucketOf(cache[|cache| - 1].1) == Some(b) then 1 else 0)
  }

  /** How many entries fall in no bucket. */
  function Unbucketed(cache: Cache): nat {
    if |cache| == 0 then 0
    else Unbucketed(cache[..|cache| - 1]) + (if BucketOf(cache[|cache| - 1].1).None? then 1 else 0)
  }

  /** One more entry, counted in its bucket. */
  function Tally(s: Summary, c: FileCheck): (r: Summary)
    ensures r.total == s.total && r.Bucketed() + (if BucketOf(c).None? then 1 else 0) == s.Bucketed() + 1
  {
    match BucketOf(c)
    case Some(ErrorBucket) => s.(errors := s.errors + 1)
    case Some(NoDatBucket) => s.(noDat := s.noDat + 1)
    case Some(MissingBucket) => s.(missingClasses := s.missingClasses + 1)
    case Some(RegexBucket) => s.(regexErrors := s.regexErrors + 1)
    case Some(ValidBucket) => s.(valid := s.valid + 1)
    case None => s
  }

  function TallyAll(cache: Cache, total: nat): (r: Summary)
    ensures r.total == total
    ensures r.Bucketed() + Unbucketed(cache) == |cache|
    ensures r.errors == CountIn(cache, ErrorBucket) && r.noDat == CountIn(cache, NoDatBucket)
    ensures r.missingClasses == CountIn(cache, MissingBucket) && r.regexErrors == CountIn(cache, RegexBucket)
    ensures r.valid == CountIn(cache, ValidBucket)
  {
    if |cache| == 0 then Summary(total, 0, 0, 0, 0, 0)
    else Tally(TallyAll(cache[..|cache| - 1], total), cache[|cache| - 1].1)
  }

  /**
   * `get_validation_summary`: every entry is counted in the bucket its status names, at
   * most once, so the buckets never add up to more than the total.
   */
  function ValidationSummary(cache: Cache): (r: Summary)
    ensures r.total == |cache| && r.Bucketed() <= r.total
    ensures r.errors == CountIn(cache, ErrorBucket) && r.noDat == CountIn(cache, NoDatBucket)
    ensures r.missingClasses == CountIn(cache, MissingBucket) && r.regexErrors == CountIn(cache, RegexBucket)
    ensures r.valid == CountIn(cache, ValidBucket)
    ensures r.Bucketed() + Unbucketed(cache) == r.total
  {
    TallyAll(cache, |cache|)
  }
}

=== FILE: view_transform.dfy ===
/**
 * The view transform both canvas implementations share: fitting the image into the
 * canvas, the zoom clamps, the image/canvas coordinate maps, the resize-handle test in
 * canvas space and the hit test for boxes.
 */
module ViewTransform {
  import opened Common
  import opened Boxes

  /**
   * `scale_factor`, `base_scale_factor`, `zoom_level`, `offset_x`, `offset_y`:
   * an image point `p` is drawn at `p * scale + offset`.
   */
  datatype View = View(scale: real, baseScale: real, zoom: real, offsetX: real, offsetY: real)

  /** The values both constructors start from. */
  const Initial: View := View(1.0, 1.0, 1.0, 0.0, 0.0)

  const MinZoom: real := 0.1
  const MaxZoom: real := 5.0

  /** The zoom step both implementations default to. */
  const ZoomStep: real := 1.25

  /** Handle zones reach 8 canvas pixels around a box's edges. */
  const HandleSize: real := 8.0

  /** Scale, base scale and zoom all positive: every division by the scale is defined. */
  predicate Positive(v: View) {
    v.scale > 0.0 && v.baseScale > 0.0 && v.zoom > 0.0
  }

  lemma MulMono(a: real, b: real, c: real)
    requires a <= b && c >= 0.0
    ensures a * c <= b * c
  {
  }

  lemma DivFacts(a: real, b: real)
    requires b > 0.0
    ensures a / b * b == a
    ensures a > 0.0 ==> a / b > 0.0
    ensures a > 0.0 && b >= 1.0 ==> a / b <= a
  {
    if a > 0.0 && b >= 1.0 {
      MulMono(1.0, b, a / b);
    }
  }

  /** A positive factor no larger than `c / w` scales `w` to at most `c`, reaching `c` when equal. */
  lemma ScaleWithin(r: real, c: real, w: real)
    requires c > 0.0 && w > 0.0 && 0.0 < r <= c / w
    ensures r * w <= c
    ensures r == c / w ==> r * w == c
  {
    DivFacts(c, w);
    MulMono(r, c / w, w);
  }

  /** `min(canvas_w / img_w, canvas_h / img_h, 1.0)`: fit, but never scale up. */
  function FitScale(cw: int, ch: int, iw: int, ih: int): (r: real)
    requires cw > 0 && ch > 0 && iw > 0 && ih > 0
    ensures 0.0 < r <= 1.0
    ensures r * iw as real <= cw as real && r * ih as real <= ch as real
    ensures r == 1.0 || r * iw as real == cw as real || r * ih as real == ch as real
  {
    var sx := cw as real / iw as real;
    var sy := ch as real / ih as real;
    assert sx > 0.0 && sy > 0.0;
    var r := MinR(MinR(sx, sy), 1.0);
    ScaleWithin(r, cw as real, iw as real);
    ScaleWithin(r, ch as real, ih as real);
    r
  }

  /** Left margin equals right margin and top margin equals bottom margin. */
  predicate Centred(v: View, cw: int, ch: int, iw: int, ih: int) {
    && v.offsetX == cw as real - (v.offsetX + iw as real * v.scale)
    && v.offsetY == ch as real - (v.offsetY + ih as real * v.scale)
  }

  /** Zooming a fitting scale by a positive factor keeps it positive, and by at most 1 keeps it fitting. */
  lemma ZoomedScale(base: real, zoom: real, w: real, c: real)
    requires base > 0.0 && w > 0.0 && base * w <= c
    ensures zoom > 0.0 ==> base * zoom > 0.0
    ensures 0.0 < zoom <= 1.0 ==> w * (base * zoom) <= c
  {
    if 0.0 < zoom <= 1.0 {
      MulMono(base * zoom, base, w);
      assert w * (base * zoom) == (base * zoom) * w;
    }
  }

  /** The fitted scale times a zoom: positive for a positive zoom, still fitting for a zoom of at most 1. */
  lemma ZoomedFit(cw: int, ch: int, iw: int, ih: int, zoom: real)
    requires cw > 0 && ch > 0 && iw > 0 && ih > 0
    ensures zoom > 0.0 ==> FitScale(cw, ch, iw, ih) * zoom > 0.0
    ensures 0.0 < zoom <= 1.0 ==> iw as real * (FitScale(cw, ch, iw, ih) * zoom) <= cw as real
    ensures 0.0 < zoom <= 1.0 ==> ih as real * (FitScale(cw, ch, iw, ih) * zoom) <= ch as real
  {
    var base := FitScale(cw, ch, iw, ih);
    ZoomedScale(base, zoom, iw as real, cw as real);
    ZoomedScale(base, zoom, ih as real, ch as real);
  }

  /**
   * The fitting step of `fit_image_to_canvas` and `fit_image`, once their guards have
   * passed: base scale from the sizes, scale = base scale times zoom, image centred.
   */
  function Fit(v: View, cw: int, ch: int, iw: int, ih: int): (r: View)
    requires cw > 0 && ch > 0 && iw > 0 && ih > 0
    ensures r.zoom == v.zoom && r.baseScale == FitScale(cw, ch, iw, ih)
    ensures r.scale == r.baseScale * v.zoom
    ensures Centred(r, cw, ch, iw, ih)
    ensures v.zoom > 0.0 ==> Positive(r)
    ensures 0.0 < v.zoom <= 1.0 ==> iw as real * r.scale <= cw as real && ih as real * r.scale <= ch as real
  {
    var base := FitScale(cw, ch, iw, ih);
    var scale := base * v.zoom;
    ZoomedFit(cw, ch, iw, ih, v.zoom);
    Centre(View(scale, base, v.zoom, 0.0, 0.0), cw, ch, iw, ih)
  }

  /** The view with its offsets chosen to centre the image and everything else kept. */
  function Centre(v: View, cw: int, ch: int, iw: int, ih: int): (r: View)
    ensures r.scale == v.scale && r.baseScale == v.baseScale && r.zoom == v.zoom
    ensures Centred(r, cw, ch, iw, ih)
  {
    v.(offsetX := CentredOffset(cw as real, iw as real * v.scale),
       offsetY := CentredOffset(ch as real, ih as real * v.scale))
  }

  /** The offset that leaves equal margins on both sides of an extent drawn in a canvas side. */
  function CentredOffset(side: real, extent: real): (r: real)
    ensures r == side - (r + extent)
  {
    (side - extent) / 2.0
  }

  /** `min(zoom_level * factor, 5.0)`. */
  function ZoomedIn(z: real, factor: real): (r: real)
    ensures r <= MaxZoom
    ensures 0.0 < z <= MaxZoom && factor >= 1.0 ==> z <= r
    ensures z * factor <= MaxZoom ==> r == z * factor
  {
    assert z > 0.0 && factor >= 1.0 ==> z * factor >= z;
    MinR(z * factor, MaxZoom)
  }

  /** `max(zoom_level / factor, 0.1)`; dividing by a zero factor raises in the source. */
  function ZoomedOut(z: real, factor: real): (r: real)
    requires factor != 0.0
    ensures r >= MinZoom
    ensures MinZoom <= z && factor >= 1.0 ==> r <= z
    ensures z / factor >= MinZoom ==> r == z / factor
  {
    assert z > 0.0 && factor >= 1.0 ==> z / factor <= z by {
      if z > 0.0 && factor >= 1.0 {
        DivFacts(z, factor);
      }
    }
    MaxR(z / factor, MinZoom)
  }

  /** Starting inside [0.1, 5.0], any sequence of default zoom steps stays inside. */
  lemma ZoomStaysInRange(z: real, factor: real)
    requires MinZoom <= z <= MaxZoom && factor >= 1.0
    ensures MinZoom <= ZoomedIn(z, factor) <= MaxZoom
    ensures MinZoom <= ZoomedOut(z, factor) <= MaxZoom
  {
  }

  /** Where an image x coordinate lands on the canvas, before truncation. */
  function CanvasX(v: View, x: real): real {
    x * v.scale + v.offsetX
  }

  function CanvasY(v: View, y: real): real {
    y * v.scale + v.offsetY
  }

  /** Which image x coordinate a canvas x coordinate shows, before truncation. */
  function ImageX(v: View, cx: real): real
    requires v.scale != 0.0
  {
    (cx - v.offsetX) / v.scale
  }

  function ImageY(v: View, cy: real): real
    requires v.scale != 0.0
  {
    (cy - v.offsetY) / v.scale
  }

  /** Before truncation the two maps are exact inverses of each other. */
  lemma ExactInverse(v: View, x: real, cx: real)
    requires v.scale != 0.0
    ensures ImageX(v, CanvasX(v, x)) == x && CanvasX(v, ImageX(v, cx)) == cx
    ensures ImageY(v, CanvasY(v, x)) == x && CanvasY(v, ImageY(v, cx)) == cx
  {
    assert (x * v.scale) / v.scale == x;
    assert (cx - v.offsetX) / v.scale * v.scale == cx - v.offsetX;
    assert (cx - v.offsetY) / v.scale * v.scale == cx - v.offsetY;
  }

  /** `int(q)` of a real lies within one unit of `q`, on the side of zero. */
  predicate TruncOf(r: int, q: real) {
    && Abs(r as real - q) < 1.0
    && Abs(r as real) <= Abs(q)
  }

  lemma TruncIsTruncOf(q: real)
    ensures TruncOf(Trunc(q), q)
  {
  }

  /** `image_to_canvas`: both coordinates mapped, then truncated by `int()`. */
  function ImageToCanvas(v: View, x: real, y: real): (r: (int, int))
    ensures TruncOf(r.0, CanvasX(v, x)) && TruncOf(r.1, CanvasY(v, y))
  {
    TruncIsTruncOf(CanvasX(v, x));
    TruncIsTruncOf(CanvasY(v, y));
    (Trunc(CanvasX(v, x)), Trunc(CanvasY(v, y)))
  }

  /** `canvas_to_image`: both coordinates mapped back, then truncated by `int()`. */
  function CanvasToImage(v: View, cx: real, cy: real): (r: (int, int))
    requires v.scale != 0.0
    ensures TruncOf(r.0, ImageX(v, cx)) && TruncOf(r.1, ImageY(v, cy))
  {
    TruncIsTruncOf(ImageX(v, cx));
    TruncIsTruncOf(ImageY(v, cy));
    (Trunc(ImageX(v, cx)), Trunc(ImageY(v, cy)))
  }

  /**
   * At 100% scale with whole-pixel offsets truncation loses nothing: an integer image
   * point comes back unchanged from the canvas.
   */
  lemma UnitScaleRoundTrip(v: View, x: int, y: int)
    requires v.scale == 1.0 && IsIntegral(v.offsetX) && IsIntegral(v.offsetY)
    ensures var c := ImageToCanvas(v, x as real, y as real);
            CanvasToImage(v, c.0 as real, c.1 as real) == (x, y)
  {
    var ox := v.offsetX.Floor;
    var oy := v.offsetY.Floor;
    TruncIntegral(x + ox);
    TruncIntegral(y + oy);
    assert CanvasX(v, x as real) == (x + ox) as real;
    assert CanvasY(v, y as real) == (y + oy) as real;
    TruncIntegral(x);
    TruncIntegral(y);
  }

  /**
   * The temporary canvas-space box the handle test runs on: its corner is the box's
   * truncated canvas position and its size is scaled but not truncated.
   */
  function CanvasBox(v: View, b: Box): (r: Box)
    ensures TruncOf(r.x.Floor, CanvasX(v, b.x)) && r.x == r.x.Floor as real
    ensures TruncOf(r.y.Floor, CanvasY(v, b.y)) && r.y == r.y.Floor as real
    ensures r.width == b.width * v.scale && r.height == b.height * v.scale
  {
    var c := ImageToCanvas(v, b.x, b.y);
    NewBox(c.0 as real, c.1 as real, b.width * v.scale, b.height * v.scale, 0, "", None)
  }

  /** `get_resize_handle(x, y, 8)` on the box as drawn. */
  function HandleAt(v: View, b: Box, px: real, py: real): (r: Option<Handle>)
    ensures r.Some? ==> OnHandle(CanvasBox(v, b), r.value, px, py, HandleSize)
    ensures r.Some? ==> forall h :: HandleRank(h) < HandleRank(r.value) ==> !OnHandle(CanvasBox(v, b), h, px, py, HandleSize)
    ensures r.None? <==> forall h :: !OnHandle(CanvasBox(v, b), h, px, py, HandleSize)
  {
    ResizeHandle(CanvasBox(v, b), px, py, HandleSize)
  }

  /**
   * A press within 7 pixels of where the box's top-left corner is drawn always grabs the
   * `nw` handle, whatever the truncation did to the corner.
   */
  lemma PressNearCornerGrabsNW(v: View, b: Box, px: real, py: real)
    requires Abs(px - CanvasX(v, b.x)) <= 7.0 && Abs(py - CanvasY(v, b.y)) <= 7.0
    ensures HandleAt(v, b, px, py) == Some(NW)
  {
    var c := CanvasBox(v, b);
    assert Near(px, c.x, HandleSize) && Near(py, c.y, HandleSize);
    TopLeftWins(c, px, py, HandleSize);
  }

  /** The loop `for box in boxes: if box.contains_point(img_x, img_y)`: the first hit. */
  function FirstBoxAt(boxes: seq<Box>, ix: int, iy: int): (r: Option<nat>)
    ensures r.Some? ==> r.value < |boxes| && ContainsPoint(boxes[r.value], ix as real, iy as real)
    ensures r.Some? ==> forall j :: 0 <= j < r.value ==> !ContainsPoint(boxes[j], ix as real, iy as real)
    ensures r.None? <==> forall j :: 0 <= j < |boxes| ==> !ContainsPoint(boxes[j], ix as real, iy as real)
  {
    if |boxes| == 0 then None
    else if ContainsPoint(boxes[0], ix as real, iy as real) then Some(0)
    else
      var rest := FirstBoxAt(boxes[1..], ix, iy);
      assert forall j :: 1 <= j < |boxes| ==> boxes[j] == boxes[1..][j - 1];
      if rest.Some? then Some(rest.value + 1) else None
  }

  /** An axis-aligned integer rectangle `(x, y, width, height)`. */
  datatype Rect = Rect(x: int, y: int, width: int, height: int)

  /** The rectangle a drag from one image point to another spans: min corner, absolute extents. */
  function Spanned(sx: int, sy: int, ex: int, ey: int): (r: Rect)
    ensures r.x == MinI(sx, ex) && r.x + r.width == MaxI(sx, ex)
    ensures r.y == MinI(sy, ey) && r.y + r.height == MaxI(sy, ey)
    ensures r.width >= 0 && r.height >= 0
  {
    var w := if ex >= sx then ex - sx else sx - ex;
    var h := if ey >= sy then ey - sy else sy - ey;
    Rect(MinI(sx, ex), MinI(sy, ey), w, h)
  }

  /** The box drawn from the rectangle contains both ends of the drag. */
  lemma SpannedContainsEnds(sx: int, sy: int, ex: int, ey: int)
    ensures var r := Spanned(sx, sy, ex, ey);
            var b := NewBox(r.x as real, r.y as real, r.width as real, r.height as real, 0, "", None);
            ContainsPoint(b, sx as real, sy as real) && ContainsPoint(b, ex as real, ey as real)
  {
  }
}
